=== FILE: README.md ===
# A verified model of the RayTracer core

This project models, in Dafny, the core of a small C++ Whitted-style ray
tracer: colours (`rgb`), rays with their cached direction signs, the
stratified sampler, the film that buckets samples per pixel and averages
them, the pinhole and thin-lens cameras, point, directional and area lights
(with the jittered grid shared by the lens and the area light), materials
and textures, the shapes (sphere, ellipsoid, triangle and its wireframe
variant, transformed shape) with their slab box test, the bounding volume
hierarchy of primitives with meshes and instancing, the recursive tracer
(`trace`, `shadeIntersection`, shadow rays, mirror and refraction terms),
and the two text front ends: the scene-file reader and the OBJ mesh reader.

Numbers are reals. `sqrt`, the trigonometry used for sphere texture
coordinates, `pow` for the specular exponent and the box test of the
hierarchy are parameters constrained by what the model needs of them
(`IsSqrt`, `Trig`, a box test faithful to the slab test). Random numbers
are inputs. Pointers to primitives are identities (`PrimId`), and a mesh's
memory of the last triangle it intersected is a map threaded through
every search, because a later `getReflectance` reads it. Where the source
has undefined behaviour (an out-of-range index, the mean of an empty
bucket, a hierarchy built from no primitives) the model answers `None`.

Some behaviours of the source that the model keeps and states:

- The shadow ray towards a point light is built from the hit point to the
  light and then normalised, with `tMax` still 1, so only occluders within
  distance 1 of the hit point cast a shadow (`Lights.PointShadowRayReach`).
  An area light's shadow ray (Lights.cpp:117-119) has the same upper bound
  1 over a unit direction towards a jittered point of the light, so it too
  sees only occluders within that reach (`Lights.ShadowRay`).
- The diffuse and specular terms read the reflectance afresh after the
  shadow ray was traced; for a textured mesh the shadow ray may have moved
  the mesh's memory of its last triangle, so the texel can come from
  another triangle. `Tracer.LightStepPlain` shows that for a plain
  primitive the fresh read agrees with the first.
- In a material block, `Texture: rough` with no second word is accepted as
  a texture named `rough`, because a failed extraction leaves the previous
  word in place (`SceneFiles.TextureNamedLikeFlag`).
- A `lens` line read before the `sample` line is ignored, and the `depth`
  read as an `int` is stored modulo 2^32 in an unsigned field.
- The tracer's `depth < 0` test never fires on an unsigned depth; the
  recursion ends because secondary rays are traced only while the depth
  is positive.

## Model

| member | source | states |
|---|---|---|
| Colors.Default | rgb.h:36-38 | the default colour is black, all three components zero |
| Colors.MulUnits | rgb.h:55-57 | the element-wise product has white as identity and black as absorbing element |
| Colors.MulAssociative | rgb.h:55-57 | the element-wise product is associative, so filters can be chained in any grouping |
| Colors.ComponentwiseOperators | rgb.h:55-66 | product, sum and difference act on each channel separately; product commutes and difference undoes sum |
| Colors.ScalarLaws | rgb.h:68-76 | scaling on either side agrees; division by a non-zero d is scaling by 1/d and is undone by scaling by d |
| Colors.EqualityIsValueEquality | rgb.h:78-83 | `==` holds exactly when all three channels agree, and `!=` is its negation |
| Colors.Normalize | rgb.cpp:5-17 | the result lies in the unit cube |
| Colors.NormalizeKeepsUnitCube | rgb.cpp:7-13 | normalising leaves a colour unchanged exactly when it already lies in the unit cube |
| Colors.NormalizeIdempotent | rgb.cpp:5-17 | normalising twice is normalising once |
| Colors.NormalizeClamps | rgb.cpp:7-13 | a channel above 1 becomes 1, one below 0 becomes 0, one inside [0,1] is kept |
| Rays.SignBit | Ray.cpp:11-14 | the sign flag is 0 or 1, and 1 exactly when the reciprocal of the direction component is negative; a zero component gives 0 |
| Rays.FromPoints | Ray.cpp:5-17 | the ray starts at `start`, reaches `end` at parameter 1, keeps the bounds, sample and last hit, and its sign flags match its direction |
| Rays.FromDirection | Ray.cpp:19-32 | the ray keeps origin, direction, bounds, sample and last hit, and its sign flags match its direction |
| Rays.GetSign | Ray.h:37 | for a ray whose flags match its direction, the flag of axis mod 3 is 1 exactly when that direction component is negative |
| Rays.SetBounds | Ray.h:42-45 | only the two bounds change, and the flags still match exactly when they matched before |
| Rays.IntersectionPoint | Ray.h:47 | the point at t is the origin moved by t times the direction; t = 0 gives the origin |
| Rays.Assign | Ray.h:56-68 | assignment copies every field and recomputes the sign flags, so a consistent ray is copied unchanged |
| Rays.TransformRay | Ray.h:70-81 | the origin is transformed as a point, the direction as a vector, the flags match the new direction and bounds, sample and last hit are kept |
| Rays.WithinBoundsInclusive | Ray.h:41 | t is within bounds exactly when tMin <= t <= tMax, both ends included |
| Rays.TransformRayPoint | Ray.h:70-81 | the point at t on the transformed ray is the transformed point at t on the original ray |
| Sampling.Create | Sampler.cpp:8-18 | a fresh sampler starts at pixel (0,0), sub-pixel cell (0,0), and has samples exactly when the screen is non-empty |
| Sampling.NextSample | Sampler.cpp:31-43 | a sample exists exactly when pixels are left (otherwise the exception); it carries the old (p,q) and lies at i + (p + eps1)/n, j + (q + eps2)/n with eps fixed at 1/2 when n = 1 |
| Sampling.NormalizeSample | Sampler.cpp:74-83 | the position divided by the screen size, so multiplying back by width and height gives the pixel position; p and q are kept |
| Sampling.RankBelowTotal | Sampler.cpp:40-68 | every state that still has samples has emitted fewer than width*height*n*n of them |
| Sampling.AdvanceIncrementsRank | Sampler.cpp:45-68 | each of the five counter updates keeps the sampler in a reachable state and moves it exactly one sample further in q, p, i, j order |
| Sampling.RankDigits | Sampler.cpp:45-68 | the counters are the mixed-radix digits of the number of samples emitted so far: q, then p, then i, then j |
| Sampling.JitterInsidePixel | Sampler.cpp:42-43 | with eps in [0,1), a sample coordinate lies in [i, i+1), so its floor is the pixel index |
| Sampling.AllSamples | Scene.cpp:33-42 | the render loop gets exactly width*height*n*n samples, sample k has q = k mod n, p = k/n mod n and lies in column k/n/n mod width and row k/n/n/width, and the sampler ends exhausted |
| Films.Create | Film.cpp:10-19 | the film has the requested size and every one of its width x height buckets is empty |
| Numbers.ToUnsigned | Film.cpp:37-38 | the `unsigned int` conversion truncates toward zero: it is defined exactly for -1 < x < 2^32, is below 2^32, is the floor of x for x >= 0 and 0 for x in (-1, 0) |
| Numbers.ToUnsignedTruncates | Material.cpp:30-31 | every x in [n, n+1) with n < 2^32 converts to n, every x in (-1, 0) converts to 0, and a whole number below 2^32 converts to itself |
| Films.BucketOf | Film.cpp:37-39 | a sample has a bucket exactly when both truncated coordinates are defined and inside the grid |
| Films.Commit | Film.cpp:35-41 | committing succeeds exactly when the sample has a bucket; that bucket gets the colour appended and every other bucket is unchanged |
| Films.CommitToOwnPixel | Film.cpp:35-41 | a sample whose coordinates have floors (i, j) lands in bucket (i, j) |
| Films.SampleStreamOnFilm | Film.cpp:35-41 | every sample of the render loop lies on the film, sample k in bucket (k/n/n mod width, k/n/n/width) |
| Films.CommitAll | Scene.cpp:37-42 | committing a stream keeps the film's shape |
| Films.CommitAllBuckets | Scene.cpp:37-42 | after the render loop each bucket holds exactly the colours of the samples of its pixel, in commit order, after its earlier contents |
| Films.Mean | Film.cpp:54-58 | a mean exists exactly for a non-empty bucket, and the mean times the bucket size is the sum of its colours |
| Films.ToByte | Film.cpp:60-62 | the byte is at most 255 and is the floor of x*255 |
| Films.PixelBytes | Film.cpp:54-62 | a non-empty bucket gives three bytes, each at most 255; an empty one gives none |
| Films.PixelBytesOfMean | Film.cpp:54-62 | a non-empty bucket whose colours sum to its size times m is written as the bytes of m clamped to [0, 1], each byte the floor of 255 times its clamped channel |
| Films.Image | Film.cpp:52-64 | the image is width x height, pixel (i, j) carries the bytes of bucket (i, j), and has bytes exactly when that bucket is non-empty |
| Films.SumConstant | Film.cpp:56-57 | summing k copies of a colour gives the colour scaled by k |
| Films.UniformBucket | Film.cpp:54-62 | a bucket of k >= 1 copies of c averages to c, and for c in the unit cube the bytes are those of c itself |
| Cameras.PlanePointIsBilinear | Camera.cpp:45-47 | the interpolated ray end is the bilinear blend of the four corners with weights (1-u)(1-v), u(1-v), (1-u)v and uv |
| Cameras.PlaneCorners | Camera.cpp:45-47 | sample (0,0) maps to the lower-left corner, (1,0) to lower-right, (0,1) to upper-left and (1,1) to upper-right |
| Cameras.ViewingRay | Camera.cpp:37-50 | a pinhole ray starts at the viewer; a lens ray starts at the grid point of the sample's (p,q) and exists exactly when that cell exists; either way it reaches the plane point at t = 1, spans [1, DBL_MAX] and has no last hit |
| Cameras.MakeLens | Camera.cpp:57-100 | a positive rate gives a rate x rate grid holding exactly the generated jittered points, as a multiset; a rate <= 0 gives an empty grid |
| Cameras.LensRayForEverySample | Camera.cpp:102-114 | with a grid of the sampler's rate, every sample (p,q < n) gets a viewing ray from one of the lens points |
| Jitter.GeneratePoints | Lights.cpp:72-80 | the generation loops produce the points of every cell in row order, cell (i, j) at index i*n + j with two generator values each |
| Jitter.CellPointInCell | Lights.cpp:76-77 | with generator values in [0,1), the point of cell (i, j) is position + s edge1 + t edge2 with s in [i/n, (i+1)/n) and t in [j/n, (j+1)/n) |
| Jitter.GeneratedInCells | Lights.cpp:74-80 | generated point k lies in cell (k/n, k mod n) of the parallelogram |
| Jitter.Shuffle | Lights.cpp:83-89 | the shuffle with picks IRandom(0, i) in [0, i] keeps the length and is a permutation of the points |
| Jitter.Swap | Lights.cpp:86-88 | the swap exchanges entries i and j, leaves every other entry alone and keeps the multiset |
| Jitter.FillGrid | Lights.cpp:92-98 | the grid is n x n and reading its rows in order gives the shuffled points back |
| Jitter.FlattenIndex | Lights.cpp:92-98 | grid entry (a, b) is shuffled point a*n + b |
| Jitter.JitterGrid | Lights.cpp:58-100 | the constructor's grid is n x n and holds exactly the generated points, each once |
| Jitter.GridEntryGenerated | Camera.cpp:110-112 | every grid entry looked up by a sample is one of the generated points |
| Lights.MakeDirectional | Lights.cpp:38-42 | the constructor keeps the colour and normalises the direction to unit length when it is non-zero |
| Lights.MakeArea | Lights.cpp:58-100 | the area light keeps position, edges and colour; a positive rate gives a rate x rate grid holding exactly the generated points, a rate <= 0 an empty grid |
| Lights.Incidence | Lights.cpp:24-30 | point light: the normalised vector to the light; directional: the negated direction; area: the normalised vector to the grid point of the sample's (p,q), existing exactly when that cell exists (Lights.cpp:45-49, 108-115) |
| Lights.ShadowRay | Lights.cpp:32-36 | the shadow ray starts at the point along the incidence over [bias, 1] with no last hit for a point light, [bias, DBL_MAX] for a directional light and [bias, 1] for an area light, the latter two inheriting the view ray's last hit (Lights.cpp:51-55, 117-121) |
| Lights.PointShadowRayReach | Lights.cpp:32-36 | a point light's shadow ray is unit length and reaches the light at parameter equal to its distance, so the light is within the ray's bounds only when it is at distance between bias and 1 |
| Lights.DirectionalIncidenceConstant | Lights.cpp:45-49 | a directional light's incidence is the same at every point and for every sample |
| Lights.AreaTargetsEverySample | Lights.cpp:108-115 | an area light whose grid has the sampler's rate has a target for every sample the sampler emits |
| Materials.TexelIndex | Material.cpp:30-31 | the texel index exists exactly for a non-empty image and a scaled coordinate in (-1, 2^32); it is then below the size, the floor of the scaled coordinate modulo the size when that is non-negative, and texel 0 for a scaled coordinate in (-1, 0) |
| Materials.TexelIndexInUnitRange | Material.cpp:30-31 | a coordinate in [0,1) picks the texel its scaled value falls in, and the coordinate 1 wraps round to texel 0 |
| Materials.GetColor | Material.cpp:28-36 | the texel colour, bytes divided by 255, lies in the unit cube, and exists exactly when both indices exist, so coordinates slightly below 0 still read the first row or column |
| Materials.Multiply | Material.cpp:88-99 | ambient and diffuse are tinted channel by channel by the texel colour, specular and mirror too when rough and left alone otherwise, and nothing else changes |
| Materials.MultiplyLaws | Material.cpp:88-99 | tinting by white changes nothing, tinting by black blackens ambient and diffuse (and specular and mirror when rough), and tinting twice is tinting by the product |
| Materials.GetReflectance | Material.cpp:61-86 | a plain material returns its reflectance; a textured one returns it tinted by the texel at the shape's texture coordinate, defined exactly when that texel is |
| Materials.TextureNeverBrightens | Material.cpp:91 | tinting by a colour in the unit cube never raises a non-negative ambient coefficient |
| Boxes.DefaultBox | Shapes.cpp:25-30 | the default box has both corners at the origin |
| Boxes.Combine | Shapes.cpp:120-133 | the combined box encloses both boxes and each of its bounds is the bound of one of them |
| Boxes.CombineLaws | Shapes.cpp:120-133 | combining is commutative and associative, is the least box enclosing both, and keeps well-formedness |
| Boxes.CombineContainsPoints | Shapes.cpp:120-133 | a point of either box lies in the combined box |
| Boxes.Corners | Shapes.cpp:72-80 | a box has eight corners, all inside a well-formed box |
| Boxes.BoundsOf | Shapes.cpp:82-92 | the min/max loop from (DBL_MAX, -DBL_MAX) gives a box containing every point |
| Boxes.BoundsOfTight | Shapes.cpp:82-92 | for finite points each bound of that box is attained by one of the points |
| Boxes.TransformBox | Shapes.cpp:69-94 | the transformed box contains the image of every corner of the original box |
| Boxes.TransformBoxContains | Shapes.cpp:69-94 | the transformed box holds the image of every point of the original box, not only of its corners |
| Boxes.MinCoordinate | Shapes.cpp:108-112 | the lower bound on an axis is at most that coordinate of every point of the box, and is attained in a non-empty box |
| Boxes.MaxCoordinate | Shapes.cpp:114-118 | the upper bound on an axis is at least that coordinate of every point of the box, and is attained in a non-empty box |
| Boxes.SlabTest | Shapes.cpp:39-67 | the test passes exactly when no axis is entered after another is left, the latest entry is below the ray's upper bound and the earliest exit above its lower bound |
| Boxes.SlabTestMatchesReference | Shapes.cpp:39-67 | for a well-formed box and a ray with no zero direction component, the incremental x, y, z interval test answers exactly as the textbook test: latest entry <= earliest exit, overlapping (tMin, tMax) |
| Boxes.SlabInterval | Shapes.cpp:44-48 | on one axis, t lies between the entry and exit parameters exactly when the ray's point at t lies between the two bounds |
| Boxes.SlabAxis | Shapes.cpp:44-48 | with the sign flags choosing near and far bound, the slab interval of an axis is exactly the set of t whose point lies in that slab |
| Boxes.SlabTestComplete | Shapes.cpp:39-67 | a ray that passes through the box strictly inside its interval passes the test (no false negatives) |
| Boxes.SlabTestSound | Shapes.cpp:39-67 | a ray that passes the test has a point in the box within its interval (no false positives) |
| Vectors.InvertsUndo | Shapes.cpp:225-228 | for a transform whose two matrices are each other's inverse (as `transform.inverse()` makes them), each matrix undoes the other on points and on directions |
| Shapes.Ellipsoid | Shapes.cpp:268-269 | an ellipsoid is the unit sphere at the origin seen through the given transform |
| Shapes.SphereQuadratic | Shapes.cpp:211-215 | the leading coefficient d.d is non-negative and zero exactly for a zero direction |
| Shapes.SphereRootsSolve | Shapes.cpp:152-161 | for a non-zero direction the two roots exist exactly when the discriminant is non-negative, and they are (-B - s)/A and (-B + s)/A for its square root s |
| Shapes.OnSphereQuadratic | Shapes.cpp:211-215 | the ray's point at t lies on the sphere exactly when t is a root of the quadratic whose discriminant the source computes |
| Shapes.SphereRoots | Shapes.cpp:150-161 | roots are produced only when the discriminant is non-negative |
| Shapes.SphereIntersect | Shapes.cpp:145-175 | a sphere hit lies within the ray's bounds, at the ray's point for its parameter |
| Shapes.TriangleSolution | Shapes.cpp:284-317 | a triangle accepts only the solution of its linear system |
| Shapes.SphereHitAtRoot | Shapes.cpp:165-169 | a sphere hit is at one of the two roots |
| Shapes.SphereHitOnSurface | Shapes.cpp:145-175 | a reported sphere hit lies on the sphere |
| Shapes.SphereIntersectExact | Shapes.cpp:145-175 | the sphere test is exact: a reported hit lies on the sphere, and every parameter within bounds where the ray meets the sphere is at or after the reported one |
| Shapes.SphereRootsOrdered | Shapes.cpp:160-161 | with a true square root, tNeg <= tPos, so the first root tried is the nearer one |
| Shapes.SphereNormalOrientation | Shapes.cpp:194-208 | the normal is the unit outward normal, reversed exactly when the ray's origin is strictly closer to the center than the radius |
| Shapes.SolveTriangle | Shapes.cpp:289-304 | no solution exactly when the determinant is below 0.000001 in magnitude; otherwise (beta, gamma, t) solves beta(a-b) + gamma(a-c) + t d = a - o |
| Shapes.SolveTriangleUnique | Shapes.cpp:294-304 | any (beta, gamma, t) that solves the system with a large enough determinant is the one returned |
| Shapes.TriangleSolutionExact | Shapes.cpp:284-317 | a triangle accepts s exactly when the system is solvable with solution s, t is within bounds, the point is inside the triangle, and for a wireframe near an edge (Shapes.cpp:529-531) |
| Shapes.WireframeHitsSubset | Shapes.cpp:495-538 | every wireframe hit is a hit of the solid triangle, at the same solution, near an edge |
| Shapes.TrianglePoint | Shapes.cpp:312-313 | the point at the solution's t is the barycentric blend (1-beta-gamma) a + beta b + gamma c |
| Shapes.FlatNormal | Shapes.cpp:356-366 | the flat normal is the normalised (b-a) x (b-c) or its negation, facing against the ray |
| Shapes.BaryFinderRecovers | Shapes.cpp:280-281 | a matrix that maps each corner to its unit vector recovers the coefficients of any blend of the corners |
| Shapes.TransposedAdjoint | Shapes.cpp:255-261 | the transposed matrix is the adjoint: (M^T n).x = n.(M x) |
| Shapes.TransformNormalPerpendicular | Shapes.cpp:255-261 | a world direction that the inverse maps onto the local surface stays perpendicular to the transformed normal |
| Shapes.Intersect | Shapes.cpp:230-239 | any reported hit is within the ray's bounds at the ray's point for its t |
| Shapes.TransformedHit | Shapes.cpp:230-239 | a transformed shape is hit exactly when the inner shape is hit by the ray in local space, at the same t, with the world point mapping back to the local point and the normal transformed |
| Shapes.TriangleHit | Shapes.cpp:391-429 | a triangle or mesh triangle is hit exactly when its solve accepts, at that t, at the barycentric blend of its corners, a flat triangle's normal facing against the ray |
| Shapes.IntersectNarrowed | Shapes.cpp:165-169 | lowering the upper bound to anywhere at or past a hit still finds a hit, no farther away, for every kind of shape |
| Shapes.BoundingBox | Shapes.cpp:177-181 | a triangle's box holds its three corners (Shapes.cpp:319-347, 442-475); a sphere's box is well formed exactly for a non-negative radius; a transformed shape's box is the inner box mapped by the forward matrix (Shapes.cpp:242-247) |
| Shapes.ConvexInBox | Shapes.cpp:319-347 | a box holding the three corners holds every convex blend of them |
| Shapes.HitInBoundingBox | Shapes.cpp:177-181 | every hit point of a shape lies in its bounding box: spheres of non-negative radius, triangles, and transformed shapes (ellipsoids among them, Shapes.cpp:230-247) whose inner spheres have non-negative radius and whose matrices invert each other |
| Shapes.AzimuthArgsTranslationInvariant | Shapes.cpp:186 | the corrected azimuth arguments do not change when sphere and point move together |
| Shapes.AzimuthArgsAsWrittenShifts | Shapes.cpp:186 | the arguments as written change when the unit sphere is moved up by 5: (-5, 1) instead of (0, 1) |
| Shapes.SphereUVInUnitSquare | Shapes.cpp:183-192 | with acos in [0, pi] and atan2 in (-pi, pi], the sphere's texture coordinate lies in (0, 1] x [0, 1] |
| Shapes.TriangleAttributesAtHit | Shapes.cpp:349-354 | at a triangle hit the texture coordinate is (beta, gamma); on a mesh triangle the texture coordinate and normal blend the corners' values with weights (1-beta-gamma, beta, gamma) (Shapes.cpp:431-439, 477-485) |
| Shapes.SphereUV | Shapes.cpp:183-192 | the texture coordinate undoes the formulas: pi (1 - v) is the polar angle acos((p.y - c.y) / r), and 2 pi (1 - u) is atan2 of the azimuth arguments, or that plus 2 pi when it was negative |
| Shapes.SphereUVTranslationInvariant | Shapes.cpp:183-192 | moving sphere and point together leaves the texture coordinate unchanged |
| Shapes.TextureCoordinate | Shapes.cpp:249-253 | for a sphere (Shapes.cpp:183-192), or a transformed sphere such as an ellipsoid whose local point is passed on to the sphere, with acos and atan2 in their usual ranges the coordinate lies in (0, 1] x [0, 1] |
| Shapes.TransformNormal | Shapes.cpp:255-261 | with a true square root and a non-zero transposed image, the world normal is a unit vector pointing the same way as the inverse's transpose applied to the local normal |
| Primitives.JoinBoxes | Primitives.cpp:80-84 | the node's box encloses the box of each child it has |
| Primitives.LeafEnclosed | Primitives.cpp:66-85 | every plain primitive inside a hierarchy with cached boxes has its shape's box inside the hierarchy's box |
| Primitives.Intersect | Primitives.cpp:187-213 | a hit is within the ray's bounds at the ray's point and stamped with a primitive; a miss leaves the record as it was except that t may be the ray's upper bound; the ray's bounds are restored; memory of meshes outside p is untouched (Primitives.cpp:27-37, 247-255) |
| Primitives.BoxMissTouchesNothing | Primitives.cpp:189-190 | a node whose box the ray misses reports a miss and leaves record, memory and ray exactly as they were |
| Primitives.NodeSteps | Primitives.cpp:192-211 | a node searches the child on the near side of its split axis first from the ray's upper bound, then the other child up to the first search's t; the second search only ever lowers t |
| Primitives.FindsLeafHit | Primitives.cpp:187-213 | if a plain primitive inside the hierarchy is hit at or before tb, strictly inside the ray's bounds and inside its box, the hierarchy reports a hit no farther than tb |
| Primitives.NearestHit | Primitives.cpp:187-213 | the hierarchy reports a hit no farther than the hit of any plain primitive inside it that lies strictly within the ray's bounds and inside that primitive's box |
| Primitives.NearestHitAnyLeaf | Primitives.cpp:187-213 | the box premise holds by itself for every leaf whose spheres have non-negative radii, transformed shapes and ellipsoids included, so the hierarchy is never beaten by any leaf hit strictly inside the ray's bounds |
| Primitives.HitFromLeaf | Primitives.cpp:27-37 | every hit the hierarchy reports is the hit of one of its plain primitives, with the upper bound lowered to some u; without meshes the record is stamped with that primitive |
| Primitives.MeshRemembersHit | Primitives.cpp:247-255 | after a mesh reports a hit, the record is stamped with the mesh and its memory holds the triangle primitive the hit came from |
| Primitives.FindLeaf | Primitives.cpp:259-262 | a found primitive is inside p and carries the identity; none found means no primitive inside p carries it |
| Primitives.FindLeafUnique | Primitives.cpp:259-262 | with unique identities the search returns exactly the primitive carrying the identity |
| Primitives.LeafReflectance | Primitives.cpp:39-43 | a plain primitive with a plain material returns its material's reflectance |
| Primitives.GetReflectance | Primitives.cpp:169-173 | a plain primitive asks its material, a node has none (the exception), a mesh asks the triangle in its memory and has none before its first hit (Primitives.cpp:259-262) |
| Primitives.MeshReflectanceAfterHit | Primitives.cpp:247-262 | right after a mesh reports a hit its reflectance is that of the triangle the hit came from |
| Primitives.Split | Primitives.cpp:102-108 | the first loop puts every object on exactly one side, low exactly when its centre is below the pivot |
| Primitives.MinScan | Primitives.cpp:115-126 | the fallback scan finds the first index of a smallest centre below the running minimum, and none exactly when no centre is below DBL_MAX |
| Primitives.MaxScan | Primitives.cpp:132-143 | the fallback scan finds the first index of a largest centre above the running maximum, and none exactly when no centre is above -DBL_MAX |
| Primitives.RebalanceLaws | Primitives.cpp:113-146 | the fallback keeps every object on exactly one side, low centres at most high centres, and from two objects on leaves both sides non-empty |
| Primitives.Partition | Primitives.cpp:88-147 | partition distributes the objects: a permutation of the input over the two sides, low centres at most high centres, both sides non-empty and shorter than the input from two objects on |
| Primitives.PartitionDefined | Primitives.cpp:88-147 | partition is defined on every non-empty list of boxes with finite centres |
| Primitives.Build | Primitives.cpp:61-86 | a built hierarchy is well shaped, caches its boxes and is a node splitting on the requested axis |
| Primitives.BuildItems | Primitives.cpp:61-86 | the hierarchy holds exactly the objects it was built from, each once |
| Primitives.BuildEncloses | Primitives.cpp:66-85 | the hierarchy's box encloses the box of every object |
| Primitives.BuildSplitsOnAxis | Primitives.cpp:74-79 | a node built from three or more objects has two children, with every centre under the low child at most every centre under the high child on the split axis |
| Primitives.BuildDefined | Primitives.cpp:61-86 | a non-empty list of objects with finite box centres always yields a hierarchy |
| Primitives.MakeMesh | Primitives.cpp:220-231 | a built mesh is valid, keeps its identity and material, and its triangle hierarchy splits first on z |
| Primitives.MakeMeshHoldsTriangles | Primitives.cpp:220-231 | the mesh holds exactly its triangles wrapped with its material, each once under distinct identities |
| Primitives.MakeMeshDefined | Primitives.cpp:220-231 | a mesh with at least one triangle, every one of finite extent, is always built |
| Primitives.Instance | Primitives.cpp:149-160 | the instance is valid, has the structure of the original with every shape placed by the transform and every material replaced, and uses fresh identities from next on (Primitives.cpp:51-54, 181-184, 233-239) |
| Primitives.InstanceNode | Primitives.cpp:152-153 | the high child is instanced before the low one |
| Primitives.InstanceUniqueIds | Primitives.cpp:149-160 | the identities handed out by one instancing are distinct |
| Tracer.Reflect | RayTracer.cpp:67-69 | about a unit normal the mirrored direction has the opposite normal component and the same length |
| Tracer.ReflectTwice | RayTracer.cpp:67-69 | mirroring about a unit normal twice gives the direction back |
| Tracer.SpecularReflect | RayTracer.cpp:114-118 | the reflected light vector of the highlight is the negated mirror image of the incidence |
| Tracer.DiffuseFactor | RayTracer.cpp:107-112 | the diffuse factor is N . L when that is non-negative and 0 otherwise |
| Tracer.Diffuse | RayTracer.cpp:107-112 | the diffuse term is black when the light is behind the surface or kD is black, and non-negative for non-negative kD and light colour |
| Tracer.RefractFrame | RayTracer.cpp:124-135 | the direction is normalised, the normal is the unit surface normal flipped exactly when it faces along the direction, and the cosine between them is never positive |
| Tracer.FlippedNormalOpposes | RayTracer.cpp:132-135 | after the flip the normal used opposes the direction |
| Tracer.Refract | RayTracer.cpp:124-155 | the result is None (total internal reflection) exactly when the squared cosine of the refracted angle is negative |
| Tracer.UnitFrame | RayTracer.cpp:124-135 | for a non-zero direction and a unit normal both frame vectors are unit and the cosine lies in [-1, 0] |
| Tracer.RefractUnit | RayTracer.cpp:138-155 | a refracted direction is a unit vector on the far side of the normal used, with normal component minus the refracted cosine |
| Tracer.RefractSameIndex | RayTracer.cpp:124-155 | between equal indices the ray is not bent: the result is the normalised incoming direction |
| Tracer.RefractIntoDenser | RayTracer.cpp:138-143 | passing into a medium at least as dense never reflects totally |
| Tracer.FindObject | RayTracer.cpp:47-48 | the object a hit record names is found in the hierarchy exactly when some plain primitive or mesh there carries that identity |
| Tracer.ObjectAt | RayTracer.cpp:47-48 | a record's object, when found, is a plain primitive or mesh of the scene with the record's identity |
| Tracer.ShadowOccluded | RayTracer.cpp:98-105 | a shadow ray is blocked exactly when the scene is hit by something other than its last hit primitive; the search's mesh memory is passed on |
| Tracer.ShadowBlockers | RayTracer.cpp:98-105 | without a last hit any hit blocks; a blocking hit names a primitive other than the last hit; a miss blocks nothing and changes nothing |
| Tracer.SpecularFactor | RayTracer.cpp:114-122 | the highlight factor is never negative |
| Tracer.SpecularPeak | RayTracer.cpp:114-122 | the highlight factor is 1 when the viewer looks along the mirror image of a unit incidence about a unit normal |
| Tracer.Specular | RayTracer.cpp:114-122 | the specular term is black when kS is black, and non-negative for non-negative kS and light colour when pow of a non-negative base is non-negative |
| Tracer.LightStep | RayTracer.cpp:51-62 | a light without a target for the sample is undefined; a blocked light, or a hit with black diffuse and specular coefficients, adds nothing; the mesh memory is the one the shadow ray left |
| Tracer.LightStepPlain | RayTracer.cpp:51-62 | for a plain primitive an unblocked light adds exactly the diffuse term when kD is not black and the specular term when kS is not black |
| Tracer.Lighting | RayTracer.cpp:51-62 | with no lights the colour and memory are unchanged |
| Tracer.BounceRay | RayTracer.cpp:66-70 | the bounce ray starts at the hit point along the mirrored direction over [bias, DBL_MAX] and keeps the view ray's sample and last hit |
| Tracer.RefractedRay | RayTracer.cpp:89-91 | the refracted ray starts at the hit point over [bias, DBL_MAX], keeps the sample and remembers the hit primitive as its last hit |
| Tracer.IndexPair | RayTracer.cpp:76-88 | from air (1) into the hit primitive without a last hit, from the primitive out to air when the last hit is the same primitive, otherwise from the last hit's index into the hit's |
| Tracer.IndexPairReciprocal | RayTracer.cpp:79-88 | entering a primitive from air and leaving it again use swapped indices whose ratios multiply to 1 |
| Tracer.Trace | RayTracer.cpp:32-43 | a ray that misses the scene is black and leaves the mesh memory unchanged |
| Tracer.Mirror | RayTracer.cpp:66-72 | with no depth left or a black mirror coefficient nothing is added |
| Tracer.Transmit | RayTracer.cpp:75-94 | with no depth left, a black transmission coefficient or total internal reflection nothing is added |
| Tracer.ShadeDepthZero | RayTracer.cpp:45-96 | with no depth left the shaded colour is the ambient coefficient plus the lights, whatever the mirror and transmission coefficients |
| Tracer.LightStepNonNegative | RayTracer.cpp:51-62 | in a physically sensible scene one light adds a non-negative amount to a non-negative colour |
| Tracer.LightingNonNegative | RayTracer.cpp:51-62 | the lights loop keeps a non-negative colour non-negative |
| Tracer.TraceNonNegative | RayTracer.cpp:32-43 | in a physically sensible scene every traced colour is componentwise non-negative at every depth |
| Tracer.ShadeNonNegative | RayTracer.cpp:45-96 | the shaded colour of a hit in a physically sensible scene is non-negative |
| Tracer.Shade | RayTracer.cpp:45-96 | shading is undefined, with the memory untouched, when the record names no object of the scene or that object has no reflectance, and undefined when the lights loop is |
| Tracer.MirrorNonNegative | RayTracer.cpp:66-72 | the mirror term keeps a non-negative colour non-negative |
| Tracer.TransmitNonNegative | RayTracer.cpp:75-94 | the refracted term keeps a non-negative colour non-negative |
| Tokens.WordLength | raytrace.cpp:57 | the word at the start of a line is a run of non-space characters ended by a space or the end of the line |
| Tokens.Words | raytrace.cpp:57 | every word successive extractions read is non-empty and holds no space |
| Tokens.WordLengthOfWord | objParser.cpp:54-56 | a word followed by a space or nothing reads back as exactly that word |
| Tokens.WordsAfterWord | objParser.cpp:54-56 | after a leading word the remaining words are those of the rest of the line |
| Tokens.WordsOfJoin | objParser.cpp:54-56 | splitting a line of words joined by single spaces gives the words back |
| Tokens.ReadMany | raytrace.cpp:61-67 | a chain of k extractions succeeds exactly when the line has k more words and each converts, and then yields the k converted values in order |
| ObjParsing.SpaceSlashes | objParser.cpp:128-134 | replacing slashes by spaces keeps the length, removes every slash and changes nothing else |
| ObjParsing.SlashGroup | objParser.cpp:128-141 | a group `v/t/n` of three slash-free words reads as exactly those three words |
| ObjParsing.EmptySlotGroup | objParser.cpp:128-141 | a group `v//n` reads as two words only, so the three-integer read that follows fails |
| ObjParsing.WrapDown | objParser.cpp:79-82 | decrementing while above 1 ends at most 1, above 0 when it moved, and an integer away from the start |
| ObjParsing.WrapUp | objParser.cpp:83-86 | incrementing while below 0 ends at least 0, below 1 when it moved, and an integer away from the start |
| ObjParsing.WrapUnit | objParser.cpp:79-86 | a texture coordinate ends in [0, 1], an integer away from the one read, and unchanged when it was already there |
| ObjParsing.WrapUnitUnique | objParser.cpp:79-86 | the wrapped coordinate is the only value an integer away in (0, 1] from above, in [0, 1) from below, or the value itself inside |
| ObjParsing.WrapUnitIdempotent | objParser.cpp:79-86 | wrapping a wrapped coordinate changes nothing |
| ObjParsing.Start | objParser.cpp:20-36 | the constructor starts from an empty mesh and no triangles, in a state that satisfies the parser invariant |
| ObjParsing.ParseVertex | objParser.cpp:58-65 | a `v` line succeeds exactly when three numbers follow, appends that vertex and counts it as parsed since the last face |
| ObjParsing.ParseNormal | objParser.cpp:67-73 | a `vn` line succeeds exactly when three numbers follow and appends that normal, nothing else |
| ObjParsing.ParseTexture | objParser.cpp:75-91 | a `vt` line succeeds exactly when two numbers follow and appends them wrapped into the unit square, nothing else |
| ObjParsing.ParseFlatFace | objParser.cpp:96-108 | a face over vertices only fails without three integers and skips a face naming a vertex twice; any other face is accepted exactly when its three 1-based indices name vertices, and then adds exactly the triangle over those vertices and nothing else |
| ObjParsing.GroupIndices | objParser.cpp:128-141 | a slash group yields indices exactly when its slash-separated words start with three integers, and they are those integers in order (v, t, n) |
| ObjParsing.ParseCorner | objParser.cpp:137-152 | a corner is read exactly when its group yields three integers and, under Phong shading, its vertex and normal indices lie inside their lists; it holds the 0-based vertex and texture indices, and the vertex index again as normal index under Phong shading (whose normal it accumulates), the file's normal index otherwise |
| ObjParsing.ParseCorners | objParser.cpp:123-153 | the corners are read in order, one per group, and the face's corners are read exactly when every group reads as a corner (three integers, and under Phong shading a vertex and a normal inside their lists); under Phong shading the Phong normals that result are those ObjParsing.Accumulate builds, each group's normal added into its vertex's entry in turn, and without it they are unchanged |
| ObjParsing.AddNormal | objParser.cpp:149-152 | one group's step: each Phong normal afterwards is its old value plus the group's normal when the group names that vertex with an in-range normal index, and is unchanged otherwise |
| ObjParsing.AccumulateSums | objParser.cpp:143-153 | after a face's groups, each Phong normal is its old value plus the sum of the normals of every group that names its vertex |
| ObjParsing.ParseMeshFace | objParser.cpp:110-168 | a full face keeps the mesh, makes room for the Phong normals of the vertices read since the last face and appends at most one triangle; when it accepts, skips and appends is stated by ObjParsing.MeshFaceOutcome, what it appends by ObjParsing.MeshFaceIndices; its Phong normals are the old ones extended by zeros, then accumulated over the three groups under Phong shading (objParser.cpp:113-117, 149-152) |
| ObjParsing.MeshFaceNormals | objParser.cpp:113-117 | after a full face under Phong shading, each Phong normal is its old value (zero for a vertex not covered before) plus the normals of the face's groups naming its vertex; without Phong shading the new entries are zero and the old ones unchanged |
| ObjParsing.MeshFaceOutcome | objParser.cpp:110-168 | a full face is accepted exactly when its three groups read as corners and name vertices of the mesh; it is then skipped when two of the named positions coincide (objParser.cpp:155-160) and adds one triangle exactly when all three differ |
| ObjParsing.MeshFaceIndices | objParser.cpp:143-168 | the triangle a full face appends holds the 0-based indices of its three groups and the wireframe flag |
| ObjParsing.ParseLine | objParser.cpp:50-172 | an empty line or an unknown keyword changes nothing; `v`, `vn`, `vt` and `f` dispatch to their readers, `f` by whether the mesh has normals and texture coordinates; the settings never change |
| ObjParsing.ParseLines | objParser.cpp:39-46 | reading the file line by line never changes the settings |
| ObjParsing.MeshFaceKeepsInv | objParser.cpp:110-168 | a full face keeps every mesh triangle's indices inside the vertex (and Phong normal) lists |
| ObjParsing.ParseLineKeepsInv | objParser.cpp:50-172 | every line keeps the parser invariant: Phong normals lag the vertices by those read since the last face, indices are in range, texture coordinates in the unit square |
| ObjParsing.ParseLinesKeepsInv | objParser.cpp:39-46 | the whole file keeps the parser invariant |
| ObjParsing.PhongMeshIndicesValid | objParser.cpp:174-190 | the objects handed back under Phong shading are a mesh whose triangles index existing vertices and existing normals |
| ObjParsing.FinalMesh | objParser.cpp:178-182 | under Phong shading with Phong normals the mesh takes them, each normalised (unit length for a non-zero normal), keeping vertices and texture coordinates; otherwise the mesh is unchanged |
| ObjParsing.GetObjects | objParser.cpp:174-190 | without normals or texture coordinates each triangle becomes its own primitive, in order; otherwise one mesh holds them all; either way the faces handed back are exactly the triangles read |
| SceneFiles.Block | raytrace.cpp:52-56 | a block of n lines read one by one fails when its first line is rejected, otherwise goes on from the state that line made with the remaining n - 1 lines, and on success hands back exactly the lines after the n it read |
| SceneFiles.BlockOfLines | raytrace.cpp:52-56 | a block whose lines are each accepted, each turning one state into the next, ends in the last state and leaves exactly the lines after it |
| SceneFiles.BlockKeepsAbsent | raytrace.cpp:52-56 | a block none of whose lines names a key leaves that key unset |
| SceneFiles.SceneLine | raytrace.cpp:58-151 | an unknown keyword, or `lens` before `sample`, changes nothing; each known keyword is accepted exactly when its numbers read (15 for `pinhole`, 21 for `lens`, two counts for `pixel`, one for `sample` and `depth`, one number for `bias`) or, for `name`, a word follows; it then sets only its own key, to the values in the order read: eye then the upper-left, lower-left, upper-right and lower-right corners; lens point, two edges, then the corners, with the current sample rate; width then height; `depth` modulo 2^32 |
| SceneFiles.SceneLineKeys | raytrace.cpp:58-151 | a line never unsets a key, sets only the key it names, and sets it when accepted (`lens` only after `sample`) |
| SceneFiles.ParseScene | raytrace.cpp:41-158 | the header is exactly six lines and is accepted exactly when every line reads and all keys are set; camera, width and height, sample rate, depth, bias and name are then the values the lines set |
| SceneFiles.SceneRoundTrip | raytrace.cpp:41-158 | every header the format can express (counts below 2^32, a one-word name, a lens camera at the header's sample rate), written as six lines, reads back as exactly those settings, leaving the lines after it |
| SceneFiles.SceneNeedsEveryKey | raytrace.cpp:154-157 | a header none of whose six lines names some key is rejected |
| SceneFiles.TextureLine | raytrace.cpp:232-247 | `Texture: NONE` marks the texture as given without one; any other name needs a second word `rough` or `smooth`, a missing second word reusing the name |
| SceneFiles.TextureNamedLikeFlag | raytrace.cpp:232-247 | a texture named `rough` alone on its line is accepted as a rough texture, one named `wood` alone is rejected |
| SceneFiles.SetKey | raytrace.cpp:176-230 | the key named holds the numbers read, a colour from the first three and `sp` or `index` from the first, and every other key and the texture fields are unchanged |
| SceneFiles.MaterialLine | raytrace.cpp:167-247 | an unknown keyword changes nothing; a line never unsets a key and sets exactly the one it names; colour keys are accepted exactly when three numbers read and then hold those three as red, green, blue; `sp` and `index` exactly when one number reads and then hold it; every other value is kept; only `Texture:` touches the texture |
| SceneFiles.ParseMaterial | raytrace.cpp:162-257 | a material is exactly eight lines, accepted exactly when every line reads and all keys are set; its ambient, diffuse, specular, mirror and transmitted colours, exponent and index are the values the lines set; it is textured exactly when a texture was named, with that name and roughness |
| SceneFiles.MaterialRoundTrip | raytrace.cpp:162-257 | every material the format can express (a one-word texture name other than `NONE`), written as its eight lines, reads back as exactly that material, leaving the lines after it |
| SceneFiles.MaterialNeedsEveryKey | raytrace.cpp:250-256 | eight lines none of which names some key are rejected |
| SceneFiles.ToMaterial | raytrace.cpp:250-256 | without a texture the material is plain; with one it is textured with that texture and roughness when the name is known, undefined otherwise |
| SceneFiles.TransformLine | raytrace.cpp:264-295 | an unknown keyword changes nothing; `scaleXYZ`, `translateXYZ` and `rotateXYZ` need three numbers and set exactly their own key |
| SceneFiles.ParseTransform | raytrace.cpp:259-303 | a transform is exactly three lines, accepted exactly when every line reads and scale, translation and rotation are all set |
| SceneFiles.TransformNeedsEveryKey | raytrace.cpp:294-295 | three lines none of which names some key are rejected |
| SceneFiles.TransformTail | raytrace.cpp:342-357 | the line after a shape must start with `Transform:`; `NONE` next means no transform; otherwise a transform block follows and decides |
| SceneFiles.ParseTriangle | raytrace.cpp:308-359 | a triangle is read exactly when the line's words are `a`, three numbers, `b`, three numbers, `c`, three numbers, and the `Transform:` line after it reads; it then yields the triangle with corners a, b and c read from those three triples, wrapped in the transform that line gives, with the lines after it left over |
| SceneFiles.ParseSphere | raytrace.cpp:361-403 | a sphere is read exactly when the line's words are `center`, three numbers, `radius` and a number, and the `Transform:` line after it reads; it then yields the sphere with that centre and radius, wrapped in the transform that line gives, with the lines after it left over |
| SceneFiles.ParseEllipsoid | raytrace.cpp:405-412 | an ellipsoid is read exactly when a transform block is, and is that transform |
| SceneFiles.ParseLight | raytrace.cpp:414-436 | a point or directional light is read exactly when six numbers follow; an area light exactly when six numbers, the word `edges` and six more numbers follow, and it takes the settings' sample rate; the kind is the one asked for |
| SceneFiles.LightRoundTrip | raytrace.cpp:414-436 | every light written out in the file format reads back as itself |
| SceneFiles.KeywordLine | raytrace.cpp:264-295 | a keyword followed by written numbers has that keyword as operation and reads back the numbers |
| SceneFiles.CountLine | raytrace.cpp:107-133 | a keyword followed by written counts below 2^32 has that keyword as operation and reads back the counts, as `int` and as `unsigned int` |
| SceneFiles.TransformRoundTrip | raytrace.cpp:259-303 | every transform written as its three lines reads back as itself, leaving the lines after it |
| SceneFiles.NoTransformTail | raytrace.cpp:346-353 | a `Transform: NONE` line reads as no transform and consumes one line |
| SceneFiles.TriangleWords | raytrace.cpp:308-340 | a written triangle line splits into the keywords `a`, `b`, `c` each followed by its three written coordinates |
| SceneFiles.TriangleRoundTrip | raytrace.cpp:308-359 | every triangle written as its line plus `Transform: NONE` reads back as itself |
| SceneFiles.SphereWords | raytrace.cpp:361-384 | a written sphere line splits into `center`, three coordinates, `radius` and the radius |
| SceneFiles.SphereRoundTrip | raytrace.cpp:361-403 | every sphere written as its line plus `Transform: NONE` reads back as itself |

## Left out

- File and console I/O, the FreeImage output, `main`'s command line and render loop around the scene, and progress printing: they are effects, not logic. The render loop's sample stream is modelled (`Sampling.AllSamples`, `Films.CommitAllBuckets`).
- The conversion of a word to a `double`, `int` or `unsigned` by `>>` is a parameter (`Tokens.Reader`); round trips assume a writer whose output the reader reads back. The 1023-character limit of `getline` is not modelled.
- The matrix `parseTransform` builds from its scale, rotation and translation (raytrace.cpp:297-300) is not computed; the parsed transform keeps the three vectors. Matrix inversion (the `algebra3` library's `inverse`) is not part of this model: a transformed shape carries both matrices, and `Vectors.Inverts` requires that each is the other's inverse, which `Vectors.InvertsUndo` turns into each undoing the other on points and directions.
- `sqrt`, `atan2`, `acos`, `pow` and floating-point rounding: reals and parameters stand in for them; IEEE infinities and NaN are not modelled, which is why the hierarchy takes its box test as a parameter that agrees with the slab test for directions without zero components.
- Random number generation (the Mersenne twister) and the clock seed: random values are inputs.
- objParser2.cpp and determinate.cpp are not part of this model.
- Concurrency: the source is single-threaded.
- Tracer.Shade: the unused `kT` lookup of the lights loop (RayTracer.cpp:53) is left out because nothing reads it.
- Sampling.NextSample: requires a rate of at least 1; with a rate of 0 the source divides by zero.
- Tracer.Transmit: a zero refractive index on the far side is a division by zero in the source and is undefined (None) in the model.
- Tracer.TraceNonNegative: holds only for a physically sensible scene (non-negative light colours and reflectance coefficients, `pow` non-negative on non-negative bases).
- ObjParsing.ParseMeshFace: under flat shading the normal indices of a face are not checked against the normal list; the source does not check them either.
- ObjParsing.ParseFlatFace: a vertex index outside the vertex list, which the source reads past (undefined behaviour), makes the face fail; so does such an index in ObjParsing.ParseMeshFace and, under Phong shading, in ObjParsing.ParseCorner.
- Shapes.SphereUV: computes the azimuth from `point.z - center.z`, the corrected arguments of the Finding below, not from `point.z - center.y` as Shapes.cpp:186 is written; Shapes.TextureCoordinate and the texel of a textured sphere or ellipsoid inherit this. Shapes.AzimuthArgsAsWrittenShifts keeps the arguments as written.
- Materials.GetReflectance: a textured sphere or ellipsoid reads its texel at the texture coordinate of Shapes.SphereUV, so with the corrected azimuth rather than Shapes.cpp:186 as written.
- Shapes.HitInBoundingBox: requires every sphere inside the shape to have a non-negative radius, because a negative radius gives an inverted box that holds no point; the source does not reject such spheres.
- Shapes.SphereNormal: its contract is stated by the lemma Shapes.SphereNormalOrientation rather than on the function itself.
- Primitives.Build: a list of no primitives, which the source does not guard, is undefined (None).

## Findings

| source | as written | input that shows it | evidently intended | confidence | as-written member | corrected member |
|---|---|---|---|---|---|---|
| Shapes.cpp:186 | the sphere's azimuth is `atan2(point.z - center.y, point.x - center.x)` | unit sphere centred at (0, 5, 0), point (1, 5, 0): the arguments are (-5, 1) instead of (0, 1), so the texture coordinate depends on where the sphere sits | `point.z - center.z`, which makes the texture coordinates independent of a translation of sphere and point | not executed | Shapes.AzimuthArgsAsWrittenShifts | Shapes.AzimuthArgsTranslationInvariant, Shapes.SphereUVTranslationInvariant |

=== FILE: box.dfy ===
/** Axis-aligned bounding boxes (the `BoundingBox` part of Shapes.cpp):
    construction, coordinate access, `combine`, the eight-corner
    `transform`, and the slab test against a ray. */
module Boxes {

  import opened Vectors
  import opened Rays

  /** `bounds[0]` is `lo`, `bounds[1]` is `hi`. */
  datatype Box = Box(lo: Vec3, hi: Vec3)

  /** The default constructor: both corners at the origin. */
  function DefaultBox(): (b: Box)
    ensures b.lo == Zero && b.hi == Zero
  {
    Box(Zero, Zero)
  }

  /** `bounds[side][axis]`. */
  function Bound(b: Box, side: int, axis: nat): real
    requires axis < 3
  {
    if side == 0 then Get(b.lo, axis) else Get(b.hi, axis)
  }

  /** `minCoordinate(axis)`. */
  function MinCoordinate(b: Box, axis: nat): (m: real)
    requires axis < 3
    ensures forall p :: InBox(b, p) ==> m <= Get(p, axis)
    ensures InBox(b, b.lo) ==> exists p :: InBox(b, p) && Get(p, axis) == m
  {
    Get(b.lo, axis)
  }

  /** `maxCoordinate(axis)`. */
  function MaxCoordinate(b: Box, axis: nat): (m: real)
    requires axis < 3
    ensures forall p :: InBox(b, p) ==> Get(p, axis) <= m
    ensures InBox(b, b.hi) ==> exists p :: InBox(b, p) && Get(p, axis) == m
  {
    Get(b.hi, axis)
  }

  /** `lo <= hi` on every axis. */
  predicate WellFormed(b: Box) {
    b.lo.x <= b.hi.x && b.lo.y <= b.hi.y && b.lo.z <= b.hi.z
  }

  predicate InBox(b: Box, p: Vec3) {
    && b.lo.x <= p.x <= b.hi.x
    && b.lo.y <= p.y <= b.hi.y
    && b.lo.z <= p.z <= b.hi.z
  }

  /** `outer` spans at least `inner` on every axis. */
  predicate Encloses(outer: Box, inner: Box) {
    && outer.lo.x <= inner.lo.x && inner.hi.x <= outer.hi.x
    && outer.lo.y <= inner.lo.y && inner.hi.y <= outer.hi.y
    && outer.lo.z <= inner.lo.z && inner.hi.z <= outer.hi.z
  }

  /** `combine(box1, box2)`: the smallest box enclosing both. */
  function Combine(a: Box, b: Box): (c: Box)
    ensures Encloses(c, a) && Encloses(c, b)
    ensures forall k: nat :: k < 3 ==>
      && MinCoordinate(c, k) == Min(MinCoordinate(a, k), MinCoordinate(b, k))
      && MaxCoordinate(c, k) == Max(MaxCoordinate(a, k), MaxCoordinate(b, k))
  {
    Box(Vec3(Min(a.lo.x, b.lo.x), Min(a.lo.y, b.lo.y), Min(a.lo.z, b.lo.z)),
        Vec3(Max(a.hi.x, b.hi.x), Max(a.hi.y, b.hi.y), Max(a.hi.z, b.hi.z)))
  }

  /** `combine` is commutative, associative and the least enclosing box:
      any box enclosing both arguments encloses the result. */
  lemma CombineLaws(a: Box, b: Box, c: Box)
    ensures Combine(a, b) == Combine(b, a)
    ensures Combine(Combine(a, b), c) == Combine(a, Combine(b, c))
    ensures Encloses(c, a) && Encloses(c, b) ==> Encloses(c, Combine(a, b))
    ensures WellFormed(a) ==> WellFormed(Combine(a, b))
  {
  }

  /** A point of either box is a point of the combined box. */
  lemma CombineContainsPoints(a: Box, b: Box, p: Vec3)
    ensures InBox(a, p) || InBox(b, p) ==> InBox(Combine(a, b), p)
  {
  }

  // ---------------------------------------------------------------------
  // transform
  // ---------------------------------------------------------------------

  /** The smallest of `acc` and the elements of `xs`, taken left to right
      with `MIN` as the loop in `transform` does. */
  function FoldMin(acc: real, xs: seq<real>): (m: real)
    ensures m <= acc
    ensures forall k :: 0 <= k < |xs| ==> m <= xs[k]
    ensures m == acc || exists k :: 0 <= k < |xs| && m == xs[k]
    decreases |xs|
  {
    if |xs| == 0 then acc
    else
      var rest := FoldMin(Min(acc, xs[0]), xs[1..]);
      assert forall k :: 1 <= k < |xs| ==> xs[k] == xs[1..][k - 1];
      rest
  }

  /** The largest of `acc` and the elements of `xs`. */
  function FoldMax(acc: real, xs: seq<real>): (m: real)
    ensures m >= acc
    ensures forall k :: 0 <= k < |xs| ==> m >= xs[k]
    ensures m == acc || exists k :: 0 <= k < |xs| && m == xs[k]
    decreases |xs|
  {
    if |xs| == 0 then acc
    else
      var rest := FoldMax(Max(acc, xs[0]), xs[1..]);
      assert forall k :: 1 <= k < |xs| ==> xs[k] == xs[1..][k - 1];
      rest
  }

  /** The eight corners in the order `transform` lists them: the z bound
      varies fastest, then y, then x. */
  function Corners(b: Box): (cs: seq<Vec3>)
    ensures |cs| == 8
    ensures forall k :: 0 <= k < 8 ==> InBox(b, cs[k]) || !WellFormed(b)
  {
    [Vec3(b.lo.x, b.lo.y, b.lo.z), Vec3(b.lo.x, b.lo.y, b.hi.z),
     Vec3(b.lo.x, b.hi.y, b.lo.z), Vec3(b.lo.x, b.hi.y, b.hi.z),
     Vec3(b.hi.x, b.lo.y, b.lo.z), Vec3(b.hi.x, b.lo.y, b.hi.z),
     Vec3(b.hi.x, b.hi.y, b.lo.z), Vec3(b.hi.x, b.hi.y, b.hi.z)]
  }

  function Axis(ps: seq<Vec3>, axis: nat): (xs: seq<real>)
    requires axis < 3
    ensures |xs| == |ps|
    ensures forall k :: 0 <= k < |ps| ==> xs[k] == Get(ps[k], axis)
  {
    seq(|ps|, k requires 0 <= k < |ps| => Get(ps[k], axis))
  }

  /** The box that the bounds loops of `transform` and of the triangles'
      `getBoundingBox` compute: starting from +/-DBL_MAX, each bound closes
      in on every point in turn. */
  function BoundsOf(pts: seq<Vec3>): (r: Box)
    ensures forall k :: 0 <= k < |pts| ==> InBox(r, pts[k])
  {
    var r := Box(Vec3(FoldMin(DoubleMax, Axis(pts, 0)), FoldMin(DoubleMax, Axis(pts, 1)), FoldMin(DoubleMax, Axis(pts, 2))),
                 Vec3(FoldMax(-DoubleMax, Axis(pts, 0)), FoldMax(-DoubleMax, Axis(pts, 1)), FoldMax(-DoubleMax, Axis(pts, 2))));
    assert forall k :: 0 <= k < |pts| ==> Get(pts[k], 0) == pts[k].x && Get(pts[k], 1) == pts[k].y && Get(pts[k], 2) == pts[k].z;
    r
  }

  /** A coordinate a double can hold. */
  predicate Finite(x: real) {
    -DoubleMax <= x <= DoubleMax
  }

  /** When the points have finite coordinates (as doubles always do) and
      there is at least one, every bound of `BoundsOf` is attained by one
      of them: the box is the tightest one around the points. */
  lemma BoundsOfTight(pts: seq<Vec3>, axis: nat)
    requires axis < 3 && |pts| > 0
    requires forall k :: 0 <= k < |pts| ==> Finite(Get(pts[k], axis))
    ensures exists k :: 0 <= k < |pts| && MinCoordinate(BoundsOf(pts), axis) == Get(pts[k], axis)
    ensures exists k :: 0 <= k < |pts| && MaxCoordinate(BoundsOf(pts), axis) == Get(pts[k], axis)
  {
    var xs := Axis(pts, axis);
    BoundsOfAxis(pts, axis);
    var i := FoldsAttained(xs);
    var j :| 0 <= j < |xs| && FoldMax(-DoubleMax, xs) == xs[j];
    assert xs[i] == Get(pts[i], axis) && xs[j] == Get(pts[j], axis);
  }

  lemma BoundsOfAxis(pts: seq<Vec3>, axis: nat)
    requires axis < 3
    ensures MinCoordinate(BoundsOf(pts), axis) == FoldMin(DoubleMax, Axis(pts, axis))
    ensures MaxCoordinate(BoundsOf(pts), axis) == FoldMax(-DoubleMax, Axis(pts, axis))
  {
    var b := BoundsOf(pts);
    if axis == 0 {
      assert b.lo.x == FoldMin(DoubleMax, Axis(pts, 0)) && b.hi.x == FoldMax(-DoubleMax, Axis(pts, 0));
    } else if axis == 1 {
      assert b.lo.y == FoldMin(DoubleMax, Axis(pts, 1)) && b.hi.y == FoldMax(-DoubleMax, Axis(pts, 1));
    } else {
      assert b.lo.z == FoldMin(DoubleMax, Axis(pts, 2)) && b.hi.z == FoldMax(-DoubleMax, Axis(pts, 2));
    }
  }

  /** Folds seeded with the +/-DBL_MAX sentinels over finite values end on
      one of the values. */
  lemma FoldsAttained(xs: seq<real>) returns (i: nat)
    requires |xs| > 0 && forall k :: 0 <= k < |xs| ==> Finite(xs[k])
    ensures i < |xs| && FoldMin(DoubleMax, xs) == xs[i]
    ensures exists j :: 0 <= j < |xs| && FoldMax(-DoubleMax, xs) == xs[j]
  {
    var lo := FoldMin(DoubleMax, xs);
    var hi := FoldMax(-DoubleMax, xs);
    if lo == DoubleMax {
      assert lo <= xs[0];
      i := 0;
    } else {
      i :| 0 <= i < |xs| && lo == xs[i];
    }
    if hi == -DoubleMax {
      assert hi >= xs[0];
    }
  }

  /** The points `ps`, each mapped by `m`. */
  function MapPoints(m: Affine, ps: seq<Vec3>): (r: seq<Vec3>)
    ensures |r| == |ps|
    ensures forall k :: 0 <= k < |ps| ==> r[k] == ApplyPoint(m, ps[k])
  {
    seq(|ps|, k requires 0 <= k < |ps| => ApplyPoint(m, ps[k]))
  }

  /** `transform(M)`: the box around the eight mapped corners. Every mapped
      corner lies inside it, and (by `BoundsOfTight`) each of its bounds is
      attained by a mapped corner. */
  function TransformBox(b: Box, m: Affine): (r: Box)
    ensures forall k :: 0 <= k < 8 ==> InBox(r, ApplyPoint(m, Corners(b)[k]))
  {
    BoundsOf(MapPoints(m, Corners(b)))
  }

  /** The box of the mapped corners holds the image of every point of the
      box: an affine map attains its extremes over a box at corners. */
  lemma TransformBoxContains(b: Box, m: Affine, q: Vec3)
    requires InBox(b, q)
    ensures InBox(TransformBox(b, m), ApplyPoint(m, q))
  {
    var r := TransformBox(b, m);
    var lo0, hi0 := RowBetweenCorners(m.r0, b, q);
    var lo1, hi1 := RowBetweenCorners(m.r1, b, q);
    var lo2, hi2 := RowBetweenCorners(m.r2, b, q);
    assert InBox(r, ApplyPoint(m, Corners(b)[lo0])) && InBox(r, ApplyPoint(m, Corners(b)[hi0]));
    assert InBox(r, ApplyPoint(m, Corners(b)[lo1])) && InBox(r, ApplyPoint(m, Corners(b)[hi1]));
    assert InBox(r, ApplyPoint(m, Corners(b)[lo2])) && InBox(r, ApplyPoint(m, Corners(b)[hi2]));
  }

  /** Over a box, one row of an affine map is smallest at the corner that
      takes, on each axis, the bound its coefficient prefers, and largest
      at the opposite corner. */
  lemma RowBetweenCorners(r: Row, b: Box, q: Vec3) returns (lo: nat, hi: nat)
    requires InBox(b, q)
    ensures lo < 8 && hi < 8
    ensures RowPoint(r, Corners(b)[lo]) <= RowPoint(r, q) <= RowPoint(r, Corners(b)[hi])
  {
    var ax, ix := TermBetween(r.a, b.lo.x, b.hi.x, q.x);
    var ay, iy := TermBetween(r.b, b.lo.y, b.hi.y, q.y);
    var az, iz := TermBetween(r.c, b.lo.z, b.hi.z, q.z);
    lo := 4 * ax + 2 * ay + az;
    hi := 4 * ix + 2 * iy + iz;
    CornerAt(b, ax, ay, az);
    CornerAt(b, ix, iy, iz);
    RowSum(r, q, Corner(b, ax, ay, az), Corner(b, ix, iy, iz));
  }

  /** The corner taking the bound of the given side on each axis. */
  function Corner(b: Box, sx: nat, sy: nat, sz: nat): Vec3 {
    Vec3(Pick(b.lo.x, b.hi.x, sx), Pick(b.lo.y, b.hi.y, sy), Pick(b.lo.z, b.hi.z, sz))
  }

  /** `Corners` lists the corner with sides (sx, sy, sz) at 4 sx + 2 sy + sz. */
  lemma CornerAt(b: Box, sx: nat, sy: nat, sz: nat)
    requires sx < 2 && sy < 2 && sz < 2
    ensures 4 * sx + 2 * sy + sz < 8 && Corners(b)[4 * sx + 2 * sy + sz] == Corner(b, sx, sy, sz)
  {
  }

  /** Summing the per-axis bounds of the three terms of a row. */
  lemma RowSum(r: Row, q: Vec3, cl: Vec3, ch: Vec3)
    requires r.a * cl.x <= r.a * q.x <= r.a * ch.x
    requires r.b * cl.y <= r.b * q.y <= r.b * ch.y
    requires r.c * cl.z <= r.c * q.z <= r.c * ch.z
    ensures RowPoint(r, cl) <= RowPoint(r, q) <= RowPoint(r, ch)
  {
  }

  /** The lower bound (side 0) or the upper bound (side 1). */
  function Pick(lo: real, hi: real, side: nat): real {
    if side == 0 then lo else hi
  }

  /** For lo <= x <= hi, the term a x lies between a times one bound and a
      times the other: the sides returned name them. */
  lemma TermBetween(a: real, lo: real, hi: real, x: real) returns (small: nat, large: nat)
    requires lo <= x <= hi
    ensures small < 2 && large < 2
    ensures a * Pick(lo, hi, small) <= a * x <= a * Pick(lo, hi, large)
  {
    if a >= 0.0 {
      small, large := 0, 1;
      MulMono(lo, x, a);
      MulMono(x, hi, a);
      assert Mul(lo, a) == a * lo && Mul(x, a) == a * x && Mul(hi, a) == a * hi;
    } else {
      small, large := 1, 0;
      MulMono(lo, x, -a);
      MulMono(x, hi, -a);
      assert Mul(lo, -a) == -(a * lo) && Mul(x, -a) == -(a * x) && Mul(hi, -a) == -(a * hi);
    }
  }

  // ---------------------------------------------------------------------
  // The slab test
  // ---------------------------------------------------------------------

  /** The direction has no zero component, so its reciprocal is finite. */
  predicate NonZeroDirection(r: Ray) {
    r.direction.x != 0.0 && r.direction.y != 0.0 && r.direction.z != 0.0
  }

  /** A product kept behind a function so that the solver treats the slab
      parameters as opaque values unless a lemma unfolds them. */
  function Times(a: real, b: real): real {
    a * b
  }

  /** `(bounds[side][axis] - origin[axis]) * inverse[axis]`. */
  function SlabT(b: Box, r: Ray, side: int, axis: nat): real
    requires axis < 3 && Get(r.direction, axis) != 0.0
  {
    Times(Bound(b, side, axis) - Get(r.origin, axis), 1.0 / Get(r.direction, axis))
  }

  /** Where the ray enters the slab of `axis` (the near bound picked by the
      sign bit) and where it leaves it (the far bound). */
  function Enter(b: Box, r: Ray, axis: nat): real
    requires axis < 3 && Get(r.direction, axis) != 0.0
  {
    SlabT(b, r, GetSign(r, axis), axis)
  }

  function Leave(b: Box, r: Ray, axis: nat): real
    requires axis < 3 && Get(r.direction, axis) != 0.0
  {
    SlabT(b, r, 1 - GetSign(r, axis), axis)
  }

  /** `BoundingBox::intersect`: the x and y intervals are intersected
      (failing if disjoint), then the z interval, and the result must
      overlap the ray's own interval. */
  predicate SlabTest(b: Box, r: Ray)
    requires NonZeroDirection(r)
    ensures SlabTest(b, r) <==>
              && (forall i: nat, j: nat :: i < 3 && j < 3 && i != j ==> Enter(b, r, i) <= Leave(b, r, j))
              && Max3(Enter(b, r, 0), Enter(b, r, 1), Enter(b, r, 2)) < r.tMax
              && Min3(Leave(b, r, 0), Leave(b, r, 1), Leave(b, r, 2)) > r.tMin
  {
    var tmin, tmax := Enter(b, r, 0), Leave(b, r, 0);
    var tymin, tymax := Enter(b, r, 1), Leave(b, r, 1);
    if tmin > tymax || tymin > tmax then false
    else
      var tmin' := if tymin > tmin then tymin else tmin;
      var tmax' := if tymax < tmax then tymax else tmax;
      var tzmin, tzmax := Enter(b, r, 2), Leave(b, r, 2);
      if tmin' > tzmax || tzmin > tmax' then false
      else
        var tmin'' := if tzmin > tmin' then tzmin else tmin';
        var tmax'' := if tzmax < tmax' then tzmax else tmax';
        tmin'' < r.tMax && tmax'' > r.tMin
  }

  /** The textbook form of the slab test: the latest entry is no later than
      the earliest exit, and that span overlaps (tMin, tMax). */
  predicate SlabReference(b: Box, r: Ray)
    requires NonZeroDirection(r)
  {
    var enter := Max3(Enter(b, r, 0), Enter(b, r, 1), Enter(b, r, 2));
    var leave := Min3(Leave(b, r, 0), Leave(b, r, 1), Leave(b, r, 2));
    enter <= leave && enter < r.tMax && leave > r.tMin
  }

  lemma RecipCompare(x: real, d: real, t: real)
    requires d != 0.0
    ensures d > 0.0 ==> (Times(x, 1.0 / d) <= t <==> x <= t * d)
    ensures d < 0.0 ==> (Times(x, 1.0 / d) <= t <==> x >= t * d)
    ensures d > 0.0 ==> (t <= Times(x, 1.0 / d) <==> t * d <= x)
    ensures d < 0.0 ==> (t <= Times(x, 1.0 / d) <==> t * d >= x)
    ensures Times(x, 1.0 / d) * d == x
  {
    var q := x * (1.0 / d);
    assert q * d == x;
    if d > 0.0 {
      assert q <= t <==> q * d <= t * d;
    } else {
      assert q <= t <==> q * d >= t * d;
    }
  }

  /** One slab in scalar form: `en`/`lv` are where the ray crosses the
      bound it meets first/last, and `p` its coordinate at `t`. The
      parameters between the two crossings are those whose coordinate lies
      between the bounds, and the crossings are ordered when the bounds
      are. */
  lemma SlabInterval(lo: real, hi: real, o: real, d: real, t: real, en: real, lv: real, p: real)
    requires d != 0.0
    requires en == Times((if d < 0.0 then hi else lo) - o, 1.0 / d)
    requires lv == Times((if d < 0.0 then lo else hi) - o, 1.0 / d)
    requires p == o + t * d
    ensures (en <= t <= lv) <==> (lo <= p <= hi)
    ensures lo <= hi ==> en <= lv
  {
    RecipCompare(lo - o, d, t);
    RecipCompare(hi - o, d, t);
    if lo <= hi {
      RecipCompare((if d < 0.0 then lo else hi) - o, d, lv);
      RecipCompare((if d < 0.0 then hi else lo) - o, d, lv);
    }
  }

  lemma PointOnAxis(r: Ray, t: real, axis: nat)
    requires axis < 3
    ensures Get(IntersectionPoint(r, t), axis) == Get(r.origin, axis) + t * Get(r.direction, axis)
  {
  }

  lemma SignOnAxis(r: Ray, axis: nat)
    requires axis < 3 && SignsMatch(r)
    ensures GetSign(r, axis) == SignBit(Get(r.direction, axis))
  {
  }

  /** On one axis, the parameters between entry and exit are exactly those
      whose point lies between the two bounds. */
  lemma SlabAxis(b: Box, r: Ray, axis: nat, t: real)
    requires axis < 3 && Get(r.direction, axis) != 0.0 && SignsMatch(r)
    ensures Enter(b, r, axis) <= t <= Leave(b, r, axis)
        <==> Get(b.lo, axis) <= Get(IntersectionPoint(r, t), axis) <= Get(b.hi, axis)
    ensures Get(b.lo, axis) <= Get(b.hi, axis) ==> Enter(b, r, axis) <= Leave(b, r, axis)
  {
    var d := Get(r.direction, axis);
    var en, lv := Enter(b, r, axis), Leave(b, r, axis);
    var p := Get(IntersectionPoint(r, t), axis);
    var lo, hi, o := Get(b.lo, axis), Get(b.hi, axis), Get(r.origin, axis);
    assert en == Times((if d < 0.0 then hi else lo) - o, 1.0 / d) by {
      SignOnAxis(r, axis);
    }
    assert lv == Times((if d < 0.0 then lo else hi) - o, 1.0 / d) by {
      SignOnAxis(r, axis);
    }
    assert p == o + t * d by {
      PointOnAxis(r, t, axis);
    }
    SlabInterval(lo, hi, o, d, t, en, lv, p);
  }

  /** For a well-formed box, the source's sequential slab test and the
      textbook form agree. */
  lemma SlabTestMatchesReference(b: Box, r: Ray)
    requires NonZeroDirection(r) && SignsMatch(r) && WellFormed(b)
    ensures SlabTest(b, r) <==> SlabReference(b, r)
  {
    forall axis: nat | axis < 3
      ensures Enter(b, r, axis) <= Leave(b, r, axis)
    {
      SlabAxis(b, r, axis, 0.0);
    }
  }

  /** Completeness: if the ray passes through the box strictly inside its
      interval, the slab test says so. */
  lemma SlabTestComplete(b: Box, r: Ray, t: real)
    requires NonZeroDirection(r) && SignsMatch(r)
    requires r.tMin < t < r.tMax && InBox(b, IntersectionPoint(r, t))
    ensures SlabTest(b, r)
  {
    SlabAxis(b, r, 0, t);
    SlabAxis(b, r, 1, t);
    SlabAxis(b, r, 2, t);
    SlabTestMatchesReference(b, r);
  }

  /** Soundness: if the slab test passes for a ray whose interval is not
      empty, some point of the ray within its interval lies in the box. */
  lemma SlabTestSound(b: Box, r: Ray)
    requires NonZeroDirection(r) && SignsMatch(r) && WellFormed(b)
    requires r.tMin <= r.tMax && SlabTest(b, r)
    ensures exists t :: r.tMin <= t <= r.tMax && InBox(b, IntersectionPoint(r, t))
  {
    SlabTestMatchesReference(b, r);
    var enter := Max3(Enter(b, r, 0), Enter(b, r, 1), Enter(b, r, 2));
    var t := Max(enter, r.tMin);
    SlabAxis(b, r, 0, t);
    SlabAxis(b, r, 1, t);
    SlabAxis(b, r, 2, t);
    assert InBox(b, IntersectionPoint(r, t));
  }
}

=== FILE: camera.dfy ===
/** Cameras (Camera.h, Camera.cpp): a view plane given by its four corners
    and a viewer, either a single point (`PinholeCamera`) or a jittered
    grid of points on a lens (`LensCamera`). */
module Cameras {

  import opened Wrappers
  import opened Vectors
  import opened Sampling
  import opened Rays
  import opened Jitter

  /** The corners of the view plane: upper left, lower left, upper right,
      lower right. */
  datatype ViewPlane = ViewPlane(ul: Vec3, ll: Vec3, ur: Vec3, lr: Vec3)

  datatype Camera =
    | Pinhole(viewer: Vec3, plane: ViewPlane)
    | Lens(position: Vec3, edge1: Vec3, edge2: Vec3, plane: ViewPlane, points: seq<seq<Vec3>>)

  /** The point of the view plane at normalised coordinates (u, v):
      interpolate each side vertically by v (v = 1 at the top), then
      across by u (u = 1 on the right). */
  function PlanePoint(vp: ViewPlane, u: real, v: real): Vec3 {
    var left := Add(Scale(v, vp.ul), Scale(1.0 - v, vp.ll));
    var right := Add(Scale(v, vp.ur), Scale(1.0 - v, vp.lr));
    Add(Scale(u, right), Scale(1.0 - u, left))
  }

  /** The textbook bilinear patch through the four corners, weighting
      each corner by the product of its two coordinates' weights. */
  function Bilinear(vp: ViewPlane, u: real, v: real): Vec3 {
    Add(Add(Scale(u * v, vp.ur), Scale(u * (1.0 - v), vp.lr)),
        Add(Scale((1.0 - u) * v, vp.ul), Scale((1.0 - u) * (1.0 - v), vp.ll)))
  }

  /** The source's side-by-side interpolation is the bilinear patch. */
  lemma PlanePointIsBilinear(vp: ViewPlane, u: real, v: real)
    ensures PlanePoint(vp, u, v) == Bilinear(vp, u, v)
  {
    SideScaled(u, v, u * v, u * (1.0 - v), vp.ur, vp.lr);
    SideScaled(1.0 - u, v, (1.0 - u) * v, (1.0 - u) * (1.0 - v), vp.ul, vp.ll);
  }

  /** Scaling one interpolated side by w distributes the weight over its
      two corners, giving them the weights wv = w v and wv' = w (1 - v). */
  lemma SideScaled(w: real, v: real, wv: real, wv': real, a: Vec3, b: Vec3)
    requires wv == w * v && wv' == w * (1.0 - v)
    ensures Scale(w, Add(Scale(v, a), Scale(1.0 - v, b))) == Add(Scale(wv, a), Scale(wv', b))
  {
    WeightsDistribute(w, v, wv, wv', a.x, b.x);
    WeightsDistribute(w, v, wv, wv', a.y, b.y);
    WeightsDistribute(w, v, wv, wv', a.z, b.z);
  }

  lemma WeightsDistribute(w: real, v: real, wv: real, wv': real, a: real, b: real)
    requires wv == w * v && wv' == w * (1.0 - v)
    ensures w * (v * a + (1.0 - v) * b) == wv * a + wv' * b
  {
  }

  /** The corners of the unit square map to the corners of the plane:
      (0, 0) to lower left, (1, 0) to lower right, (0, 1) to upper left,
      (1, 1) to upper right. */
  lemma PlaneCorners(vp: ViewPlane)
    ensures PlanePoint(vp, 0.0, 0.0) == vp.ll
    ensures PlanePoint(vp, 1.0, 0.0) == vp.lr
    ensures PlanePoint(vp, 0.0, 1.0) == vp.ul
    ensures PlanePoint(vp, 1.0, 1.0) == vp.ur
  {
  }

  /** `createViewingRay` for a normalised sample: from the viewer (for a
      lens, the grid point of the sample's sub-pixel cell) through the
      plane point of the sample, over [1, DBL_MAX], with no last hit. None
      where the lens grid has no such cell (the source indexes past the
      end). */
  function ViewingRay(cam: Camera, s: Sample): (r: Option<Ray>)
    ensures cam.Pinhole? ==> r.Some? && r.value.origin == cam.viewer
    ensures cam.Lens? ==>
              && (r.Some? <==> s.p < |cam.points| && s.q < |cam.points[s.p]|)
              && (r.Some? ==> r.value.origin == cam.points[s.p][s.q])
    ensures r.Some? ==>
              && IntersectionPoint(r.value, 1.0) == PlanePoint(cam.plane, s.horiz, s.vert)
              && r.value.tMin == 1.0 && r.value.tMax == DoubleMax
              && r.value.lastHit.None? && r.value.sample == s && SignsMatch(r.value)
  {
    var rayEnd := PlanePoint(cam.plane, s.horiz, s.vert);
    match cam
    case Pinhole(viewer, _) => Some(FromPoints(viewer, rayEnd, 1.0, DoubleMax, s, None))
    case Lens(_, _, _, _, points) =>
      if s.p < |points| && s.q < |points[s.p]| then
        Some(FromPoints(points[s.p][s.q], rayEnd, 1.0, DoubleMax, s, None))
      else None
  }

  /** The `LensCamera` constructor: the jittered grid of `sampleRate` x
      `sampleRate` points over the lens, drawn with the generator values
      `randoms` (two per point) and shuffled with the picks `picks`. */
  method MakeLens(position: Vec3, edge1: Vec3, edge2: Vec3, plane: ViewPlane, sampleRate: int, randoms: seq<real>, picks: seq<nat>)
    returns (cam: Camera)
    requires sampleRate > 0 ==> |randoms| == 2 * (sampleRate * sampleRate) && ValidPicks(sampleRate * sampleRate, picks)
    ensures cam.Lens? && cam.position == position && cam.edge1 == edge1 && cam.edge2 == edge2 && cam.plane == plane
    ensures sampleRate <= 0 ==> cam.points == []
    ensures sampleRate > 0 ==>
              && Square(cam.points, sampleRate)
              && multiset(Flatten(cam.points)) == multiset(Generated(position, edge1, edge2, sampleRate, randoms))
  {
    var grid: seq<seq<Vec3>> := [];
    if sampleRate > 0 {
      grid := JitterGrid(position, edge1, edge2, sampleRate, randoms, picks);
    }
    cam := Lens(position, edge1, edge2, plane, grid);
  }

  /** A lens built with the sampler's rate gives a viewing ray for every
      sample the sampler emits, starting at a point of the lens. */
  lemma LensRayForEverySample(cam: Camera, n: nat, s: Sample)
    requires cam.Lens? && Square(cam.points, n) && s.p < n && s.q < n
    ensures ViewingRay(cam, s).Some?
    ensures ViewingRay(cam, s).value.origin in Flatten(cam.points)
  {
    FlattenHolds(cam.points, s.p, s.q);
  }
}

=== FILE: film.dfy ===
/** The film (Film.h, Film.cpp): a width x height grid of buckets, each
    collecting the colours of the samples that fall into its pixel, and
    the averaging and clamping that turns a bucket into a pixel's bytes. */
module Films {

  import opened Wrappers
  import Colors
  import opened Sampling
  import opened Numbers

  /** `sampleGrid[i][j]` is the bucket of pixel column i, row j. */
  datatype Film = Film(width: nat, height: nat, grid: seq<seq<seq<Colors.Rgb>>>)

  /** The grid has the film's shape, and the dimensions are `unsigned int`
      values. */
  predicate WellFormed(f: Film) {
    && f.width < UIntLimit && f.height < UIntLimit
    && |f.grid| == f.width && forall i :: 0 <= i < |f.grid| ==> |f.grid[i]| == f.height
  }

  /** The constructor: every bucket empty. */
  function Create(width: nat, height: nat): (f: Film)
    requires width < UIntLimit && height < UIntLimit
    ensures WellFormed(f) && f.width == width && f.height == height
    ensures forall i, j :: 0 <= i < width && 0 <= j < height ==> f.grid[i][j] == []
  {
    Film(width, height, seq(width, _ => seq(height, _ => [])))
  }

  /** The bucket a sample goes to, when it lies on the film. */
  function BucketOf(f: Film, s: Sample): (r: Option<(nat, nat)>)
    ensures r.Some? ==> r.value.0 < f.width && r.value.1 < f.height
    ensures r.Some? <==> ToUnsigned(s.horiz).Some? && ToUnsigned(s.vert).Some?
                         && ToUnsigned(s.horiz).value < f.width && ToUnsigned(s.vert).value < f.height
  {
    match (ToUnsigned(s.horiz), ToUnsigned(s.vert))
    case (Some(i), Some(j)) => if i < f.width && j < f.height then Some((i, j)) else None
    case _ => None
  }

  /** `commit`: append the colour to the bucket of the sample's pixel and
      leave every other bucket alone. None where the source would index
      outside the grid. */
  function Commit(f: Film, s: Sample, color: Colors.Rgb): (r: Option<Film>)
    requires WellFormed(f)
    ensures r.Some? <==> BucketOf(f, s).Some?
    ensures r.Some? ==>
              && WellFormed(r.value) && r.value.width == f.width && r.value.height == f.height
              && forall i, j :: 0 <= i < f.width && 0 <= j < f.height ==>
                   r.value.grid[i][j] == if BucketOf(f, s) == Some((i, j)) then f.grid[i][j] + [color] else f.grid[i][j]
  {
    match BucketOf(f, s)
    case None => None
    case Some((i, j)) =>
      Some(f.(grid := f.grid[i := f.grid[i][j := f.grid[i][j] + [color]]]))
  }

  /** A sample whose coordinates lie in pixel (i, j) is committed to
      bucket (i, j), as every sample the sampler emits for that pixel
      does. */
  lemma CommitToOwnPixel(f: Film, s: Sample, color: Colors.Rgb, i: nat, j: nat)
    requires WellFormed(f) && i < f.width && j < f.height
    requires s.horiz.Floor == i && s.vert.Floor == j
    ensures BucketOf(f, s) == Some((i, j))
    ensures Commit(f, s, color).Some? && Commit(f, s, color).value.grid[i][j] == f.grid[i][j] + [color]
  {
    SampleInBucket(f, s, i, j);
  }

  lemma DivBelow(x: nat, d: nat, m: nat)
    requires d > 0 && x < m * d
    ensures x / d < m
  {
    var q := x / d;
    assert q * d <= x;
    MulMonoNat(m, q, d);
  }

  lemma MulMonoNat(a: nat, b: nat, d: nat)
    ensures a <= b ==> a * d <= b * d
  {
  }

  /** Every sample of the sampler's stream for a width x height screen
      lands on a film of the same size, in the bucket of the pixel the
      sampler was visiting, so each pixel's bucket collects its own
      sub-pixel samples. */
  lemma SampleStreamOnFilm(f: Film, samples: seq<Sample>, n: nat)
    requires n >= 1 && 1 <= f.width < UIntLimit && f.height < UIntLimit
    requires |samples| == f.width * f.height * n * n
    requires forall k :: 0 <= k < |samples| ==>
      samples[k].horiz.Floor == k / n / n % f.width && samples[k].vert.Floor == k / n / n / f.width
    ensures OnFilm(f, samples)
    ensures forall k :: 0 <= k < |samples| ==> BucketOf(f, samples[k]) == Some((k / n / n % f.width, k / n / n / f.width))
  {
    forall k | 0 <= k < |samples|
      ensures BucketOf(f, samples[k]) == Some((k / n / n % f.width, k / n / n / f.width))
    {
      PixelIndexBounds(k, n, f.width, f.height);
      SampleInBucket(f, samples[k], k / n / n % f.width, k / n / n / f.width);
    }
  }

  /** Sample k of the stream belongs to a pixel row inside the screen. */
  lemma PixelIndexBounds(k: nat, n: nat, w: nat, h: nat)
    requires n >= 1 && w >= 1 && k < w * h * n * n
    ensures 0 <= k / n / n / w < h && 0 <= k / n / n % w < w
  {
    DivBelow(k, n, w * h * n);
    DivBelow(k / n, n, w * h);
    assert w * h == h * w;
    DivBelow(k / n / n, w, h);
  }

  /** A sample whose coordinates have floors (i, j) inside the film goes to
      bucket (i, j). */
  lemma SampleInBucket(f: Film, s: Sample, i: nat, j: nat)
    requires i < f.width < UIntLimit && j < f.height < UIntLimit && s.horiz.Floor == i && s.vert.Floor == j
    ensures BucketOf(f, s) == Some((i, j))
  {
    ToUnsignedTruncates(s.horiz, i);
    ToUnsignedTruncates(s.vert, j);
  }

  /** Committing a stream of samples with their colours, in order. */
  function CommitAll(f: Film, samples: seq<Sample>, colors: seq<Colors.Rgb>): (r: Option<Film>)
    requires WellFormed(f) && |samples| == |colors|
    ensures r.Some? ==> WellFormed(r.value) && r.value.width == f.width && r.value.height == f.height
    decreases |samples|
  {
    if samples == [] then Some(f)
    else match Commit(f, samples[0], colors[0])
      case None => None
      case Some(g) => CommitAll(g, samples[1..], colors[1..])
  }

  /** The colours of the samples falling into pixel (i, j), in order. */
  function Picked(f: Film, samples: seq<Sample>, colors: seq<Colors.Rgb>, i: nat, j: nat): seq<Colors.Rgb>
    requires |samples| == |colors|
    decreases |samples|
  {
    if samples == [] then []
    else (if BucketOf(f, samples[0]) == Some((i, j)) then [colors[0]] else []) + Picked(f, samples[1..], colors[1..], i, j)
  }

  /** Every sample lies on the film. */
  predicate OnFilm(f: Film, samples: seq<Sample>) {
    forall k :: 0 <= k < |samples| ==> BucketOf(f, samples[k]).Some?
  }

  /** After committing a stream of samples that all lie on the film, each
      bucket holds what it held before followed by exactly the colours of
      the samples of its pixel, in the order they were committed. */
  lemma {:induction false} CommitAllBuckets(f: Film, samples: seq<Sample>, colors: seq<Colors.Rgb>, i: nat, j: nat)
    requires WellFormed(f) && |samples| == |colors| && OnFilm(f, samples)
    requires i < f.width && j < f.height
    ensures CommitAll(f, samples, colors).Some?
    ensures CommitAll(f, samples, colors).value.grid[i][j] == f.grid[i][j] + Picked(f, samples, colors, i, j)
    decreases |samples|
  {
    if samples != [] {
      var s, c, rest, restColors := samples[0], colors[0], samples[1..], colors[1..];
      var head := if BucketOf(f, s) == Some((i, j)) then [c] else [];
      CommitStep(f, s, c, i, j);
      var g := Commit(f, s, c).value;
      RestOnFilm(f, g, samples);
      CommitAllStep(f, samples, colors);
      CommitAllBuckets(g, rest, restColors, i, j);
      PickedSameSize(f, g, rest, restColors, i, j);
      PickedStep(f, samples, colors, i, j);
      ConcatAssoc(f.grid[i][j], head, Picked(f, rest, restColors, i, j));
    }
  }

  lemma ConcatAssoc<T>(a: seq<T>, b: seq<T>, c: seq<T>)
    ensures (a + b) + c == a + (b + c)
  {
  }

  lemma CommitAllStep(f: Film, samples: seq<Sample>, colors: seq<Colors.Rgb>)
    requires WellFormed(f) && |samples| == |colors| && samples != [] && BucketOf(f, samples[0]).Some?
    ensures CommitAll(f, samples, colors) == CommitAll(Commit(f, samples[0], colors[0]).value, samples[1..], colors[1..])
  {
  }

  lemma PickedStep(f: Film, samples: seq<Sample>, colors: seq<Colors.Rgb>, i: nat, j: nat)
    requires |samples| == |colors| && samples != []
    ensures Picked(f, samples, colors, i, j)
            == (if BucketOf(f, samples[0]) == Some((i, j)) then [colors[0]] else []) + Picked(f, samples[1..], colors[1..], i, j)
  {
  }

  /** One commit of a sample on the film: bucket (i, j) gains the colour
      exactly when the sample belongs to it. */
  lemma CommitStep(f: Film, s: Sample, c: Colors.Rgb, i: nat, j: nat)
    requires WellFormed(f) && BucketOf(f, s).Some? && i < f.width && j < f.height
    ensures Commit(f, s, c).Some?
    ensures var g := Commit(f, s, c).value;
            && WellFormed(g) && g.width == f.width && g.height == f.height
            && g.grid[i][j] == f.grid[i][j] + (if BucketOf(f, s) == Some((i, j)) then [c] else [])
  {
  }

  /** The samples after the first still lie on a film of the same size. */
  lemma RestOnFilm(f: Film, g: Film, samples: seq<Sample>)
    requires f.width == g.width && f.height == g.height && samples != [] && OnFilm(f, samples)
    ensures OnFilm(g, samples[1..])
  {
    var rest := samples[1..];
    forall k | 0 <= k < |rest|
      ensures BucketOf(g, rest[k]).Some?
    {
      assert rest[k] == samples[k + 1];
      SameBucket(f, g, rest[k]);
    }
  }

  /** Which bucket a sample falls into depends only on the film's
      dimensions. */
  lemma SameBucket(f: Film, g: Film, s: Sample)
    requires f.width == g.width && f.height == g.height
    ensures BucketOf(f, s) == BucketOf(g, s)
  {
  }

  lemma {:induction false} PickedSameSize(f: Film, g: Film, samples: seq<Sample>, colors: seq<Colors.Rgb>, i: nat, j: nat)
    requires f.width == g.width && f.height == g.height && |samples| == |colors|
    ensures Picked(f, samples, colors, i, j) == Picked(g, samples, colors, i, j)
    decreases |samples|
  {
    if samples != [] {
      PickedSameSize(f, g, samples[1..], colors[1..], i, j);
    }
  }

  // ---------------------------------------------------------------------
  // writeImage
  // ---------------------------------------------------------------------

  /** The running sum of the loop over a bucket, from its first colour. */
  function Sum(colors: seq<Colors.Rgb>): Colors.Rgb
    decreases |colors|
  {
    if colors == [] then Colors.Black
    else Colors.Add(Sum(colors[..|colors| - 1]), colors[|colors| - 1])
  }

  /** The bucket's mean: the sum divided by the number of colours. None
      for an empty bucket, where the source divides by zero. */
  function Mean(colors: seq<Colors.Rgb>): (m: Option<Colors.Rgb>)
    ensures m.Some? <==> colors != []
    ensures m.Some? ==> Colors.Scale(m.value, |colors| as real) == Sum(colors)
  {
    if colors == [] then None
    else
      var m := Colors.Div(Sum(colors), |colors| as real);
      Colors.ScalarLaws(Sum(colors), |colors| as real);
      Some(m)
  }

  /** `(BYTE)(x * 255)` for x in [0, 1]. */
  function ToByte(x: real): (b: nat)
    requires 0.0 <= x <= 1.0
    ensures b <= 255
    ensures b as real <= x * 255.0 < b as real + 1.0
  {
    (x * 255.0).Floor as nat
  }

  /** The bytes written for a pixel: the bucket's mean clamped to [0, 1]
      and scaled to [0, 255]. None for an empty bucket. */
  function PixelBytes(colors: seq<Colors.Rgb>): (r: Option<(nat, nat, nat)>)
    ensures r.Some? <==> colors != []
    ensures r.Some? ==> r.value.0 <= 255 && r.value.1 <= 255 && r.value.2 <= 255
  {
    match Mean(colors)
    case None => None
    case Some(m) =>
      var c := Colors.Normalize(m);
      Some((ToByte(c.r), ToByte(c.g), ToByte(c.b)))
  }

  /** The image `writeImage` hands to the encoder, pixel by pixel. */
  function Image(f: Film): (img: seq<seq<Option<(nat, nat, nat)>>>)
    requires WellFormed(f)
    ensures |img| == f.width
    ensures forall i :: 0 <= i < f.width ==> |img[i]| == f.height
    ensures forall i, j :: 0 <= i < f.width && 0 <= j < f.height ==>
              (img[i][j].Some? <==> f.grid[i][j] != [])
    ensures forall i, j :: 0 <= i < f.width && 0 <= j < f.height ==> img[i][j] == PixelBytes(f.grid[i][j])
  {
    seq(f.width, i requires 0 <= i < f.width => seq(f.height, j requires 0 <= j < f.height => PixelBytes(f.grid[i][j])))
  }

  /** A non-empty bucket whose colours sum to n times `m` is written as the
      bytes of `m` clamped to [0, 1]: each byte is the floor of 255 times
      the clamped channel. */
  lemma PixelBytesOfMean(colors: seq<Colors.Rgb>, m: Colors.Rgb)
    requires colors != [] && Colors.Scale(m, |colors| as real) == Sum(colors)
    ensures var c := Colors.Normalize(m);
            PixelBytes(colors) == Some((ToByte(c.r), ToByte(c.g), ToByte(c.b)))
    ensures var (r, g, b) := PixelBytes(colors).value;
            && r as real <= Colors.Clamp01(m.r) * 255.0 < r as real + 1.0
            && g as real <= Colors.Clamp01(m.g) * 255.0 < g as real + 1.0
            && b as real <= Colors.Clamp01(m.b) * 255.0 < b as real + 1.0
  {
    var n := |colors| as real;
    var mean := Mean(colors).value;
    assert Colors.Scale(mean, n) == Colors.Scale(m, n);
    ScaleCancel(mean.r, m.r, n);
    ScaleCancel(mean.g, m.g, n);
    ScaleCancel(mean.b, m.b, n);
  }

  /** k copies of a colour sum to k times it. */
  lemma {:induction false} SumConstant(colors: seq<Colors.Rgb>, c: Colors.Rgb)
    requires forall k :: 0 <= k < |colors| ==> colors[k] == c
    ensures Sum(colors) == Colors.Scale(c, |colors| as real)
    decreases |colors|
  {
    if colors != [] {
      var init := colors[..|colors| - 1];
      SumConstant(init, c);
      var n := |init| as real;
      assert n * c.r + c.r == (n + 1.0) * c.r;
      assert n * c.g + c.g == (n + 1.0) * c.g;
      assert n * c.b + c.b == (n + 1.0) * c.b;
    }
  }

  /** A bucket of identical colours averages to that colour, so a pixel
      whose every sample found the same colour in [0, 1] is written as
      that colour's bytes. */
  lemma UniformBucket(colors: seq<Colors.Rgb>, c: Colors.Rgb)
    requires colors != [] && forall k :: 0 <= k < |colors| ==> colors[k] == c
    ensures Mean(colors) == Some(c)
    ensures Colors.InUnitCube(c) ==> PixelBytes(colors) == Some((ToByte(c.r), ToByte(c.g), ToByte(c.b)))
  {
    SumConstant(colors, c);
    var n := |colors| as real;
    var m := Mean(colors).value;
    assert Colors.Scale(m, n) == Colors.Scale(c, n);
    ScaleCancel(m.r, c.r, n);
    ScaleCancel(m.g, c.g, n);
    ScaleCancel(m.b, c.b, n);
    Colors.NormalizeKeepsUnitCube(c);
  }

  lemma ScaleCancel(x: real, y: real, n: real)
    requires n != 0.0 && n * x == n * y
    ensures x == y
  {
    assert n * (x - y) == 0.0;
  }
}

=== FILE: jitter.dfy ===
/** The jittered point grid shared by `AreaLight` (Lights.cpp) and
    `LensCamera` (Camera.cpp): one random point in each of the n x n cells
    of the parallelogram spanned by two edges, shuffled, then laid out as
    an n x n grid indexed by a sample's sub-pixel cell. The random
    generator is replaced by the values it would return. */
module Jitter {

  import opened Vectors
  import Sampling

  /** The point for cell (i, j) drawn with generator values r1 and r2:
      position + (i/n + r1/n) edge1 + (j/n + r2/n) edge2. */
  function CellPoint(position: Vec3, edge1: Vec3, edge2: Vec3, n: nat, i: nat, j: nat, r1: real, r2: real): Vec3
    requires n > 0
  {
    var step := 1.0 / n as real;
    Add(Add(position, Scale(i as real * step + r1 * step, edge1)), Scale(j as real * step + r2 * step, edge2))
  }

  /** The generated points in the order the constructor pushes them: cell
      (i, j) at index i * n + j, drawing two generator values each. */
  function Generated(position: Vec3, edge1: Vec3, edge2: Vec3, n: nat, randoms: seq<real>): (pts: seq<Vec3>)
    requires n > 0 && |randoms| == 2 * (n * n)
    ensures |pts| == n * n
  {
    seq(n * n, k requires 0 <= k < n * n =>
      CellPoint(position, edge1, edge2, n, k / n, k % n, randoms[2 * k], randoms[2 * k + 1]))
  }

  /** Generator values in [0, 1), as `Random()` returns. */
  predicate UnitValues(randoms: seq<real>) {
    forall k :: 0 <= k < |randoms| ==> 0.0 <= randoms[k] < 1.0
  }

  /** The generation loops: i outer, j inner, two generator values per
      point, in that order. */
  method GeneratePoints(position: Vec3, edge1: Vec3, edge2: Vec3, n: nat, randoms: seq<real>) returns (pts: seq<Vec3>)
    requires n > 0 && |randoms| == 2 * (n * n)
    ensures pts == Generated(position, edge1, edge2, n, randoms)
  {
    ghost var all := Generated(position, edge1, edge2, n, randoms);
    pts := [];
    for i := 0 to n
      invariant |pts| == i * n <= n * n
      invariant pts == all[..|pts|]
    {
      pts := GenerateRow(position, edge1, edge2, n, randoms, i, pts);
    }
    assert all[..|pts|] == all;
  }

  /** The inner loop for row i: cells (i, 0) to (i, n - 1). */
  method GenerateRow(position: Vec3, edge1: Vec3, edge2: Vec3, n: nat, randoms: seq<real>, i: nat, pts: seq<Vec3>)
    returns (out: seq<Vec3>)
    requires n > 0 && |randoms| == 2 * (n * n) && i < n
    requires |pts| == i * n && pts == Generated(position, edge1, edge2, n, randoms)[..|pts|]
    ensures |out| == (i + 1) * n <= n * n
    ensures out == Generated(position, edge1, edge2, n, randoms)[..|out|]
  {
    ghost var all := Generated(position, edge1, edge2, n, randoms);
    out := pts;
    var used := 2 * |pts|;
    Sampling.MulStrictlyBelow(i, n, n);
    for j := 0 to n
      invariant |out| == i * n + j <= n * n && used == 2 * |out|
      invariant out == all[..|out|]
    {
      var k := |out|;
      DivModOfCell(i, j, n);
      var point := CellPoint(position, edge1, edge2, n, i, j, randoms[used], randoms[used + 1]);
      assert all[k] == point;
      assert all[..k + 1] == all[..k] + [all[k]];
      out := out + [point];
      used := used + 2;
    }
  }

  lemma RowBelowSquare(i: nat, j: nat, n: nat)
    requires i < n && j < n
    ensures i * n + j < n * n
  {
    Sampling.MulStrictlyBelow(i, n, n);
  }

  lemma DivModOfCell(i: nat, j: nat, n: nat)
    requires j < n
    ensures (i * n + j) / n == i && (i * n + j) % n == j
  {
    Sampling.DivModUnique(i * n + j, n, i, j);
  }

  /** Each generated point lies in its own cell: with generator values in
      [0, 1), the point for cell (i, j) is position + s edge1 + t edge2
      with s in [i/n, (i+1)/n) and t in [j/n, (j+1)/n). */
  lemma CellPointInCell(position: Vec3, edge1: Vec3, edge2: Vec3, n: nat, i: nat, j: nat, r1: real, r2: real)
    requires n > 0 && 0.0 <= r1 < 1.0 && 0.0 <= r2 < 1.0
    ensures exists s: real, t: real ::
              && i as real / n as real <= s < (i + 1) as real / n as real
              && j as real / n as real <= t < (j + 1) as real / n as real
              && CellPoint(position, edge1, edge2, n, i, j, r1, r2) == Add(Add(position, Scale(s, edge1)), Scale(t, edge2))
  {
    var s := StepInCell(n, i, r1);
    var t := StepInCell(n, j, r2);
    assert CellPoint(position, edge1, edge2, n, i, j, r1, r2) == Add(Add(position, Scale(s, edge1)), Scale(t, edge2));
  }

  /** i * step + r * step lies in [i/n, (i+1)/n) for r in [0, 1). */
  lemma StepInCell(n: nat, i: nat, r: real) returns (s: real)
    requires n > 0 && 0.0 <= r < 1.0
    ensures s == i as real * (1.0 / n as real) + r * (1.0 / n as real)
    ensures i as real / n as real <= s < (i + 1) as real / n as real
  {
    var step := 1.0 / n as real;
    s := i as real * step + r * step;
    assert s == (i as real + r) * step;
    assert i as real / n as real == i as real * step;
    assert (i + 1) as real / n as real == (i as real + 1.0) * step;
    assert step > 0.0;
    MulStrict(i as real + r, i as real + 1.0, step);
    MulMono(i as real, i as real + r, step);
  }

  /** Every generated point lies in the cell its index names. */
  lemma GeneratedInCells(position: Vec3, edge1: Vec3, edge2: Vec3, n: nat, randoms: seq<real>, k: nat)
    requires n > 0 && |randoms| == 2 * (n * n) && UnitValues(randoms) && k < n * n
    ensures exists s: real, t: real ::
              && (k / n) as real / n as real <= s < (k / n + 1) as real / n as real
              && (k % n) as real / n as real <= t < (k % n + 1) as real / n as real
              && Generated(position, edge1, edge2, n, randoms)[k] == Add(Add(position, Scale(s, edge1)), Scale(t, edge2))
  {
    CellPointInCell(position, edge1, edge2, n, k / n, k % n, randoms[2 * k], randoms[2 * k + 1]);
  }

  // ---------------------------------------------------------------------
  // Shuffle and grid
  // ---------------------------------------------------------------------

  /** The values `IRandom(0, i)` returns as i counts down from the last
      index: the k-th is at most |s| - 1 - k. */
  predicate ValidPicks(size: nat, picks: seq<nat>) {
    |picks| == size && forall k :: 0 <= k < size ==> picks[k] <= size - 1 - k
  }

  /** The shuffle loop: from the last index down to 0, swap index i with
      the generator's pick in [0, i]. */
  method Shuffle<T>(pts: seq<T>, picks: seq<nat>) returns (s: seq<T>)
    requires ValidPicks(|pts|, picks)
    ensures |s| == |pts| && multiset(s) == multiset(pts)
  {
    s := pts;
    var i: int := |pts| - 1;
    while i >= 0
      invariant -1 <= i < |pts|
      invariant |s| == |pts| && multiset(s) == multiset(pts)
      decreases i + 1
    {
      var r := picks[|pts| - 1 - i];
      s := Swap(s, i, r);
      i := i - 1;
    }
  }

  /** Exchanging two entries keeps the contents. */
  function Swap<T>(s: seq<T>, i: nat, j: nat): (r: seq<T>)
    requires i < |s| && j < |s|
    ensures |r| == |s| && multiset(r) == multiset(s)
    ensures r[i] == s[j] && r[j] == s[i]
    ensures forall k :: 0 <= k < |s| && k != i && k != j ==> r[k] == s[k]
  {
    s[i := s[j]][j := s[i]]
  }

  /** The rows of a grid, one after the other. */
  function Flatten<T>(g: seq<seq<T>>): seq<T> {
    if |g| == 0 then [] else g[0] + Flatten(g[1..])
  }

  /** An n x n grid. */
  predicate Square<T>(g: seq<seq<T>>, n: nat) {
    |g| == n && forall i :: 0 <= i < n ==> |g[i]| == n
  }

  /** The grid-filling loops: row i takes the next n shuffled points, so
      reading the rows back in order gives the shuffled points again (and
      entry (i, j) is point i * n + j, by `FlattenIndex`). */
  method FillGrid<T>(s: seq<T>, n: nat) returns (g: seq<seq<T>>)
    requires |s| == n * n
    ensures Square(g, n)
    ensures Flatten(g) == s
  {
    g := [];
    var index := 0;
    for i := 0 to n
      invariant |g| == i && index == i * n <= n * n
      invariant forall a :: 0 <= a < i ==> |g[a]| == n
      invariant Flatten(g) == s[..index]
    {
      var row := FillRow(s, n, i, index);
      FlattenAppend(g, row);
      g := g + [row];
      index := index + n;
    }
    assert s[..index] == s;
  }

  /** The inner loop for row i: the n points from `index` on. */
  method FillRow<T>(s: seq<T>, n: nat, i: nat, index: nat) returns (row: seq<T>)
    requires |s| == n * n && i < n && index == i * n
    ensures index + n == (i + 1) * n <= n * n
    ensures s[..index + n] == s[..index] + row && |row| == n
  {
    Sampling.MulStrictlyBelow(i, n, n);
    row := [];
    var next := index;
    for j := 0 to n
      invariant |row| == j && next == index + j <= n * n
      invariant s[..next] == s[..index] + row
    {
      assert s[..next + 1] == s[..next] + [s[next]];
      row := row + [s[next]];
      next := next + 1;
    }
  }

  /** In a grid of rows of length n, entry (a, b) is entry a * n + b of
      the flattened grid. */
  lemma {:induction false} FlattenIndex<T>(g: seq<seq<T>>, n: nat, a: nat, b: nat)
    requires forall r :: 0 <= r < |g| ==> |g[r]| == n
    requires a < |g| && b < n
    ensures |Flatten(g)| == |g| * n
    ensures a * n + b < |Flatten(g)| && Flatten(g)[a * n + b] == g[a][b]
    decreases |g|
  {
    FlattenLength(g, n);
    if a > 0 {
      FlattenIndex(g[1..], n, a - 1, b);
      assert Flatten(g) == g[0] + Flatten(g[1..]);
      assert a * n + b == n + ((a - 1) * n + b);
    }
  }

  lemma {:induction false} FlattenLength<T>(g: seq<seq<T>>, n: nat)
    requires forall r :: 0 <= r < |g| ==> |g[r]| == n
    ensures |Flatten(g)| == |g| * n
    decreases |g|
  {
    if |g| > 0 {
      FlattenLength(g[1..], n);
      assert |g| * n == n + (|g| - 1) * n;
    }
  }

  lemma FlattenAppend<T>(g: seq<seq<T>>, row: seq<T>)
    ensures Flatten(g + [row]) == Flatten(g) + row
  {
    if |g| > 0 {
      assert (g + [row])[1..] == g[1..] + [row];
    }
  }

  /** The whole jitter construction: generate, shuffle, lay out. The grid
      is n x n and holds exactly the generated points, each once. */
  method JitterGrid(position: Vec3, edge1: Vec3, edge2: Vec3, n: nat, randoms: seq<real>, picks: seq<nat>)
    returns (g: seq<seq<Vec3>>)
    requires n > 0 && |randoms| == 2 * (n * n) && ValidPicks(n * n, picks)
    ensures Square(g, n)
    ensures multiset(Flatten(g)) == multiset(Generated(position, edge1, edge2, n, randoms))
  {
    var pts := GeneratePoints(position, edge1, edge2, n, randoms);
    var shuffled := Shuffle(pts, picks);
    g := FillGrid(shuffled, n);
  }

  /** Hence every grid entry is one of the generated points, and lies in
      one of the cells. */
  lemma GridEntryGenerated(position: Vec3, edge1: Vec3, edge2: Vec3, n: nat, randoms: seq<real>, g: seq<seq<Vec3>>, i: nat, j: nat)
    requires n > 0 && |randoms| == 2 * (n * n)
    requires Square(g, n) && multiset(Flatten(g)) == multiset(Generated(position, edge1, edge2, n, randoms))
    requires i < n && j < n
    ensures exists k :: 0 <= k < n * n && g[i][j] == Generated(position, edge1, edge2, n, randoms)[k]
  {
    FlattenHolds(g, i, j);
    var x := g[i][j];
    assert x in multiset(Flatten(g));
    assert x in Generated(position, edge1, edge2, n, randoms);
  }

  lemma {:induction false} FlattenHolds<T>(g: seq<seq<T>>, i: nat, j: nat)
    requires i < |g| && j < |g[i]|
    ensures g[i][j] in Flatten(g)
  {
    if i == 0 {
      assert Flatten(g) == g[0] + Flatten(g[1..]);
      assert Flatten(g)[j] == g[0][j];
    } else {
      FlattenHolds(g[1..], i - 1, j);
    }
  }
}

=== FILE: lights.dfy ===
/** Lights (Lights.h, Lights.cpp): point, directional and area lights, the
    direction towards each from a surface point, and the shadow ray cast
    towards it. */
module Lights {

  import opened Wrappers
  import opened Vectors
  import Colors
  import opened Sampling
  import opened Rays
  import opened Jitter

  /** A light and its colour. The directional light stores its direction
      normalised by the constructor; the area light stores its jittered
      point grid. */
  datatype Light =
    | PointLight(position: Vec3, color: Colors.Rgb)
    | DirectionalLight(direction: Vec3, color: Colors.Rgb)
    | AreaLight(position: Vec3, edge1: Vec3, edge2: Vec3, color: Colors.Rgb, points: seq<seq<Vec3>>)

  /** The `DirectionalLight` constructor normalises the given direction. */
  function MakeDirectional(sqrt: real -> real, x: real, y: real, z: real, color: Colors.Rgb): (l: Light)
    requires IsSqrt(sqrt)
    ensures l.DirectionalLight? && l.color == color
    ensures Vec3(x, y, z) != Zero ==> Dot(l.direction, l.direction) == 1.0
  {
    var v := Vec3(x, y, z);
    var d := Normalize(sqrt, v);
    assert v != Zero ==> Dot(d, d) == 1.0 by {
      if v != Zero {
        NormalizeIsUnit(sqrt, v);
      }
    }
    DirectionalLight(d, color)
  }

  /** The `AreaLight` constructor: the jittered grid of `sampleRate` x
      `sampleRate` points over the parallelogram, drawn with the generator
      values `randoms` (two per point) and shuffled with the generator
      picks `picks`. A rate of zero or less leaves the grid empty. */
  method MakeArea(position: Vec3, edge1: Vec3, edge2: Vec3, color: Colors.Rgb, sampleRate: int, randoms: seq<real>, picks: seq<nat>)
    returns (l: Light)
    requires sampleRate > 0 ==> |randoms| == 2 * (sampleRate * sampleRate) && ValidPicks(sampleRate * sampleRate, picks)
    ensures l.AreaLight? && l.position == position && l.edge1 == edge1 && l.edge2 == edge2 && l.color == color
    ensures sampleRate <= 0 ==> l.points == []
    ensures sampleRate > 0 ==>
              && Square(l.points, sampleRate)
              && multiset(Flatten(l.points)) == multiset(Generated(position, edge1, edge2, sampleRate, randoms))
  {
    var grid: seq<seq<Vec3>> := [];
    if sampleRate > 0 {
      grid := JitterGrid(position, edge1, edge2, sampleRate, randoms, picks);
    }
    l := AreaLight(position, edge1, edge2, color, grid);
  }

  /** `getIncidence`: the normalised direction from the point towards the
      light. For an area light the target is the grid point of the view
      ray's sub-pixel cell; None where that cell is outside the grid (the
      source indexes past the end). */
  function Incidence(sqrt: real -> real, l: Light, point: Vec3, view: Sample): (d: Option<Vec3>)
    ensures l.PointLight? ==> d == Some(Normalize(sqrt, Sub(l.position, point)))
    ensures l.DirectionalLight? ==> d == Some(Neg(l.direction))
    ensures l.AreaLight? ==>
              && (d.Some? <==> view.p < |l.points| && view.q < |l.points[view.p]|)
              && (d.Some? ==> d.value == Normalize(sqrt, Sub(l.points[view.p][view.q], point)))
  {
    match l
    case PointLight(position, _) => Some(Normalize(sqrt, Sub(position, point)))
    case DirectionalLight(direction, _) => Some(Neg(direction))
    case AreaLight(_, _, _, _, points) =>
      if view.p < |points| && view.q < |points[view.p]| then
        Some(Normalize(sqrt, Sub(points[view.p][view.q], point)))
      else None
  }

  /** `getShadowRay`: from the start point along the incidence, with the
      view ray's sample. A point light's ray spans [bias, 1] and has no
      last hit; a directional light's spans [bias, DBL_MAX] and an area
      light's [bias, 1], both inheriting the view ray's last hit. */
  function ShadowRay(sqrt: real -> real, l: Light, start: Vec3, bias: real, view: Ray): (r: Option<Ray>)
    ensures r.Some? <==> Incidence(sqrt, l, start, view.sample).Some?
    ensures r.Some? ==>
              && r.value.origin == start && r.value.direction == Incidence(sqrt, l, start, view.sample).value
              && r.value.tMin == bias && r.value.sample == view.sample && SignsMatch(r.value)
    ensures r.Some? && l.PointLight? ==> r.value.tMax == 1.0 && r.value.lastHit.None?
    ensures r.Some? && l.DirectionalLight? ==> r.value.tMax == DoubleMax && r.value.lastHit == view.lastHit
    ensures r.Some? && l.AreaLight? ==> r.value.tMax == 1.0 && r.value.lastHit == view.lastHit
  {
    match Incidence(sqrt, l, start, view.sample)
    case None => None
    case Some(d) =>
      match l
      case PointLight(_, _) => Some(FromDirection(start, bias, 1.0, d, view.sample, None))
      case DirectionalLight(_, _) => Some(FromDirection(start, bias, DoubleMax, d, view.sample, view.lastHit))
      case AreaLight(_, _, _, _, _) => Some(FromDirection(start, bias, 1.0, d, view.sample, view.lastHit))
  }

  /** The shadow ray of a point light is a unit ray cut off at parameter
      1: it reaches the light exactly at the light's distance, so the light
      lies within the ray's interval only when it is no farther than 1
      from the start point (and at least the bias away). */
  lemma PointShadowRayReach(sqrt: real -> real, position: Vec3, color: Colors.Rgb, start: Vec3, bias: real, view: Ray)
    requires IsSqrt(sqrt) && position != start
    ensures var r := ShadowRay(sqrt, PointLight(position, color), start, bias, view).value;
            var dist := Length(sqrt, Sub(position, start));
            && dist > 0.0
            && Dot(r.direction, r.direction) == 1.0
            && IntersectionPoint(r, dist) == position
            && (IsWithinBounds(r, dist) <==> bias <= dist <= 1.0)
  {
    var v := Sub(position, start);
    NormalizeIsUnit(sqrt, v);
    DotSelfNonNegative(v);
    var dist := Length(sqrt, v);
    assert dist * dist == Dot(v, v);
    SquarePositive(dist);
    var r := ShadowRay(sqrt, PointLight(position, color), start, bias, view).value;
    assert r.direction == Scale(1.0 / dist, v);
    ScaleBack(dist, v);
  }

  /** Going the vector's length along its normalised direction lands on
      the vector's tip. */
  lemma ScaleBack(len: real, v: Vec3)
    requires len != 0.0
    ensures Scale(len, Scale(1.0 / len, v)) == v
  {
    assert len * (1.0 / len) == 1.0;
    assert len * ((1.0 / len) * v.x) == v.x;
    assert len * ((1.0 / len) * v.y) == v.y;
    assert len * ((1.0 / len) * v.z) == v.z;
  }

  /** A directional light's incidence does not depend on the point. */
  lemma DirectionalIncidenceConstant(sqrt: real -> real, l: Light, p1: Vec3, p2: Vec3, s1: Sample, s2: Sample)
    requires l.DirectionalLight?
    ensures Incidence(sqrt, l, p1, s1) == Incidence(sqrt, l, p2, s2) == Some(Neg(l.direction))
  {
  }

  /** An area light built with the sampler's rate has a target for every
      sample the sampler emits. */
  lemma AreaTargetsEverySample(sqrt: real -> real, l: Light, n: nat, point: Vec3, s: Sample)
    requires l.AreaLight? && Square(l.points, n) && s.p < n && s.q < n
    ensures Incidence(sqrt, l, point, s).Some?
  {
  }
}

=== FILE: material.dfy ===
/** Materials (Material.h, Material.cpp): the reflectance coefficients of
    a surface, optionally modulated by a texture map looked up at the
    shape's texture coordinate. */
module Materials {

  import opened Wrappers
  import opened Vectors
  import opened Colors
  import opened Shapes
  import opened Numbers

  /** `Reflectance`: ambient, diffuse, specular, mirror and transmission
      colours, the index of refraction and the Phong exponent. */
  datatype Reflectance = Reflectance(kA: Rgb, kD: Rgb, kS: Rgb, kR: Rgb, kT: Rgb, index: real, pExp: real)

  /** One texel: the red, green and blue bytes. */
  datatype Texel = Texel(red: nat, green: nat, blue: nat)

  predicate ByteTexel(p: Texel) {
    p.red < 256 && p.green < 256 && p.blue < 256
  }

  /** A loaded texture map: `width` columns and `height` rows of texels,
      row j holding the texels (i, j). Decoding the image file is not
      modelled; the texels are given. */
  datatype Texture = Texture(width: nat, height: nat, rows: seq<seq<Texel>>)

  predicate ValidTexture(t: Texture) {
    && |t.rows| == t.height
    && (forall j :: 0 <= j < |t.rows| ==> |t.rows[j]| == t.width)
    && (forall j, i :: 0 <= j < |t.rows| && 0 <= i < |t.rows[j]| ==> ByteTexel(t.rows[j][i]))
  }

  /** `((unsigned int)(x * size)) % size`: the truncating conversion and
      the wrap onto the map. None where the source's behaviour is
      undefined: an empty map (remainder by zero) or a product whose
      truncation is not an `unsigned int`. A product in (-1, 0) truncates
      to 0 and picks the first texel. */
  function TexelIndex(x: real, size: nat): (i: Option<nat>)
    ensures i.Some? ==> i.value < size
    ensures i.Some? <==> size > 0 && -1.0 < x * size as real < UIntLimit as real
    ensures i.Some? && x * size as real >= 0.0 ==> i.value == (x * size as real).Floor % size
    ensures i.Some? && x * size as real < 0.0 ==> i.value == 0
  {
    if size == 0 then None
    else match ToUnsigned(x * size as real)
      case None => None
      case Some(k) => Some(k % size)
  }

  /** A coordinate in [0, 1) picks the texel its scaled value falls in
      (no wrap); the coordinate 1 wraps round to the first texel. */
  lemma TexelIndexInUnitRange(x: real, size: nat)
    requires 0 < size < UIntLimit && 0.0 <= x <= 1.0
    ensures TexelIndex(x, size).Some?
    ensures x < 1.0 ==> var i := TexelIndex(x, size).value;
                        i as real <= x * size as real < i as real + 1.0
    ensures x == 1.0 ==> TexelIndex(x, size) == Some(0)
  {
    var y := x * size as real;
    ScaledInRange(x, size as real, y);
    TexelIndexAt(x, size, y);
    if x < 1.0 {
      FloorBelow(y, size);
    } else {
      ModSelf(y, size);
    }
  }

  lemma TexelIndexAt(x: real, size: nat, y: real)
    requires 0 < size < UIntLimit && y == x * size as real && 0.0 <= y <= size as real
    ensures TexelIndex(x, size) == Some(y.Floor % size)
  {
  }

  lemma ModSelf(y: real, n: nat)
    requires n > 0 && y == n as real
    ensures y.Floor % n == 0
  {
    assert y.Floor == n;
  }

  lemma ScaledInRange(x: real, n: real, y: real)
    requires 0.0 <= x <= 1.0 && n > 0.0 && y == x * n
    ensures 0.0 <= y <= n
    ensures x < 1.0 ==> y < n
  {
    assert Vectors.Mul(x, n) == y;
    Vectors.MulMono(x, 1.0, n);
    Vectors.MulMono(0.0, x, n);
    if x < 1.0 {
      Vectors.MulStrict(x, 1.0, n);
    }
  }

  lemma FloorBelow(y: real, n: nat)
    requires 0.0 <= y < n as real
    ensures 0 <= y.Floor < n
    ensures y.Floor % n == y.Floor
  {
  }

  /** `getColor`: the texel at the wrapped indices, each byte over 255. */
  function GetColor(t: Texture, uv: Vec2): (c: Option<Rgb>)
    requires ValidTexture(t)
    ensures c.Some? ==> InUnitCube(c.value)
    ensures c.Some? <==> TexelIndex(uv.u, t.width).Some? && TexelIndex(uv.v, t.height).Some?
  {
    match (TexelIndex(uv.u, t.width), TexelIndex(uv.v, t.height))
    case (Some(i), Some(j)) =>
      var p := t.rows[j][i];
      Some(Rgb(p.red as real / 255.0, p.green as real / 255.0, p.blue as real / 255.0))
    case _ => None
  }

  /** `Material` with a fixed reflectance, or `TexturedMaterial` with a
      texture and the `rough` flag. */
  datatype Material =
    | Plain(reflectance: Reflectance)
    | Textured(reflectance: Reflectance, texture: Texture, rough: bool)

  /** `after` is `before` with each channel scaled by the same channel of
      the texel colour `c`. */
  predicate Tinted(before: Rgb, c: Rgb, after: Rgb) {
    after.r == before.r * c.r && after.g == before.g * c.g && after.b == before.b * c.b
  }

  /** `TexturedMaterial::multiply`: ambient and diffuse are tinted by the
      texture colour, specular and mirror only for a rough material; the
      rest is kept. */
  function Multiply(ref: Reflectance, color: Rgb, rough: bool): (r: Reflectance)
    ensures r.(kA := ref.kA, kD := ref.kD, kS := ref.kS, kR := ref.kR) == ref
    ensures Tinted(ref.kA, color, r.kA) && Tinted(ref.kD, color, r.kD)
    ensures rough ==> Tinted(ref.kS, color, r.kS) && Tinted(ref.kR, color, r.kR)
    ensures !rough ==> r.kS == ref.kS && r.kR == ref.kR
  {
    var r := ref.(kA := Colors.Mul(ref.kA, color), kD := Colors.Mul(ref.kD, color));
    if rough then r.(kS := Colors.Mul(ref.kS, color), kR := Colors.Mul(ref.kR, color)) else r
  }

  /** A white texel leaves the reflectance alone, a black one removes the
      tinted terms, and tinting twice is tinting once by the product. */
  lemma MultiplyLaws(ref: Reflectance, c1: Rgb, c2: Rgb, rough: bool)
    ensures Multiply(ref, White, rough) == ref
    ensures Multiply(ref, Black, rough).kA == Black && Multiply(ref, Black, rough).kD == Black
    ensures rough ==> Multiply(ref, Black, rough).kS == Black && Multiply(ref, Black, rough).kR == Black
    ensures Multiply(Multiply(ref, c1, rough), c2, rough) == Multiply(ref, Colors.Mul(c1, c2), rough)
  {
    MulUnits(ref.kA);
    MulUnits(ref.kD);
    MulUnits(ref.kS);
    MulUnits(ref.kR);
    MulAssociative(ref.kA, c1, c2);
    MulAssociative(ref.kD, c1, c2);
    MulAssociative(ref.kS, c1, c2);
    MulAssociative(ref.kR, c1, c2);
  }

  predicate ValidMaterial(m: Material) {
    m.Textured? ==> ValidTexture(m.texture)
  }

  /** `getReflectance(point, shape)`: the stored reflectance, or for a
      textured material the stored reflectance tinted by the texel at the
      shape's texture coordinate of the point. None where the texel lookup
      is undefined. */
  function GetReflectance(trig: Trig, m: Material, point: Vec3, shape: Shape): (r: Option<Reflectance>)
    requires ValidMaterial(m) && ValidShape(shape) && (m.Textured? ==> HasTextureCoordinates(shape)) && trig.pi > 0.0
    ensures m.Plain? ==> r == Some(m.reflectance)
    ensures m.Textured? ==>
              var c := GetColor(m.texture, TextureCoordinate(trig, shape, point));
              && (r.Some? <==> c.Some?)
              && (r.Some? ==> r.value == Multiply(m.reflectance, c.value, m.rough))
  {
    match m
    case Plain(refl) => Some(refl)
    case Textured(refl, texture, rough) =>
      match GetColor(texture, TextureCoordinate(trig, shape, point))
      case None => None
      case Some(c) => Some(Multiply(refl, c, rough))
  }

  /** A texel in the unit cube never brightens: with a non-negative
      ambient colour, the tinted ambient colour stays componentwise below
      the untinted one. */
  lemma TextureNeverBrightens(ref: Reflectance, color: Rgb, rough: bool)
    requires InUnitCube(color)
    requires 0.0 <= ref.kA.r && 0.0 <= ref.kA.g && 0.0 <= ref.kA.b
    ensures var r := Multiply(ref, color, rough);
            r.kA.r <= ref.kA.r && r.kA.g <= ref.kA.g && r.kA.b <= ref.kA.b
  {
    Vectors.MulMono(color.r, 1.0, ref.kA.r);
    Vectors.MulMono(color.g, 1.0, ref.kA.g);
    Vectors.MulMono(color.b, 1.0, ref.kA.b);
    Vectors.MulComm(color.r, ref.kA.r);
    Vectors.MulComm(color.g, ref.kA.g);
    Vectors.MulComm(color.b, ref.kA.b);
  }
}

=== FILE: numbers.dfy ===
/** The C++ conversions between `double` and `unsigned int` that the film
    and the texture lookup rely on. */
module Numbers {

  import opened Wrappers

  /** 2^32: one past the largest `unsigned int`. */
  const UIntLimit: int := 0x1_0000_0000

  /** `(unsigned int)x`: truncation toward zero. Defined when the truncated
      value is representable, that is for -1 < x < 2^32; elsewhere the
      conversion is undefined behaviour in C++ and the result is None. */
  function ToUnsigned(x: real): (r: Option<nat>)
    ensures r.Some? <==> -1.0 < x < UIntLimit as real
    ensures r.Some? ==> r.value < UIntLimit
    ensures r.Some? && x >= 0.0 ==> r.value as real <= x < r.value as real + 1.0
    ensures r.Some? && x < 0.0 ==> r.value == 0
  {
    if x <= -1.0 || x >= UIntLimit as real then None
    else if x < 0.0 then Some(0)
    else Some(x.Floor as nat)
  }

  /** Truncation toward zero: the result is the whole number whose unit
      interval, taken on the side of zero, holds x; so on [0, 2^32) it is
      the floor, and any whole number n below 2^32 converts to itself. */
  lemma ToUnsignedTruncates(x: real, n: nat)
    requires n < UIntLimit
    ensures x >= 0.0 && n as real <= x < n as real + 1.0 ==> ToUnsigned(x) == Some(n)
    ensures -1.0 < x < 0.0 ==> ToUnsigned(x) == Some(0)
    ensures ToUnsigned(n as real) == Some(n)
  {
    if x >= 0.0 && n as real <= x < n as real + 1.0 {
      FloorUnique(x, n);
    }
    FloorUnique(n as real, n);
  }

  /** The floor of x is the whole number whose unit interval holds x. */
  lemma FloorUnique(x: real, n: int)
    requires n as real <= x < n as real + 1.0
    ensures x.Floor == n
  {
  }
}

=== FILE: obj_parser.dfy ===
/** The OBJ reader (objParser.h, objParser.cpp): one line at a time it
    collects vertices, normals and texture coordinates into a mesh and
    turns faces into triangles, either flat triangles holding copies of
    their corners or mesh triangles holding indices into the mesh. */
module ObjParsing {

  import opened Wrappers
  import opened Vectors
  import opened Shapes
  import opened Tokens
  import opened Numbers

  /** The face-group rewrite: every '/' becomes a space. */
  function SpaceSlashes(g: string): (r: string)
    ensures |r| == |g|
    ensures forall k :: 0 <= k < |r| ==> r[k] != '/' && (g[k] != '/' ==> r[k] == g[k])
  {
    seq(|g|, k requires 0 <= k < |g| => if g[k] == '/' then ' ' else g[k])
  }

  predicate NoSlash(w: string) {
    forall k :: 0 <= k < |w| ==> w[k] != '/'
  }

  /** `v/t/n` reads as the three words v, t and n. */
  lemma SlashGroup(a: string, b: string, c: string)
    requires IsWord(a) && IsWord(b) && IsWord(c) && NoSlash(a) && NoSlash(b) && NoSlash(c)
    ensures Words(SpaceSlashes(a + ['/'] + b + ['/'] + c)) == [a, b, c]
  {
    var g := a + ['/'] + b + ['/'] + c;
    var t := a + [' '] + b + [' '] + c;
    assert SpaceSlashes(g) == t;
    assert Join([a, b, c]) == t by {
      assert [a, b, c][1..] == [b, c];
      assert [b, c][1..] == [c];
      assert Join([b, c]) == b + [' '] + c;
      assert a + [' '] + (b + [' '] + c) == t;
    }
    WordsOfJoin([a, b, c]);
  }

  /** `v//n`, a face corner without a texture index, reads as two words
      only. */
  lemma EmptySlotGroup(a: string, c: string)
    requires IsWord(a) && IsWord(c) && NoSlash(a) && NoSlash(c)
    ensures Words(SpaceSlashes(a + ['/', '/'] + c)) == [a, c]
  {
    var g := a + ['/', '/'] + c;
    var t := a + [' ', ' '] + c;
    assert SpaceSlashes(g) == t;
    var rest := [' ', ' '] + c;
    assert t == a + rest;
    WordsAfterWord(a, rest);
    WordsSkipSpace(rest);
    assert rest[1..] == [' '] + c;
    WordsSkipSpace([' '] + c);
    assert ([' '] + c)[1..] == c;
    WordsAfterWord(c, []);
    assert c + [] == c;
  }

  // ---------------------------------------------------------------------
  // Texture coordinates
  // ---------------------------------------------------------------------

  predicate InUnit(x: real) {
    0.0 <= x <= 1.0
  }

  predicate IsInteger(x: real) {
    x.Floor as real == x
  }

  lemma IntegerShift(y: real, d: int)
    requires IsInteger(y)
    ensures IsInteger(y + d as real)
  {
    FloorUnique(y + d as real, y.Floor + d);
  }

  /** `while (x > 1) x--`. */
  function WrapDown(x: real): (r: real)
    ensures r <= 1.0 && IsInteger(x - r)
    ensures x > 1.0 ==> 0.0 < r
    ensures x <= 1.0 ==> r == x
    decreases x.Floor
  {
    if x > 1.0 then
      FloorUnique(x - 1.0, x.Floor - 1);
      var r := WrapDown(x - 1.0);
      IntegerShift(x - 1.0 - r, 1);
      r
    else
      FloorUnique(0.0, 0);
      x
  }

  /** `while (x < 0) x++`. */
  function WrapUp(x: real): (r: real)
    ensures 0.0 <= r && IsInteger(r - x)
    ensures x < 0.0 ==> r < 1.0
    ensures x >= 0.0 ==> r == x
    decreases -x.Floor
  {
    if x < 0.0 then
      FloorUnique(x + 1.0, x.Floor + 1);
      var r := WrapUp(x + 1.0);
      IntegerShift(r - (x + 1.0), 1);
      r
    else
      FloorUnique(0.0, 0);
      x
  }

  /** The correction of a texture coordinate: shifted by a whole number
      into [0, 1]; a coordinate above 1 lands in (0, 1], one below 0 in
      [0, 1), one already inside stays put. */
  function WrapUnit(x: real): (r: real)
    ensures InUnit(r) && IsInteger(x - r)
    ensures x > 1.0 ==> 0.0 < r
    ensures x < 0.0 ==> r < 1.0
    ensures InUnit(x) ==> r == x
  {
    var d := WrapDown(x);
    var r := WrapUp(d);
    IntegerDifference(x - d, r - d);
    assert x - r == (x - d) - (r - d);
    r
  }

  /** The correction is determined by its contract: the only whole-number
      shift of x into (0, 1] (for x above 1) or [0, 1) (otherwise). */
  lemma WrapUnitUnique(x: real, y: real)
    requires IsInteger(x - y)
    requires if x > 1.0 then 0.0 < y <= 1.0 else if x < 0.0 then 0.0 <= y < 1.0 else y == x
    ensures WrapUnit(x) == y
  {
    var r := WrapUnit(x);
    var d := r - y;
    assert d == (x - y) - (x - r);
    IntegerDifference(x - y, x - r);
  }

  lemma IntegerDifference(a: real, b: real)
    requires IsInteger(a) && IsInteger(b)
    ensures IsInteger(a - b)
  {
    FloorUnique(a - b, a.Floor - b.Floor);
  }

  lemma WrapUnitIdempotent(x: real)
    ensures WrapUnit(WrapUnit(x)) == WrapUnit(x)
  {
  }

  // ---------------------------------------------------------------------
  // Parser state
  // ---------------------------------------------------------------------

  /** An entry of `triangles`: a flat triangle with its corners copied, or
      a mesh triangle holding vertex, normal and texture indices. */
  datatype Tri =
    | Flat(a: Vec3, b: Vec3, c: Vec3)
    | Indexed(vertI: Index3, normI: Index3, texI: Index3, wireframe: bool)

  /** A triangle as pushed onto `triangles`: wrapped in the file's
      transform unless that transform is the identity. */
  datatype Face = Face(tri: Tri, transformed: bool)

  /** The fields of the parser. */
  datatype Parser = Parser(
    mesh: Mesh,
    triangles: seq<Face>,
    phongNormals: seq<Vec3>,
    vertsParsed: nat,
    phong: bool,
    wireframe: bool,
    transformed: bool)

  /** The constructor's state before the first line. */
  function Start(phong: bool, wireframe: bool, transformed: bool): (p: Parser)
    ensures Inv(p) && p.triangles == [] && p.mesh == Mesh([], [], [])
    ensures p.phong == phong && p.wireframe == wireframe && p.transformed == transformed
  {
    Parser(Mesh([], [], []), [], [], 0, phong, wireframe, transformed)
  }

  predicate SameSettings(p: Parser, q: Parser) {
    p.phong == q.phong && p.wireframe == q.wireframe && p.transformed == q.transformed
  }

  predicate FaceIndicesValid(p: Parser, f: Face) {
    f.tri.Indexed? ==>
      && IndicesIn(p.mesh.vertices, f.tri.vertI)
      && (p.phong ==> f.tri.normI == f.tri.vertI && IndicesIn(p.phongNormals, f.tri.normI))
  }

  /** What every line keeps: the Phong normals lag the vertices by exactly
      the vertices read since the last full face, every mesh triangle
      indexes vertices that exist (and, when Phong shading, Phong normals
      that exist), and every texture coordinate is in the unit square. */
  predicate Inv(p: Parser) {
    && |p.phongNormals| + p.vertsParsed == |p.mesh.vertices|
    && (forall k :: 0 <= k < |p.triangles| ==> FaceIndicesValid(p, p.triangles[k]))
    && (forall k :: 0 <= k < |p.mesh.textures| ==> InUnit(p.mesh.textures[k].u) && InUnit(p.mesh.textures[k].v))
  }

  // ---------------------------------------------------------------------
  // Lines
  // ---------------------------------------------------------------------

  function ParseVertex(p: Parser, rd: Reader, args: seq<string>): (r: Option<Parser>)
    ensures r.Some? <==> ReadMany(rd.toReal, args, 3).Some?
    ensures r.Some? ==> var xs := ReadMany(rd.toReal, args, 3).value;
              && r.value == p.(mesh := p.mesh.(vertices := p.mesh.vertices + [Vec3(xs[0], xs[1], xs[2])]),
                               vertsParsed := p.vertsParsed + 1)
  {
    match ReadMany(rd.toReal, args, 3)
    case None => None
    case Some(xs) =>
      Some(p.(mesh := p.mesh.(vertices := p.mesh.vertices + [Vec3(xs[0], xs[1], xs[2])]),
              vertsParsed := p.vertsParsed + 1))
  }

  function ParseNormal(p: Parser, rd: Reader, args: seq<string>): (r: Option<Parser>)
    ensures r.Some? <==> ReadMany(rd.toReal, args, 3).Some?
    ensures r.Some? ==> var xs := ReadMany(rd.toReal, args, 3).value;
              r.value == p.(mesh := p.mesh.(normals := p.mesh.normals + [Vec3(xs[0], xs[1], xs[2])]))
  {
    match ReadMany(rd.toReal, args, 3)
    case None => None
    case Some(xs) => Some(p.(mesh := p.mesh.(normals := p.mesh.normals + [Vec3(xs[0], xs[1], xs[2])])))
  }

  function ParseTexture(p: Parser, rd: Reader, args: seq<string>): (r: Option<Parser>)
    ensures r.Some? <==> ReadMany(rd.toReal, args, 2).Some?
    ensures r.Some? ==> var xs := ReadMany(rd.toReal, args, 2).value;
              && r.value.mesh.textures == p.mesh.textures + [Vec2(WrapUnit(xs[0]), WrapUnit(xs[1]))]
              && r.value == p.(mesh := r.value.mesh)
              && r.value.mesh == p.mesh.(textures := r.value.mesh.textures)
  {
    match ReadMany(rd.toReal, args, 2)
    case None => None
    case Some(xs) => Some(p.(mesh := p.mesh.(textures := p.mesh.textures + [Vec2(WrapUnit(xs[0]), WrapUnit(xs[1]))])))
  }

  /** A face while the mesh lacks normals or texture coordinates: three
      1-based vertex indices; a face naming a vertex twice is skipped. An
      index outside the vertex list, which the source reads past, is a
      failure here. */
  function ParseFlatFace(p: Parser, rd: Reader, args: seq<string>): (r: Option<Parser>)
    ensures ReadMany(rd.toInt, args, 3).None? ==> r.None?
    ensures ReadMany(rd.toInt, args, 3).Some? ==> var ix := ReadMany(rd.toInt, args, 3).value;
              var vs := p.mesh.vertices;
              && (ix[0] == ix[1] || ix[0] == ix[2] || ix[1] == ix[2] ==> r == Some(p))
              && (!(ix[0] == ix[1] || ix[0] == ix[2] || ix[1] == ix[2]) ==>
                    && (r.Some? <==> 0 <= ix[0] - 1 < |vs| && 0 <= ix[1] - 1 < |vs| && 0 <= ix[2] - 1 < |vs|)
                    && (r.Some? ==>
                          r.value == p.(triangles := p.triangles + [Face(Flat(vs[ix[0] - 1], vs[ix[1] - 1], vs[ix[2] - 1]), p.transformed)])))
  {
    match ReadMany(rd.toInt, args, 3)
    case None => None
    case Some(ix) =>
      var a, b, c := ix[0], ix[1], ix[2];
      var vs := p.mesh.vertices;
      if a == b || a == c || b == c then Some(p)
      else if 0 <= a - 1 < |vs| && 0 <= b - 1 < |vs| && 0 <= c - 1 < |vs| then
        Some(p.(triangles := p.triangles + [Face(Flat(vs[a - 1], vs[b - 1], vs[c - 1]), p.transformed)]))
      else None
  }

  /** The vertex, texture and normal indices of one `v/t/n` group, as
      written (1-based). */
  function GroupIndices(rd: Reader, group: string): (r: Option<(int, int, int)>)
    ensures r.Some? <==> ReadMany(rd.toInt, Words(SpaceSlashes(group)), 3).Some?
    ensures r.Some? ==> var ix := ReadMany(rd.toInt, Words(SpaceSlashes(group)), 3).value;
                        r.value == (ix[0], ix[1], ix[2])
  {
    match ReadMany(rd.toInt, Words(SpaceSlashes(group)), 3)
    case None => None
    case Some(ix) => Some((ix[0], ix[1], ix[2]))
  }

  /** The 0-based indices one corner of a face contributes. */
  datatype Corner = Corner(vert: int, norm: int, tex: int)

  /** A group reads as a corner: it yields three indices, and under Phong
      shading its vertex names one of the `count` Phong normals and its
      normal one of `normals`. */
  predicate CornerReads(rd: Reader, normals: seq<Vec3>, phong: bool, count: nat, group: string) {
    && GroupIndices(rd, group).Some?
    && (phong ==> var (v, _, n) := GroupIndices(rd, group).value;
                  0 <= v - 1 < count && 0 <= n - 1 < |normals|)
  }

  /** One corner of a full face: indices made 0-based; with Phong shading
      the corner's normal is added into the Phong normal of its vertex,
      which becomes the corner's normal index. */
  function ParseCorner(rd: Reader, normals: seq<Vec3>, phong: bool, pn: seq<Vec3>, group: string): (r: Option<(Corner, seq<Vec3>)>)
    ensures r.Some? <==> CornerReads(rd, normals, phong, |pn|, group)
    ensures r.Some? ==> var (v, t, n) := GroupIndices(rd, group).value;
              && r.value.0.vert == v - 1 && r.value.0.tex == t - 1
              && r.value.0.norm == (if phong then v - 1 else n - 1)
              && |r.value.1| == |pn|
              && (phong ==> 0 <= v - 1 < |pn| && 0 <= n - 1 < |normals|
                            && r.value.1[v - 1] == Add(pn[v - 1], normals[n - 1]))
              && (forall k :: 0 <= k < |pn| && (!phong || k != v - 1) ==> r.value.1[k] == pn[k])
    ensures r.Some? ==> r.value.1 == if phong then AddNormal(rd, normals, pn, group) else pn
  {
    match GroupIndices(rd, group)
    case None => None
    case Some((v, t, n)) =>
      if !phong then Some((Corner(v - 1, n - 1, t - 1), pn))
      else if 0 <= v - 1 < |pn| && 0 <= n - 1 < |normals| then
        Some((Corner(v - 1, v - 1, t - 1), pn[v - 1 := Add(pn[v - 1], normals[n - 1])]))
      else None
  }

  /** The Phong normals after a face's groups are read: in order, each
      group whose vertex and normal indices are in range adds its normal
      into the Phong normal of its vertex. */
  function Accumulate(rd: Reader, normals: seq<Vec3>, pn: seq<Vec3>, groups: seq<string>): (r: seq<Vec3>)
    ensures |r| == |pn|
    decreases |groups|
  {
    if groups == [] then pn
    else Accumulate(rd, normals, AddNormal(rd, normals, pn, groups[0]), groups[1..])
  }

  /** One step of `Accumulate`: the group's normal added into the Phong
      normal of its vertex, when both indices are in range. */
  function AddNormal(rd: Reader, normals: seq<Vec3>, pn: seq<Vec3>, group: string): (r: seq<Vec3>)
    ensures |r| == |pn|
    ensures forall k :: 0 <= k < |pn| ==> r[k] == Add(pn[k], GroupShare(rd, normals, |pn|, group, k))
  {
    match GroupIndices(rd, group)
    case Some((v, _, n)) =>
      if 0 <= v - 1 < |pn| && 0 <= n - 1 < |normals| then pn[v - 1 := Add(pn[v - 1], normals[n - 1])] else pn
    case None => pn
  }

  /** The normal a group adds into the Phong normal of vertex k: its own
      normal when it names vertex k (one of `count`) and an existing
      normal, nothing otherwise. */
  function GroupShare(rd: Reader, normals: seq<Vec3>, count: nat, group: string, k: int): Vec3 {
    match GroupIndices(rd, group)
    case Some((v, _, n)) => if v - 1 == k && 0 <= v - 1 < count && 0 <= n - 1 < |normals| then normals[n - 1] else Zero
    case None => Zero
  }

  /** The sum of the normals the groups add into the Phong normal of
      vertex k. */
  function Contribution(rd: Reader, normals: seq<Vec3>, count: nat, groups: seq<string>, k: int): Vec3
    decreases |groups|
  {
    if groups == [] then Zero
    else Add(GroupShare(rd, normals, count, groups[0], k), Contribution(rd, normals, count, groups[1..], k))
  }

  /** Accumulating leaves each Phong normal equal to its old value plus
      the normals of every group naming its vertex. */
  lemma {:induction false} AccumulateSums(rd: Reader, normals: seq<Vec3>, pn: seq<Vec3>, groups: seq<string>, k: int)
    requires 0 <= k < |pn|
    ensures Accumulate(rd, normals, pn, groups)[k] == Add(pn[k], Contribution(rd, normals, |pn|, groups, k))
    decreases |groups|
  {
    if groups != [] {
      var pn1 := AddNormal(rd, normals, pn, groups[0]);
      assert pn1[k] == Add(pn[k], GroupShare(rd, normals, |pn|, groups[0], k));
      AccumulateSums(rd, normals, pn1, groups[1..], k);
    }
  }

  /** The corners of a face, group by group, threading the Phong normals. */
  function ParseCorners(rd: Reader, normals: seq<Vec3>, phong: bool, pn: seq<Vec3>, groups: seq<string>): (r: Option<(seq<Corner>, seq<Vec3>)>)
    ensures r.Some? ==> |r.value.0| == |groups| && |r.value.1| == |pn|
    ensures r.Some? ==> forall k :: 0 <= k < |groups| ==>
              && GroupIndices(rd, groups[k]).Some?
              && r.value.0[k].vert == GroupIndices(rd, groups[k]).value.0 - 1
              && r.value.0[k].tex == GroupIndices(rd, groups[k]).value.1 - 1
              && (phong ==> r.value.0[k].norm == r.value.0[k].vert && 0 <= r.value.0[k].vert < |pn|)
              && (!phong ==> r.value.0[k].norm == GroupIndices(rd, groups[k]).value.2 - 1)
    ensures r.Some? <==> forall k :: 0 <= k < |groups| ==> CornerReads(rd, normals, phong, |pn|, groups[k])
    ensures r.Some? ==> r.value.1 == if phong then Accumulate(rd, normals, pn, groups) else pn
    decreases |groups|
  {
    if groups == [] then Some(([], pn))
    else match ParseCorner(rd, normals, phong, pn, groups[0])
      case None => None
      case Some((c, pn1)) =>
        match ParseCorners(rd, normals, phong, pn1, groups[1..])
        case None => None
        case Some((cs, pn2)) => Some(([c] + cs, pn2))
  }

  /** The three groups `ss >> group` reads; a missing one is empty. */
  function Groups(args: seq<string>): (gs: seq<string>)
    ensures |gs| == 3
    ensures forall k :: 0 <= k < 3 ==> gs[k] == if k < |args| then args[k] else []
  {
    seq(3, k requires 0 <= k < 3 => if k < |args| then args[k] else [])
  }

  /** The positions of the three vertices a full face names, when all
      three groups yield indices that lie inside the vertex list. */
  function FacePositions(p: Parser, rd: Reader, args: seq<string>): Option<(Vec3, Vec3, Vec3)> {
    var gs := Groups(args);
    var vs := p.mesh.vertices;
    match (GroupIndices(rd, gs[0]), GroupIndices(rd, gs[1]), GroupIndices(rd, gs[2]))
    case (Some((v0, _, _)), Some((v1, _, _)), Some((v2, _, _))) =>
      if 0 <= v0 - 1 < |vs| && 0 <= v1 - 1 < |vs| && 0 <= v2 - 1 < |vs| then Some((vs[v0 - 1], vs[v1 - 1], vs[v2 - 1]))
      else None
    case _ => None
  }

  /** A face of a mesh with normals and texture coordinates: the Phong
      normals first grow to cover every vertex read so far; each group
      `v/t/n` gives a corner; a face with two corners at the same position
      is skipped, after its normals were accumulated. A vertex index
      outside the list, which the source reads past, is a failure here. */
  function ParseMeshFace(p: Parser, rd: Reader, args: seq<string>): (r: Option<Parser>)
    ensures r.Some? ==> && r.value.mesh == p.mesh && r.value.vertsParsed == 0
                        && |r.value.phongNormals| == |p.phongNormals| + p.vertsParsed
                        && SameSettings(p, r.value)
                        && (r.value.triangles == p.triangles || (|r.value.triangles| == |p.triangles| + 1 && r.value.triangles[..|p.triangles|] == p.triangles))
    ensures r.Some? ==> forall k :: 0 <= k < 3 ==> GroupIndices(rd, Groups(args)[k]).Some?
    ensures r.Some? ==> var pn0 := p.phongNormals + seq(p.vertsParsed, _ => Zero);
                        r.value.phongNormals == if p.phong then Accumulate(rd, p.mesh.normals, pn0, Groups(args)) else pn0
  {
    var pn0 := p.phongNormals + seq(p.vertsParsed, _ => Zero);
    match ParseCorners(rd, p.mesh.normals, p.phong, pn0, Groups(args))
    case None => None
    case Some((cs, pn)) =>
      var vertI := Index3(cs[0].vert, cs[1].vert, cs[2].vert);
      var normI := Index3(cs[0].norm, cs[1].norm, cs[2].norm);
      var texI := Index3(cs[0].tex, cs[1].tex, cs[2].tex);
      var vs := p.mesh.vertices;
      if !IndicesIn(vs, vertI) then None
      else
        var q := p.(phongNormals := pn, vertsParsed := 0);
        var a, b, c := vs[vertI.i0], vs[vertI.i1], vs[vertI.i2];
        if a == b || a == c || b == c then Some(q)
        else Some(q.(triangles := p.triangles + [Face(Indexed(vertI, normI, texI, p.wireframe), p.transformed)]))
  }

  /** A full face is accepted exactly when its three groups read as
      corners and name vertices of the mesh; it then adds its triangle
      exactly when the three positions are distinct, and is skipped
      otherwise. */
  lemma MeshFaceOutcome(p: Parser, rd: Reader, args: seq<string>)
    ensures var r := ParseMeshFace(p, rd, args);
            && (r.Some? <==>
                  && (forall k :: 0 <= k < 3 ==> CornerReads(rd, p.mesh.normals, p.phong, |p.phongNormals| + p.vertsParsed, Groups(args)[k]))
                  && FacePositions(p, rd, args).Some?)
            && (r.Some? ==> var (a, b, c) := FacePositions(p, rd, args).value;
                  && (a == b || a == c || b == c ==> r.value.triangles == p.triangles)
                  && (|r.value.triangles| == |p.triangles| + 1 <==> a != b && a != c && b != c))
  {
    var cs := MeshFaceSteps(p, rd, args);
    if cs != [] {
      CornerPositions(p, rd, args, cs);
    }
  }

  /** With Phong shading, a full face leaves every Phong normal equal to
      its old value, zero for a vertex the normals did not cover yet, plus
      the normals of the face's groups that name its vertex; without Phong
      shading the Phong normals only grow by zeros. */
  lemma MeshFaceNormals(p: Parser, rd: Reader, args: seq<string>, k: int)
    requires ParseMeshFace(p, rd, args).Some?
    requires 0 <= k < |p.phongNormals| + p.vertsParsed
    ensures var pn := ParseMeshFace(p, rd, args).value.phongNormals;
            var before := if k < |p.phongNormals| then p.phongNormals[k] else Zero;
            pn[k] == if p.phong then Add(before, Contribution(rd, p.mesh.normals, |pn|, Groups(args), k)) else before
  {
    var pn0 := p.phongNormals + seq(p.vertsParsed, _ => Zero);
    if p.phong {
      AccumulateSums(rd, p.mesh.normals, pn0, Groups(args), k);
    }
  }

  /** The steps of a full face: the corners read (none when a group does
      not read as a corner), then the check that they name vertices, then
      the skip of a face with two corners at the same position. */
  lemma MeshFaceSteps(p: Parser, rd: Reader, args: seq<string>) returns (cs: seq<Corner>)
    ensures var pn0 := p.phongNormals + seq(p.vertsParsed, _ => Zero);
            var pc := ParseCorners(rd, p.mesh.normals, p.phong, pn0, Groups(args));
            && |pn0| == |p.phongNormals| + p.vertsParsed
            && (pc.None? ==> cs == [] && ParseMeshFace(p, rd, args).None?)
            && (pc.Some? ==> cs == pc.value.0 && |cs| == 3)
    ensures var r := ParseMeshFace(p, rd, args);
            var vs := p.mesh.vertices;
            cs != [] ==>
              var vertI := Index3(cs[0].vert, cs[1].vert, cs[2].vert);
              && (r.Some? <==> IndicesIn(vs, vertI))
              && (r.Some? ==> var (a, b, c) := (vs[vertI.i0], vs[vertI.i1], vs[vertI.i2]);
                    && (a == b || a == c || b == c ==> r.value.triangles == p.triangles)
                    && (|r.value.triangles| == |p.triangles| + 1 <==> a != b && a != c && b != c))
  {
    var pn0 := p.phongNormals + seq(p.vertsParsed, _ => Zero);
    var pc := ParseCorners(rd, p.mesh.normals, p.phong, pn0, Groups(args));
    cs := if pc.Some? then pc.value.0 else [];
  }

  /** The vertices the corners of a full face name are the positions
      `FacePositions` reads off its groups. */
  lemma CornerPositions(p: Parser, rd: Reader, args: seq<string>, cs: seq<Corner>)
    requires |cs| == 3
    requires forall k :: 0 <= k < 3 ==> GroupIndices(rd, Groups(args)[k]).Some? && cs[k].vert == GroupIndices(rd, Groups(args)[k]).value.0 - 1
    ensures var vs := p.mesh.vertices;
            var vertI := Index3(cs[0].vert, cs[1].vert, cs[2].vert);
            && (FacePositions(p, rd, args).Some? <==> IndicesIn(vs, vertI))
            && (IndicesIn(vs, vertI) ==> FacePositions(p, rd, args).value == (vs[vertI.i0], vs[vertI.i1], vs[vertI.i2]))
  {
  }

  /** `parseLine`: None where the source returns false. */
  function ParseLine(p: Parser, rd: Reader, line: string): (r: Option<Parser>)
    ensures line == [] ==> r == Some(p)
    ensures Op(line) !in {"v", "vn", "vt", "f"} ==> r == Some(p)
    ensures Op(line) == "v" ==> r == ParseVertex(p, rd, Args(line))
    ensures Op(line) == "vn" ==> r == ParseNormal(p, rd, Args(line))
    ensures Op(line) == "vt" ==> r == ParseTexture(p, rd, Args(line))
    ensures Op(line) == "f" ==>
              r == if |p.mesh.normals| == 0 || |p.mesh.textures| == 0 then ParseFlatFace(p, rd, Args(line))
                   else ParseMeshFace(p, rd, Args(line))
    ensures r.Some? ==> SameSettings(p, r.value)
  {
    if line == [] then Some(p)
    else
      var op, args := Op(line), Args(line);
      if op == "v" then ParseVertex(p, rd, args)
      else if op == "vn" then ParseNormal(p, rd, args)
      else if op == "vt" then ParseTexture(p, rd, args)
      else if op == "f" then
        if |p.mesh.normals| == 0 || |p.mesh.textures| == 0 then ParseFlatFace(p, rd, args)
        else ParseMeshFace(p, rd, args)
      else Some(p)
  }

  /** The constructor's loop: every line in turn; None as soon as one is
      rejected (the source exits). */
  function ParseLines(p: Parser, rd: Reader, lines: seq<string>): (r: Option<Parser>)
    ensures r.Some? ==> SameSettings(p, r.value)
    decreases |lines|
  {
    if lines == [] then Some(p)
    else match ParseLine(p, rd, lines[0])
      case None => None
      case Some(q) => ParseLines(q, rd, lines[1..])
  }

  // ---------------------------------------------------------------------
  // The invariant
  // ---------------------------------------------------------------------

  lemma MeshFaceKeepsInv(p: Parser, rd: Reader, args: seq<string>)
    requires Inv(p)
    ensures ParseMeshFace(p, rd, args).Some? ==> Inv(ParseMeshFace(p, rd, args).value)
  {
    var pn0 := p.phongNormals + seq(p.vertsParsed, _ => Zero);
    var r := ParseMeshFace(p, rd, args);
    if r.Some? {
      var q := r.value;
      var (cs, pn) := ParseCorners(rd, p.mesh.normals, p.phong, pn0, Groups(args)).value;
      assert |pn| == |p.mesh.vertices|;
      forall k | 0 <= k < |q.triangles|
        ensures FaceIndicesValid(q, q.triangles[k])
      {
        if k < |p.triangles| {
          assert q.triangles[k] == p.triangles[k];
          assert FaceIndicesValid(p, p.triangles[k]);
        }
      }
    }
  }

  lemma ParseLineKeepsInv(p: Parser, rd: Reader, line: string)
    requires Inv(p)
    ensures ParseLine(p, rd, line).Some? ==> Inv(ParseLine(p, rd, line).value)
  {
    var args := Args(line);
    if Op(line) == "f" && !(|p.mesh.normals| == 0 || |p.mesh.textures| == 0) {
      MeshFaceKeepsInv(p, rd, args);
    } else if Op(line) == "f" {
      FlatFaceKeepsInv(p, rd, args);
    } else if Op(line) == "v" {
      VertexKeepsInv(p, rd, args);
    }
  }

  lemma FlatFaceKeepsInv(p: Parser, rd: Reader, args: seq<string>)
    requires Inv(p)
    ensures ParseFlatFace(p, rd, args).Some? ==> Inv(ParseFlatFace(p, rd, args).value)
  {
    var r := ParseFlatFace(p, rd, args);
    if r.Some? {
      var q := r.value;
      forall k | 0 <= k < |q.triangles|
        ensures FaceIndicesValid(q, q.triangles[k])
      {
        if k < |p.triangles| {
          assert q.triangles[k] == p.triangles[k];
        }
      }
    }
  }

  lemma VertexKeepsInv(p: Parser, rd: Reader, args: seq<string>)
    requires Inv(p)
    ensures ParseVertex(p, rd, args).Some? ==> Inv(ParseVertex(p, rd, args).value)
  {
    var r := ParseVertex(p, rd, args);
    if r.Some? {
      var q := r.value;
      forall k | 0 <= k < |q.triangles|
        ensures FaceIndicesValid(q, q.triangles[k])
      {
        assert FaceIndicesValid(p, p.triangles[k]);
      }
    }
  }

  /** Every accepted file leaves the parser in a state that satisfies the
      invariant: texture coordinates in the unit square, mesh triangles
      indexing existing vertices, Phong normals keeping up. */
  lemma {:induction false} ParseLinesKeepsInv(p: Parser, rd: Reader, lines: seq<string>)
    requires Inv(p)
    ensures ParseLines(p, rd, lines).Some? ==> Inv(ParseLines(p, rd, lines).value)
    decreases |lines|
  {
    if lines != [] {
      ParseLineKeepsInv(p, rd, lines[0]);
      if ParseLine(p, rd, lines[0]).Some? {
        ParseLinesKeepsInv(ParseLine(p, rd, lines[0]).value, rd, lines[1..]);
      }
    }
  }

  /** A full face `f v0/t0/n0 v1/t1/n1 v2/t2/n2` naming three distinct
      vertex positions adds one mesh triangle whose indices are the
      written ones less one, with the normal indices replaced by the
      vertex indices under Phong shading. */
  lemma MeshFaceIndices(p: Parser, rd: Reader, args: seq<string>)
    requires Inv(p)
    requires ParseMeshFace(p, rd, args).Some?
    requires |ParseMeshFace(p, rd, args).value.triangles| > |p.triangles|
    ensures var q := ParseMeshFace(p, rd, args).value;
            var gs := Groups(args);
            var (g0, g1, g2) := (GroupIndices(rd, gs[0]).value, GroupIndices(rd, gs[1]).value, GroupIndices(rd, gs[2]).value);
            var f := q.triangles[|p.triangles|].tri;
            && f.Indexed? && f.wireframe == p.wireframe
            && f.vertI == Index3(g0.0 - 1, g1.0 - 1, g2.0 - 1)
            && f.texI == Index3(g0.1 - 1, g1.1 - 1, g2.1 - 1)
            && f.normI == (if p.phong then f.vertI else Index3(g0.2 - 1, g1.2 - 1, g2.2 - 1))
  {
    var cs := MeshFaceCorners(p, rd, args);
  }

  /** The face a full face line appends is built from the corners of its
      three groups. */
  lemma MeshFaceCorners(p: Parser, rd: Reader, args: seq<string>) returns (cs: seq<Corner>)
    requires ParseMeshFace(p, rd, args).Some?
    requires |ParseMeshFace(p, rd, args).value.triangles| > |p.triangles|
    ensures var pn0 := p.phongNormals + seq(p.vertsParsed, _ => Zero);
            var pc := ParseCorners(rd, p.mesh.normals, p.phong, pn0, Groups(args));
            pc.Some? && cs == pc.value.0 && |cs| == 3
    ensures ParseMeshFace(p, rd, args).value.triangles[|p.triangles|]
         == Face(Indexed(Index3(cs[0].vert, cs[1].vert, cs[2].vert),
                         Index3(cs[0].norm, cs[1].norm, cs[2].norm),
                         Index3(cs[0].tex, cs[1].tex, cs[2].tex), p.wireframe), p.transformed)
  {
    var pn0 := p.phongNormals + seq(p.vertsParsed, _ => Zero);
    cs := ParseCorners(rd, p.mesh.normals, p.phong, pn0, Groups(args)).value.0;
  }

  // ---------------------------------------------------------------------
  // getObjects
  // ---------------------------------------------------------------------

  /** What `getObjects` hands back: one primitive per flat triangle, or one
      mesh primitive holding every triangle. */
  datatype Object = GeoObject(face: Face) | MeshObject(mesh: Mesh, faces: seq<Face>)

  /** The mesh after `getObjects`: with Phong shading and any Phong normal,
      the normals are replaced by the normalised Phong normals. */
  function FinalMesh(sqrt: real -> real, p: Parser): (m: Mesh)
    ensures m.vertices == p.mesh.vertices && m.textures == p.mesh.textures
    ensures p.phong && |p.phongNormals| > 0 ==>
              |m.normals| == |p.phongNormals| && forall k :: 0 <= k < |m.normals| ==> m.normals[k] == Normalize(sqrt, p.phongNormals[k])
    ensures !(p.phong && |p.phongNormals| > 0) ==> m == p.mesh
    ensures IsSqrt(sqrt) && p.phong && |p.phongNormals| > 0 ==>
              forall k :: 0 <= k < |m.normals| && p.phongNormals[k] != Zero ==> Dot(m.normals[k], m.normals[k]) == 1.0
  {
    assert IsSqrt(sqrt) ==> forall k :: 0 <= k < |p.phongNormals| && p.phongNormals[k] != Zero ==>
                                          Dot(Normalize(sqrt, p.phongNormals[k]), Normalize(sqrt, p.phongNormals[k])) == 1.0 by {
      if IsSqrt(sqrt) {
        forall k | 0 <= k < |p.phongNormals| && p.phongNormals[k] != Zero
          ensures Dot(Normalize(sqrt, p.phongNormals[k]), Normalize(sqrt, p.phongNormals[k])) == 1.0
        {
          NormalizeIsUnit(sqrt, p.phongNormals[k]);
        }
      }
    }
    if p.phong && |p.phongNormals| > 0 then
      p.mesh.(normals := seq(|p.phongNormals|, k requires 0 <= k < |p.phongNormals| => Normalize(sqrt, p.phongNormals[k])))
    else p.mesh
  }

  function GetObjects(sqrt: real -> real, p: Parser): (objs: seq<Object>)
    ensures var m := FinalMesh(sqrt, p);
            if |m.normals| == 0 || |m.textures| == 0 then
              |objs| == |p.triangles| && forall k :: 0 <= k < |objs| ==> objs[k] == GeoObject(p.triangles[k])
            else objs == [MeshObject(m, p.triangles)]
    ensures FacesOf(objs) == p.triangles
  {
    var m := FinalMesh(sqrt, p);
    if |m.normals| == 0 || |m.textures| == 0 then
      GeoFaces(p.triangles);
      Plain(p.triangles)
    else
      assert FacesOf([MeshObject(m, p.triangles)]) == p.triangles + FacesOf([]);
      [MeshObject(m, p.triangles)]
  }

  /** The faces a list of objects carries, in order: one per plain object,
      all of a mesh's. */
  function FacesOf(objs: seq<Object>): seq<Face> {
    if |objs| == 0 then []
    else
      var here := match objs[0] case GeoObject(f) => [f] case MeshObject(_, fs) => fs;
      here + FacesOf(objs[1..])
  }

  /** One plain object per face. */
  function Plain(fs: seq<Face>): seq<Object> {
    seq(|fs|, k requires 0 <= k < |fs| => GeoObject(fs[k]))
  }

  /** One plain object per face carries exactly those faces. */
  lemma {:induction false} GeoFaces(fs: seq<Face>)
    ensures FacesOf(Plain(fs)) == fs
  {
    var objs := Plain(fs);
    if |fs| > 0 {
      var tail := fs[1..];
      assert objs[1..] == Plain(tail);
      GeoFaces(tail);
      assert fs == [fs[0]] + tail;
    }
  }

  /** Under Phong shading every mesh triangle of the returned mesh indexes
      normals that exist in it. */
  lemma PhongMeshIndicesValid(sqrt: real -> real, p: Parser)
    requires Inv(p) && p.phong
    ensures var objs := GetObjects(sqrt, p);
            forall o, k :: o in objs && o.MeshObject? && 0 <= k < |o.faces| && o.faces[k].tri.Indexed? ==>
              IndicesIn(o.mesh.vertices, o.faces[k].tri.vertI) && IndicesIn(o.mesh.normals, o.faces[k].tri.normI)
  {
    var objs := GetObjects(sqrt, p);
    forall o, k | o in objs && o.MeshObject? && 0 <= k < |o.faces| && o.faces[k].tri.Indexed?
      ensures IndicesIn(o.mesh.vertices, o.faces[k].tri.vertI) && IndicesIn(o.mesh.normals, o.faces[k].tri.normI)
    {
      assert FaceIndicesValid(p, p.triangles[k]);
    }
  }
}

=== FILE: primitives.dfy ===
/** Primitives (Primitives.h, Primitives.cpp): a shape with its material
    (`GeoPrimitive`), the bounding volume hierarchy (`BoundingBoxTree`)
    and a triangle mesh searched through its own hierarchy
    (`MeshPrimitive`), which remembers the triangle it last reported. */
module Primitives {

  import opened Wrappers
  import opened Vectors
  import opened Rays
  import opened Boxes
  import opened Shapes
  import opened Materials

  /** A primitive. A hierarchy node holds its cached box, its split axis
      and up to two children (a missing child is the source's NULL). A
      mesh holds its triangle hierarchy and the material shared by the
      triangles. */
  datatype Prim =
    | Geo(id: PrimId, shape: Shape, material: Material)
    | Tree(box: Box, splitAxis: nat, low: Option<Prim>, high: Option<Prim>)
    | MeshPrim(id: PrimId, tree: Prim, material: Material)

  /** `IntersectRecord`: the parameter, point and normal of the last hit
      and the primitive stamped on it. */
  datatype Rec = Rec(t: real, point: Vec3, normal: Vec3, prim: Option<PrimId>)

  /** `lastIntersected` of every mesh, by the mesh's identity: the
      identity of the triangle primitive it last reported. A mesh that has
      never been hit has no entry (the source's NULL). */
  type Memory = map<PrimId, PrimId>

  /** What `intersect` leaves behind: its answer, the record, the mesh
      memory and the ray it was handed by reference. */
  datatype Outcome = Outcome(hit: bool, rec: Rec, mem: Memory, ray: Ray)

  // ---------------------------------------------------------------------
  // Shape of a hierarchy
  // ---------------------------------------------------------------------

  /** A hierarchy made of nodes and plain primitives only, as a mesh's
      triangle hierarchy is. */
  predicate GeoTree(p: Prim) {
    match p
    case Geo(_, _, _) => true
    case Tree(_, _, low, high) =>
      (low.Some? ==> GeoTree(low.value)) && (high.Some? ==> GeoTree(high.value))
    case MeshPrim(_, _, _) => false
  }

  /** Every shape and material is well formed, every node has a child
      (the source dereferences one of them), and a mesh holds a hierarchy
      of its triangles. */
  predicate WellShaped(p: Prim) {
    match p
    case Geo(_, shape, material) => ValidShape(shape) && ValidMaterial(material)
    case Tree(_, _, low, high) =>
      && (low.Some? || high.Some?)
      && (low.Some? ==> WellShaped(low.value))
      && (high.Some? ==> WellShaped(high.value))
    case MeshPrim(_, tree, material) =>
      tree.Tree? && GeoTree(tree) && WellShaped(tree) && ValidMaterial(material)
  }

  /** `getBoundingBox`: the shape's box, the cached box of a node, the
      hierarchy's box for a mesh. */
  function PrimBox(p: Prim): Box
    requires WellShaped(p)
  {
    match p
    case Geo(_, shape, _) => BoundingBox(shape)
    case Tree(box, _, _, _) => box
    case MeshPrim(_, tree, _) => PrimBox(tree)
  }

  /** The box both hierarchy constructors compute from the children: the
      one child's box, or the combination of both. */
  function JoinBoxes(low: Option<Prim>, high: Option<Prim>): (b: Box)
    requires low.Some? || high.Some?
    requires low.Some? ==> WellShaped(low.value)
    requires high.Some? ==> WellShaped(high.value)
    ensures low.Some? ==> Encloses(b, PrimBox(low.value))
    ensures high.Some? ==> Encloses(b, PrimBox(high.value))
  {
    if low.None? then PrimBox(high.value)
    else if high.None? then PrimBox(low.value)
    else Combine(PrimBox(low.value), PrimBox(high.value))
  }

  /** Every node's cached box is the join of its children's boxes. */
  predicate CachedBoxes(p: Prim)
    requires WellShaped(p)
  {
    match p
    case Geo(_, _, _) => true
    case Tree(box, _, low, high) =>
      && box == JoinBoxes(low, high)
      && (low.Some? ==> CachedBoxes(low.value))
      && (high.Some? ==> CachedBoxes(high.value))
    case MeshPrim(_, tree, _) => CachedBoxes(tree)
  }

  predicate Valid(p: Prim) {
    WellShaped(p) && CachedBoxes(p)
  }

  /** `g` is one of the plain primitives of `p`, inside meshes included. */
  predicate HasLeaf(p: Prim, g: Prim)
    ensures HasLeaf(p, g) ==> g.Geo?
  {
    match p
    case Geo(_, _, _) => p == g
    case Tree(_, _, low, high) =>
      (low.Some? && HasLeaf(low.value, g)) || (high.Some? && HasLeaf(high.value, g))
    case MeshPrim(_, tree, _) => HasLeaf(tree, g)
  }

  /** The identities of the meshes inside `p`. */
  function MeshIds(p: Prim): set<PrimId> {
    match p
    case Geo(_, _, _) => {}
    case Tree(_, _, low, high) =>
      (if low.Some? then MeshIds(low.value) else {}) + (if high.Some? then MeshIds(high.value) else {})
    case MeshPrim(id, tree, _) => {id} + MeshIds(tree)
  }

  /** The objects a hierarchy was built from: everything below its nodes
      that is not itself a node. */
  function Items(p: Prim): multiset<Prim> {
    match p
    case Tree(_, _, low, high) =>
      (if low.Some? then Items(low.value) else multiset{}) + (if high.Some? then Items(high.value) else multiset{})
    case _ => multiset{p}
  }

  /** A leaf of a well-shaped primitive is a well-shaped plain primitive
      whose box lies in the primitive's box when the boxes are cached. */
  lemma {:induction false} LeafEnclosed(p: Prim, g: Prim)
    requires WellShaped(p) && HasLeaf(p, g)
    ensures g.Geo? && ValidShape(g.shape) && ValidMaterial(g.material)
    ensures CachedBoxes(p) ==> Encloses(PrimBox(p), BoundingBox(g.shape))
    decreases p
  {
    match p
    case Geo(_, _, _) =>
    case Tree(_, _, low, high) =>
      if low.Some? && HasLeaf(low.value, g) {
        LeafEnclosed(low.value, g);
      } else {
        LeafEnclosed(high.value, g);
      }
    case MeshPrim(_, tree, _) =>
      LeafEnclosed(tree, g);
  }

  // ---------------------------------------------------------------------
  // intersect
  // ---------------------------------------------------------------------

  /** The box test the hierarchy runs. `BoundingBox::intersect` is the slab
      test wherever the ray's direction has no zero component; where one
      is zero it computes with IEEE infinities, which are not modelled, so
      the test is a parameter that agrees with the slab test there. */
  ghost predicate FaithfulBoxTest(boxTest: (Box, Ray) -> bool) {
    forall b: Box, r: Ray :: NonZeroDirection(r) ==> boxTest(b, r) == SlabTest(b, r)
  }

  /** `intersect` of every primitive.
      A plain primitive reports its shape's hit and stamps itself on the
      record. A node whose box the ray misses reports a miss and touches
      nothing. Otherwise it sets the record's parameter to the ray's upper
      bound, searches the child on the near side of its split axis first
      (low first when the ray's sign bit on that axis is 0), then the other
      child with the upper bound lowered to the record's parameter, then
      restores the upper bound. A mesh searches its hierarchy and on a hit
      remembers the triangle and stamps itself instead. */
  function Intersect(sqrt: real -> real, boxTest: (Box, Ray) -> bool, p: Prim, ray: Ray, rec: Rec, mem: Memory): (o: Outcome)
    requires WellShaped(p)
    ensures o.ray == ray
    ensures o.hit ==> && IsWithinBounds(ray, o.rec.t) && o.rec.point == IntersectionPoint(ray, o.rec.t)
                      && o.rec.prim.Some?
    ensures !o.hit ==> o.rec.(t := rec.t) == rec && (o.rec.t == rec.t || o.rec.t == ray.tMax) && o.mem == mem
    ensures forall k :: k !in MeshIds(p) ==> (k in o.mem <==> k in mem) && (k in mem ==> o.mem[k] == mem[k])
    decreases p
  {
    match p
    case Geo(id, shape, _) =>
      (match Shapes.Intersect(sqrt, shape, ray)
       case None => Outcome(false, rec, mem, ray)
       case Some(h) => Outcome(true, Rec(h.t, h.point, h.normal, Some(id)), mem, ray))
    case Tree(box, axis, low, high) =>
      if !boxTest(box, ray) then Outcome(false, rec, mem, ray)
      else
        var start := rec.(t := ray.tMax);
        var first := if GetSign(ray, axis) == 0 then low else high;
        var second := if GetSign(ray, axis) == 0 then high else low;
        var o1 := if first.None? then Outcome(false, start, mem, ray)
                  else Intersect(sqrt, boxTest, first.value, ray, start, mem);
        var narrowed := SetBounds(o1.ray, o1.ray.tMin, o1.rec.t);
        var o2 := if second.None? then Outcome(false, o1.rec, o1.mem, narrowed)
                  else Intersect(sqrt, boxTest, second.value, narrowed, o1.rec, o1.mem);
        Outcome(o1.hit || o2.hit, o2.rec, o2.mem, SetBounds(o2.ray, o2.ray.tMin, start.t))
    case MeshPrim(id, tree, _) =>
      var o := Intersect(sqrt, boxTest, tree, ray, rec, mem);
      if o.hit then Outcome(true, o.rec.(prim := Some(id)), o.mem[id := o.rec.prim.value], o.ray)
      else o
  }

  /** A node whose box the ray misses reports a miss and leaves the
      record, the memory and the ray exactly as they were. */
  lemma BoxMissTouchesNothing(sqrt: real -> real, boxTest: (Box, Ray) -> bool, p: Prim, ray: Ray, rec: Rec, mem: Memory)
    requires WellShaped(p) && p.Tree? && !boxTest(p.box, ray)
    ensures Intersect(sqrt, boxTest, p, ray, rec, mem) == Outcome(false, rec, mem, ray)
  {
  }

  /** The hierarchy misses nothing it should find. If a plain primitive
      inside `p` is hit by the ray at a parameter at most `tb`, where
      `tb` lies strictly inside the ray's bounds and the point there lies
      in that primitive's box, then `p` reports a hit no farther than
      `tb`. The box of every node on the way contains that point, so the
      slab test lets the search through; the first child searched either
      finds the hit or leaves the upper bound high enough for the second
      child to find one. */
  lemma {:induction false} FindsLeafHit(sqrt: real -> real, boxTest: (Box, Ray) -> bool, p: Prim, ray: Ray,
                                        rec: Rec, mem: Memory, g: Prim, tb: real)
    requires Valid(p) && IsSqrt(sqrt) && FaithfulBoxTest(boxTest)
    requires NonZeroDirection(ray) && SignsMatch(ray)
    requires HasLeaf(p, g) && g.Geo? && ValidShape(g.shape)
    requires ray.tMin < tb < ray.tMax && InBox(BoundingBox(g.shape), IntersectionPoint(ray, tb))
    requires Shapes.Intersect(sqrt, g.shape, ray).Some? && Shapes.Intersect(sqrt, g.shape, ray).value.t <= tb
    ensures var o := Intersect(sqrt, boxTest, p, ray, rec, mem); o.hit && o.rec.t <= tb
    decreases p
  {
    match p
    case Geo(_, _, _) =>
    case Tree(box, axis, low, high) =>
      LeafEnclosed(p, g);
      SlabTestComplete(box, ray, tb);
      var first, second, o1, o2 := NodeSteps(sqrt, boxTest, p, ray, rec, mem);
      if first.Some? && HasLeaf(first.value, g) {
        FindsLeafHit(sqrt, boxTest, first.value, ray, rec.(t := ray.tMax), mem, g, tb);
        assert o1.hit && o1.rec.t <= tb;
      } else if tb < o1.rec.t {
        var narrowed := SetBounds(ray, ray.tMin, o1.rec.t);
        IntersectNarrowed(sqrt, g.shape, ray, o1.rec.t);
        FindsLeafHit(sqrt, boxTest, second.value, narrowed, o1.rec, o1.mem, g, tb);
        assert o2.hit && o2.rec.t <= tb;
      } else {
        assert o1.hit && o1.rec.t <= tb;
      }
    case MeshPrim(_, tree, _) =>
      FindsLeafHit(sqrt, boxTest, tree, ray, rec, mem, g, tb);
  }

  /** The two searches of a node whose box the ray passes: the near child
      from the ray's upper bound, then the far child up to the parameter
      the first search left in the record. */
  lemma NodeSteps(sqrt: real -> real, boxTest: (Box, Ray) -> bool, p: Prim, ray: Ray, rec: Rec, mem: Memory)
    returns (first: Option<Prim>, second: Option<Prim>, o1: Outcome, o2: Outcome)
    requires WellShaped(p) && p.Tree? && boxTest(p.box, ray)
    ensures first == (if GetSign(ray, p.splitAxis) == 0 then p.low else p.high)
    ensures second == (if GetSign(ray, p.splitAxis) == 0 then p.high else p.low)
    ensures first.Some? || second.Some?
    ensures first.Some? ==> WellShaped(first.value) && first.value < p
    ensures second.Some? ==> WellShaped(second.value) && second.value < p
    ensures o1 == if first.None? then Outcome(false, rec.(t := ray.tMax), mem, ray)
                  else Intersect(sqrt, boxTest, first.value, ray, rec.(t := ray.tMax), mem)
    ensures o2 == if second.None? then Outcome(false, o1.rec, o1.mem, SetBounds(ray, ray.tMin, o1.rec.t))
                  else Intersect(sqrt, boxTest, second.value, SetBounds(ray, ray.tMin, o1.rec.t), o1.rec, o1.mem)
    ensures o1.rec.t <= ray.tMax && (!o1.hit ==> o1.rec.t == ray.tMax)
    ensures o2.hit ==> o2.rec.t <= o1.rec.t
    ensures !o2.hit ==> o2.rec == o1.rec && o2.mem == o1.mem
    ensures Intersect(sqrt, boxTest, p, ray, rec, mem) == Outcome(o1.hit || o2.hit, o2.rec, o2.mem, ray)
  {
    first := if GetSign(ray, p.splitAxis) == 0 then p.low else p.high;
    second := if GetSign(ray, p.splitAxis) == 0 then p.high else p.low;
    o1 := if first.None? then Outcome(false, rec.(t := ray.tMax), mem, ray)
          else Intersect(sqrt, boxTest, first.value, ray, rec.(t := ray.tMax), mem);
    o2 := if second.None? then Outcome(false, o1.rec, o1.mem, SetBounds(ray, ray.tMin, o1.rec.t))
          else Intersect(sqrt, boxTest, second.value, SetBounds(ray, ray.tMin, o1.rec.t), o1.rec, o1.mem);
  }

  /** The hierarchy reports the nearest hit: whenever a plain primitive
      inside it is hit strictly inside the ray's bounds at a point of its
      box, the hierarchy reports a hit, at a parameter no larger. (The
      box test's last comparison is strict, so a hit exactly at a bound
      may be skipped.) */
  lemma NearestHit(sqrt: real -> real, boxTest: (Box, Ray) -> bool, p: Prim, ray: Ray, rec: Rec, mem: Memory, g: Prim)
    requires Valid(p) && IsSqrt(sqrt) && FaithfulBoxTest(boxTest)
    requires NonZeroDirection(ray) && SignsMatch(ray)
    requires HasLeaf(p, g) && g.Geo? && ValidShape(g.shape)
    requires var h := Shapes.Intersect(sqrt, g.shape, ray);
             h.Some? && ray.tMin < h.value.t < ray.tMax && InBox(BoundingBox(g.shape), h.value.point)
    ensures var o := Intersect(sqrt, boxTest, p, ray, rec, mem);
            o.hit && o.rec.t <= Shapes.Intersect(sqrt, g.shape, ray).value.t
  {
    var h := Shapes.Intersect(sqrt, g.shape, ray).value;
    FindsLeafHit(sqrt, boxTest, p, ray, rec, mem, g, h.t);
  }

  /** The box premise holds by itself, since every shape's hits lie in its
      box (spheres need a non-negative radius, whatever transforms they
      are seen through). */
  lemma NearestHitAnyLeaf(sqrt: real -> real, boxTest: (Box, Ray) -> bool, p: Prim, ray: Ray, rec: Rec, mem: Memory, g: Prim)
    requires Valid(p) && IsSqrt(sqrt) && FaithfulBoxTest(boxTest)
    requires NonZeroDirection(ray) && SignsMatch(ray)
    requires HasLeaf(p, g) && g.Geo? && ValidShape(g.shape)
    requires RadiiNonNegative(g.shape)
    requires var h := Shapes.Intersect(sqrt, g.shape, ray);
             h.Some? && ray.tMin < h.value.t < ray.tMax
    ensures var o := Intersect(sqrt, boxTest, p, ray, rec, mem);
            o.hit && o.rec.t <= Shapes.Intersect(sqrt, g.shape, ray).value.t
  {
    HitInBoundingBox(sqrt, g.shape, ray);
    NearestHit(sqrt, boxTest, p, ray, rec, mem, g);
  }

  /** Every hit the hierarchy reports is the hit of one of its plain
      primitives, found with the upper bound lowered to some `u` no larger
      than the ray's; inside a hierarchy without meshes the record is
      stamped with that primitive. */
  lemma {:induction false} HitFromLeaf(sqrt: real -> real, boxTest: (Box, Ray) -> bool, p: Prim, ray: Ray, rec: Rec, mem: Memory)
    returns (g: Prim, u: real)
    requires WellShaped(p) && Intersect(sqrt, boxTest, p, ray, rec, mem).hit
    ensures HasLeaf(p, g) && g.Geo? && ValidShape(g.shape) && u <= ray.tMax
    ensures var o := Intersect(sqrt, boxTest, p, ray, rec, mem);
            && Shapes.Intersect(sqrt, g.shape, SetBounds(ray, ray.tMin, u)) == Some(Hit(o.rec.t, o.rec.point, o.rec.normal))
            && (GeoTree(p) ==> o.rec.prim == Some(g.id))
    decreases p
  {
    match p
    case Geo(_, _, _) =>
      g, u := p, ray.tMax;
      assert SetBounds(ray, ray.tMin, u) == ray;
    case Tree(_, _, _, _) =>
      g, u := HitFromNode(sqrt, boxTest, p, ray, rec, mem);
    case MeshPrim(_, tree, _) =>
      g, u := HitFromLeaf(sqrt, boxTest, tree, ray, rec, mem);
  }

  /** The node case of HitFromLeaf: the hit comes from the second child
      searched when that one reports a hit, from the first otherwise. */
  lemma {:induction false} HitFromNode(sqrt: real -> real, boxTest: (Box, Ray) -> bool, p: Prim, ray: Ray, rec: Rec, mem: Memory)
    returns (g: Prim, u: real)
    requires WellShaped(p) && p.Tree? && Intersect(sqrt, boxTest, p, ray, rec, mem).hit
    ensures HasLeaf(p, g) && g.Geo? && ValidShape(g.shape) && u <= ray.tMax
    ensures var o := Intersect(sqrt, boxTest, p, ray, rec, mem);
            && Shapes.Intersect(sqrt, g.shape, SetBounds(ray, ray.tMin, u)) == Some(Hit(o.rec.t, o.rec.point, o.rec.normal))
            && (GeoTree(p) ==> o.rec.prim == Some(g.id))
    decreases p, 0
  {
    assert boxTest(p.box, ray);
    var first, second, o1, o2 := NodeSteps(sqrt, boxTest, p, ray, rec, mem);
    var narrowed := SetBounds(ray, ray.tMin, o1.rec.t);
    if o2.hit {
      g, u := HitFromLeaf(sqrt, boxTest, second.value, narrowed, o1.rec, o1.mem);
      assert SetBounds(narrowed, narrowed.tMin, u) == SetBounds(ray, ray.tMin, u);
    } else {
      g, u := HitFromLeaf(sqrt, boxTest, first.value, ray, rec.(t := ray.tMax), mem);
    }
  }

  /** After a mesh reports a hit, its memory holds the triangle primitive
      the hit came from. */
  lemma MeshRemembersHit(sqrt: real -> real, boxTest: (Box, Ray) -> bool, p: Prim, ray: Ray, rec: Rec, mem: Memory)
    returns (g: Prim)
    requires WellShaped(p) && p.MeshPrim? && Intersect(sqrt, boxTest, p, ray, rec, mem).hit
    ensures HasLeaf(p.tree, g) && g.Geo?
    ensures var o := Intersect(sqrt, boxTest, p, ray, rec, mem);
            o.rec.prim == Some(p.id) && p.id in o.mem && o.mem[p.id] == g.id
  {
    var u;
    g, u := HitFromLeaf(sqrt, boxTest, p.tree, ray, rec, mem);
  }

  // ---------------------------------------------------------------------
  // getReflectance
  // ---------------------------------------------------------------------

  /** No two plain primitives inside `p` share an identity, as no two
      objects share an address. */
  ghost predicate UniqueIds(p: Prim) {
    forall g1, g2 :: HasLeaf(p, g1) && HasLeaf(p, g2) && g1.id == g2.id ==> g1 == g2
  }

  /** The plain primitive with identity `id` inside `p`, low side first. */
  function FindLeaf(p: Prim, id: PrimId): (r: Option<Prim>)
    ensures r.Some? ==> HasLeaf(p, r.value) && r.value.id == id
    ensures r.None? ==> forall g :: HasLeaf(p, g) ==> g.id != id
  {
    match p
    case Geo(gid, _, _) => if gid == id then Some(p) else None
    case Tree(_, _, low, high) =>
      var l := if low.Some? then FindLeaf(low.value, id) else None;
      if l.Some? then l
      else if high.Some? then FindLeaf(high.value, id) else None
    case MeshPrim(_, tree, _) => FindLeaf(tree, id)
  }

  /** With unique identities the search finds exactly the primitive that
      carries the identity. */
  lemma FindLeafUnique(p: Prim, g: Prim)
    requires UniqueIds(p) && HasLeaf(p, g)
    ensures FindLeaf(p, g.id) == Some(g)
  {
  }

  /** `GeoPrimitive::getReflectance`: the material's reflectance at the
      point. None where the texel lookup is undefined, including a
      textured sphere of radius 0. */
  function LeafReflectance(trig: Trig, g: Prim, point: Vec3): (r: Option<Reflectance>)
    requires g.Geo? && ValidShape(g.shape) && ValidMaterial(g.material) && trig.pi > 0.0
    ensures g.material.Plain? ==> r == Some(g.material.reflectance)
  {
    if g.material.Textured? && !HasTextureCoordinates(g.shape) then None
    else Materials.GetReflectance(trig, g.material, point, g.shape)
  }

  /** `getReflectance` of every primitive: a plain primitive asks its
      material; a node has none (the source throws); a mesh asks the
      triangle it last reported, which is undefined before its first hit
      (the source dereferences NULL). */
  function GetReflectance(trig: Trig, p: Prim, mem: Memory, point: Vec3): (r: Option<Reflectance>)
    requires WellShaped(p) && trig.pi > 0.0
    ensures p.Geo? ==> r == LeafReflectance(trig, p, point)
    ensures p.Tree? ==> r.None?
    ensures p.MeshPrim? && r.Some? ==>
              p.id in mem && exists g :: HasLeaf(p.tree, g) && g.id == mem[p.id] && g.Geo?
    ensures p.MeshPrim? && p.id !in mem ==> r.None?
  {
    match p
    case Geo(_, _, _) => LeafReflectance(trig, p, point)
    case Tree(_, _, _, _) => None
    case MeshPrim(id, tree, _) =>
      if id !in mem then None
      else match FindLeaf(tree, mem[id])
        case None => None
        case Some(g) =>
          LeafEnclosed(tree, g);
          LeafReflectance(trig, g, point)
  }

  /** Right after a mesh reports a hit, its reflectance is that of the
      triangle primitive the hit came from (identities being unique). */
  lemma MeshReflectanceAfterHit(sqrt: real -> real, boxTest: (Box, Ray) -> bool, trig: Trig, p: Prim,
                                ray: Ray, rec: Rec, mem: Memory, point: Vec3)
    returns (g: Prim)
    requires WellShaped(p) && p.MeshPrim? && UniqueIds(p.tree) && trig.pi > 0.0
    requires Intersect(sqrt, boxTest, p, ray, rec, mem).hit
    ensures HasLeaf(p.tree, g) && g.Geo? && ValidShape(g.shape) && ValidMaterial(g.material)
    ensures var o := Intersect(sqrt, boxTest, p, ray, rec, mem);
            GetReflectance(trig, p, o.mem, point) == LeafReflectance(trig, g, point)
  {
    g := MeshRemembersHit(sqrt, boxTest, p, ray, rec, mem);
    LeafEnclosed(p.tree, g);
    FindLeafUnique(p.tree, g);
  }

  // ---------------------------------------------------------------------
  // Construction: partition and the hierarchy constructor
  // ---------------------------------------------------------------------

  /** The centre of a box on one axis. */
  function Center(b: Box, axis: nat): real
    requires axis < 3
  {
    (MaxCoordinate(b, axis) + MinCoordinate(b, axis)) / 2.0
  }

  /** The centres of the objects' boxes, in order. */
  function Centers<T>(xs: seq<T>, boxOf: T -> Box, axis: nat): (cs: seq<real>)
    requires axis < 3
    ensures |cs| == |xs| && forall i :: 0 <= i < |xs| ==> cs[i] == Center(boxOf(xs[i]), axis)
  {
    seq(|xs|, i requires 0 <= i < |xs| => Center(boxOf(xs[i]), axis))
  }

  /** The pivot of `partition`: the midpoint of the smallest lower bound
      and the largest upper bound on the axis (the loops start from
      DBL_MAX and -DBL_MAX). It is not the midpoint of the centres. */
  function Pivot<T>(xs: seq<T>, boxOf: T -> Box, axis: nat): real
    requires axis < 3
  {
    var mins := seq(|xs|, i requires 0 <= i < |xs| => MinCoordinate(boxOf(xs[i]), axis));
    var maxs := seq(|xs|, i requires 0 <= i < |xs| => MaxCoordinate(boxOf(xs[i]), axis));
    (FoldMax(-DoubleMax, maxs) + FoldMin(DoubleMax, mins)) / 2.0
  }

  /** The first loop of `partition`: in order, an object goes low exactly
      when its centre is below the pivot. */
  function Split<T>(xs: seq<T>, boxOf: T -> Box, axis: nat, pivot: real): (r: (seq<T>, seq<T>))
    requires axis < 3
    ensures multiset(r.0) + multiset(r.1) == multiset(xs)
    ensures forall x :: x in r.0 ==> Center(boxOf(x), axis) < pivot
    ensures forall x :: x in r.1 ==> Center(boxOf(x), axis) >= pivot
  {
    if |xs| == 0 then ([], [])
    else
      assert xs == [xs[0]] + xs[1..];
      var rest := Split(xs[1..], boxOf, axis, pivot);
      if Center(boxOf(xs[0]), axis) < pivot then ([xs[0]] + rest.0, rest.1)
      else (rest.0, [xs[0]] + rest.1)
  }

  /** The loop of the all-high fallback from index `i` on: the first index
      of a smallest value below the running minimum `best`. None when no
      value is below the starting DBL_MAX, where the source would read an
      uninitialised index. */
  function MinScan(cs: seq<real>, i: nat, best: real, idx: Option<nat>): (r: Option<nat>)
    requires i <= |cs|
    requires idx.None? ==> forall j :: 0 <= j < i ==> cs[j] >= best
    requires idx.Some? ==> && idx.value < i && cs[idx.value] == best
                           && (forall j :: 0 <= j < i ==> best <= cs[j])
                           && (forall j :: 0 <= j < idx.value ==> best < cs[j])
    ensures r.Some? ==> && r.value < |cs| && cs[r.value] <= best
                        && (forall j :: 0 <= j < |cs| ==> cs[r.value] <= cs[j])
                        && (forall j :: 0 <= j < r.value ==> cs[r.value] < cs[j])
    ensures r.Some? && idx.None? ==> cs[r.value] < best
    ensures r.None? <==> idx.None? && forall j :: 0 <= j < |cs| ==> cs[j] >= best
    decreases |cs| - i
  {
    if i == |cs| then idx
    else if cs[i] < best then MinScan(cs, i + 1, cs[i], Some(i))
    else MinScan(cs, i + 1, best, idx)
  }

  /** The loop of the all-low fallback: the first index of a largest
      value above the running maximum (starting from -DBL_MAX). */
  function MaxScan(cs: seq<real>, i: nat, best: real, idx: Option<nat>): (r: Option<nat>)
    requires i <= |cs|
    requires idx.None? ==> forall j :: 0 <= j < i ==> cs[j] <= best
    requires idx.Some? ==> && idx.value < i && cs[idx.value] == best
                           && (forall j :: 0 <= j < i ==> best >= cs[j])
                           && (forall j :: 0 <= j < idx.value ==> best > cs[j])
    ensures r.Some? ==> && r.value < |cs| && cs[r.value] >= best
                        && (forall j :: 0 <= j < |cs| ==> cs[r.value] >= cs[j])
                        && (forall j :: 0 <= j < r.value ==> cs[r.value] > cs[j])
    ensures r.Some? && idx.None? ==> cs[r.value] > best
    ensures r.None? <==> idx.None? && forall j :: 0 <= j < |cs| ==> cs[j] <= best
    decreases |cs| - i
  {
    if i == |cs| then idx
    else if cs[i] > best then MaxScan(cs, i + 1, cs[i], Some(i))
    else MaxScan(cs, i + 1, best, idx)
  }

  /** `partition`: split at the pivot, then rebalance. */
  function Partition<T>(all: seq<T>, boxOf: T -> Box, axis: nat): (r: Option<(seq<T>, seq<T>)>)
    requires axis < 3
    ensures r.Some? ==> multiset(r.value.0) + multiset(r.value.1) == multiset(all)
    ensures r.Some? ==> forall x, y :: x in r.value.0 && y in r.value.1 ==>
                                         Center(boxOf(x), axis) <= Center(boxOf(y), axis)
    ensures r.Some? && |all| >= 2 ==> 0 < |r.value.0| < |all| && 0 < |r.value.1| < |all|
  {
    var (lo, hi) := Split(all, boxOf, axis, Pivot(all, boxOf, axis));
    assert |multiset(lo)| + |multiset(hi)| == |multiset(all)|;
    RebalanceLaws(lo, hi, |all|, boxOf, axis);
    Rebalance(lo, hi, |all|, boxOf, axis)
  }

  /** The fallback of `partition`: if everything went high, move the first
      object of smallest centre low; if everything went low, move the
      first object of largest centre high. None where the fallback reads
      an uninitialised index: an empty list, or centres all at the DBL_MAX
      sentinel. */
  function Rebalance<T>(lo: seq<T>, hi: seq<T>, n: nat, boxOf: T -> Box, axis: nat): (r: Option<(seq<T>, seq<T>)>)
    requires axis < 3
  {
    if |hi| == n then
      match MinScan(Centers(hi, boxOf, axis), 0, DoubleMax, None)
      case None => None
      case Some(k) => Some((lo + [hi[k]], hi[..k] + hi[k + 1..]))
    else if |lo| == n then
      match MaxScan(Centers(lo, boxOf, axis), 0, -DoubleMax, None)
      case None => None
      case Some(k) => Some((lo[..k] + lo[k + 1..], hi + [lo[k]]))
    else Some((lo, hi))
  }

  /** Moving the element of smallest (or largest) centre out of a list:
      the two parts make up the list, and the moved element's centre is at
      most (at least) every remaining one. */
  lemma MoveExtreme<T>(xs: seq<T>, boxOf: T -> Box, axis: nat, k: nat, smallest: bool)
    requires axis < 3 && k < |xs|
    requires smallest ==> forall j :: 0 <= j < |xs| ==> Center(boxOf(xs[k]), axis) <= Center(boxOf(xs[j]), axis)
    requires !smallest ==> forall j :: 0 <= j < |xs| ==> Center(boxOf(xs[k]), axis) >= Center(boxOf(xs[j]), axis)
    ensures var rest := xs[..k] + xs[k + 1..];
            && multiset(rest) + multiset{xs[k]} == multiset(xs)
            && |rest| == |xs| - 1
            && (smallest ==> forall y :: y in rest ==> Center(boxOf(xs[k]), axis) <= Center(boxOf(y), axis))
            && (!smallest ==> forall y :: y in rest ==> Center(boxOf(y), axis) <= Center(boxOf(xs[k]), axis))
  {
    var rest := xs[..k] + xs[k + 1..];
    assert xs == xs[..k] + [xs[k]] + xs[k + 1..];
    forall y | y in rest
      ensures smallest ==> Center(boxOf(xs[k]), axis) <= Center(boxOf(y), axis)
      ensures !smallest ==> Center(boxOf(y), axis) <= Center(boxOf(xs[k]), axis)
    {
      var j :| 0 <= j < |rest| && rest[j] == y;
      if j < k {
        assert y == xs[j];
      } else {
        assert y == xs[j + 1];
      }
    }
  }

  /** Rebalancing keeps every object, on exactly one side, keeps the low
      side's centres at most the high side's, and from two objects on
      leaves both sides non-empty. */
  lemma RebalanceLaws<T>(lo: seq<T>, hi: seq<T>, n: nat, boxOf: T -> Box, axis: nat)
    requires axis < 3 && |lo| + |hi| == n
    requires forall x, y :: x in lo && y in hi ==> Center(boxOf(x), axis) <= Center(boxOf(y), axis)
    ensures var r := Rebalance(lo, hi, n, boxOf, axis);
            && (r.Some? ==> multiset(r.value.0) + multiset(r.value.1) == multiset(lo) + multiset(hi))
            && (r.Some? ==> forall x, y :: x in r.value.0 && y in r.value.1 ==>
                                            Center(boxOf(x), axis) <= Center(boxOf(y), axis))
            && (r.Some? && n >= 2 ==> 0 < |r.value.0| < n && 0 < |r.value.1| < n)
  {
    if |hi| == n {
      RebalanceFromHigh(lo, hi, n, boxOf, axis);
    } else if |lo| == n {
      RebalanceFromLow(lo, hi, n, boxOf, axis);
    }
  }

  lemma RebalanceFromHigh<T>(lo: seq<T>, hi: seq<T>, n: nat, boxOf: T -> Box, axis: nat)
    requires axis < 3 && |lo| == 0 && |hi| == n
    ensures var r := Rebalance(lo, hi, n, boxOf, axis);
            && (r.Some? ==> multiset(r.value.0) + multiset(r.value.1) == multiset(lo) + multiset(hi))
            && (r.Some? ==> forall x, y :: x in r.value.0 && y in r.value.1 ==>
                                            Center(boxOf(x), axis) <= Center(boxOf(y), axis))
            && (r.Some? && n >= 2 ==> 0 < |r.value.0| < n && 0 < |r.value.1| < n)
  {
    var m := MinScan(Centers(hi, boxOf, axis), 0, DoubleMax, None);
    if m.Some? {
      var k := m.value;
      assert Rebalance(lo, hi, n, boxOf, axis) == Some((lo + [hi[k]], hi[..k] + hi[k + 1..]));
      MoveAcross(lo, hi, boxOf, axis, k, true);
    }
  }

  lemma RebalanceFromLow<T>(lo: seq<T>, hi: seq<T>, n: nat, boxOf: T -> Box, axis: nat)
    requires axis < 3 && |lo| == n && |hi| == 0 && n > 0
    ensures var r := Rebalance(lo, hi, n, boxOf, axis);
            && (r.Some? ==> multiset(r.value.0) + multiset(r.value.1) == multiset(lo) + multiset(hi))
            && (r.Some? ==> forall x, y :: x in r.value.0 && y in r.value.1 ==>
                                            Center(boxOf(x), axis) <= Center(boxOf(y), axis))
            && (r.Some? && n >= 2 ==> 0 < |r.value.0| < n && 0 < |r.value.1| < n)
  {
    var m := MaxScan(Centers(lo, boxOf, axis), 0, -DoubleMax, None);
    if m.Some? {
      var k := m.value;
      var moved, rest := hi + [lo[k]], lo[..k] + lo[k + 1..];
      assert Rebalance(lo, hi, n, boxOf, axis) == Some((rest, moved));
      MoveAcross(hi, lo, boxOf, axis, k, false);
      assert hi == [];
      assert multiset(moved) + multiset(rest) == multiset(lo);
      assert multiset(rest) + multiset(moved) == multiset(moved) + multiset(rest);
    }
  }

  /** One fallback: `from` holds everything and `to` nothing; the extreme
      element of `from` joins `to`. */
  lemma MoveAcross<T>(to: seq<T>, from: seq<T>, boxOf: T -> Box, axis: nat, k: nat, smallest: bool)
    requires axis < 3 && |to| == 0 && k < |from|
    requires smallest ==> forall j :: 0 <= j < |from| ==> Center(boxOf(from[k]), axis) <= Center(boxOf(from[j]), axis)
    requires !smallest ==> forall j :: 0 <= j < |from| ==> Center(boxOf(from[k]), axis) >= Center(boxOf(from[j]), axis)
    ensures var moved, rest := to + [from[k]], from[..k] + from[k + 1..];
            && multiset(moved) + multiset(rest) == multiset(to) + multiset(from)
            && |moved| == 1 && |rest| == |from| - 1
            && (smallest ==> forall x, y :: x in moved && y in rest ==> Center(boxOf(x), axis) <= Center(boxOf(y), axis))
            && (!smallest ==> forall x, y :: x in rest && y in moved ==> Center(boxOf(x), axis) <= Center(boxOf(y), axis))
  {
    MoveExtreme(from, boxOf, axis, k, smallest);
    assert to + [from[k]] == [from[k]];
  }

  /** A box whose centres a double can hold, strictly inside the DBL_MAX
      sentinels. */
  predicate FiniteCenters(b: Box) {
    forall axis: nat :: axis < 3 ==> -DoubleMax < Center(b, axis) < DoubleMax
  }

  /** `partition` is defined on every non-empty list of finite boxes. */
  lemma PartitionDefined<T>(all: seq<T>, boxOf: T -> Box, axis: nat)
    requires axis < 3 && |all| > 0
    requires forall x :: x in all ==> FiniteCenters(boxOf(x))
    ensures Partition(all, boxOf, axis).Some?
  {
    var (lo, hi) := Split(all, boxOf, axis, Pivot(all, boxOf, axis));
    assert |multiset(lo)| + |multiset(hi)| == |multiset(all)|;
    if |hi| == |all| {
      var cs := Centers(hi, boxOf, axis);
      assert hi[0] in multiset(all);
      assert FiniteCenters(boxOf(hi[0])) && cs[0] == Center(boxOf(hi[0]), axis);
    } else if |lo| == |all| {
      var cs := Centers(lo, boxOf, axis);
      assert lo[0] in multiset(all);
      assert FiniteCenters(boxOf(lo[0])) && cs[0] == Center(boxOf(lo[0]), axis);
    }
  }

  /** A primitive's box where it is well shaped, which is all the
      partition is ever asked about. */
  function BoxOf(p: Prim): Box {
    if WellShaped(p) then PrimBox(p) else DefaultBox()
  }

  /** `BoundingBoxTree(objects, splitAxis)`: one object goes low alone, two
      go low and high, more are partitioned and each non-empty side
      becomes a hierarchy on the next axis. None where the source is
      undefined: an empty list, or a partition that reads an uninitialised
      index. */
  function Build(objects: seq<Prim>, axis: nat): (t: Option<Prim>)
    requires axis < 3
    requires Buildable(objects)
    ensures t.Some? ==> Valid(t.value) && t.value.Tree? && t.value.splitAxis == axis
    decreases |objects|
  {
    if |objects| == 1 then
      ObjectValid(objects, 0);
      Some(Tree(PrimBox(objects[0]), axis, Some(objects[0]), None))
    else if |objects| == 2 then
      ObjectValid(objects, 0);
      ObjectValid(objects, 1);
      Some(Tree(Combine(PrimBox(objects[0]), PrimBox(objects[1])), axis, Some(objects[0]), Some(objects[1])))
    else
      match Partition(objects, BoxOf, axis)
      case None =>
        None
      case Some((lo, hi)) =>
        SidesBuildable(objects, lo, hi);
        var next := (axis + 1) % 3;
        var low := if |lo| > 0 then Build(lo, next) else None;
        var high := if |hi| > 0 then Build(hi, next) else None;
        if (|lo| > 0 && low.None?) || (|hi| > 0 && high.None?) then None
        else Some(Tree(JoinBoxes(low, high), axis, low, high))
  }

  /** A list of two elements is the first followed by the second. */
  lemma PairList<T>(s: seq<T>)
    requires |s| == 2
    ensures s == [s[0]] + [s[1]]
  {
  }

  /** The hierarchy holds exactly the objects it was built from, each
      once. */
  lemma {:induction false} BuildItems(objects: seq<Prim>, axis: nat)
    requires axis < 3
    requires Buildable(objects)
    ensures var t := Build(objects, axis);
            t.Some? ==> Items(t.value) == multiset(objects)
    decreases |objects|
  {
    if |objects| == 1 {
      ObjectValid(objects, 0);
      assert objects == [objects[0]];
    } else if |objects| == 2 {
      ObjectValid(objects, 0);
      ObjectValid(objects, 1);
      PairList(objects);
    } else {
      match Partition(objects, BoxOf, axis)
      case None =>
      case Some((lo, hi)) =>
        SidesBuildable(objects, lo, hi);
        BuildItems(lo, (axis + 1) % 3);
        BuildItems(hi, (axis + 1) % 3);
    }
  }

  /** The box of the hierarchy encloses the box of every object. */
  lemma {:induction false} BuildEncloses(objects: seq<Prim>, axis: nat)
    requires axis < 3
    requires Buildable(objects)
    ensures var t := Build(objects, axis);
            t.Some? ==> forall x :: x in objects ==> Encloses(PrimBox(t.value), BoxOf(x))
    decreases |objects|
  {
    var t := Build(objects, axis);
    if |objects| == 1 {
      ObjectValid(objects, 0);
      assert objects == [objects[0]];
    } else if |objects| == 2 {
      ObjectValid(objects, 0);
      ObjectValid(objects, 1);
      PairList(objects);
    } else {
      match Partition(objects, BoxOf, axis)
      case None =>
      case Some((lo, hi)) =>
        SidesBuildable(objects, lo, hi);
        var next := (axis + 1) % 3;
        BuildEncloses(lo, next);
        BuildEncloses(hi, next);
        if t.Some? {
          var low, high := Build(lo, next), Build(hi, next);
          assert t == Some(Tree(JoinBoxes(low, high), axis, low, high));
          forall x | x in objects
            ensures Encloses(PrimBox(t.value), BoxOf(x))
          {
            assert x in multiset(objects);
            if x in multiset(lo) {
              assert x in lo;
            } else {
              assert x in hi;
            }
          }
        }
    }
  }

  /** A node built from three or more objects has two children, and every
      object below the low child has its box centre on the split axis at
      or below that of every object below the high child. */
  lemma BuildSplitsOnAxis(objects: seq<Prim>, axis: nat)
    requires axis < 3 && |objects| >= 3
    requires Buildable(objects)
    ensures var t := Build(objects, axis);
            t.Some? ==>
              && t.value.low.Some? && t.value.high.Some?
              && forall x, y :: x in Items(t.value.low.value) && y in Items(t.value.high.value) ==>
                                  Center(BoxOf(x), axis) <= Center(BoxOf(y), axis)
  {
    match Partition(objects, BoxOf, axis)
    case None =>
    case Some((lo, hi)) =>
      SidesBuildable(objects, lo, hi);
      var next := (axis + 1) % 3;
      BuildItems(lo, next);
      BuildItems(hi, next);
      var low, high := Build(lo, next), Build(hi, next);
      if low.Some? && high.Some? {
        assert Build(objects, axis) == Some(Tree(JoinBoxes(low, high), axis, low, high));
      }
  }

  /** A non-empty list of objects whose boxes have finite centres always
      yields a hierarchy. */
  lemma {:induction false} BuildDefined(objects: seq<Prim>, axis: nat)
    requires axis < 3 && |objects| > 0
    requires Buildable(objects)
    requires forall x :: x in objects ==> FiniteCenters(BoxOf(x))
    ensures Build(objects, axis).Some?
    decreases |objects|
  {
    if |objects| > 2 {
      PartitionDefined(objects, BoxOf, axis);
      var (lo, hi) := Partition(objects, BoxOf, axis).value;
      SidesBuildable(objects, lo, hi);
      assert |lo| > 0 && |hi| > 0;
      assert forall x :: x in lo ==> FiniteCenters(BoxOf(x));
      assert forall x :: x in hi ==> FiniteCenters(BoxOf(x));
      var next := (axis + 1) % 3;
      BuildDefined(lo, next);
      BuildDefined(hi, next);
      assert Partition(objects, BoxOf, axis) == Some((lo, hi));
      var low, high := Build(lo, next), Build(hi, next);
      assert Build(objects, axis) == Some(Tree(JoinBoxes(low, high), axis, low, high));
    } else if |objects| == 2 {
      ObjectValid(objects, 0);
      ObjectValid(objects, 1);
    } else {
      ObjectValid(objects, 0);
    }
  }

  /** What the hierarchy constructor is handed: well-formed objects, none
      of them itself a node. */
  predicate Buildable(objects: seq<Prim>) {
    forall x :: x in objects ==> Valid(x) && !x.Tree?
  }

  lemma SidesBuildable(objects: seq<Prim>, lo: seq<Prim>, hi: seq<Prim>)
    requires Buildable(objects)
    requires multiset(lo) + multiset(hi) == multiset(objects)
    ensures Buildable(lo) && Buildable(hi)
    ensures forall x :: x in lo ==> x in objects
    ensures forall x :: x in hi ==> x in objects
  {
    SidesFromObjects(objects, lo, hi);
  }

  lemma ObjectValid(objects: seq<Prim>, i: nat)
    requires i < |objects|
    requires Buildable(objects)
    ensures WellShaped(objects[i]) && CachedBoxes(objects[i]) && !objects[i].Tree?
  {
    assert objects[i] in objects;
  }

  /** The sides of a partition hold only objects of the input. */
  lemma SidesFromObjects(objects: seq<Prim>, lo: seq<Prim>, hi: seq<Prim>)
    requires multiset(lo) + multiset(hi) == multiset(objects)
    ensures forall x :: x in lo ==> x in objects
    ensures forall x :: x in hi ==> x in objects
  {
    forall x | x in lo
      ensures x in objects
    {
      assert x in multiset(lo) && x in multiset(objects);
    }
    forall x | x in hi
      ensures x in objects
    {
      assert x in multiset(hi) && x in multiset(objects);
    }
  }

  // ---------------------------------------------------------------------
  // Meshes
  // ---------------------------------------------------------------------

  /** The triangle primitives a mesh is built from: triangle k wrapped
      with the mesh's material under the fresh identity `first + k`. */
  function MeshLeaves(triangles: seq<Shape>, mat: Material, first: PrimId): (leaves: seq<Prim>)
    ensures |leaves| == |triangles|
  {
    seq(|triangles|, k requires 0 <= k < |triangles| => Geo(first + k, triangles[k], mat))
  }

  /** The `MeshPrimitive` constructor: every triangle becomes a plain
      primitive with the mesh's material and the primitives go into a
      hierarchy split first on z. A fresh mesh has not been hit: its
      identity has no entry in the memory until `Intersect` adds one.
      None where the hierarchy constructor is undefined (no triangles). */
  function MakeMesh(id: PrimId, triangles: seq<Shape>, mat: Material, first: PrimId): (r: Option<Prim>)
    requires forall k :: 0 <= k < |triangles| ==> ValidShape(triangles[k])
    requires ValidMaterial(mat)
    ensures r.Some? ==> && Valid(r.value) && r.value.MeshPrim? && r.value.id == id && r.value.material == mat
                        && r.value.tree.splitAxis == 2
  {
    var leaves := MeshLeaves(triangles, mat, first);
    MeshLeavesBuildable(triangles, mat, first);
    match Build(leaves, 2)
    case None => None
    case Some(t) =>
      BuildItems(leaves, 2);
      ItemsGeo(t);
      Some(MeshPrim(id, t, mat))
  }

  lemma MeshLeavesBuildable(triangles: seq<Shape>, mat: Material, first: PrimId)
    requires forall k :: 0 <= k < |triangles| ==> ValidShape(triangles[k])
    requires ValidMaterial(mat)
    ensures Buildable(MeshLeaves(triangles, mat, first))
    ensures forall x :: x in MeshLeaves(triangles, mat, first) ==> x.Geo?
  {
  }

  /** A hierarchy whose objects are all plain primitives has no mesh in
      it. */
  lemma {:induction false} ItemsGeo(p: Prim)
    requires forall x :: x in Items(p) ==> x.Geo?
    ensures GeoTree(p)
    decreases p
  {
    match p
    case Geo(_, _, _) =>
    case Tree(_, _, low, high) =>
      if low.Some? {
        ItemsGeo(low.value);
      }
      if high.Some? {
        ItemsGeo(high.value);
      }
    case MeshPrim(_, _, _) =>
  }

  /** Every plain primitive reached in a hierarchy of plain primitives is
      one of its objects. */
  lemma {:induction false} LeafIsItem(p: Prim, g: Prim)
    requires GeoTree(p) && HasLeaf(p, g)
    ensures g in Items(p)
    decreases p
  {
    match p
    case Geo(_, _, _) =>
    case Tree(_, _, low, high) =>
      if low.Some? && HasLeaf(low.value, g) {
        LeafIsItem(low.value, g);
      } else {
        LeafIsItem(high.value, g);
      }
  }

  /** A mesh holds exactly its triangles, each once, under distinct
      identities, so a reflectance lookup after a hit finds the very
      triangle that was hit (`MeshReflectanceAfterHit`). */
  lemma MakeMeshHoldsTriangles(id: PrimId, triangles: seq<Shape>, mat: Material, first: PrimId)
    requires forall k :: 0 <= k < |triangles| ==> ValidShape(triangles[k])
    requires ValidMaterial(mat)
    ensures var r := MakeMesh(id, triangles, mat, first);
            r.Some? ==> Items(r.value.tree) == multiset(MeshLeaves(triangles, mat, first)) && UniqueIds(r.value.tree)
  {
    var leaves := MeshLeaves(triangles, mat, first);
    MeshLeavesBuildable(triangles, mat, first);
    BuildItems(leaves, 2);
    var r := MakeMesh(id, triangles, mat, first);
    if r.Some? {
      var t := r.value.tree;
      forall g1, g2 | HasLeaf(t, g1) && HasLeaf(t, g2) && g1.id == g2.id
        ensures g1 == g2
      {
        LeafIsItem(t, g1);
        LeafIsItem(t, g2);
        MeshLeafIds(triangles, mat, first, g1, g2);
      }
    }
  }

  /** The leaves of a mesh carry distinct identities. */
  lemma MeshLeafIds(triangles: seq<Shape>, mat: Material, first: PrimId, g1: Prim, g2: Prim)
    requires g1 in MeshLeaves(triangles, mat, first) && g2 in MeshLeaves(triangles, mat, first) && g1.id == g2.id
    ensures g1 == g2
  {
    var leaves := MeshLeaves(triangles, mat, first);
    var i :| 0 <= i < |leaves| && leaves[i] == g1;
    var j :| 0 <= j < |leaves| && leaves[j] == g2;
    assert g1.id == first + i && g2.id == first + j;
  }

  /** A mesh with at least one triangle, every one of finite extent, is
      always built. */
  lemma MakeMeshDefined(id: PrimId, triangles: seq<Shape>, mat: Material, first: PrimId)
    requires forall k :: 0 <= k < |triangles| ==> ValidShape(triangles[k])
    requires ValidMaterial(mat)
    requires |triangles| > 0 && forall k :: 0 <= k < |triangles| ==> FiniteCenters(BoundingBox(triangles[k]))
    ensures MakeMesh(id, triangles, mat, first).Some?
  {
    var leaves := MeshLeaves(triangles, mat, first);
    MeshLeavesBuildable(triangles, mat, first);
    forall x | x in leaves
      ensures FiniteCenters(BoxOf(x))
    {
    }
    BuildDefined(leaves, 2);
  }

  // ---------------------------------------------------------------------
  // Instancing
  // ---------------------------------------------------------------------

  /** `q` has the structure of `p` with every shape placed by `tr` and
      every material replaced by `mat`: same nodes, same split axes, same
      missing children. Boxes and identities are not compared. */
  predicate InstanceOf(q: Prim, p: Prim, tr: Transform, mat: Material)
    decreases p
  {
    match p
    case Geo(_, shape, _) => q.Geo? && q.shape == Transformed(shape, tr) && q.material == mat
    case Tree(_, axis, low, high) =>
      && q.Tree? && q.splitAxis == axis
      && q.low.Some? == low.Some? && q.high.Some? == high.Some?
      && (low.Some? ==> InstanceOf(q.low.value, low.value, tr, mat))
      && (high.Some? ==> InstanceOf(q.high.value, high.value, tr, mat))
    case MeshPrim(_, tree, _) => q.MeshPrim? && q.material == mat && InstanceOf(q.tree, tree, tr, mat)
  }

  /** `instance(transform, mat)`: a copy of the primitive placed by the
      transform and wearing the new material. Every created plain
      primitive and mesh takes a fresh identity, counting up from `next`
      (the source's fresh allocations); a node instances its high child
      before its low one, as the instancing constructor does, and
      recomputes its box from the new children. A fresh mesh has not yet
      been hit. */
  function Instance(p: Prim, tr: Transform, mat: Material, next: PrimId): (r: (Prim, PrimId))
    requires WellShaped(p) && ValidMaterial(mat) && Inverts(tr)
    ensures Valid(r.0) && InstanceOf(r.0, p, tr, mat)
    ensures GeoTree(p) ==> GeoTree(r.0)
    ensures next <= r.1
    ensures forall g :: HasLeaf(r.0, g) ==> next <= g.id < r.1
    ensures forall i :: i in MeshIds(r.0) ==> next <= i < r.1
    decreases p
  {
    match p
    case Geo(_, shape, _) => (Geo(next, Transformed(shape, tr), mat), next + 1)
    case Tree(_, axis, low, high) =>
      var (h, mid) := if high.Some? then var (q, m) := Instance(high.value, tr, mat, next); (Some(q), m)
                      else (None, next);
      var (l, end) := if low.Some? then var (q, m) := Instance(low.value, tr, mat, mid); (Some(q), m)
                      else (None, mid);
      (Tree(JoinBoxes(l, h), axis, l, h), end)
    case MeshPrim(_, tree, _) =>
      var (t, end) := Instance(tree, tr, mat, next + 1);
      (MeshPrim(next, t, mat), end)
  }

  /** The node case of `Instance`, spelled out: the high child is
      instanced from `next`, the low one from where the high one stopped. */
  lemma InstanceNode(p: Prim, tr: Transform, mat: Material, next: PrimId) returns (mid: PrimId)
    requires WellShaped(p) && ValidMaterial(mat) && Inverts(tr) && p.Tree?
    ensures var r := Instance(p, tr, mat, next).0;
            && r.Tree?
            && (p.high.Some? ==> r.high == Some(Instance(p.high.value, tr, mat, next).0)
                                 && mid == Instance(p.high.value, tr, mat, next).1)
            && (p.high.None? ==> r.high.None? && mid == next)
            && (p.low.Some? ==> r.low == Some(Instance(p.low.value, tr, mat, mid).0))
            && (p.low.None? ==> r.low.None?)
  {
    mid := if p.high.Some? then Instance(p.high.value, tr, mat, next).1 else next;
  }

  /** The identities handed out by one instancing are distinct, so the
      reflectance lookup of an instanced mesh finds the very triangle it
      hit. */
  lemma {:induction false} InstanceUniqueIds(p: Prim, tr: Transform, mat: Material, next: PrimId)
    requires WellShaped(p) && ValidMaterial(mat) && Inverts(tr)
    ensures UniqueIds(Instance(p, tr, mat, next).0)
    decreases p
  {
    match p
    case Geo(_, _, _) =>
    case Tree(_, _, low, high) =>
      var mid := HighEnd(p, tr, mat, next);
      if high.Some? {
        InstanceUniqueIds(high.value, tr, mat, next);
      }
      if low.Some? {
        InstanceUniqueIds(low.value, tr, mat, mid);
      }
      InstanceTreeUnique(p, tr, mat, next);
    case MeshPrim(_, tree, _) =>
      InstanceUniqueIds(tree, tr, mat, next + 1);
  }

  /** The first identity left over once a node's high child is instanced. */
  function HighEnd(p: Prim, tr: Transform, mat: Material, next: PrimId): PrimId
    requires WellShaped(p) && ValidMaterial(mat) && Inverts(tr) && p.Tree?
  {
    if p.high.Some? then Instance(p.high.value, tr, mat, next).1 else next
  }

  /** An instanced node has unique identities when its instanced children
      have. */
  lemma InstanceTreeUnique(p: Prim, tr: Transform, mat: Material, next: PrimId)
    requires WellShaped(p) && ValidMaterial(mat) && Inverts(tr) && p.Tree?
    requires p.high.Some? ==> UniqueIds(Instance(p.high.value, tr, mat, next).0)
    requires p.low.Some? ==> UniqueIds(Instance(p.low.value, tr, mat, HighEnd(p, tr, mat, next)).0)
    ensures UniqueIds(Instance(p, tr, mat, next).0)
  {
    var mid := InstanceNode(p, tr, mat, next);
    SidesUnique(Instance(p, tr, mat, next).0, mid);
  }

  /** A node whose children have unique identities, the high ones all
      below `mid` and the low ones all at or above it, has unique
      identities. */
  lemma SidesUnique(r: Prim, mid: PrimId)
    requires r.Tree?
    requires r.low.Some? ==> UniqueIds(r.low.value) && forall g :: HasLeaf(r.low.value, g) ==> mid <= g.id
    requires r.high.Some? ==> UniqueIds(r.high.value) && forall g :: HasLeaf(r.high.value, g) ==> g.id < mid
    ensures UniqueIds(r)
  {
    forall g1, g2 | HasLeaf(r, g1) && HasLeaf(r, g2) && g1.id == g2.id
      ensures g1 == g2
    {
    }
  }
}

=== FILE: ray.dfy ===
/** Rays (Ray.h, Ray.cpp): an origin, a direction, an inclusive parameter
    interval [tMin, tMax], the per-axis sign bits used by the slab test,
    the sample that produced the ray and the primitive it last passed
    through. */
module Rays {

  import opened Wrappers
  import opened Vectors
  import opened Sampling

  /** The identity of a primitive, standing for its address. */
  type PrimId = nat

  /** `DBL_MAX`, used as the open upper bound of bounce and viewing rays. */
  const DoubleMax: real := 1.7976931348623157e308

  /** The three sign bits, each 0 or 1. */
  datatype Signs = Signs(s0: int, s1: int, s2: int)

  datatype Ray = Ray(
    origin: Vec3,
    direction: Vec3,
    tMin: real,
    tMax: real,
    sign: Signs,
    sample: Sample,
    lastHit: Option<PrimId>)

  /** `(inverseDirection[a] < 0)` as an int. The reciprocal of a non-zero
      component has the component's sign; a zero component gives +infinity
      in IEEE arithmetic, which is not negative. */
  function SignBit(d: real): (b: int)
    ensures b == 0 || b == 1
    ensures d != 0.0 ==> (b == 1 <==> 1.0 / d < 0.0)
    ensures d == 0.0 ==> b == 0
  {
    if d < 0.0 then 1 else 0
  }

  function SignsOf(d: Vec3): Signs {
    Signs(SignBit(d.x), SignBit(d.y), SignBit(d.z))
  }

  /** The stored sign bits agree with the stored direction, as every
      constructor and assignment leaves them. */
  predicate SignsMatch(r: Ray) {
    r.sign == SignsOf(r.direction)
  }

  /** `Ray(start, end, min, max, samp, lastHit)`: the direction is
      `end - start`, so the point at parameter 1 is `end`. */
  function FromPoints(start: Vec3, end: Vec3, min: real, max: real, samp: Sample, lastHit: Option<PrimId>): (r: Ray)
    ensures r.origin == start && IntersectionPoint(r, 1.0) == end
    ensures r.tMin == min && r.tMax == max
    ensures r.sample == samp && r.lastHit == lastHit
    ensures SignsMatch(r)
  {
    var direction := Sub(end, start);
    Ray(start, direction, min, max, SignsOf(direction), samp, lastHit)
  }

  /** `Ray(start, min, max, direction, samp, lastHit)`. */
  function FromDirection(start: Vec3, min: real, max: real, direction: Vec3, samp: Sample, lastHit: Option<PrimId>): (r: Ray)
    ensures r.origin == start && r.direction == direction
    ensures r.tMin == min && r.tMax == max
    ensures r.sample == samp && r.lastHit == lastHit
    ensures SignsMatch(r)
  {
    Ray(start, direction, min, max, SignsOf(direction), samp, lastHit)
  }

  /** `getSign(axis)`: the bit of axis `axis % 3`. */
  function GetSign(r: Ray, axis: nat): (b: int)
    ensures SignsMatch(r) ==> (b == 1 <==> Get(r.direction, axis % 3) < 0.0)
  {
    match axis % 3
    case 0 => r.sign.s0
    case 1 => r.sign.s1
    case _ => r.sign.s2
  }

  /** `isWithinBounds`: both ends of the interval are included. */
  predicate IsWithinBounds(r: Ray, t: real) {
    t <= r.tMax && t >= r.tMin
  }

  /** `setBounds`: only the interval changes. */
  function SetBounds(r: Ray, min: real, max: real): (s: Ray)
    ensures s.tMin == min && s.tMax == max
    ensures s.(tMin := r.tMin, tMax := r.tMax) == r
    ensures SignsMatch(s) <==> SignsMatch(r)
  {
    r.(tMin := min, tMax := max)
  }

  /** `intersectionPoint(t)`: origin + t * direction. */
  function IntersectionPoint(r: Ray, t: real): (p: Vec3)
    ensures t == 0.0 ==> p == r.origin
    ensures Sub(p, r.origin) == Scale(t, r.direction)
  {
    Add(r.origin, Scale(t, r.direction))
  }

  /** `operator =`: copies every field and recomputes the sign bits from
      the copied direction; for a ray whose signs match its direction the
      copy is the same ray. */
  function Assign(src: Ray): (r: Ray)
    ensures SignsMatch(r)
    ensures r.(sign := src.sign) == src
    ensures SignsMatch(src) ==> r == src
  {
    src.(sign := SignsOf(src.direction))
  }

  /** `operator *(mat4, Ray)`: the origin is moved as a point, the direction
      as a vector, the sign bits follow the new direction, and the bounds,
      sample and last hit are kept. */
  function TransformRay(m: Affine, r: Ray): (s: Ray)
    ensures s.origin == ApplyPoint(m, r.origin)
    ensures s.direction == ApplyVector(m, r.direction)
    ensures SignsMatch(s)
    ensures s.tMin == r.tMin && s.tMax == r.tMax
    ensures s.sample == r.sample && s.lastHit == r.lastHit
  {
    var direction := ApplyVector(m, r.direction);
    r.(origin := ApplyPoint(m, r.origin), direction := direction, sign := SignsOf(direction))
  }

  /** The interval test includes both ends, and nothing outside. */
  lemma WithinBoundsInclusive(r: Ray, t: real)
    requires r.tMin <= r.tMax
    ensures IsWithinBounds(r, r.tMin) && IsWithinBounds(r, r.tMax)
    ensures IsWithinBounds(r, t) <==> r.tMin <= t <= r.tMax
    ensures t < r.tMin || t > r.tMax ==> !IsWithinBounds(r, t)
  {
  }

  /** The point of a transformed ray at parameter t is the transformed
      point of the original ray at t: a hit parameter found in a shape's
      own space is valid in world space. */
  lemma TransformRayPoint(m: Affine, r: Ray, t: real)
    ensures IntersectionPoint(TransformRay(m, r), t) == ApplyPoint(m, IntersectionPoint(r, t))
  {
    ApplyPointOnLine(m, r.origin, r.direction, t);
  }
}

=== FILE: rgb.dfy ===
/** Colours (rgb.h, rgb.cpp): a triple of reals with componentwise
    arithmetic and a clamp to [0, 1]. */
module Colors {

  datatype Rgb = Rgb(r: real, g: real, b: real)

  /** `rgb::black`, and also what `rgb()` constructs. */
  const Black: Rgb := Rgb(0.0, 0.0, 0.0)

  /** The default constructor. */
  function Default(): (c: Rgb)
    ensures c.r == 0.0 && c.g == 0.0 && c.b == 0.0
    ensures c == Black
  {
    Rgb(0.0, 0.0, 0.0)
  }

  /** `rgb * rgb`: element-wise product. */
  function Mul(a: Rgb, b: Rgb): Rgb {
    Rgb(a.r * b.r, a.g * b.g, a.b * b.b)
  }

  function Add(a: Rgb, b: Rgb): Rgb {
    Rgb(a.r + b.r, a.g + b.g, a.b + b.b)
  }

  function Sub(a: Rgb, b: Rgb): Rgb {
    Rgb(a.r - b.r, a.g - b.g, a.b - b.b)
  }

  function Neg(a: Rgb): Rgb {
    Rgb(-a.r, -a.g, -a.b)
  }

  const White: Rgb := Rgb(1.0, 1.0, 1.0)

  /** White is the unit and black the zero of the element-wise product. */
  lemma MulUnits(a: Rgb)
    ensures Mul(a, White) == a && Mul(a, Black) == Black
  {
  }

  lemma MulAssociative(a: Rgb, b: Rgb, c: Rgb)
    ensures Mul(Mul(a, b), c) == Mul(a, Mul(b, c))
  {
    assert (a.r * b.r) * c.r == a.r * (b.r * c.r);
    assert (a.g * b.g) * c.g == a.g * (b.g * c.g);
    assert (a.b * b.b) * c.b == a.b * (b.b * c.b);
  }

  /** `rgb * double`. */
  function Scale(a: Rgb, d: real): Rgb {
    Rgb(d * a.r, d * a.g, d * a.b)
  }

  /** `double * rgb`, defined in the source as `a * d`. */
  function ScaleLeft(d: real, a: Rgb): Rgb {
    Scale(a, d)
  }

  /** `rgb / double`: multiplies by the reciprocal. */
  function Div(a: Rgb, d: real): Rgb
    requires d != 0.0
  {
    var inv := 1.0 / d;
    Rgb(a.r * inv, a.g * inv, a.b * inv)
  }

  /** `operator ==`: all three components equal. */
  predicate Eq(a: Rgb, b: Rgb) {
    a.r == b.r && a.g == b.g && a.b == b.b
  }

  /** `operator !=`: the negation of `==`. */
  predicate Ne(a: Rgb, b: Rgb) {
    !Eq(a, b)
  }

  function Clamp01(x: real): real {
    var upper := if 1.0 < x then 1.0 else x;
    if 0.0 > upper then 0.0 else upper
  }

  /** `rgb::normalize`: first MIN with 1.0, then MAX with 0.0, per
      component. */
  function Normalize(c: Rgb): (n: Rgb)
    ensures 0.0 <= n.r <= 1.0 && 0.0 <= n.g <= 1.0 && 0.0 <= n.b <= 1.0
  {
    Rgb(Clamp01(c.r), Clamp01(c.g), Clamp01(c.b))
  }

  predicate InUnitCube(c: Rgb) {
    0.0 <= c.r <= 1.0 && 0.0 <= c.g <= 1.0 && 0.0 <= c.b <= 1.0
  }

  /** The element-wise product, sum and difference act per component. */
  lemma ComponentwiseOperators(a: Rgb, b: Rgb)
    ensures Mul(a, b).r == a.r * b.r && Mul(a, b).g == a.g * b.g && Mul(a, b).b == a.b * b.b
    ensures Add(a, b).r == a.r + b.r && Add(a, b).g == a.g + b.g && Add(a, b).b == a.b + b.b
    ensures Sub(a, b).r == a.r - b.r && Sub(a, b).g == a.g - b.g && Sub(a, b).b == a.b - b.b
    ensures Add(Sub(a, b), b) == a
    ensures Mul(a, b) == Mul(b, a)
  {
  }

  /** Scalar multiplication is the same on either side, and division is
      multiplication by the reciprocal. */
  lemma ScalarLaws(a: Rgb, d: real)
    ensures ScaleLeft(d, a) == Scale(a, d)
    ensures d != 0.0 ==> Div(a, d) == Scale(a, 1.0 / d)
    ensures d != 0.0 ==> Scale(Div(a, d), d) == a
  {
    if d != 0.0 {
      var inv := 1.0 / d;
      assert inv * d == 1.0;
      assert a.r * inv * d == a.r;
      assert a.g * inv * d == a.g;
      assert a.b * inv * d == a.b;
    }
  }

  /** `==` coincides with equality of the values, and `!=` with its
      negation. */
  lemma EqualityIsValueEquality(a: Rgb, b: Rgb)
    ensures Eq(a, b) <==> a == b
    ensures Ne(a, b) <==> a != b
  {
  }

  /** Components already in [0, 1] are left as they are. */
  lemma NormalizeKeepsUnitCube(c: Rgb)
    ensures InUnitCube(c) <==> Normalize(c) == c
  {
  }

  /** Clamping twice is clamping once. */
  lemma NormalizeIdempotent(c: Rgb)
    ensures Normalize(Normalize(c)) == Normalize(c)
  {
    NormalizeKeepsUnitCube(Normalize(c));
  }

  /** Components above 1 become 1, components below 0 become 0, the rest
      are kept. */
  lemma NormalizeClamps(x: real)
    ensures x > 1.0 ==> Clamp01(x) == 1.0
    ensures x < 0.0 ==> Clamp01(x) == 0.0
    ensures 0.0 <= x <= 1.0 ==> Clamp01(x) == x
  {
  }
}

=== FILE: sampler.dfy ===
/** Screen sampling (Sampler.h, Sampler.cpp): the `Sample` record, the
    sampler's counter state machine and the division into normalised
    screen coordinates. The random generator is replaced by the values it
    would return, passed in by the caller. */
module Sampling {

  import opened Wrappers

  /** One sample of the screen: a position in pixel units and the
      sub-pixel cell (p, q) it came from. */
  datatype Sample = Sample(horiz: real, vert: real, p: nat, q: nat)

  /** The sampler: a `width` x `height` screen, `n` x `n` samples per
      pixel, and the counters of the next sample to emit. */
  datatype Sampler = Sampler(width: nat, height: nat, n: nat, i: nat, j: nat, p: nat, q: nat)

  /** The constructor: all counters start at zero. */
  function Create(width: nat, height: nat, perPixel: nat): (s: Sampler)
    ensures s.width == width && s.height == height && s.n == perPixel
    ensures s.i == 0 && s.j == 0 && s.p == 0 && s.q == 0
    ensures HasMoreSamples(s) <==> width > 0 && height > 0
  {
    Sampler(width, height, perPixel, 0, 0, 0, 0)
  }

  /** `hasMoreSamples`: the pixel counters are still on the screen. */
  predicate HasMoreSamples(s: Sampler) {
    s.i < s.width && s.j < s.height
  }

  /** The jitter inside a sub-pixel cell: exactly the centre when there is
      one sample per pixel, otherwise the value the generator returned. */
  function Jitter(n: nat, random: real): real {
    if n == 1 then 0.5 else random
  }

  /** The counters after one call to `nextSample`, case by case: the last
      sample of the last pixel moves past the screen, the last sample of a
      row's last pixel starts the next row, the last sample of a pixel
      moves to the next pixel, the end of a sub-pixel row moves to the
      next sub-pixel row, and otherwise `q` advances. */
  function Advance(s: Sampler): Sampler
    requires s.n >= 1 && HasMoreSamples(s)
  {
    if s.i == s.width - 1 && s.j == s.height - 1 && s.p == s.n - 1 && s.q == s.n - 1 then
      s.(i := s.i + 1, j := s.j + 1, p := 0, q := 0)
    else if s.i == s.width - 1 && s.p == s.n - 1 && s.q == s.n - 1 then
      s.(i := 0, j := s.j + 1, p := 0, q := 0)
    else if s.p == s.n - 1 && s.q == s.n - 1 then
      s.(i := s.i + 1, p := 0, q := 0)
    else if s.q == s.n - 1 then
      s.(p := s.p + 1, q := 0)
    else
      s.(q := s.q + 1)
  }

  /** `nextSample`, with the two generator values it may consume. `None`
      stands for the exception thrown when no sample is left; otherwise
      the sample carries the counters from before the call and a position
      jittered inside sub-pixel cell (p, q) of pixel (i, j). */
  function NextSample(s: Sampler, random1: real, random2: real): (r: Option<(Sample, Sampler)>)
    requires s.n >= 1
    ensures r.Some? <==> HasMoreSamples(s)
    ensures r.Some? ==>
      var (smp, next) := r.value;
      && smp.p == s.p && smp.q == s.q
      && smp.horiz == s.i as real + (s.p as real + Jitter(s.n, random1)) / s.n as real
      && smp.vert == s.j as real + (s.q as real + Jitter(s.n, random2)) / s.n as real
      && next.width == s.width && next.height == s.height && next.n == s.n
  {
    if !HasMoreSamples(s) then None
    else
      var eps1 := Jitter(s.n, random1);
      var eps2 := Jitter(s.n, random2);
      var smp := Sample(s.i as real + (s.p as real + eps1) / s.n as real,
                        s.j as real + (s.q as real + eps2) / s.n as real,
                        s.p, s.q);
      Some((smp, Advance(s)))
  }

  /** `normalizeSample`: divides the position by the screen size and keeps
      the sub-pixel cell. The source divides without checking; a sampler
      that produced a sample has a non-empty screen. */
  function NormalizeSample(s: Sampler, smp: Sample): (r: Sample)
    requires s.width > 0 && s.height > 0
    ensures r.p == smp.p && r.q == smp.q
    ensures r.horiz * s.width as real == smp.horiz
    ensures r.vert * s.height as real == smp.vert
  {
    Sample(smp.horiz / s.width as real, smp.vert / s.height as real, smp.p, smp.q)
  }

  // ---------------------------------------------------------------------
  // The order in which samples are emitted
  // ---------------------------------------------------------------------

  /** The states the sampler can reach from `Create`: sub-pixel counters
      below `n`, and either on the screen, or just past its last pixel,
      or still at the origin of an empty screen. */
  predicate Valid(s: Sampler) {
    && s.n >= 1 && s.p < s.n && s.q < s.n
    && (|| HasMoreSamples(s)
        || (s.i == s.width && s.j == s.height && s.p == 0 && s.q == 0)
        || (s.i == 0 && s.j == 0 && s.p == 0 && s.q == 0 && (s.width == 0 || s.height == 0)))
  }

  /** The number of samples in the whole image. */
  function Total(s: Sampler): nat {
    s.width * s.height * s.n * s.n
  }

  /** How many samples were emitted before reaching `s`: the counters read
      as the digits of a mixed-radix number, `q` the least significant,
      then `p`, then `i`, then `j`. */
  function Rank(s: Sampler): int {
    if HasMoreSamples(s) then ((s.j * s.width + s.i) * s.n + s.p) * s.n + s.q
    else Total(s)
  }

  lemma MulAtLeast(c: int, n: int)
    requires c >= 1 && n > 0
    ensures c * n >= n
  {
    var k := c - 1;
    assert c * n == k * n + n;
    assert k * n >= 0;
  }

  lemma MulStrictlyBelow(a: int, b: int, n: int)
    requires 0 <= a < b && n > 0
    ensures a * n + n <= b * n
  {
    MulAtLeast(b - a, n);
    assert b * n - a * n == (b - a) * n;
  }

  lemma DivModUnique(x: int, n: int, a: int, b: int)
    requires n > 0 && 0 <= b < n && x == a * n + b
    ensures x / n == a && x % n == b
  {
    var c := a - x / n;
    assert x == (x / n) * n + x % n;
    assert c * n == x % n - b;
    if c >= 1 {
      MulAtLeast(c, n);
    } else if c <= -1 {
      MulAtLeast(-c, n);
    }
  }

  /** The rank of a state on the screen is below the total. */
  lemma RankBelowTotal(s: Sampler)
    requires Valid(s) && HasMoreSamples(s)
    ensures 0 <= Rank(s) < Total(s)
  {
    var w, h, n := s.width, s.height, s.n;
    var pix := s.j * w + s.i;
    assert pix + 1 <= h * w by {
      MulStrictlyBelow(s.j, h, w);
    }
    var sub := pix * n + s.p;
    assert sub + 1 <= h * w * n by {
      MulStrictlyBelow(pix, h * w, n);
    }
    assert sub * n + s.q + 1 <= h * w * n * n by {
      MulStrictlyBelow(sub, h * w * n, n);
    }
    assert h * w * n * n == w * h * n * n;
  }

  /** Carrying into the next digit: a full digit plus one is one more
      unit of the digit above. */
  lemma Carry(a: int, n: int)
    ensures a * n + (n - 1) + 1 == (a + 1) * n
  {
  }

  /** Each call to `nextSample` moves to the state of the next rank and
      stays among the reachable states. */
  lemma {:induction false} AdvanceIncrementsRank(s: Sampler)
    requires Valid(s) && HasMoreSamples(s)
    ensures Valid(Advance(s))
    ensures Rank(Advance(s)) == Rank(s) + 1
  {
    var w, h, n := s.width, s.height, s.n;
    var t := Advance(s);
    var pix := s.j * w + s.i;
    var sub := pix * n + s.p;
    assert Rank(s) == sub * n + s.q;
    if s.q < n - 1 {
      assert t == s.(q := s.q + 1);
    } else {
      Carry(sub, n);
      assert Rank(s) + 1 == (sub + 1) * n;
      if s.p < n - 1 {
        assert t == s.(p := s.p + 1, q := 0);
      } else {
        Carry(pix, n);
        assert sub + 1 == (pix + 1) * n;
        if s.i < w - 1 {
          assert t == s.(i := s.i + 1, p := 0, q := 0);
          assert Rank(t) == (((s.j * w + (s.i + 1)) * n) + 0) * n + 0;
        } else {
          Carry(s.j, w);
          assert pix + 1 == (s.j + 1) * w;
          if s.j < h - 1 {
            assert t == s.(i := 0, j := s.j + 1, p := 0, q := 0);
            assert Rank(t) == (((s.j + 1) * w + 0) * n + 0) * n + 0;
          } else {
            assert t == s.(i := s.i + 1, j := s.j + 1, p := 0, q := 0);
            assert pix + 1 == h * w;
            assert Rank(t) == ((w * h) * n) * n;
            assert w * h == h * w;
          }
        }
      }
    }
  }

  /** The counters of a state on the screen are the digits of its rank. */
  lemma RankDigits(s: Sampler)
    requires Valid(s) && HasMoreSamples(s)
    ensures Rank(s) % s.n == s.q
    ensures Rank(s) / s.n % s.n == s.p
    ensures Rank(s) / s.n / s.n % s.width == s.i
    ensures Rank(s) / s.n / s.n / s.width == s.j
  {
    var w, n := s.width, s.n;
    var pix := s.j * w + s.i;
    var sub := pix * n + s.p;
    DivModUnique(Rank(s), n, sub, s.q);
    DivModUnique(sub, n, pix, s.p);
    DivModUnique(pix, w, s.j, s.i);
  }

  /** A stream of generator values, each in [0, 1). */
  ghost predicate UnitStream(random: nat -> real) {
    forall k: nat :: 0.0 <= random(k) < 1.0
  }

  /** The jittered coordinate of sub-pixel cell `p` of pixel `i` stays
      inside that pixel: i <= i + (p + eps) / n < i + 1. */
  lemma JitterInsidePixel(i: nat, p: nat, n: nat, eps: real)
    requires n >= 1 && p < n && 0.0 <= eps < 1.0
    ensures i as real <= i as real + (p as real + eps) / n as real < i as real + 1.0
    ensures (i as real + (p as real + eps) / n as real).Floor == i
  {
    var x := p as real + eps;
    assert 0.0 <= x < n as real;
    var f := x / n as real;
    assert f * n as real == x;
    assert 0.0 <= f < 1.0;
  }

  /** The render loop over a fresh sampler (Scene.cpp drives it the same
      way): while samples are left, take the next one. Generator call `2k`
      and `2k + 1` feed the k-th sample. Exactly `width * height * n * n`
      samples come out, and sample k belongs to pixel and sub-pixel cell
      given by the digits of k, with q varying fastest, then p, then the
      column i, then the row j. */
  method AllSamples(width: nat, height: nat, n: nat, random: nat -> real)
    returns (samples: seq<Sample>, last: Sampler)
    requires n >= 1
    requires UnitStream(random)
    ensures |samples| == width * height * n * n
    ensures !HasMoreSamples(last) && last.width == width && last.height == height
    ensures width > 0 && height > 0 ==> last.i == width && last.j == height
    ensures forall k :: 0 <= k < |samples| ==>
      && samples[k].q == k % n
      && samples[k].p == k / n % n
      && samples[k].horiz.Floor == k / n / n % width
      && samples[k].vert.Floor == k / n / n / width
  {
    var s := Create(width, height, n);
    samples := [];
    while HasMoreSamples(s)
      invariant Valid(s)
      invariant s.width == width && s.height == height && s.n == n
      invariant Rank(s) <= Total(s)
      invariant |samples| == Rank(s)
      invariant forall k :: 0 <= k < |samples| ==>
        && samples[k].q == k % n
        && samples[k].p == k / n % n
        && samples[k].horiz.Floor == k / n / n % width
        && samples[k].vert.Floor == k / n / n / width
      decreases Total(s) - Rank(s)
    {
      var k := |samples|;
      RankDigits(s);
      RankBelowTotal(s);
      var r := NextSample(s, random(2 * k), random(2 * k + 1));
      var (smp, next) := r.value;
      JitterInsidePixel(s.i, s.p, n, Jitter(n, random(2 * k)));
      JitterInsidePixel(s.j, s.q, n, Jitter(n, random(2 * k + 1)));
      AdvanceIncrementsRank(s);
      samples := samples + [smp];
      s := next;
    }
    last := s;
  }
}

=== FILE: scene_parser.dfy ===
/** The scene-file readers of raytrace.cpp: the six-line scene header, the
    eight-line material block, the three-line transform block, the
    triangle and sphere descriptions and the light lines. Each reader
    takes the remaining lines of the file and gives back what it built
    with the lines it left, or None where the source returns false. */
module SceneFiles {

  import opened Wrappers
  import opened Vectors
  import opened Tokens
  import Colors
  import Materials
  import Cameras
  import opened Numbers

  function VecAt(xs: seq<real>, k: nat): Vec3
    requires k + 3 <= |xs|
  {
    Vec3(xs[k], xs[k + 1], xs[k + 2])
  }

  function RgbAt(xs: seq<real>, k: nat): Colors.Rgb
    requires k + 3 <= |xs|
  {
    Colors.Rgb(xs[k], xs[k + 1], xs[k + 2])
  }

  // ---------------------------------------------------------------------
  // Keyed blocks
  // ---------------------------------------------------------------------

  /** Line i of the input, or the empty line `getline` gives past the end. */
  function LineAt(lines: seq<string>, i: nat): string {
    if i < |lines| then lines[i] else []
  }

  function Drop(lines: seq<string>, n: nat): seq<string> {
    if n <= |lines| then lines[n..] else []
  }

  /** A fixed number of lines handed one by one to `step`, stopping at the
      first rejected line: the loop shape of `parseScene`,
      `parseMaterial` and `parseTransform`. */
  function Block<S>(step: (S, string) -> Option<S>, st: S, lines: seq<string>, n: nat): (r: Option<(S, seq<string>)>)
    ensures r.Some? ==> r.value.1 == Drop(lines, n)
    ensures n > 0 && step(st, LineAt(lines, 0)).None? ==> r.None?
    ensures n > 0 && step(st, LineAt(lines, 0)).Some? ==> r == Block(step, step(st, LineAt(lines, 0)).value, Drop(lines, 1), n - 1)
    ensures n == 0 ==> r == Some((st, lines))
    decreases n
  {
    if n == 0 then Some((st, lines))
    else
      var (line, rest) := NextLine(lines);
      match step(st, line)
      case None => None
      case Some(st') =>
        var r := Block(step, st', rest, n - 1);
        assert r.Some? ==> r.value.1 == Drop(lines, n) by {
          if lines != [] && n - 1 <= |rest| {
            assert rest[n - 1..] == lines[n..];
          }
        }
        r
  }

  /** A block none of whose lines names a key leaves that key unset, when
      no line without the key's name can set it. */
  lemma {:induction false} BlockKeepsAbsent<S>(step: (S, string) -> Option<S>, has: S -> bool, ops: set<string>,
                                                st: S, lines: seq<string>, n: nat)
    requires forall s: S, line: string :: !has(s) && Op(line) !in ops && step(s, line).Some? ==> !has(step(s, line).value)
    requires !has(st)
    requires forall i :: 0 <= i < n ==> Op(LineAt(lines, i)) !in ops
    ensures Block(step, st, lines, n).Some? ==> !has(Block(step, st, lines, n).value.0)
    decreases n
  {
    if n > 0 {
      var (line, rest) := NextLine(lines);
      assert line == LineAt(lines, 0);
      if step(st, line).Some? {
        forall i | 0 <= i < n - 1
          ensures Op(LineAt(rest, i)) !in ops
        {
          assert LineAt(rest, i) == LineAt(lines, i + 1);
        }
        BlockKeepsAbsent(step, has, ops, step(st, line).value, rest, n - 1);
      }
    }
  }

  // ---------------------------------------------------------------------
  // parseScene
  // ---------------------------------------------------------------------

  /** The camera a scene header describes; a lens camera keeps the sample
      rate in force when its line was read. */
  datatype CameraSpec =
    | PinholeSpec(eye: Vec3, plane: Cameras.ViewPlane)
    | LensSpec(point: Vec3, edge1: Vec3, edge2: Vec3, plane: Cameras.ViewPlane, rate: nat)

  /** The six flags of `parseScene`, each with the value it guards. */
  datatype SceneState = SceneState(
    camera: Option<CameraSpec>,
    pixel: Option<(nat, nat)>,
    sample: Option<nat>,
    depth: Option<nat>,
    bias: Option<real>,
    name: Option<string>)

  const NoScene := SceneState(None, None, None, None, None, None)

  /** The `RenderSettings` and camera of a complete header. */
  datatype Settings = Settings(camera: CameraSpec, width: nat, height: nat, rate: nat, depth: nat, bias: real, name: string)

  datatype SceneKey = CameraKey | PixelKey | SampleKey | DepthKey | BiasKey | NameKey

  /** The words that set a key. */
  function SceneOps(k: SceneKey): set<string> {
    match k
    case CameraKey => {"pinhole", "lens"}
    case PixelKey => {"pixel"}
    case SampleKey => {"sample"}
    case DepthKey => {"depth"}
    case BiasKey => {"bias"}
    case NameKey => {"name"}
  }

  predicate SceneHas(st: SceneState, k: SceneKey) {
    match k
    case CameraKey => st.camera.Some?
    case PixelKey => st.pixel.Some?
    case SampleKey => st.sample.Some?
    case DepthKey => st.depth.Some?
    case BiasKey => st.bias.Some?
    case NameKey => st.name.Some?
  }

  /** One header line. A `lens` line before any `sample` line, and a line
      with any other first word, change nothing. */
  function SceneLine(st: SceneState, rd: Reader, line: string): (r: Option<SceneState>)
    ensures Op(line) !in {"pinhole", "lens", "pixel", "sample", "depth", "bias", "name"} ==> r == Some(st)
    ensures Op(line) == "lens" && st.sample.None? ==> r == Some(st)
    ensures Op(line) == "lens" && st.sample.Some? ==>
              (r.Some? <==> ReadMany(rd.toReal, Args(line), 21).Some?)
              && (r.Some? ==> var xs := ReadMany(rd.toReal, Args(line), 21).value;
                    r.value == st.(camera := Some(LensSpec(VecAt(xs, 0), VecAt(xs, 3), VecAt(xs, 6),
                                                           Cameras.ViewPlane(VecAt(xs, 9), VecAt(xs, 12), VecAt(xs, 15), VecAt(xs, 18)),
                                                           st.sample.value))))
    ensures Op(line) == "pinhole" ==>
              (r.Some? <==> ReadMany(rd.toReal, Args(line), 15).Some?)
              && (r.Some? ==> var xs := ReadMany(rd.toReal, Args(line), 15).value;
                    r.value == st.(camera := Some(PinholeSpec(VecAt(xs, 0),
                                                              Cameras.ViewPlane(VecAt(xs, 3), VecAt(xs, 6), VecAt(xs, 9), VecAt(xs, 12))))))
    ensures Op(line) == "pixel" ==>
              (r.Some? <==> ReadMany(rd.toUnsigned, Args(line), 2).Some?)
              && (r.Some? ==> var xs := ReadMany(rd.toUnsigned, Args(line), 2).value; r.value == st.(pixel := Some((xs[0], xs[1]))))
    ensures Op(line) == "sample" ==>
              (r.Some? <==> ReadMany(rd.toUnsigned, Args(line), 1).Some?)
              && (r.Some? ==> r.value == st.(sample := Some(ReadMany(rd.toUnsigned, Args(line), 1).value[0])))
    ensures Op(line) == "depth" ==>
              (r.Some? <==> ReadMany(rd.toInt, Args(line), 1).Some?)
              && (r.Some? ==> r.value == st.(depth := Some(ReadMany(rd.toInt, Args(line), 1).value[0] % UIntLimit)))
    ensures Op(line) == "bias" ==>
              (r.Some? <==> ReadMany(rd.toReal, Args(line), 1).Some?)
              && (r.Some? ==> r.value == st.(bias := Some(ReadMany(rd.toReal, Args(line), 1).value[0])))
    ensures Op(line) == "name" ==> (r.Some? <==> Args(line) != []) && (r.Some? ==> r.value == st.(name := Some(Args(line)[0])))
  {
    var op, args := Op(line), Args(line);
    if op == "pinhole" then
      match ReadMany(rd.toReal, args, 15)
      case None => None
      case Some(xs) =>
        Some(st.(camera := Some(PinholeSpec(VecAt(xs, 0), Cameras.ViewPlane(VecAt(xs, 3), VecAt(xs, 6), VecAt(xs, 9), VecAt(xs, 12))))))
    else if op == "lens" && st.sample.Some? then
      match ReadMany(rd.toReal, args, 21)
      case None => None
      case Some(xs) =>
        var plane := Cameras.ViewPlane(VecAt(xs, 9), VecAt(xs, 12), VecAt(xs, 15), VecAt(xs, 18));
        Some(st.(camera := Some(LensSpec(VecAt(xs, 0), VecAt(xs, 3), VecAt(xs, 6), plane, st.sample.value))))
    else if op == "pixel" then
      match ReadMany(rd.toUnsigned, args, 2)
      case None => None
      case Some(xs) => Some(st.(pixel := Some((xs[0], xs[1]))))
    else if op == "sample" then
      match ReadMany(rd.toUnsigned, args, 1)
      case None => None
      case Some(xs) => Some(st.(sample := Some(xs[0])))
    else if op == "depth" then
      match ReadMany(rd.toInt, args, 1)
      case None => None
      case Some(xs) => Some(st.(depth := Some(xs[0] % UIntLimit)))
    else if op == "bias" then
      match ReadMany(rd.toReal, args, 1)
      case None => None
      case Some(xs) => Some(st.(bias := Some(xs[0])))
    else if op == "name" then
      if args == [] then None else Some(st.(name := Some(args[0])))
    else Some(st)
  }

  /** A header line sets the keys it names (a `lens` line only once a
      sample rate is known), keeps every key already set and sets no other. */
  lemma SceneLineKeys(st: SceneState, rd: Reader, line: string, k: SceneKey)
    requires SceneLine(st, rd, line).Some?
    ensures var q := SceneLine(st, rd, line).value;
            && (SceneHas(st, k) ==> SceneHas(q, k))
            && (Op(line) !in SceneOps(k) ==> SceneHas(q, k) == SceneHas(st, k))
            && (Op(line) in SceneOps(k) && (Op(line) != "lens" || st.sample.Some?) ==> SceneHas(q, k))
  {
    var op := Op(line);
    if op !in {"pinhole", "lens", "pixel", "sample", "depth", "bias", "name"} || (op == "lens" && st.sample.None?) {
    } else if op in {"pinhole", "lens"} {
      assert SceneLine(st, rd, line).value.(camera := st.camera) == st;
    } else if op == "pixel" {
      assert SceneLine(st, rd, line).value.(pixel := st.pixel) == st;
    } else if op == "sample" {
      assert SceneLine(st, rd, line).value.(sample := st.sample) == st;
    } else if op == "depth" {
      assert SceneLine(st, rd, line).value.(depth := st.depth) == st;
    } else if op == "bias" {
      assert SceneLine(st, rd, line).value.(bias := st.bias) == st;
    }
  }

  predicate SceneComplete(st: SceneState) {
    forall k :: SceneHas(st, k)
  }

  /** `parseScene`: exactly six lines; a complete set of keys is needed. */
  function ParseScene(rd: Reader, lines: seq<string>): (r: Option<(Settings, seq<string>)>)
    ensures r.Some? ==> r.value.1 == Drop(lines, 6)
    ensures var b := Block((s, line) => SceneLine(s, rd, line), NoScene, lines, 6);
            && (r.Some? <==> b.Some? && SceneComplete(b.value.0))
            && (r.Some? ==> var (st, h) := (b.value.0, r.value.0);
                  && st.camera == Some(h.camera) && st.pixel == Some((h.width, h.height))
                  && st.sample == Some(h.rate) && st.depth == Some(h.depth)
                  && st.bias == Some(h.bias) && st.name == Some(h.name))
  {
    match Block((s, line) => SceneLine(s, rd, line), NoScene, lines, 6)
    case None => None
    case Some((st, rest)) =>
      if SceneComplete(st) then
        assert SceneHas(st, CameraKey) && SceneHas(st, PixelKey) && SceneHas(st, SampleKey);
        assert SceneHas(st, DepthKey) && SceneHas(st, BiasKey) && SceneHas(st, NameKey);
        Some((Settings(st.camera.value, st.pixel.value.0, st.pixel.value.1, st.sample.value, st.depth.value, st.bias.value, st.name.value), rest))
      else None
  }

  /** Every key is required: a header none of whose six lines names a key
      is rejected. */
  lemma SceneNeedsEveryKey(rd: Reader, lines: seq<string>, k: SceneKey)
    requires forall i :: 0 <= i < 6 ==> Op(LineAt(lines, i)) !in SceneOps(k)
    ensures ParseScene(rd, lines).None?
  {
    var step := (s, line) => SceneLine(s, rd, line);
    var has := s => SceneHas(s, k);
    forall s, line | !has(s) && Op(line) !in SceneOps(k) && step(s, line).Some?
      ensures !has(step(s, line).value)
    {
      SceneLineKeys(s, rd, line, k);
    }
    BlockKeepsAbsent(step, has, SceneOps(k), NoScene, lines, 6);
  }

  // ---------------------------------------------------------------------
  // parseMaterial
  // ---------------------------------------------------------------------

  /** The eight flags of `parseMaterial` with the reflectance parts they
      guard, and the texture choice of the last `Texture:` line that named
      a texture. */
  datatype MaterialState = MaterialState(
    kA: Option<Colors.Rgb>, kD: Option<Colors.Rgb>, kS: Option<Colors.Rgb>, kR: Option<Colors.Rgb>,
    kT: Option<Colors.Rgb>, pExp: Option<real>, index: Option<real>,
    tex: bool, isTex: bool, texture: string, rough: bool)

  const NoMaterial := MaterialState(None, None, None, None, None, None, None, false, false, [], false)

  /** A parsed material: its reflectance and, for a textured material, the
      texture's name and the `rough` flag. */
  datatype MaterialSpec = MaterialSpec(reflectance: Materials.Reflectance, texture: Option<(string, bool)>)

  datatype MaterialKey = KaKey | KdKey | KsKey | KrKey | SpKey | TextureKey | IndexKey | KtKey

  function MaterialOps(k: MaterialKey): set<string> {
    match k
    case KaKey => {"ka"}
    case KdKey => {"kd"}
    case KsKey => {"ks"}
    case KrKey => {"kr"}
    case SpKey => {"sp"}
    case TextureKey => {"Texture:"}
    case IndexKey => {"index"}
    case KtKey => {"kt"}
  }

  predicate MaterialHas(st: MaterialState, k: MaterialKey) {
    match k
    case KaKey => st.kA.Some?
    case KdKey => st.kD.Some?
    case KsKey => st.kS.Some?
    case KrKey => st.kR.Some?
    case SpKey => st.pExp.Some?
    case TextureKey => st.tex
    case IndexKey => st.index.Some?
    case KtKey => st.kT.Some?
  }

  /** A `Texture:` line. `NONE` only marks the key as seen; any other word
      names a texture and must be followed by `rough` or `smooth`. When
      the name is the last word of the line, the failed read of the flag
      leaves the name in place and the name itself is taken as the flag. */
  function TextureLine(st: MaterialState, args: seq<string>): (r: Option<MaterialState>)
    ensures WordAt(args, 0, []) == "NONE" ==> r == Some(st.(tex := true))
    ensures WordAt(args, 0, []) != "NONE" ==>
              && (r.Some? <==> WordAt(args, 1, WordAt(args, 0, [])) in {"rough", "smooth"})
              && (r.Some? ==> r == Some(st.(tex := true, isTex := true, texture := WordAt(args, 0, []),
                                            rough := WordAt(args, 1, WordAt(args, 0, [])) == "rough")))
  {
    var name := WordAt(args, 0, []);
    if name == "NONE" then Some(st.(tex := true))
    else
      var flag := WordAt(args, 1, name);
      if flag == "rough" then Some(st.(tex := true, isTex := true, texture := name, rough := true))
      else if flag == "smooth" then Some(st.(tex := true, isTex := true, texture := name, rough := false))
      else None
  }

  /** The lenient flag read: `Texture: rough` names a texture called
      "rough" and makes the material rough. */
  lemma TextureNamedLikeFlag(st: MaterialState)
    ensures TextureLine(st, ["rough"]) == Some(st.(tex := true, isTex := true, texture := "rough", rough := true))
    ensures TextureLine(st, ["wood"]).None?
  {
  }

  /** The reflectance keys a line can set, three numbers or one. */
  const ColorOps: set<string> := {"ka", "kd", "ks", "kr", "kt"}
  const ScalarOps: set<string> := {"sp", "index"}

  /** The colour a material state holds under a colour keyword. */
  function ColorUnder(st: MaterialState, op: string): Option<Colors.Rgb>
    requires op in ColorOps
  {
    if op == "ka" then st.kA
    else if op == "kd" then st.kD
    else if op == "ks" then st.kS
    else if op == "kr" then st.kR
    else st.kT
  }

  /** The number a material state holds under `sp` or `index`. */
  function ScalarUnder(st: MaterialState, op: string): Option<real>
    requires op in ScalarOps
  {
    if op == "sp" then st.pExp else st.index
  }

  /** Setting the value of a reflectance key: that key holds the numbers
      read (a colour from the first three, `sp` and `index` from the
      first), every other key and the texture fields keep their state. */
  function SetKey(st: MaterialState, op: string, xs: seq<real>): (r: MaterialState)
    requires op in ColorOps + ScalarOps && |xs| >= (if op in ColorOps then 3 else 1)
    ensures forall k :: MaterialHas(r, k) == (MaterialHas(st, k) || op in MaterialOps(k))
    ensures op in ColorOps ==> ColorUnder(r, op) == Some(Colors.Rgb(xs[0], xs[1], xs[2]))
    ensures op in ScalarOps ==> ScalarUnder(r, op) == Some(xs[0])
    ensures forall o :: o in ColorOps && o != op ==> ColorUnder(r, o) == ColorUnder(st, o)
    ensures forall o :: o in ScalarOps && o != op ==> ScalarUnder(r, o) == ScalarUnder(st, o)
    ensures r.tex == st.tex && r.isTex == st.isTex && r.texture == st.texture && r.rough == st.rough
  {
    if op == "ka" then st.(kA := Some(RgbAt(xs, 0)))
    else if op == "kd" then st.(kD := Some(RgbAt(xs, 0)))
    else if op == "ks" then st.(kS := Some(RgbAt(xs, 0)))
    else if op == "kr" then st.(kR := Some(RgbAt(xs, 0)))
    else if op == "kt" then st.(kT := Some(RgbAt(xs, 0)))
    else if op == "sp" then st.(pExp := Some(xs[0]))
    else st.(index := Some(xs[0]))
  }

  function MaterialLine(st: MaterialState, rd: Reader, line: string): (r: Option<MaterialState>)
    ensures Op(line) !in {"ka", "kd", "ks", "kr", "sp", "kt", "index", "Texture:"} ==> r == Some(st)
    ensures Op(line) == "Texture:" ==> r == TextureLine(st, Args(line))
    ensures r.Some? ==> forall k :: MaterialHas(st, k) ==> MaterialHas(r.value, k)
    ensures r.Some? ==> forall k :: Op(line) !in MaterialOps(k) ==> MaterialHas(r.value, k) == MaterialHas(st, k)
    ensures r.Some? ==> forall k :: Op(line) in MaterialOps(k) ==> MaterialHas(r.value, k)
    ensures Op(line) in ColorOps ==> (r.Some? <==> ReadMany(rd.toReal, Args(line), 3).Some?)
    ensures Op(line) in ScalarOps ==> (r.Some? <==> ReadMany(rd.toReal, Args(line), 1).Some?)
    ensures r.Some? && Op(line) in ColorOps ==>
              ColorUnder(r.value, Op(line)) == Some(RgbAt(ReadMany(rd.toReal, Args(line), 3).value, 0))
    ensures r.Some? && Op(line) in ScalarOps ==> ScalarUnder(r.value, Op(line)) == Some(ReadMany(rd.toReal, Args(line), 1).value[0])
    ensures r.Some? ==> forall o :: o in ColorOps && o != Op(line) ==> ColorUnder(r.value, o) == ColorUnder(st, o)
    ensures r.Some? ==> forall o :: o in ScalarOps && o != Op(line) ==> ScalarUnder(r.value, o) == ScalarUnder(st, o)
    ensures r.Some? && Op(line) != "Texture:" ==>
              r.value.tex == st.tex && r.value.isTex == st.isTex && r.value.texture == st.texture && r.value.rough == st.rough
  {
    var op, args := Op(line), Args(line);
    if op in ColorOps then
      match ReadMany(rd.toReal, args, 3)
      case None => None
      case Some(xs) => Some(SetKey(st, op, xs))
    else if op in ScalarOps then
      match ReadMany(rd.toReal, args, 1)
      case None => None
      case Some(xs) => Some(SetKey(st, op, xs))
    else if op == "Texture:" then
      var r := TextureLine(st, args);
      assert forall k :: op in MaterialOps(k) <==> k == TextureKey;
      r
    else Some(st)
  }

  predicate MaterialComplete(st: MaterialState) {
    forall k :: MaterialHas(st, k)
  }

  /** `parseMaterial`: exactly eight lines; a complete set of keys is
      needed; the material is textured when a `Texture:` line named a
      texture. */
  function ParseMaterial(rd: Reader, lines: seq<string>): (r: Option<(MaterialSpec, seq<string>)>)
    ensures r.Some? ==> r.value.1 == Drop(lines, 8)
    ensures var b := Block((s, line) => MaterialLine(s, rd, line), NoMaterial, lines, 8);
            && (r.Some? <==> b.Some? && MaterialComplete(b.value.0))
            && (r.Some? ==> (r.value.0.texture.Some? <==> b.value.0.isTex))
            && (r.Some? ==> var (st, f) := (b.value.0, r.value.0.reflectance);
                  && st.kA == Some(f.kA) && st.kD == Some(f.kD) && st.kS == Some(f.kS) && st.kR == Some(f.kR)
                  && st.kT == Some(f.kT) && st.pExp == Some(f.pExp) && st.index == Some(f.index)
                  && (st.isTex ==> r.value.0.texture == Some((st.texture, st.rough))))
  {
    match Block((s, line) => MaterialLine(s, rd, line), NoMaterial, lines, 8)
    case None => None
    case Some((st, rest)) =>
      if MaterialComplete(st) then
        assert MaterialHas(st, KaKey) && MaterialHas(st, KdKey) && MaterialHas(st, KsKey) && MaterialHas(st, KrKey);
        assert MaterialHas(st, SpKey) && MaterialHas(st, IndexKey) && MaterialHas(st, KtKey);
        var refl := Materials.Reflectance(st.kA.value, st.kD.value, st.kS.value, st.kR.value, st.kT.value, st.index.value, st.pExp.value);
        Some((MaterialSpec(refl, if st.isTex then Some((st.texture, st.rough)) else None), rest))
      else None
  }

  lemma MaterialNeedsEveryKey(rd: Reader, lines: seq<string>, k: MaterialKey)
    requires forall i :: 0 <= i < 8 ==> Op(LineAt(lines, i)) !in MaterialOps(k)
    ensures ParseMaterial(rd, lines).None?
  {
    var step := (s, line) => MaterialLine(s, rd, line);
    var has := s => MaterialHas(s, k);
    BlockKeepsAbsent(step, has, MaterialOps(k), NoMaterial, lines, 8);
  }

  /** The material a spec names, with its texture looked up by name. A
      name missing from the table is None (the source's lookup inserts a
      null texture). */
  function ToMaterial(spec: MaterialSpec, textures: map<string, Materials.Texture>): (m: Option<Materials.Material>)
    ensures spec.texture.None? ==> m == Some(Materials.Plain(spec.reflectance))
    ensures spec.texture.Some? ==>
              (m.Some? <==> spec.texture.value.0 in textures)
              && (m.Some? ==> m.value.Textured? && m.value.reflectance == spec.reflectance
                              && m.value.texture == textures[spec.texture.value.0] && m.value.rough == spec.texture.value.1)
  {
    match spec.texture
    case None => Some(Materials.Plain(spec.reflectance))
    case Some((name, rough)) =>
      if name in textures then Some(Materials.Textured(spec.reflectance, textures[name], rough)) else None
  }

  // ---------------------------------------------------------------------
  // parseTransform
  // ---------------------------------------------------------------------

  /** The three vectors the transform is built from; the matrix product
      itself is not modelled. */
  datatype TransformSpec = TransformSpec(scale: Vec3, translate: Vec3, rotate: Vec3)

  datatype TransformState = TransformState(scale: Option<Vec3>, translate: Option<Vec3>, rotate: Option<Vec3>)

  const NoTransform := TransformState(None, None, None)

  datatype TransformKey = ScaleKey | TranslateKey | RotateKey

  function TransformOps(k: TransformKey): set<string> {
    match k
    case ScaleKey => {"scaleXYZ"}
    case TranslateKey => {"translateXYZ"}
    case RotateKey => {"rotateXYZ"}
  }

  predicate TransformHas(st: TransformState, k: TransformKey) {
    match k
    case ScaleKey => st.scale.Some?
    case TranslateKey => st.translate.Some?
    case RotateKey => st.rotate.Some?
  }

  function TransformLine(st: TransformState, rd: Reader, line: string): (r: Option<TransformState>)
    ensures Op(line) !in {"scaleXYZ", "translateXYZ", "rotateXYZ"} ==> r == Some(st)
    ensures Op(line) in {"scaleXYZ", "translateXYZ", "rotateXYZ"} ==> (r.Some? <==> ReadMany(rd.toReal, Args(line), 3).Some?)
    ensures r.Some? ==> forall k :: TransformHas(st, k) ==> TransformHas(r.value, k)
    ensures r.Some? ==> forall k :: Op(line) !in TransformOps(k) ==> TransformHas(r.value, k) == TransformHas(st, k)
    ensures r.Some? ==> forall k :: Op(line) in TransformOps(k) ==> TransformHas(r.value, k)
  {
    var op, args := Op(line), Args(line);
    if op in {"scaleXYZ", "translateXYZ", "rotateXYZ"} then
      match ReadMany(rd.toReal, args, 3)
      case None => None
      case Some(xs) =>
        if op == "scaleXYZ" then Some(st.(scale := Some(VecAt(xs, 0))))
        else if op == "translateXYZ" then Some(st.(translate := Some(VecAt(xs, 0))))
        else Some(st.(rotate := Some(VecAt(xs, 0))))
    else Some(st)
  }

  /** `parseTransform`: exactly three lines; scale, translation and
      rotation must all appear. */
  function ParseTransform(rd: Reader, lines: seq<string>): (r: Option<(TransformSpec, seq<string>)>)
    ensures r.Some? ==> r.value.1 == Drop(lines, 3)
    ensures var b := Block((s, line) => TransformLine(s, rd, line), NoTransform, lines, 3);
            r.Some? <==> b.Some? && b.value.0.scale.Some? && b.value.0.translate.Some? && b.value.0.rotate.Some?
  {
    match Block((s, line) => TransformLine(s, rd, line), NoTransform, lines, 3)
    case None => None
    case Some((st, rest)) =>
      if st.scale.Some? && st.translate.Some? && st.rotate.Some? then
        Some((TransformSpec(st.scale.value, st.translate.value, st.rotate.value), rest))
      else None
  }

  lemma TransformNeedsEveryKey(rd: Reader, lines: seq<string>, k: TransformKey)
    requires forall i :: 0 <= i < 3 ==> Op(LineAt(lines, i)) !in TransformOps(k)
    ensures ParseTransform(rd, lines).None?
  {
    var step := (s, line) => TransformLine(s, rd, line);
    var has := s => TransformHas(s, k);
    BlockKeepsAbsent(step, has, TransformOps(k), NoTransform, lines, 3);
  }

  // ---------------------------------------------------------------------
  // parseTriangle, parseSphere, parseEllipsoid
  // ---------------------------------------------------------------------

  /** A shape description: the shape's parameters and, unless the
      `Transform:` line says `NONE`, the transform it is seen through. */
  datatype ShapeSpec =
    | SphereSpec(radius: real, center: Vec3, transform: Option<TransformSpec>)
    | TriangleSpec(a: Vec3, b: Vec3, c: Vec3, transform: Option<TransformSpec>)
    | EllipsoidSpec(ellipsoid: TransformSpec)

  /** The `Transform:` line after a shape, and the transform block that
      follows it unless its second word is `NONE`. `prev` is the word the
      shape reader last read, which a missing word leaves in place. */
  function TransformTail(rd: Reader, lines: seq<string>, prev: string): (r: Option<(Option<TransformSpec>, seq<string>)>)
    ensures var ws := Words(LineAt(lines, 0));
            && (WordAt(ws, 0, prev) != "Transform:" ==> r.None?)
            && (WordAt(ws, 0, prev) == "Transform:" && WordAt(ws, 1, "Transform:") == "NONE" ==> r == Some((None, Drop(lines, 1))))
            && (WordAt(ws, 0, prev) == "Transform:" && WordAt(ws, 1, "Transform:") != "NONE" ==>
                  (r.Some? <==> ParseTransform(rd, Drop(lines, 1)).Some?)
                  && (r.Some? ==> r.value == (Some(ParseTransform(rd, Drop(lines, 1)).value.0), ParseTransform(rd, Drop(lines, 1)).value.1)))
  {
    var (line, rest) := NextLine(lines);
    assert line == LineAt(lines, 0) && rest == Drop(lines, 1);
    var ws := Words(line);
    var op := WordAt(ws, 0, prev);
    if op != "Transform:" then None
    else if WordAt(ws, 1, op) == "NONE" then Some((None, rest))
    else match ParseTransform(rd, rest)
      case None => None
      case Some((t, rest')) => Some((Some(t), rest'))
  }

  /** `parseTriangle`: the line `a x y z b x y z c x y z` (the three
      corners, in that order, on one line), then the transform. */
  function ParseTriangle(rd: Reader, lines: seq<string>): (r: Option<(ShapeSpec, seq<string>)>)
    ensures r.Some? ==> r.value.0.TriangleSpec?
    ensures WordAt(Words(LineAt(lines, 0)), 0, []) != "a" ==> r.None?
    ensures r.Some? <==>
              var ws := Words(LineAt(lines, 0));
              && |ws| > 8 && ws[0] == "a" && ws[4] == "b" && ws[8] == "c"
              && ReadMany(rd.toReal, ws[1..], 3).Some?
              && ReadMany(rd.toReal, ws[5..], 3).Some?
              && ReadMany(rd.toReal, ws[9..], 3).Some?
              && TransformTail(rd, Drop(lines, 1), "c").Some?
    ensures r.Some? ==> var ws := Words(LineAt(lines, 0));
              && r.value.0.a == VecAt(ReadMany(rd.toReal, ws[1..], 3).value, 0)
              && r.value.0.b == VecAt(ReadMany(rd.toReal, ws[5..], 3).value, 0)
              && r.value.0.c == VecAt(ReadMany(rd.toReal, ws[9..], 3).value, 0)
              && (r.value.0.transform, r.value.1) == TransformTail(rd, Drop(lines, 1), "c").value
  {
    var (line, rest) := NextLine(lines);
    assert line == LineAt(lines, 0);
    var ws := Words(line);
    var op0 := WordAt(ws, 0, []);
    if op0 != "a" then None
    else match ReadMany(rd.toReal, ws[1..], 3)
      case None => None
      case Some(xa) =>
        var op1 := WordAt(ws, 4, op0);
        if op1 != "b" then None
        else match ReadMany(rd.toReal, ws[5..], 3)
          case None => None
          case Some(xb) =>
            var op2 := WordAt(ws, 8, op1);
            if op2 != "c" then None
            else match ReadMany(rd.toReal, ws[9..], 3)
              case None => None
              case Some(xc) =>
                match TransformTail(rd, rest, op2)
                case None => None
                case Some((t, rest')) => Some((TriangleSpec(VecAt(xa, 0), VecAt(xb, 0), VecAt(xc, 0), t), rest'))
  }

  /** `parseSphere`: the line `center x y z radius r`, then the
      transform. */
  function ParseSphere(rd: Reader, lines: seq<string>): (r: Option<(ShapeSpec, seq<string>)>)
    ensures r.Some? ==> r.value.0.SphereSpec?
    ensures WordAt(Words(LineAt(lines, 0)), 0, []) != "center" ==> r.None?
    ensures r.Some? <==>
              var ws := Words(LineAt(lines, 0));
              && |ws| > 4 && ws[0] == "center" && ws[4] == "radius"
              && ReadMany(rd.toReal, ws[1..], 3).Some?
              && ReadMany(rd.toReal, ws[5..], 1).Some?
              && TransformTail(rd, Drop(lines, 1), "radius").Some?
    ensures r.Some? ==> var ws := Words(LineAt(lines, 0));
              && r.value.0.center == VecAt(ReadMany(rd.toReal, ws[1..], 3).value, 0)
              && r.value.0.radius == ReadMany(rd.toReal, ws[5..], 1).value[0]
              && (r.value.0.transform, r.value.1) == TransformTail(rd, Drop(lines, 1), "radius").value
  {
    var (line, rest) := NextLine(lines);
    assert line == LineAt(lines, 0);
    var ws := Words(line);
    var op0 := WordAt(ws, 0, []);
    if op0 != "center" then None
    else match ReadMany(rd.toReal, ws[1..], 3)
      case None => None
      case Some(xc) =>
        var op1 := WordAt(ws, 4, op0);
        if op1 != "radius" then None
        else match ReadMany(rd.toReal, ws[5..], 1)
          case None => None
          case Some(xr) =>
            match TransformTail(rd, rest, op1)
            case None => None
            case Some((t, rest')) => Some((SphereSpec(xr[0], VecAt(xc, 0), t), rest'))
  }

  /** `parseEllipsoid`: a transform block and nothing else. */
  function ParseEllipsoid(rd: Reader, lines: seq<string>): (r: Option<(ShapeSpec, seq<string>)>)
    ensures r.Some? <==> ParseTransform(rd, lines).Some?
    ensures r.Some? ==> r.value == (EllipsoidSpec(ParseTransform(rd, lines).value.0), Drop(lines, 3))
  {
    match ParseTransform(rd, lines)
    case None => None
    case Some((t, rest)) => Some((EllipsoidSpec(t), rest))
  }

  // ---------------------------------------------------------------------
  // parseLighting
  // ---------------------------------------------------------------------

  datatype LightKind = PointKind | DirectionalKind | AreaKind

  /** A light line's contents; an area light takes the sample rate of the
      settings. */
  datatype LightSpec =
    | PointSpec(position: Vec3, color: Colors.Rgb)
    | DirectionalSpec(direction: Vec3, color: Colors.Rgb)
    | AreaSpec(position: Vec3, edge1: Vec3, edge2: Vec3, color: Colors.Rgb, rate: nat)

  function KindOf(l: LightSpec): LightKind {
    match l
    case PointSpec(_, _) => PointKind
    case DirectionalSpec(_, _) => DirectionalKind
    case AreaSpec(_, _, _, _, _) => AreaKind
  }

  /** `parseLighting`, given the words after the light's keyword: a
      position or direction and a colour; an area light then needs the
      word `edges` and two edge vectors. */
  function ParseLight(rd: Reader, kind: LightKind, args: seq<string>, rate: nat): (r: Option<LightSpec>)
    ensures r.Some? ==> KindOf(r.value) == kind
    ensures ReadMany(rd.toReal, args, 6).None? ==> r.None?
    ensures kind == AreaKind && WordAt(args, 6, []) != "edges" ==> r.None?
    ensures kind != AreaKind ==> (r.Some? <==> ReadMany(rd.toReal, args, 6).Some?)
    ensures kind == AreaKind ==>
              (r.Some? <==> && ReadMany(rd.toReal, args, 6).Some?
                            && WordAt(args, 6, []) == "edges"
                            && ReadMany(rd.toReal, args[7..], 6).Some?)
    ensures r.Some? && kind == AreaKind ==> r.value.rate == rate
  {
    match ReadMany(rd.toReal, args, 6)
    case None => None
    case Some(xs) =>
      var at, color := VecAt(xs, 0), RgbAt(xs, 3);
      match kind
      case DirectionalKind => Some(DirectionalSpec(at, color))
      case PointKind => Some(PointSpec(at, color))
      case AreaKind =>
        if WordAt(args, 6, []) != "edges" then None
        else match ReadMany(rd.toReal, args[7..], 6)
          case None => None
          case Some(es) => Some(AreaSpec(at, VecAt(es, 0), VecAt(es, 3), color, rate))
  }

  // ---------------------------------------------------------------------
  // Round trips
  // ---------------------------------------------------------------------

  /** A way of writing numbers that the reader reads back exactly. */
  ghost predicate Shows(rd: Reader, show: real -> string) {
    forall x :: IsWord(show(x)) && rd.toReal(show(x)) == Some(x)
  }

  /** Values written out as words, one word each. */
  function ShowAll<T>(show: T -> string, xs: seq<T>): (ws: seq<string>)
    ensures |ws| == |xs| && forall i :: 0 <= i < |xs| ==> ws[i] == show(xs[i])
  {
    seq(|xs|, i requires 0 <= i < |xs| => show(xs[i]))
  }

  lemma ShowsAt(rd: Reader, show: real -> string, x: real)
    requires Shows(rd, show)
    ensures rd.toReal(show(x)) == Some(x)
  {
  }

  lemma ReadShown(rd: Reader, show: real -> string, xs: seq<real>, more: seq<string>)
    requires Shows(rd, show)
    ensures ReadMany(rd.toReal, ShowAll(show, xs) + more, |xs|) == Some(xs)
  {
    var ws := ShowAll(show, xs) + more;
    forall i | 0 <= i < |xs|
      ensures rd.toReal(ws[i]) == Some(xs[i])
    {
      assert ws[i] == show(xs[i]);
      ShowsAt(rd, show, xs[i]);
    }
    var r := ReadMany(rd.toReal, ws, |xs|);
    assert r.Some?;
    assert r.value == xs;
  }

  function VecWords(show: real -> string, v: Vec3): seq<string> {
    ShowAll(show, [v.x, v.y, v.z])
  }

  /** The words a light line carries after its keyword. */
  function LightWords(show: real -> string, l: LightSpec): seq<string> {
    match l
    case PointSpec(p, c) => ShowAll(show, [p.x, p.y, p.z, c.r, c.g, c.b])
    case DirectionalSpec(d, c) => ShowAll(show, [d.x, d.y, d.z, c.r, c.g, c.b])
    case AreaSpec(p, e1, e2, c, _) =>
      ShowAll(show, [p.x, p.y, p.z, c.r, c.g, c.b]) + ["edges"] + ShowAll(show, [e1.x, e1.y, e1.z, e2.x, e2.y, e2.z])
  }

  /** Reading a written light gives the light back. */
  lemma LightRoundTrip(rd: Reader, show: real -> string, l: LightSpec)
    requires Shows(rd, show)
    ensures ParseLight(rd, KindOf(l), LightWords(show, l), if l.AreaSpec? then l.rate else 0) == Some(l)
  {
    match l
    case PointSpec(p, c) =>
      ReadShown(rd, show, [p.x, p.y, p.z, c.r, c.g, c.b], []);
      assert LightWords(show, l) == ShowAll(show, [p.x, p.y, p.z, c.r, c.g, c.b]) + [];
    case DirectionalSpec(d, c) =>
      ReadShown(rd, show, [d.x, d.y, d.z, c.r, c.g, c.b], []);
      assert LightWords(show, l) == ShowAll(show, [d.x, d.y, d.z, c.r, c.g, c.b]) + [];
    case AreaSpec(p, e1, e2, c, _) =>
      var head := [p.x, p.y, p.z, c.r, c.g, c.b];
      var tail := [e1.x, e1.y, e1.z, e2.x, e2.y, e2.z];
      var ws := LightWords(show, l);
      var more := ["edges"] + ShowAll(show, tail);
      assert ws == ShowAll(show, head) + more;
      ReadShown(rd, show, head, more);
      assert ws[7..] == ShowAll(show, tail) + [];
      ReadShown(rd, show, tail, []);
      assert WordAt(ws, 6, []) == "edges";
      assert ParseLight(rd, AreaKind, ws, l.rate) == Some(AreaSpec(VecAt(head, 0), VecAt(tail, 0), VecAt(tail, 3), RgbAt(head, 3), l.rate));
  }

  /** A line of a keyword followed by written numbers reads back as the
      keyword and those numbers. */
  lemma KeywordLine(rd: Reader, show: real -> string, key: string, xs: seq<real>)
    requires Shows(rd, show) && IsWord(key)
    ensures Op(Join([key] + ShowAll(show, xs))) == key
    ensures Args(Join([key] + ShowAll(show, xs))) == ShowAll(show, xs)
    ensures ReadMany(rd.toReal, Args(Join([key] + ShowAll(show, xs))), |xs|) == Some(xs)
  {
    var ws := [key] + ShowAll(show, xs);
    forall k | 0 <= k < |ws|
      ensures IsWord(ws[k])
    {
      if k > 0 {
        assert ws[k] == show(xs[k - 1]);
        ShowsWord(rd, show, xs[k - 1]);
      }
    }
    WordsOfJoin(ws);
    assert ws[1..] == ShowAll(show, xs) + [];
    ReadShown(rd, show, xs, []);
  }

  lemma ShowsWord(rd: Reader, show: real -> string, x: real)
    requires Shows(rd, show)
    ensures IsWord(show(x))
  {
  }

  /** The three lines of a transform block. */
  function TransformLines(show: real -> string, t: TransformSpec): seq<string> {
    [Join(["scaleXYZ"] + VecWords(show, t.scale)),
     Join(["translateXYZ"] + VecWords(show, t.translate)),
     Join(["rotateXYZ"] + VecWords(show, t.rotate))]
  }

  /** Reading a written transform block gives the transform back and
      leaves the lines after it. */
  lemma TransformRoundTrip(rd: Reader, show: real -> string, t: TransformSpec, more: seq<string>)
    requires Shows(rd, show)
    ensures ParseTransform(rd, TransformLines(show, t) + more) == Some((t, more))
  {
    var lines := TransformLines(show, t) + more;
    var step := (s, line) => TransformLine(s, rd, line);
    var s1 := NoTransform.(scale := Some(t.scale));
    var s2 := s1.(translate := Some(t.translate));
    var s3 := s2.(rotate := Some(t.rotate));
    TransformLineReads(rd, show, NoTransform, "scaleXYZ", t.scale);
    TransformLineReads(rd, show, s1, "translateXYZ", t.translate);
    TransformLineReads(rd, show, s2, "rotateXYZ", t.rotate);
    assert lines[1..][0] == lines[1] && lines[2..][0] == lines[2];
    assert lines[1..][1..] == lines[2..] && lines[2..][1..] == more;
    BlockStep(step, NoTransform, lines, 3, s1);
    BlockStep(step, s1, lines[1..], 2, s2);
    BlockStep(step, s2, lines[2..], 1, s3);
    assert Block(step, NoTransform, lines, 3) == Some((s3, more));
  }

  /** One keyword line of a transform block sets that keyword's vector. */
  lemma TransformLineReads(rd: Reader, show: real -> string, st: TransformState, key: string, v: Vec3)
    requires Shows(rd, show) && key in {"scaleXYZ", "translateXYZ", "rotateXYZ"}
    ensures TransformLine(st, rd, Join([key] + VecWords(show, v)))
         == Some(if key == "scaleXYZ" then st.(scale := Some(v))
                 else if key == "translateXYZ" then st.(translate := Some(v))
                 else st.(rotate := Some(v)))
  {
    KeywordLine(rd, show, key, [v.x, v.y, v.z]);
    assert VecAt([v.x, v.y, v.z], 0) == v;
  }

  /** A block whose first line is accepted continues with the next. */
  lemma BlockStep<S>(step: (S, string) -> Option<S>, st: S, lines: seq<string>, n: nat, st': S)
    requires n > 0 && lines != [] && step(st, lines[0]) == Some(st')
    ensures Block(step, st, lines, n) == Block(step, st', lines[1..], n - 1)
  {
  }

  /** The line describing a triangle. */
  function TriangleLine(show: real -> string, a: Vec3, b: Vec3, c: Vec3): string {
    Join(["a"] + VecWords(show, a) + ["b"] + VecWords(show, b) + ["c"] + VecWords(show, c))
  }

  /** `Transform: NONE` ends a shape without a transform. */
  lemma NoTransformTail(rd: Reader, more: seq<string>, prev: string)
    ensures TransformTail(rd, [Join(["Transform:", "NONE"])] + more, prev) == Some((None, more))
  {
    var tws := ["Transform:", "NONE"];
    assert IsWord(tws[0]) && IsWord(tws[1]);
    WordsOfJoin(tws);
    assert Drop([Join(tws)] + more, 1) == more;
  }

  lemma TriangleWords(rd: Reader, show: real -> string, a: Vec3, b: Vec3, c: Vec3)
    requires Shows(rd, show)
    ensures Words(TriangleLine(show, a, b, c))
            == ["a"] + ShowAll(show, [a.x, a.y, a.z]) + ["b"] + ShowAll(show, [b.x, b.y, b.z]) + ["c"] + ShowAll(show, [c.x, c.y, c.z])
  {
    var va, vb, vc := [a.x, a.y, a.z], [b.x, b.y, b.z], [c.x, c.y, c.z];
    var ws := ["a"] + ShowAll(show, va) + ["b"] + ShowAll(show, vb) + ["c"] + ShowAll(show, vc);
    forall k | 0 <= k < |ws|
      ensures IsWord(ws[k])
    {
      if k !in {0, 4, 8} {
        var x := if k < 4 then va[k - 1] else if k < 8 then vb[k - 5] else vc[k - 9];
        assert ws[k] == show(x);
        ShowsWord(rd, show, x);
      }
    }
    WordsOfJoin(ws);
  }

  /** Reading a written triangle with `Transform: NONE` gives the triangle
      back. */
  lemma TriangleRoundTrip(rd: Reader, show: real -> string, a: Vec3, b: Vec3, c: Vec3, more: seq<string>)
    requires Shows(rd, show)
    ensures ParseTriangle(rd, [TriangleLine(show, a, b, c), Join(["Transform:", "NONE"])] + more)
            == Some((TriangleSpec(a, b, c, None), more))
  {
    var va, vb, vc := [a.x, a.y, a.z], [b.x, b.y, b.z], [c.x, c.y, c.z];
    var lines := [TriangleLine(show, a, b, c), Join(["Transform:", "NONE"])] + more;
    assert lines[1..] == [Join(["Transform:", "NONE"])] + more;
    TriangleLineReads(rd, show, a, b, c);
    NoTransformTail(rd, more, "c");
    ParseTriangleOf(rd, lines, va, vb, vc, None, more);
  }

  /** The words of a triangle line read back as its three corners. */
  lemma TriangleLineReads(rd: Reader, show: real -> string, a: Vec3, b: Vec3, c: Vec3)
    requires Shows(rd, show)
    ensures var ws := Words(TriangleLine(show, a, b, c));
            && |ws| > 8 && ws[0] == "a" && ws[4] == "b" && ws[8] == "c"
            && ReadMany(rd.toReal, ws[1..], 3) == Some([a.x, a.y, a.z])
            && ReadMany(rd.toReal, ws[5..], 3) == Some([b.x, b.y, b.z])
            && ReadMany(rd.toReal, ws[9..], 3) == Some([c.x, c.y, c.z])
  {
    var va, vb, vc := [a.x, a.y, a.z], [b.x, b.y, b.z], [c.x, c.y, c.z];
    TriangleWords(rd, show, a, b, c);
    var ws := Words(TriangleLine(show, a, b, c));
    assert ws[1..] == ShowAll(show, va) + ws[4..];
    ReadShown(rd, show, va, ws[4..]);
    assert ws[5..] == ShowAll(show, vb) + ws[8..];
    ReadShown(rd, show, vb, ws[8..]);
    assert ws[9..] == ShowAll(show, vc) + [];
    ReadShown(rd, show, vc, []);
  }

  /** What `parseTriangle` makes of a line whose words are read as the
      three corners, given how the transform after it is read. */
  lemma ParseTriangleOf(rd: Reader, lines: seq<string>, xa: seq<real>, xb: seq<real>, xc: seq<real>,
                        t: Option<TransformSpec>, rest: seq<string>)
    requires lines != []
    requires var ws := Words(lines[0]);
             && |ws| > 8 && ws[0] == "a" && ws[4] == "b" && ws[8] == "c"
             && ReadMany(rd.toReal, ws[1..], 3) == Some(xa)
             && ReadMany(rd.toReal, ws[5..], 3) == Some(xb)
             && ReadMany(rd.toReal, ws[9..], 3) == Some(xc)
    requires TransformTail(rd, lines[1..], "c") == Some((t, rest))
    ensures |xa| == |xb| == |xc| == 3
    ensures ParseTriangle(rd, lines) == Some((TriangleSpec(VecAt(xa, 0), VecAt(xb, 0), VecAt(xc, 0), t), rest))
  {
  }

  /** The line describing a sphere. */
  function SphereLine(show: real -> string, center: Vec3, radius: real): string {
    Join(["center"] + VecWords(show, center) + ["radius", show(radius)])
  }

  lemma SphereWords(rd: Reader, show: real -> string, center: Vec3, radius: real)
    requires Shows(rd, show)
    ensures Words(SphereLine(show, center, radius)) == ["center"] + ShowAll(show, [center.x, center.y, center.z]) + ["radius", show(radius)]
  {
    var vc := [center.x, center.y, center.z];
    var ws := ["center"] + ShowAll(show, vc) + ["radius", show(radius)];
    forall k | 0 <= k < |ws|
      ensures IsWord(ws[k])
    {
      if 1 <= k < 4 {
        assert ws[k] == show(vc[k - 1]);
        ShowsWord(rd, show, vc[k - 1]);
      } else if k == 5 {
        ShowsWord(rd, show, radius);
      }
    }
    WordsOfJoin(ws);
  }

  /** Reading a written sphere with `Transform: NONE` gives the sphere
      back. */
  lemma SphereRoundTrip(rd: Reader, show: real -> string, center: Vec3, radius: real, more: seq<string>)
    requires Shows(rd, show)
    ensures ParseSphere(rd, [SphereLine(show, center, radius), Join(["Transform:", "NONE"])] + more)
            == Some((SphereSpec(radius, center, None), more))
  {
    var vc := [center.x, center.y, center.z];
    SphereWords(rd, show, center, radius);
    var ws := Words(SphereLine(show, center, radius));
    assert ws[1..] == ShowAll(show, vc) + ws[4..];
    ReadShown(rd, show, vc, ws[4..]);
    assert ws[5..] == ShowAll(show, [radius]) + [];
    ReadShown(rd, show, [radius], []);
    NoTransformTail(rd, more, "radius");
  }

  // ---------------------------------------------------------------------
  // Header and material round trips
  // ---------------------------------------------------------------------

  /** A block whose lines are each accepted, turning one state into the
      next, ends in the last state and leaves the lines after it. */
  lemma {:induction false} BlockOfLines<S>(step: (S, string) -> Option<S>, sts: seq<S>, ls: seq<string>, more: seq<string>)
    requires |sts| == |ls| + 1
    requires forall i :: 0 <= i < |ls| ==> step(sts[i], ls[i]) == Some(sts[i + 1])
    ensures Block(step, sts[0], ls + more, |ls|) == Some((sts[|ls|], more))
    decreases |ls|
  {
    if ls != [] {
      assert LineAt(ls + more, 0) == ls[0];
      assert Drop(ls + more, 1) == ls[1..] + more;
      forall i | 0 <= i < |ls| - 1
        ensures step(sts[1..][i], ls[1..][i]) == Some(sts[1..][i + 1])
      {
        assert step(sts[i + 1], ls[i + 1]) == Some(sts[i + 2]);
      }
      BlockOfLines(step, sts[1..], ls[1..], more);
    }
  }

  /** A way of writing counts below 2^32 that the reader reads back
      exactly, both as an `int` and as an `unsigned int`. */
  ghost predicate ShowsCounts(rd: Reader, count: nat -> string) {
    forall n: nat :: n < UIntLimit ==> IsWord(count(n)) && rd.toUnsigned(count(n)) == Some(n) && rd.toInt(count(n)) == Some(n)
  }

  lemma ReadCounts(rd: Reader, count: nat -> string, ns: seq<nat>)
    requires ShowsCounts(rd, count)
    requires forall i :: 0 <= i < |ns| ==> ns[i] < UIntLimit
    ensures ReadMany(rd.toUnsigned, ShowAll(count, ns), |ns|) == Some(ns)
    ensures ReadMany(rd.toInt, ShowAll(count, ns), |ns|).Some?
    ensures ReadMany(rd.toInt, ShowAll(count, ns), |ns|).value == ns
  {
    var ws := ShowAll(count, ns);
    forall i | 0 <= i < |ns|
      ensures rd.toUnsigned(ws[i]) == Some(ns[i]) && rd.toInt(ws[i]) == Some(ns[i])
    {
      assert ws[i] == count(ns[i]);
    }
    var u := ReadMany(rd.toUnsigned, ws, |ns|);
    assert u.Some?;
    assert u.value == ns;
    var v := ReadMany(rd.toInt, ws, |ns|);
    assert v.Some?;
    assert forall i :: 0 <= i < |ns| ==> v.value[i] == ns[i];
  }

  /** A line of a keyword followed by written counts reads back as the
      keyword and those counts, whichever integer type they are read into. */
  lemma CountLine(rd: Reader, count: nat -> string, key: string, ns: seq<nat>)
    requires ShowsCounts(rd, count) && IsWord(key)
    requires forall i :: 0 <= i < |ns| ==> ns[i] < UIntLimit
    ensures var line := Join([key] + ShowAll(count, ns));
            && Op(line) == key
            && ReadMany(rd.toUnsigned, Args(line), |ns|) == Some(ns)
            && ReadMany(rd.toInt, Args(line), |ns|).Some? && ReadMany(rd.toInt, Args(line), |ns|).value == ns
  {
    var ws := [key] + ShowAll(count, ns);
    forall k | 0 <= k < |ws|
      ensures IsWord(ws[k])
    {
      if k > 0 {
        assert ws[k] == count(ns[k - 1]);
      }
    }
    WordsOfJoin(ws);
    assert ws[1..] == ShowAll(count, ns);
    ReadCounts(rd, count, ns);
  }

  /** A one-word value after a keyword is read back as that word. */
  lemma WordLine(key: string, w: string)
    requires IsWord(key) && IsWord(w)
    ensures Op(Join([key, w])) == key && Args(Join([key, w])) == [w]
  {
    WordsOfJoin([key, w]);
  }

  /** The twelve numbers of a view plane, corner by corner in the order
      upper left, lower left, upper right, lower right. */
  function PlaneNumbers(p: Cameras.ViewPlane): seq<real> {
    [p.ul.x, p.ul.y, p.ul.z, p.ll.x, p.ll.y, p.ll.z, p.ur.x, p.ur.y, p.ur.z, p.lr.x, p.lr.y, p.lr.z]
  }

  /** The header line describing a camera; a lens camera's rate is not on
      it, it comes from the `sample` line. */
  function CameraLine(show: real -> string, c: CameraSpec): string {
    match c
    case PinholeSpec(eye, plane) =>
      Join(["pinhole"] + ShowAll(show, [eye.x, eye.y, eye.z] + PlaneNumbers(plane)))
    case LensSpec(p, e1, e2, plane, _) =>
      Join(["lens"] + ShowAll(show, [p.x, p.y, p.z, e1.x, e1.y, e1.z, e2.x, e2.y, e2.z] + PlaneNumbers(plane)))
  }

  lemma CameraLineReads(rd: Reader, show: real -> string, st: SceneState, c: CameraSpec)
    requires Shows(rd, show)
    requires c.LensSpec? ==> st.sample == Some(c.rate)
    ensures SceneLine(st, rd, CameraLine(show, c)) == Some(st.(camera := Some(c)))
  {
    match c
    case PinholeSpec(eye, plane) =>
      var xs := [eye.x, eye.y, eye.z] + PlaneNumbers(plane);
      KeywordLine(rd, show, "pinhole", xs);
      assert VecAt(xs, 0) == eye;
      assert Cameras.ViewPlane(VecAt(xs, 3), VecAt(xs, 6), VecAt(xs, 9), VecAt(xs, 12)) == plane;
    case LensSpec(p, e1, e2, plane, _) =>
      var xs := [p.x, p.y, p.z, e1.x, e1.y, e1.z, e2.x, e2.y, e2.z] + PlaneNumbers(plane);
      KeywordLine(rd, show, "lens", xs);
      assert VecAt(xs, 0) == p && VecAt(xs, 3) == e1 && VecAt(xs, 6) == e2;
      assert Cameras.ViewPlane(VecAt(xs, 9), VecAt(xs, 12), VecAt(xs, 15), VecAt(xs, 18)) == plane;
  }

  /** Settings the header format can express: counts that fit an
      `unsigned int`, a one-word name, and a lens camera whose rate is the
      header's sample rate. */
  predicate Writable(s: Settings) {
    && s.width < UIntLimit && s.height < UIntLimit && s.rate < UIntLimit && s.depth < UIntLimit
    && IsWord(s.name)
    && (s.camera.LensSpec? ==> s.camera.rate == s.rate)
  }

  /** Line k of the six header lines of some settings, `sample` first so
      that a lens camera sees its rate. */
  function HeaderLine(show: real -> string, count: nat -> string, s: Settings, k: nat): string {
    if k == 0 then Join(["sample"] + ShowAll(count, [s.rate]))
    else if k == 1 then CameraLine(show, s.camera)
    else if k == 2 then Join(["pixel"] + ShowAll(count, [s.width, s.height]))
    else if k == 3 then Join(["depth"] + ShowAll(count, [s.depth]))
    else if k == 4 then Join(["bias"] + ShowAll(show, [s.bias]))
    else Join(["name", s.name])
  }

  function SceneLines(show: real -> string, count: nat -> string, s: Settings): (ls: seq<string>)
    ensures |ls| == 6
  {
    seq(6, k requires 0 <= k => HeaderLine(show, count, s, k))
  }

  /** The state after the first k header lines. */
  function HeaderState(s: Settings, k: nat): SceneState {
    SceneState(
      if k > 1 then Some(s.camera) else None,
      if k > 2 then Some((s.width, s.height)) else None,
      if k > 0 then Some(s.rate) else None,
      if k > 3 then Some(s.depth) else None,
      if k > 4 then Some(s.bias) else None,
      if k > 5 then Some(s.name) else None)
  }

  /** Line k of a written header takes the state after k lines to the
      state after k + 1. */
  lemma HeaderLineStep(rd: Reader, show: real -> string, count: nat -> string, s: Settings, k: nat)
    requires Shows(rd, show) && ShowsCounts(rd, count) && Writable(s) && k < 6
    ensures SceneLine(HeaderState(s, k), rd, HeaderLine(show, count, s, k)) == Some(HeaderState(s, k + 1))
  {
    if k == 0 { CountLineReads(rd, count, HeaderState(s, k), "sample", [s.rate]); }
    else if k == 1 { CameraLineReads(rd, show, HeaderState(s, k), s.camera); }
    else if k == 2 { CountLineReads(rd, count, HeaderState(s, k), "pixel", [s.width, s.height]); }
    else if k == 3 { CountLineReads(rd, count, HeaderState(s, k), "depth", [s.depth]); }
    else if k == 4 { BiasLineReads(rd, show, HeaderState(s, k), s.bias); }
    else { NameLineReads(rd, HeaderState(s, k), s.name); }
  }

  /** Every expressible header written as its six lines reads back as
      itself, leaving the lines after it. */
  lemma SceneRoundTrip(rd: Reader, show: real -> string, count: nat -> string, s: Settings, more: seq<string>)
    requires Shows(rd, show) && ShowsCounts(rd, count) && Writable(s)
    ensures ParseScene(rd, SceneLines(show, count, s) + more) == Some((s, more))
  {
    var ls, sts := SceneLines(show, count, s), seq(7, k requires 0 <= k => HeaderState(s, k));
    var step := (st, line) => SceneLine(st, rd, line);
    forall i | 0 <= i < 6
      ensures step(sts[i], ls[i]) == Some(sts[i + 1])
    {
      HeaderLineStep(rd, show, count, s, i);
    }
    BlockOfLines(step, sts, ls, more);
    assert SceneComplete(sts[6]) by {
      forall k ensures SceneHas(sts[6], k) {}
    }
  }

  /** A written `sample`, `pixel` or `depth` line sets its key to the
      counts written. */
  lemma CountLineReads(rd: Reader, count: nat -> string, st: SceneState, key: string, ns: seq<nat>)
    requires ShowsCounts(rd, count)
    requires key in {"sample", "pixel", "depth"} && |ns| == (if key == "pixel" then 2 else 1)
    requires forall i :: 0 <= i < |ns| ==> ns[i] < UIntLimit
    ensures SceneLine(st, rd, Join([key] + ShowAll(count, ns)))
         == Some(if key == "sample" then st.(sample := Some(ns[0]))
                 else if key == "pixel" then st.(pixel := Some((ns[0], ns[1])))
                 else st.(depth := Some(ns[0])))
  {
    CountLine(rd, count, key, ns);
  }

  lemma BiasLineReads(rd: Reader, show: real -> string, st: SceneState, x: real)
    requires Shows(rd, show)
    ensures SceneLine(st, rd, Join(["bias"] + ShowAll(show, [x]))) == Some(st.(bias := Some(x)))
  {
    KeywordLine(rd, show, "bias", [x]);
  }

  lemma NameLineReads(rd: Reader, st: SceneState, name: string)
    requires IsWord(name)
    ensures SceneLine(st, rd, Join(["name", name])) == Some(st.(name := Some(name)))
  {
    WordLine("name", name);
  }

  function ColorLine(show: real -> string, key: string, c: Colors.Rgb): string {
    Join([key] + ShowAll(show, [c.r, c.g, c.b]))
  }

  lemma ColorLineReads(rd: Reader, show: real -> string, st: MaterialState, key: string, c: Colors.Rgb)
    requires Shows(rd, show) && key in ColorOps
    ensures MaterialLine(st, rd, ColorLine(show, key, c))
         == Some(if key == "ka" then st.(kA := Some(c))
                 else if key == "kd" then st.(kD := Some(c))
                 else if key == "ks" then st.(kS := Some(c))
                 else if key == "kr" then st.(kR := Some(c))
                 else st.(kT := Some(c)))
  {
    KeywordLine(rd, show, key, [c.r, c.g, c.b]);
  }

  lemma ScalarLineReads(rd: Reader, show: real -> string, st: MaterialState, key: string, x: real)
    requires Shows(rd, show) && key in ScalarOps
    ensures MaterialLine(st, rd, Join([key] + ShowAll(show, [x])))
         == Some(if key == "sp" then st.(pExp := Some(x)) else st.(index := Some(x)))
  {
    KeywordLine(rd, show, key, [x]);
  }

  /** The words of a `Texture:` line. */
  function TextureWords(t: Option<(string, bool)>): seq<string> {
    match t
    case None => ["Texture:", "NONE"]
    case Some((name, rough)) => ["Texture:", name, if rough then "rough" else "smooth"]
  }

  lemma TextureLineReads(st: MaterialState, rd: Reader, t: Option<(string, bool)>)
    requires t.Some? ==> IsWord(t.value.0) && t.value.0 != "NONE"
    ensures MaterialLine(st, rd, Join(TextureWords(t)))
         == Some(match t
                 case None => st.(tex := true)
                 case Some((name, rough)) => st.(tex := true, isTex := true, texture := name, rough := rough))
  {
    WordsOfJoin(TextureWords(t));
  }

  /** A material the block format can express: a texture name is one word
      other than `NONE`. */
  predicate MaterialWritable(m: MaterialSpec) {
    m.texture.Some? ==> IsWord(m.texture.value.0) && m.texture.value.0 != "NONE"
  }

  /** Line k of the eight lines of a material block. */
  function MaterialBlockLine(show: real -> string, m: MaterialSpec, k: nat): string {
    var f := m.reflectance;
    if k == 0 then ColorLine(show, "ka", f.kA)
    else if k == 1 then ColorLine(show, "kd", f.kD)
    else if k == 2 then ColorLine(show, "ks", f.kS)
    else if k == 3 then ColorLine(show, "kr", f.kR)
    else if k == 4 then Join(["sp"] + ShowAll(show, [f.pExp]))
    else if k == 5 then Join(["index"] + ShowAll(show, [f.index]))
    else if k == 6 then ColorLine(show, "kt", f.kT)
    else Join(TextureWords(m.texture))
  }

  function MaterialLines(show: real -> string, m: MaterialSpec): (ls: seq<string>)
    ensures |ls| == 8
  {
    seq(8, k requires 0 <= k => MaterialBlockLine(show, m, k))
  }

  /** The state after the first k lines of a material block. */
  function MaterialBlockState(m: MaterialSpec, k: nat): MaterialState {
    var f := m.reflectance;
    var named := k > 7 && m.texture.Some?;
    MaterialState(
      if k > 0 then Some(f.kA) else None,
      if k > 1 then Some(f.kD) else None,
      if k > 2 then Some(f.kS) else None,
      if k > 3 then Some(f.kR) else None,
      if k > 6 then Some(f.kT) else None,
      if k > 4 then Some(f.pExp) else None,
      if k > 5 then Some(f.index) else None,
      k > 7, named,
      if named then m.texture.value.0 else [],
      named && m.texture.value.1)
  }

  /** Line k of a written material block takes the state after k lines to
      the state after k + 1. */
  lemma MaterialLineStep(rd: Reader, show: real -> string, m: MaterialSpec, k: nat)
    requires Shows(rd, show) && MaterialWritable(m) && k < 8
    ensures MaterialLine(MaterialBlockState(m, k), rd, MaterialBlockLine(show, m, k)) == Some(MaterialBlockState(m, k + 1))
  {
    var f, st := m.reflectance, MaterialBlockState(m, k);
    if k == 0 { ColorLineReads(rd, show, st, "ka", f.kA); }
    else if k == 1 { ColorLineReads(rd, show, st, "kd", f.kD); }
    else if k == 2 { ColorLineReads(rd, show, st, "ks", f.kS); }
    else if k == 3 { ColorLineReads(rd, show, st, "kr", f.kR); }
    else if k == 4 { ScalarLineReads(rd, show, st, "sp", f.pExp); }
    else if k == 5 { ScalarLineReads(rd, show, st, "index", f.index); }
    else if k == 6 { ColorLineReads(rd, show, st, "kt", f.kT); }
    else { TextureLineReads(st, rd, m.texture); }
  }

  /** Every expressible material written as its eight lines reads back as
      itself, leaving the lines after it. */
  lemma MaterialRoundTrip(rd: Reader, show: real -> string, m: MaterialSpec, more: seq<string>)
    requires Shows(rd, show) && MaterialWritable(m)
    ensures ParseMaterial(rd, MaterialLines(show, m) + more) == Some((m, more))
  {
    var ls, sts := MaterialLines(show, m), seq(9, k requires 0 <= k => MaterialBlockState(m, k));
    var step := (st, line) => MaterialLine(st, rd, line);
    forall i | 0 <= i < 8
      ensures step(sts[i], ls[i]) == Some(sts[i + 1])
    {
      MaterialLineStep(rd, show, m, i);
    }
    BlockOfLines(step, sts, ls, more);
    assert MaterialComplete(sts[8]) by {
      forall k ensures MaterialHas(sts[8], k) {}
    }
  }
}

=== FILE: shapes.dfy ===
/** Shapes (Shapes.h, Shapes.cpp): spheres, triangles, mesh triangles
    (optionally drawn as wireframes) and shapes seen through an affine
    transform, with their ray intersection, surface normal, bounding box
    and texture coordinates. */
module Shapes {

  import opened Wrappers
  import opened Vectors
  import opened Rays
  import opened Boxes

  /** `WIREFRAME_THRESHOLD`: the width, in barycentric units, of the band
      along the edges that a wireframe triangle keeps. */
  const WireframeThreshold: real := 0.01

  /** A determinant below this in magnitude counts as a ray parallel to the
      triangle's plane. */
  const ParallelEpsilon: real := 0.000001

  /** The vertex, normal and texture lists a mesh's triangles index into. */
  datatype Mesh = Mesh(vertices: seq<Vec3>, normals: seq<Vec3>, textures: seq<Vec2>)

  /** The three indices of a mesh triangle into one list. */
  datatype Index3 = Index3(i0: int, i1: int, i2: int)

  /** A shape. The barycentric finder `bary` is the inverse of the matrix
      whose columns are the three vertices; matrix inversion is not
      modelled, so it is carried as given. A wireframe triangle is a mesh
      triangle with `wireframe` set. */
  datatype Shape =
    | Sphere(radius: real, center: Vec3)
    | Triangle(a: Vec3, b: Vec3, c: Vec3, bary: Mat3)
    | MeshTriangle(mesh: Mesh, vertI: Index3, normI: Index3, texI: Index3, bary: Mat3, wireframe: bool)
    | Transformed(shape: Shape, transform: Transform)

  /** What a shape writes into the intersect record: the parameter, the
      point and the surface normal. */
  datatype Hit = Hit(t: real, point: Vec3, normal: Vec3)

  /** `Sphere::unitSphere`. */
  const UnitSphere: Shape := Sphere(1.0, Zero)

  /** `Ellipsoid(transform)`: the unit sphere seen through a transform. */
  function Ellipsoid(t: Transform): (s: Shape)
    ensures s.Transformed? && s.shape == UnitSphere && s.transform == t
  {
    Transformed(UnitSphere, t)
  }

  predicate IndicesIn<T>(xs: seq<T>, i: Index3) {
    0 <= i.i0 < |xs| && 0 <= i.i1 < |xs| && 0 <= i.i2 < |xs|
  }

  /** Every index of every mesh triangle is inside its list. */
  predicate ValidShape(s: Shape) {
    match s
    case MeshTriangle(mesh, vertI, normI, texI, _, _) =>
      IndicesIn(mesh.vertices, vertI) && IndicesIn(mesh.normals, normI) && IndicesIn(mesh.textures, texI)
    case Transformed(inner, tr) => ValidShape(inner) && Inverts(tr)
    case _ => true
  }

  /** The three corners of a triangle or mesh triangle. */
  function Vertices(s: Shape): (vs: (Vec3, Vec3, Vec3))
    requires s.Triangle? || s.MeshTriangle?
    requires ValidShape(s)
  {
    if s.Triangle? then (s.a, s.b, s.c)
    else (s.mesh.vertices[s.vertI.i0], s.mesh.vertices[s.vertI.i1], s.mesh.vertices[s.vertI.i2])
  }

  // ---------------------------------------------------------------------
  // Spheres
  // ---------------------------------------------------------------------

  predicate OnSphere(radius: real, center: Vec3, p: Vec3) {
    Dot(Sub(p, center), Sub(p, center)) == radius * radius
  }

  /** The quadratic A t^2 + 2 B t + C whose roots are the parameters where
      a ray meets a sphere: A = d.d, B = d.w, C = w.w - r^2 for the
      direction d and w = origin - center. */
  datatype Quadratic = Quadratic(qa: real, qb: real, qc: real)

  function SphereQuadratic(radius: real, center: Vec3, ray: Ray): (q: Quadratic)
    ensures q.qa >= 0.0 && (q.qa == 0.0 <==> ray.direction == Zero)
  {
    var d, w := ray.direction, Sub(ray.origin, center);
    DotSelfNonNegative(d);
    Quadratic(Dot(d, d), Dot(d, w), Dot(w, w) - radius * radius)
  }

  /** `getDiscriminant`: (d.w)(d.w) - (d.d)(w.w - r^2), a quarter of the
      discriminant of the quadratic. */
  function Discriminant(q: Quadratic): real {
    q.qb * q.qb - q.qa * q.qc
  }

  /** The two roots (tNeg, tPos) of `intersect`, or None when the
      discriminant is negative. `leftTerm` is -d.w = -B. A zero direction
      makes the source divide 0 by 0; the NaN it gets lies in no interval,
      so the model reports no roots. */
  function SphereRoots(sqrt: real -> real, radius: real, center: Vec3, ray: Ray): (roots: Option<(real, real)>)
    ensures roots.Some? ==> Discriminant(SphereQuadratic(radius, center, ray)) >= 0.0
  {
    var q := SphereQuadratic(radius, center, ray);
    var disc := Discriminant(q);
    if disc < 0.0 then None
    else
      var left := -q.qb;
      var right := sqrt(disc);
      if q.qa == 0.0 then None
      else Some(((left - right) / q.qa, (left + right) / q.qa))
  }

  /** `Sphere::getNormal`: the outward unit normal, negated when the ray
      starts inside the sphere (its origin is closer to the center than the
      radius). */
  function SphereNormal(sqrt: real -> real, radius: real, center: Vec3, ray: Ray, point: Vec3): Vec3 {
    var n := Normalize(sqrt, Sub(point, center));
    if Length(sqrt, Sub(ray.origin, center)) < radius then Neg(n) else n
  }

  /** `Sphere::intersect`: the smaller root if it is within the ray's
      bounds, otherwise the larger one if it is, otherwise a miss. */
  function SphereIntersect(sqrt: real -> real, radius: real, center: Vec3, ray: Ray): (h: Option<Hit>)
    ensures h.Some? ==> IsWithinBounds(ray, h.value.t) && h.value.point == IntersectionPoint(ray, h.value.t)
  {
    match SphereRoots(sqrt, radius, center, ray)
    case None => None
    case Some((tNeg, tPos)) =>
      if IsWithinBounds(ray, tNeg) || IsWithinBounds(ray, tPos) then
        var t := if IsWithinBounds(ray, tNeg) then tNeg else tPos;
        var p := IntersectionPoint(ray, t);
        Some(Hit(t, p, SphereNormal(sqrt, radius, center, ray, p)))
      else None
  }

  /** The value of the quadratic at t. */
  function Eval(q: Quadratic, t: real): real {
    q.qa * t * t + 2.0 * q.qb * t + q.qc
  }

  /** A Q(t) = (A t + B)^2 - s^2 when s^2 = B^2 - A C, so for A > 0 the
      roots of Q are exactly (-B +/- s) / A. */
  lemma QuadraticRoots(q: Quadratic, s: real, t: real)
    requires q.qa > 0.0 && s * s == Discriminant(q)
    ensures Eval(q, t) == 0.0 <==> (q.qa * t + q.qb == s || q.qa * t + q.qb == -s)
  {
    var y := q.qa * t + q.qb;
    var e := Eval(q, t);
    assert q.qa * e == y * y - s * s;
    assert y * y - s * s == (y - s) * (y + s);
    if e == 0.0 {
      assert (y - s) * (y + s) == 0.0;
    } else {
      assert q.qa * e != 0.0;
    }
  }

  /** A root forces a non-negative discriminant: B^2 - A C = (A t + B)^2. */
  lemma RootGivesDiscriminant(q: Quadratic, t: real)
    requires Eval(q, t) == 0.0
    ensures Discriminant(q) >= 0.0
  {
    var y := q.qa * t + q.qb;
    assert Discriminant(q) == Mul(y, y);
    SquareNonNegative(y);
  }

  /** The squared distance from the center of the point at parameter t is
      a quadratic in t with coefficients d.d, d.w and w.w. */
  lemma DistanceQuadratic(w: Vec3, d: Vec3, t: real)
    ensures Dot(Add(w, Scale(t, d)), Add(w, Scale(t, d)))
         == Dot(d, d) * t * t + 2.0 * Dot(d, w) * t + Dot(w, w)
  {
  }

  /** The point at parameter t is on the sphere exactly when t is a root
      of the sphere's quadratic. */
  lemma OnSphereQuadratic(radius: real, center: Vec3, ray: Ray, t: real)
    ensures var q := SphereQuadratic(radius, center, ray);
            OnSphere(radius, center, IntersectionPoint(ray, t)) <==> Eval(q, t) == 0.0
  {
    var w := Sub(ray.origin, center);
    assert Sub(IntersectionPoint(ray, t), center) == Add(w, Scale(t, ray.direction));
    DistanceQuadratic(w, ray.direction, t);
  }

  /** The roots `intersect` computes exist exactly when B^2 - A C >= 0
      (for a non-zero direction), and then A tNeg + B = -s and
      A tPos + B = s for the square root s of B^2 - A C. */
  lemma SphereRootsSolve(sqrt: real -> real, radius: real, center: Vec3, ray: Ray)
    requires IsSqrt(sqrt) && ray.direction != Zero
    ensures var q := SphereQuadratic(radius, center, ray);
            var roots := SphereRoots(sqrt, radius, center, ray);
            && (roots.Some? <==> Discriminant(q) >= 0.0)
            && (roots.Some? ==>
                  var s := sqrt(Discriminant(q));
                  && s >= 0.0 && s * s == Discriminant(q)
                  && q.qa * roots.value.0 + q.qb == -s && q.qa * roots.value.1 + q.qb == s)
  {
    var q := SphereQuadratic(radius, center, ray);
    var disc := Discriminant(q);
    if disc >= 0.0 {
      var s := sqrt(disc);
      DivCancel(-q.qb - s, q.qa);
      DivCancel(-q.qb + s, q.qa);
    }
  }

  lemma DivCancel(x: real, q: real)
    requires q != 0.0
    ensures q * (x / q) == x
  {
  }

  /** Between the two roots (-B - s) / A and (-B + s) / A, any root t is
      one of them and no smaller than the first. */
  lemma RootsOrdered(q: Quadratic, s: real, tNeg: real, tPos: real, t: real)
    requires q.qa > 0.0 && s >= 0.0 && s * s == Discriminant(q)
    requires q.qa * tNeg + q.qb == -s && q.qa * tPos + q.qb == s
    requires Eval(q, t) == 0.0
    ensures t == tNeg || t == tPos
    ensures tNeg <= t
  {
    QuadraticRoots(q, s, t);
    if q.qa * t + q.qb == s {
      assert Mul(tPos, q.qa) == Mul(t, q.qa);
      assert t == tPos;
    } else {
      assert Mul(tNeg, q.qa) == Mul(t, q.qa);
      assert t == tNeg;
    }
    if t < tNeg {
      MulStrict(t, tNeg, q.qa);
    }
  }

  /** A sphere hit is at one of the two roots. */
  lemma SphereHitAtRoot(sqrt: real -> real, radius: real, center: Vec3, ray: Ray)
    ensures var h := SphereIntersect(sqrt, radius, center, ray);
            var roots := SphereRoots(sqrt, radius, center, ray);
            h.Some? ==> roots.Some? && (h.value.t == roots.value.0 || h.value.t == roots.value.1)
  {
  }

  /** Either root of a quadratic solves it. */
  lemma RootSolves(q: Quadratic, s: real, r0: real, r1: real, t: real)
    requires q.qa > 0.0 && s * s == Discriminant(q)
    requires q.qa * r0 + q.qb == -s && q.qa * r1 + q.qb == s
    requires t == r0 || t == r1
    ensures Eval(q, t) == 0.0
  {
    QuadraticRoots(q, s, t);
  }

  /** A reported sphere hit lies on the sphere. */
  lemma SphereHitOnSurface(sqrt: real -> real, radius: real, center: Vec3, ray: Ray)
    requires IsSqrt(sqrt) && ray.direction != Zero
    ensures var h := SphereIntersect(sqrt, radius, center, ray);
            h.Some? ==> OnSphere(radius, center, h.value.point)
  {
    var h := SphereIntersect(sqrt, radius, center, ray);
    if h.Some? {
      HitIsRoot(sqrt, radius, center, ray);
      OnSphereQuadratic(radius, center, ray, h.value.t);
    }
  }

  /** The parameter of a sphere hit is a root of the sphere's quadratic. */
  lemma HitIsRoot(sqrt: real -> real, radius: real, center: Vec3, ray: Ray)
    requires IsSqrt(sqrt) && ray.direction != Zero
    requires SphereIntersect(sqrt, radius, center, ray).Some?
    ensures Eval(SphereQuadratic(radius, center, ray), SphereIntersect(sqrt, radius, center, ray).value.t) == 0.0
  {
    SphereHitAtRoot(sqrt, radius, center, ray);
    RootsSolve(sqrt, radius, center, ray);
  }

  /** Both roots `intersect` computes solve the sphere's quadratic. */
  lemma RootsSolve(sqrt: real -> real, radius: real, center: Vec3, ray: Ray)
    requires IsSqrt(sqrt) && ray.direction != Zero
    ensures var q := SphereQuadratic(radius, center, ray);
            var roots := SphereRoots(sqrt, radius, center, ray);
            roots.Some? ==> Eval(q, roots.value.0) == 0.0 && Eval(q, roots.value.1) == 0.0
  {
    var q := SphereQuadratic(radius, center, ray);
    SphereRootsSolve(sqrt, radius, center, ray);
    if SphereRoots(sqrt, radius, center, ray).Some? {
      var roots := SphereRoots(sqrt, radius, center, ray).value;
      RootSolves(q, sqrt(Discriminant(q)), roots.0, roots.1, roots.0);
      RootSolves(q, sqrt(Discriminant(q)), roots.0, roots.1, roots.1);
    }
  }

  /** The sphere test is exact: a reported hit lies on the sphere, and
      every parameter within the ray's bounds at which the ray meets the
      sphere is found, the reported one being the smallest of them. */
  lemma SphereIntersectExact(sqrt: real -> real, radius: real, center: Vec3, ray: Ray, t: real)
    requires IsSqrt(sqrt) && ray.direction != Zero
    ensures var h := SphereIntersect(sqrt, radius, center, ray);
            h.Some? ==> OnSphere(radius, center, h.value.point)
    ensures var h := SphereIntersect(sqrt, radius, center, ray);
            (IsWithinBounds(ray, t) && OnSphere(radius, center, IntersectionPoint(ray, t)) ==>
               h.Some? && h.value.t <= t)
  {
    SphereHitOnSurface(sqrt, radius, center, ray);
    if IsWithinBounds(ray, t) && OnSphere(radius, center, IntersectionPoint(ray, t)) {
      OnSphereQuadratic(radius, center, ray, t);
      RootIsComputed(sqrt, radius, center, ray, t);
    }
  }

  /** A root of the sphere's quadratic is one of the two roots `intersect`
      computes, and no smaller than the first. */
  lemma RootIsComputed(sqrt: real -> real, radius: real, center: Vec3, ray: Ray, t: real)
    requires IsSqrt(sqrt) && ray.direction != Zero
    requires Eval(SphereQuadratic(radius, center, ray), t) == 0.0
    ensures var roots := SphereRoots(sqrt, radius, center, ray);
            roots.Some? && (t == roots.value.0 || t == roots.value.1) && roots.value.0 <= t
  {
    var q := SphereQuadratic(radius, center, ray);
    RootGivesDiscriminant(q, t);
    SphereRootsSolve(sqrt, radius, center, ray);
    var (tNeg, tPos) := SphereRoots(sqrt, radius, center, ray).value;
    RootsOrdered(q, sqrt(Discriminant(q)), tNeg, tPos, t);
  }

  /** For a non-negative radius, `length() < radius` is the comparison of
      squared distances. */
  lemma SqrtBelow(sqrt: real -> real, x: real, r: real)
    requires IsSqrt(sqrt) && x >= 0.0 && r >= 0.0
    ensures sqrt(x) < r <==> x < r * r
  {
    var s := sqrt(x);
    assert s >= 0.0 && Mul(s, s) == x;
    assert Mul(r, r) == r * r;
    MulComm(s, r);
    if s < r {
      MulMono(s, r, s);
      MulStrict(s, r, r);
    } else {
      MulMono(r, s, r);
      MulMono(r, s, s);
    }
  }

  /** The sphere's normal is the unit outward normal, reversed exactly when
      the ray starts strictly inside the sphere. */
  lemma SphereNormalOrientation(sqrt: real -> real, radius: real, center: Vec3, ray: Ray, point: Vec3)
    requires IsSqrt(sqrt) && radius >= 0.0
    ensures var w := Sub(ray.origin, center);
            var n := Normalize(sqrt, Sub(point, center));
            SphereNormal(sqrt, radius, center, ray, point) == (if Dot(w, w) < radius * radius then Neg(n) else n)
    ensures point != center ==>
              var m := SphereNormal(sqrt, radius, center, ray, point);
              Dot(m, m) == 1.0
  {
    var w := Sub(ray.origin, center);
    DotSelfNonNegative(w);
    SqrtBelow(sqrt, Dot(w, w), radius);
    if point != center {
      assert Sub(point, center) != Zero;
      NormalizeIsUnit(sqrt, Sub(point, center));
    }
  }

  // ---------------------------------------------------------------------
  // Triangles
  // ---------------------------------------------------------------------

  /** The solution (beta, gamma, t) of beta (a - b) + gamma (a - c) + t d = a - o. */
  datatype Solution = Solution(beta: real, gamma: real, t: real)

  /** The determinant of the system `intersect` sets up: the matrix whose
      columns are a - b, a - c and the direction. */
  function Determinant(a: Vec3, b: Vec3, c: Vec3, d: Vec3): real {
    Triple(Sub(a, b), Sub(a, c), d)
  }

  /** The linear solve of the triangle tests: None when the determinant is
      below `ParallelEpsilon` in magnitude, otherwise the solution (written
      with Cramer's rule; the source multiplies by the inverse matrix, which
      is the same solution). */
  function SolveTriangle(a: Vec3, b: Vec3, c: Vec3, ray: Ray): (s: Option<Solution>)
    ensures s.None? <==> Abs(Determinant(a, b, c, ray.direction)) < ParallelEpsilon
    ensures s.Some? ==>
              Combine3(s.value.beta, Sub(a, b), s.value.gamma, Sub(a, c), s.value.t, ray.direction)
                == Sub(a, ray.origin)
  {
    var u, v, d, r := Sub(a, b), Sub(a, c), ray.direction, Sub(a, ray.origin);
    var det := Triple(u, v, d);
    if Abs(det) < ParallelEpsilon then None
    else
      Cramer(u, v, d, r);
      Some(Solution(Triple(r, v, d) / det, Triple(u, r, d) / det, Triple(u, v, r) / det))
  }

  /** The solution is the only one: any (beta, gamma, t) that solves the
      system when the determinant is large enough is the one returned. */
  lemma SolveTriangleUnique(a: Vec3, b: Vec3, c: Vec3, ray: Ray, s: Solution)
    requires Abs(Determinant(a, b, c, ray.direction)) >= ParallelEpsilon
    requires Combine3(s.beta, Sub(a, b), s.gamma, Sub(a, c), s.t, ray.direction) == Sub(a, ray.origin)
    ensures SolveTriangle(a, b, c, ray) == Some(s)
  {
    var u, v, d, r := Sub(a, b), Sub(a, c), ray.direction, Sub(a, ray.origin);
    var det := Triple(u, v, d);
    TripleOfCombination(s.beta, u, s.gamma, v, s.t, d);
    MulDiv(s.beta, det);
    MulDiv(s.gamma, det);
    MulDiv(s.t, det);
    assert Triple(r, v, d) / det == s.beta;
    assert Triple(u, r, d) / det == s.gamma;
    assert Triple(u, v, r) / det == s.t;
  }

  lemma MulDiv(k: real, q: real)
    requires q != 0.0
    ensures (k * q) / q == k
  {
  }

  /** The barycentric coordinates lie in the triangle. */
  predicate InsideTriangle(s: Solution) {
    !(s.gamma < 0.0 || s.beta < 0.0 || s.gamma + s.beta > 1.0)
  }

  /** The wireframe constraint: near one of the three edges. */
  predicate InWireBand(s: Solution) {
    s.gamma < WireframeThreshold || s.beta < WireframeThreshold
    || s.gamma + s.beta > 1.0 - WireframeThreshold
  }

  /** The accepting part of `Triangle::intersect`,
      `MeshTriangle::intersect` and `WireframeTriangle::intersect`: solve,
      then reject a parameter out of bounds, then a point outside the
      triangle, then (wireframes only) a point away from the edges. */
  function TriangleSolution(a: Vec3, b: Vec3, c: Vec3, ray: Ray, wireframe: bool): (r: Option<Solution>)
    ensures r.Some? ==> SolveTriangle(a, b, c, ray) == r
    ensures r.Some? ==> IsWithinBounds(ray, r.value.t) && InsideTriangle(r.value)
  {
    match SolveTriangle(a, b, c, ray)
    case None => None
    case Some(s) =>
      if !IsWithinBounds(ray, s.t) then None
      else if !InsideTriangle(s) then None
      else if wireframe && !InWireBand(s) then None
      else Some(s)
  }

  /** A triangle test accepts exactly: the system is solvable, the
      parameter is within the ray's bounds and the point is in the
      triangle (and, for a wireframe, near an edge). */
  lemma TriangleSolutionExact(a: Vec3, b: Vec3, c: Vec3, ray: Ray, wireframe: bool, s: Solution)
    ensures TriangleSolution(a, b, c, ray, wireframe) == Some(s)
        <==> && Abs(Determinant(a, b, c, ray.direction)) >= ParallelEpsilon
             && Combine3(s.beta, Sub(a, b), s.gamma, Sub(a, c), s.t, ray.direction) == Sub(a, ray.origin)
             && IsWithinBounds(ray, s.t) && InsideTriangle(s)
             && (wireframe ==> InWireBand(s))
  {
    if && Abs(Determinant(a, b, c, ray.direction)) >= ParallelEpsilon
       && Combine3(s.beta, Sub(a, b), s.gamma, Sub(a, c), s.t, ray.direction) == Sub(a, ray.origin)
    {
      SolveTriangleUnique(a, b, c, ray, s);
    }
  }

  /** A wireframe triangle hits a subset of what the full triangle hits. */
  lemma WireframeHitsSubset(a: Vec3, b: Vec3, c: Vec3, ray: Ray)
    ensures var w := TriangleSolution(a, b, c, ray, true);
            w.Some? ==> TriangleSolution(a, b, c, ray, false) == w && InWireBand(w.value)
  {
  }

  /** The point at the solution's parameter is the barycentric combination
      (1 - beta - gamma) a + beta b + gamma c. */
  lemma TrianglePoint(a: Vec3, b: Vec3, c: Vec3, ray: Ray, s: Solution)
    requires Combine3(s.beta, Sub(a, b), s.gamma, Sub(a, c), s.t, ray.direction) == Sub(a, ray.origin)
    ensures IntersectionPoint(ray, s.t) == Combine3(1.0 - s.beta - s.gamma, a, s.beta, b, s.gamma, c)
  {
    SystemBlend(a, b, c, ray.origin, ray.direction, s.beta, s.gamma, s.t);
  }

  /** `Triangle::getNormal`: the unit normal (b - a) x (b - c), turned to
      face against the ray. */
  function FlatNormal(sqrt: real -> real, a: Vec3, b: Vec3, c: Vec3, ray: Ray): (n: Vec3)
    ensures Dot(n, ray.direction) <= 0.0
    ensures var m := Normalize(sqrt, Cross(Sub(b, a), Sub(b, c))); n == m || n == Neg(m)
  {
    var n := Normalize(sqrt, Cross(Sub(b, a), Sub(b, c)));
    if Dot(n, Neg(ray.direction)) < 0.0 then Neg(n) else n
  }

  /** `MeshTriangle::getNormal`: the vertex normals weighted by the
      barycentric coordinates of the point, normalised. */
  function InterpolatedNormal(sqrt: real -> real, mesh: Mesh, normI: Index3, bary: Mat3, point: Vec3): Vec3
    requires IndicesIn(mesh.normals, normI)
  {
    var abg := MulVec(bary, point);
    Normalize(sqrt, Combine3(abg.x, mesh.normals[normI.i0], abg.y, mesh.normals[normI.i1], abg.z, mesh.normals[normI.i2]))
  }

  /** The barycentric finder inverts the vertex matrix: it maps each vertex
      to its unit coordinate vector. */
  predicate BaryFinder(m: Mat3, a: Vec3, b: Vec3, c: Vec3) {
    && MulVec(m, a) == Vec3(1.0, 0.0, 0.0)
    && MulVec(m, b) == Vec3(0.0, 1.0, 0.0)
    && MulVec(m, c) == Vec3(0.0, 0.0, 1.0)
  }

  /** A barycentric finder recovers the coefficients of a combination of
      the vertices. */
  lemma BaryFinderRecovers(m: Mat3, a: Vec3, b: Vec3, c: Vec3, al: real, be: real, ga: real)
    requires BaryFinder(m, a, b, c)
    ensures MulVec(m, Combine3(al, a, be, b, ga, c)) == Vec3(al, be, ga)
  {
    MulVecCombine3(m, al, a, be, b, ga, c);
  }

  // ---------------------------------------------------------------------
  // Transformed shapes
  // ---------------------------------------------------------------------

  /** `transformNormal`: the normal times the transposed inverse, normalised. */
  function TransformNormal(sqrt: real -> real, inverse: Affine, n: Vec3): (m: Vec3)
    ensures IsSqrt(sqrt) && ApplyTransposed(inverse, n) != Zero ==>
              Dot(m, m) == 1.0 && exists k: real :: 0.0 < k && m == Scale(k, ApplyTransposed(inverse, n))
  {
    var v := ApplyTransposed(inverse, n);
    assert IsSqrt(sqrt) && v != Zero ==> Dot(Normalize(sqrt, v), Normalize(sqrt, v)) == 1.0 by {
      if IsSqrt(sqrt) && v != Zero { NormalizeIsUnit(sqrt, v); }
    }
    Normalize(sqrt, v)
  }

  /** The transposed matrix is the adjoint: n . (M x) = (M^T n) . x. */
  lemma TransposedAdjoint(m: Affine, n: Vec3, x: Vec3)
    ensures Dot(ApplyTransposed(m, n), x) == Dot(n, ApplyVector(m, x))
  {
  }

  /** Why the normal goes through the transposed inverse: a world direction
      that the inverse maps to a direction along the local surface (one
      perpendicular to the local normal) stays perpendicular to the
      transformed normal. */
  lemma TransformNormalPerpendicular(sqrt: real -> real, inverse: Affine, n: Vec3, x: Vec3)
    requires Dot(n, ApplyVector(inverse, x)) == 0.0
    ensures Dot(TransformNormal(sqrt, inverse, n), x) == 0.0
  {
    var y := ApplyTransposed(inverse, n);
    TransposedAdjoint(inverse, n, x);
    NormalizeKeepsPerpendicular(sqrt, y, x);
  }

  // ---------------------------------------------------------------------
  // Intersection
  // ---------------------------------------------------------------------

  /** `intersect` of every shape. A transformed shape intersects its inner
      shape with the ray taken into the shape's space by the inverse
      transform; the parameter carries over, the point is recomputed on
      the world ray and the normal goes through `transformNormal`. */
  function Intersect(sqrt: real -> real, s: Shape, ray: Ray): (h: Option<Hit>)
    requires ValidShape(s)
    ensures h.Some? ==> IsWithinBounds(ray, h.value.t) && h.value.point == IntersectionPoint(ray, h.value.t)
    decreases s
  {
    match s
    case Sphere(radius, center) => SphereIntersect(sqrt, radius, center, ray)
    case Triangle(a, b, c, _) =>
      (match TriangleSolution(a, b, c, ray, false)
       case None => None
       case Some(sol) => Some(Hit(sol.t, IntersectionPoint(ray, sol.t), FlatNormal(sqrt, a, b, c, ray))))
    case MeshTriangle(mesh, vertI, normI, _, bary, wireframe) =>
      var (a, b, c) := Vertices(s);
      (match TriangleSolution(a, b, c, ray, wireframe)
       case None => None
       case Some(sol) =>
         var p := IntersectionPoint(ray, sol.t);
         Some(Hit(sol.t, p, InterpolatedNormal(sqrt, mesh, normI, bary, p))))
    case Transformed(inner, tr) =>
      match Intersect(sqrt, inner, TransformRay(tr.inverse, ray))
      case None => None
      case Some(h) => Some(Hit(h.t, IntersectionPoint(ray, h.t), TransformNormal(sqrt, tr.inverse, h.normal)))
  }

  /** A transformed shape is hit exactly when its inner shape is hit by the
      ray taken into local space, at the same parameter, and the world
      point maps back to the local point under the inverse transform. */
  lemma TransformedHit(sqrt: real -> real, inner: Shape, tr: Transform, ray: Ray)
    requires ValidShape(inner) && Inverts(tr)
    ensures var local := Intersect(sqrt, inner, TransformRay(tr.inverse, ray));
            var h := Intersect(sqrt, Transformed(inner, tr), ray);
            && (h.Some? <==> local.Some?)
            && (h.Some? ==> h.value.t == local.value.t
                            && ApplyPoint(tr.inverse, h.value.point) == local.value.point
                            && h.value.normal == TransformNormal(sqrt, tr.inverse, local.value.normal))
  {
    var local := Intersect(sqrt, inner, TransformRay(tr.inverse, ray));
    if local.Some? {
      TransformRayPoint(tr.inverse, ray, local.value.t);
    }
  }

  /** What a triangle or mesh triangle reports: the parameter of the
      accepted solution, the point as the barycentric combination of the
      corners, and a normal facing against the ray (flat triangles) or the
      interpolated vertex normal (mesh triangles). */
  lemma TriangleHit(sqrt: real -> real, s: Shape, ray: Ray)
    requires (s.Triangle? || s.MeshTriangle?) && ValidShape(s)
    ensures var (a, b, c) := Vertices(s);
            var sol := TriangleSolution(a, b, c, ray, s.MeshTriangle? && s.wireframe);
            var h := Intersect(sqrt, s, ray);
            && (h.Some? <==> sol.Some?)
            && (h.Some? ==>
                  && h.value.t == sol.value.t
                  && h.value.point == Combine3(1.0 - sol.value.beta - sol.value.gamma, a,
                                               sol.value.beta, b, sol.value.gamma, c)
                  && (s.Triangle? ==> Dot(h.value.normal, ray.direction) <= 0.0))
  {
    var (a, b, c) := Vertices(s);
    var sol := TriangleSolution(a, b, c, ray, s.MeshTriangle? && s.wireframe);
    if sol.Some? {
      TrianglePoint(a, b, c, ray, sol.value);
    }
  }

  /** Dividing by a positive number keeps the order. */
  lemma DivMono(x: real, y: real, q: real)
    requires x <= y && q > 0.0
    ensures x / q <= y / q
  {
    DivCancel(x, q);
    DivCancel(y, q);
    var d := y / q - x / q;
    assert q * d == y - x;
  }

  /** With a true square root the smaller root comes first. */
  lemma SphereRootsOrdered(sqrt: real -> real, radius: real, center: Vec3, ray: Ray)
    requires IsSqrt(sqrt)
    ensures var roots := SphereRoots(sqrt, radius, center, ray);
            roots.Some? ==> roots.value.0 <= roots.value.1
  {
    var q := SphereQuadratic(radius, center, ray);
    var disc := Discriminant(q);
    if disc >= 0.0 && q.qa != 0.0 {
      DivMono(-q.qb - sqrt(disc), -q.qb + sqrt(disc), q.qa);
    }
  }

  /** Moving the upper bound to anywhere at or past a hit keeps a hit, and
      one no farther away: every shape reports its nearest parameter
      within the bounds, and the bounds play no other part. This is what
      lets the hierarchy search the second child only up to the first
      child's hit. */
  lemma {:induction false} IntersectNarrowed(sqrt: real -> real, s: Shape, ray: Ray, hi: real)
    requires ValidShape(s) && IsSqrt(sqrt)
    requires Intersect(sqrt, s, ray).Some? && Intersect(sqrt, s, ray).value.t <= hi
    ensures var n := Intersect(sqrt, s, SetBounds(ray, ray.tMin, hi));
            n.Some? && n.value.t <= Intersect(sqrt, s, ray).value.t
    decreases s
  {
    var narrowed := SetBounds(ray, ray.tMin, hi);
    match s
    case Sphere(radius, center) =>
      SphereRootsOrdered(sqrt, radius, center, ray);
      assert SphereRoots(sqrt, radius, center, narrowed) == SphereRoots(sqrt, radius, center, ray);
    case Triangle(a, b, c, _) =>
      assert SolveTriangle(a, b, c, narrowed) == SolveTriangle(a, b, c, ray);
    case MeshTriangle(_, _, _, _, _, _) =>
      var (a, b, c) := Vertices(s);
      assert SolveTriangle(a, b, c, narrowed) == SolveTriangle(a, b, c, ray);
    case Transformed(inner, tr) =>
      assert TransformRay(tr.inverse, narrowed) == SetBounds(TransformRay(tr.inverse, ray), ray.tMin, hi);
      IntersectNarrowed(sqrt, inner, TransformRay(tr.inverse, ray), hi);
  }

  // ---------------------------------------------------------------------
  // Bounding boxes
  // ---------------------------------------------------------------------

  /** `getBoundingBox`: the center plus and minus the radius on every axis
      for a sphere; the DBL_MAX-seeded bounds loop over the three corners
      for triangles; the inner box mapped by the forward transform (the
      source inverts the stored inverse) for a transformed shape. */
  function BoundingBox(s: Shape): (box: Box)
    requires ValidShape(s)
    ensures (s.Triangle? || s.MeshTriangle?) ==>
              var (a, b, c) := Vertices(s); InBox(box, a) && InBox(box, b) && InBox(box, c)
    ensures s.Sphere? ==> (WellFormed(box) <==> s.radius >= 0.0)
    decreases s
  {
    match s
    case Sphere(radius, center) =>
      var r := Vec3(radius, radius, radius);
      Box(Sub(center, r), Add(center, r))
    case Triangle(a, b, c, _) =>
      var box := BoundsOf([a, b, c]);
      assert InBox(box, [a, b, c][1]) && InBox(box, [a, b, c][2]);
      box
    case MeshTriangle(_, _, _, _, _, _) =>
      var (a, b, c) := Vertices(s);
      var box := BoundsOf([a, b, c]);
      assert InBox(box, [a, b, c][1]) && InBox(box, [a, b, c][2]);
      box
    case Transformed(inner, tr) => TransformBox(BoundingBox(inner), tr.forward)
  }

  lemma SquareBound(x: real, r: real)
    requires r >= 0.0 && Mul(x, x) <= Mul(r, r)
    ensures -r <= x <= r
  {
    if x > r {
      MulStrict(r, x, x);
      MulMono(r, x, r);
      MulComm(r, x);
    } else if x < -r {
      assert Mul(-x, -x) == Mul(x, x);
      MulStrict(r, -x, -x);
      MulMono(r, -x, r);
      MulComm(r, -x);
    }
  }

  lemma ConvexAxis(lo: real, hi: real, x: real, y: real, z: real, al: real, be: real, ga: real, sum: real)
    requires lo <= x <= hi && lo <= y <= hi && lo <= z <= hi
    requires al >= 0.0 && be >= 0.0 && ga >= 0.0 && al + be + ga == 1.0
    requires sum == al * x + be * y + ga * z
    ensures lo <= sum <= hi
  {
    MulMono(lo, x, al);
    MulMono(x, hi, al);
    MulMono(lo, y, be);
    MulMono(y, hi, be);
    MulMono(lo, z, ga);
    MulMono(z, hi, ga);
    MulComm(al, x);
    MulComm(be, y);
    MulComm(ga, z);
    WeightsSumToOne(lo, al, be, ga);
    WeightsSumToOne(hi, al, be, ga);
  }

  lemma WeightsSumToOne(k: real, al: real, be: real, ga: real)
    requires al + be + ga == 1.0
    ensures Mul(k, al) + Mul(k, be) + Mul(k, ga) == k
  {
    assert Mul(k, al) + Mul(k, be) + Mul(k, ga) == k * (al + be + ga);
  }

  /** A box holds every convex combination of points it holds. */
  lemma ConvexInBox(box: Box, a: Vec3, b: Vec3, c: Vec3, al: real, be: real, ga: real)
    requires InBox(box, a) && InBox(box, b) && InBox(box, c)
    requires al >= 0.0 && be >= 0.0 && ga >= 0.0 && al + be + ga == 1.0
    ensures InBox(box, Combine3(al, a, be, b, ga, c))
  {
    ConvexOnAxis(box, a, b, c, al, be, ga, 0);
    ConvexOnAxis(box, a, b, c, al, be, ga, 1);
    ConvexOnAxis(box, a, b, c, al, be, ga, 2);
  }

  lemma ConvexOnAxis(box: Box, a: Vec3, b: Vec3, c: Vec3, al: real, be: real, ga: real, axis: nat)
    requires InBox(box, a) && InBox(box, b) && InBox(box, c) && axis < 3
    requires al >= 0.0 && be >= 0.0 && ga >= 0.0 && al + be + ga == 1.0
    ensures Get(box.lo, axis) <= Get(Combine3(al, a, be, b, ga, c), axis) <= Get(box.hi, axis)
  {
    var p := Combine3(al, a, be, b, ga, c);
    Combine3Components(al, a, be, b, ga, c);
    if axis == 0 {
      ConvexAxis(box.lo.x, box.hi.x, a.x, b.x, c.x, al, be, ga, p.x);
    } else if axis == 1 {
      ConvexAxis(box.lo.y, box.hi.y, a.y, b.y, c.y, al, be, ga, p.y);
    } else {
      ConvexAxis(box.lo.z, box.hi.z, a.z, b.z, c.z, al, be, ga, p.z);
    }
  }

  /** Every sphere in the shape, however deeply transformed, has a
      non-negative radius. */
  predicate RadiiNonNegative(s: Shape) {
    match s
    case Sphere(radius, _) => radius >= 0.0
    case Transformed(inner, _) => RadiiNonNegative(inner)
    case _ => true
  }

  /** Every point where a shape is hit lies in its bounding box, which is
      what lets the hierarchy skip a subtree whose box the ray misses. For
      a transformed shape the local hit lies in the inner box, and the
      forward matrix, which undoes the inverse, carries it into the box of
      the mapped corners. A sphere of negative radius has an inverted box,
      so spheres need a non-negative radius. */
  lemma {:induction false} HitInBoundingBox(sqrt: real -> real, s: Shape, ray: Ray)
    requires ValidShape(s) && IsSqrt(sqrt) && RadiiNonNegative(s)
    ensures var h := Intersect(sqrt, s, ray);
            h.Some? ==> InBox(BoundingBox(s), h.value.point)
    decreases s
  {
    var h := Intersect(sqrt, s, ray);
    if h.Some? {
      match s
      case Sphere(_, _) =>
        SphereHitNonZero(sqrt, s, ray);
        SphereHitInBox(sqrt, s, ray);
      case Transformed(inner, tr) =>
        var local := TransformRay(tr.inverse, ray);
        TransformedHit(sqrt, inner, tr, ray);
        HitInBoundingBox(sqrt, inner, local);
        var lp := Intersect(sqrt, inner, local).value.point;
        InvertsUndo(tr, h.value.point, Zero);
        TransformBoxContains(BoundingBox(inner), tr.forward, lp);
      case _ =>
        TriangleHitInBox(sqrt, s, ray);
    }
  }

  /** A sphere is only hit along a non-zero direction. */
  lemma SphereHitNonZero(sqrt: real -> real, s: Shape, ray: Ray)
    requires s.Sphere? && Intersect(sqrt, s, ray).Some?
    ensures ray.direction != Zero
  {
    assert SphereRoots(sqrt, s.radius, s.center, ray).Some?;
  }

  lemma SphereHitInBox(sqrt: real -> real, s: Shape, ray: Ray)
    requires ValidShape(s) && IsSqrt(sqrt) && s.Sphere?
    requires s.radius >= 0.0 && ray.direction != Zero
    requires Intersect(sqrt, s, ray).Some?
    ensures InBox(BoundingBox(s), Intersect(sqrt, s, ray).value.point)
  {
    var h := Intersect(sqrt, s, ray).value;
    SphereIntersectExact(sqrt, s.radius, s.center, ray, h.t);
    var q := Sub(h.point, s.center);
    SquareNonNegative(q.x);
    SquareNonNegative(q.y);
    SquareNonNegative(q.z);
    assert Dot(q, q) == Mul(q.x, q.x) + Mul(q.y, q.y) + Mul(q.z, q.z);
    SquareBound(q.x, s.radius);
    SquareBound(q.y, s.radius);
    SquareBound(q.z, s.radius);
  }

  lemma TriangleHitInBox(sqrt: real -> real, s: Shape, ray: Ray)
    requires ValidShape(s) && IsSqrt(sqrt) && (s.Triangle? || s.MeshTriangle?)
    requires Intersect(sqrt, s, ray).Some?
    ensures InBox(BoundingBox(s), Intersect(sqrt, s, ray).value.point)
  {
    TriangleHit(sqrt, s, ray);
    var (a, b, c) := Vertices(s);
    var sol := TriangleSolution(a, b, c, ray, s.MeshTriangle? && s.wireframe).value;
    var box := BoundingBox(s);
    assert InBox(box, a) && InBox(box, b) && InBox(box, c);
    ConvexInBox(box, a, b, c, 1.0 - sol.beta - sol.gamma, sol.beta, sol.gamma);
  }

  // ---------------------------------------------------------------------
  // Texture coordinates
  // ---------------------------------------------------------------------

  /** The trigonometry `Sphere::getTextureCoordinate` uses, as parameters. */
  datatype Trig = Trig(acos: real -> real, atan2: (real, real) -> real, pi: real)

  /** The ranges of <cmath>'s acos and atan2. */
  ghost predicate TrigRanges(trig: Trig) {
    && trig.pi > 0.0
    && (forall x: real :: 0.0 <= trig.acos(x) <= trig.pi)
    && (forall y: real, x: real :: -trig.pi < trig.atan2(y, x) <= trig.pi)
  }

  /** The arguments of the azimuth `atan2` as the source writes them: the
      first one subtracts the center's y from the point's z. */
  function AzimuthArgsAsWritten(center: Vec3, point: Vec3): (real, real) {
    (point.z - center.y, point.x - center.x)
  }

  /** The arguments the azimuth needs: z and x of the point relative to the
      center. They depend only on the point's offset from the center. */
  function AzimuthArgs(center: Vec3, point: Vec3): (args: (real, real))
    ensures args == (Sub(point, center).z, Sub(point, center).x)
  {
    (point.z - center.z, point.x - center.x)
  }

  /** Moving a sphere and a point on it together leaves the corrected
      azimuth arguments unchanged. */
  lemma AzimuthArgsTranslationInvariant(center: Vec3, point: Vec3, shift: Vec3)
    ensures AzimuthArgs(Add(center, shift), Add(point, shift)) == AzimuthArgs(center, point)
  {
  }

  /** The arguments as written are not: for the unit sphere moved up by 5,
      the point (1, 5, 0) on its equator gets (-5, 1) instead of the
      (0, 1) of the same point on the unit sphere at the origin. */
  lemma AzimuthArgsAsWrittenShifts()
    ensures AzimuthArgsAsWritten(Vec3(0.0, 5.0, 0.0), Vec3(1.0, 5.0, 0.0)) == (-5.0, 1.0)
    ensures AzimuthArgsAsWritten(Zero, Vec3(1.0, 0.0, 0.0)) == (0.0, 1.0)
    ensures AzimuthArgs(Vec3(0.0, 5.0, 0.0), Vec3(1.0, 5.0, 0.0)) == (0.0, 1.0)
  {
  }

  /** `Sphere::getTextureCoordinate` with the corrected azimuth: the polar
      angle from acos of the height over the radius, the azimuth moved into
      [0, 2 pi), u = 1 - azimuth / 2 pi and v = (pi - polar) / pi. */
  function SphereUV(trig: Trig, radius: real, center: Vec3, point: Vec3): (uv: Vec2)
    requires radius != 0.0 && trig.pi > 0.0
    ensures trig.pi * (1.0 - uv.v) == trig.acos((point.y - center.y) / radius)
    ensures var (y, x) := AzimuthArgs(center, point);
            var turn := 2.0 * trig.pi * (1.0 - uv.u);
            turn == trig.atan2(y, x) || turn == trig.atan2(y, x) + 2.0 * trig.pi
  {
    var theta := trig.acos((point.y - center.y) / radius);
    var (y, x) := AzimuthArgs(center, point);
    var phi0 := trig.atan2(y, x);
    var phi := if phi0 < 0.0 then phi0 + 2.0 * trig.pi else phi0;
    UndoAngle(trig.pi, theta, 1.0);
    UndoAngle(2.0 * trig.pi, phi, 0.0);
    Vec2(1.0 - phi / (2.0 * trig.pi), (trig.pi - theta) / trig.pi)
  }

  /** The angle is recovered from its texture coordinate:
      p (1 - (b p - a) / p) = a - (b - 1) p. */
  lemma UndoAngle(p: real, a: real, b: real)
    requires p > 0.0
    ensures p * (1.0 - (b * p - a) / p) == a + (1.0 - b) * p
    ensures b == 0.0 ==> p * (1.0 - (1.0 - a / p)) == a
  {
    DivCancel(b * p - a, p);
    DivCancel(a, p);
  }

  /** The texture coordinates of a sphere move with it: translating the
      sphere and the point together leaves them unchanged, which is what
      the corrected azimuth arguments give. */
  lemma SphereUVTranslationInvariant(trig: Trig, radius: real, center: Vec3, point: Vec3, shift: Vec3)
    requires radius != 0.0 && trig.pi > 0.0
    ensures SphereUV(trig, radius, Add(center, shift), Add(point, shift)) == SphereUV(trig, radius, center, point)
  {
    AzimuthArgsTranslationInvariant(center, point, shift);
    assert Add(point, shift).y - Add(center, shift).y == point.y - center.y;
  }

  /** With acos in [0, pi] and atan2 in (-pi, pi], the azimuth lands in
      [0, 2 pi) and the texture coordinate in (0, 1] x [0, 1]. */
  lemma SphereUVInUnitSquare(trig: Trig, radius: real, center: Vec3, point: Vec3)
    requires radius != 0.0 && TrigRanges(trig)
    ensures var uv := SphereUV(trig, radius, center, point);
            0.0 < uv.u <= 1.0 && 0.0 <= uv.v <= 1.0
  {
    var theta := trig.acos((point.y - center.y) / radius);
    var (y, x) := AzimuthArgs(center, point);
    var phi0 := trig.atan2(y, x);
    var phi := if phi0 < 0.0 then phi0 + 2.0 * trig.pi else phi0;
    assert 0.0 <= phi < 2.0 * trig.pi;
    DivUnit(phi, 2.0 * trig.pi);
    assert 0.0 <= theta <= trig.pi;
    DivUnit(trig.pi - theta, trig.pi);
  }

  /** A sphere, possibly seen through transforms: an ellipsoid is one. */
  predicate SphereBased(s: Shape) {
    match s
    case Sphere(_, _) => true
    case Transformed(inner, _) => SphereBased(inner)
    case _ => false
  }

  /** Shapes whose texture coordinate is defined: spheres of non-zero
      radius (the source divides by the radius). */
  predicate HasTextureCoordinates(s: Shape) {
    match s
    case Sphere(radius, _) => radius != 0.0
    case Transformed(inner, _) => HasTextureCoordinates(inner)
    case _ => true
  }

  /** `getTextureCoordinate` of every shape: spherical angles for a
      sphere, the last two barycentric coordinates for a triangle, the
      barycentric blend of the corners' texture coordinates for a mesh
      triangle, and the inner shape's at the point taken into local space
      for a transformed shape. */
  function TextureCoordinate(trig: Trig, s: Shape, point: Vec3): (uv: Vec2)
    requires ValidShape(s) && HasTextureCoordinates(s) && trig.pi > 0.0
    ensures SphereBased(s) && TrigRanges(trig) ==> 0.0 < uv.u <= 1.0 && 0.0 <= uv.v <= 1.0
    decreases s
  {
    match s
    case Sphere(radius, center) =>
      assert TrigRanges(trig) ==> var uv := SphereUV(trig, radius, center, point);
                                  0.0 < uv.u <= 1.0 && 0.0 <= uv.v <= 1.0 by {
        if TrigRanges(trig) {
          SphereUVInUnitSquare(trig, radius, center, point);
        }
      }
      SphereUV(trig, radius, center, point)
    case Triangle(_, _, _, bary) =>
      var abg := MulVec(bary, point);
      Vec2(abg.y, abg.z)
    case MeshTriangle(mesh, _, _, texI, bary, _) =>
      var abg := MulVec(bary, point);
      Combine2(abg.x, mesh.textures[texI.i0], abg.y, mesh.textures[texI.i1], abg.z, mesh.textures[texI.i2])
    case Transformed(inner, tr) => TextureCoordinate(trig, inner, ApplyPoint(tr.inverse, point))
  }

  /** At a hit on a triangle whose barycentric finder inverts its corners,
      the texture coordinate is (beta, gamma) from the intersection solve;
      on a mesh triangle it blends the corners' texture coordinates, and
      the normal their normals, with weights (1 - beta - gamma, beta, gamma). */
  lemma TriangleAttributesAtHit(sqrt: real -> real, trig: Trig, s: Shape, ray: Ray)
    requires (s.Triangle? || s.MeshTriangle?) && ValidShape(s) && trig.pi > 0.0
    requires var (a, b, c) := Vertices(s); BaryFinder(s.bary, a, b, c)
    ensures var (a, b, c) := Vertices(s);
            var sol := TriangleSolution(a, b, c, ray, s.MeshTriangle? && s.wireframe);
            var h := Intersect(sqrt, s, ray);
            h.Some? ==>
              var al, be, ga := 1.0 - sol.value.beta - sol.value.gamma, sol.value.beta, sol.value.gamma;
              && (s.Triangle? ==> TextureCoordinate(trig, s, h.value.point) == Vec2(be, ga))
              && (s.MeshTriangle? ==>
                    && TextureCoordinate(trig, s, h.value.point)
                         == Combine2(al, s.mesh.textures[s.texI.i0], be, s.mesh.textures[s.texI.i1],
                                     ga, s.mesh.textures[s.texI.i2])
                    && h.value.normal
                         == Normalize(sqrt, Combine3(al, s.mesh.normals[s.normI.i0], be, s.mesh.normals[s.normI.i1],
                                                     ga, s.mesh.normals[s.normI.i2])))
  {
    var (a, b, c) := Vertices(s);
    var sol := TriangleSolution(a, b, c, ray, s.MeshTriangle? && s.wireframe);
    TriangleHit(sqrt, s, ray);
    if sol.Some? {
      var al, be, ga := 1.0 - sol.value.beta - sol.value.gamma, sol.value.beta, sol.value.gamma;
      BaryFinderRecovers(s.bary, a, b, c, al, be, ga);
    }
  }
}

=== FILE: tokens.dfy ===
/** Reading a line the way the parsers' `>>` extractions do: the line
    splits into whitespace-separated words, and a number is read from one
    word by a conversion that stays abstract. */
module Tokens {

  import opened Wrappers

  /** The characters `>>` skips between words. */
  predicate IsSpace(c: char) {
    c == ' ' || c == '\t' || c == '\n' || c == '\r' || c == '\U{0B}' || c == '\U{0C}'
  }

  /** What `>>` reads into a string: non-empty, without spaces. */
  predicate IsWord(w: string) {
    w != [] && forall k :: 0 <= k < |w| ==> !IsSpace(w[k])
  }

  /** The length of the word at the start of `s`. */
  function WordLength(s: string): (n: nat)
    ensures n <= |s|
    ensures forall k :: 0 <= k < n ==> !IsSpace(s[k])
    ensures n < |s| ==> IsSpace(s[n])
  {
    if s == [] || IsSpace(s[0]) then 0 else 1 + WordLength(s[1..])
  }

  /** The words successive `>>` extractions read from `s`. */
  function Words(s: string): (ws: seq<string>)
    ensures forall k :: 0 <= k < |ws| ==> IsWord(ws[k])
    decreases |s|
  {
    if s == [] then []
    else if IsSpace(s[0]) then Words(s[1..])
    else
      var n := WordLength(s);
      [s[..n]] + Words(s[n..])
  }

  /** Words separated by single spaces. */
  function Join(ws: seq<string>): string
    decreases |ws|
  {
    if ws == [] then []
    else if |ws| == 1 then ws[0]
    else ws[0] + [' '] + Join(ws[1..])
  }

  lemma {:induction false} WordLengthOfWord(w: string, rest: string)
    requires IsWord(w) && (rest == [] || IsSpace(rest[0]))
    ensures WordLength(w + rest) == |w|
    decreases |w|
  {
    var s := w + rest;
    if |w| > 1 {
      assert s[1..] == w[1..] + rest;
      WordLengthOfWord(w[1..], rest);
    } else {
      assert s[1..] == rest;
    }
  }

  lemma WordsAfterWord(w: string, rest: string)
    requires IsWord(w) && (rest == [] || IsSpace(rest[0]))
    ensures Words(w + rest) == [w] + Words(rest)
  {
    var s := w + rest;
    WordLengthOfWord(w, rest);
    assert s[..|w|] == w && s[|w|..] == rest;
  }

  lemma WordsSkipSpace(s: string)
    requires s != [] && IsSpace(s[0])
    ensures Words(s) == Words(s[1..])
  {
  }

  /** Splitting undoes joining: a line of words separated by spaces reads
      back as those words. */
  lemma {:induction false} WordsOfJoin(ws: seq<string>)
    requires forall k :: 0 <= k < |ws| ==> IsWord(ws[k])
    ensures Words(Join(ws)) == ws
    decreases |ws|
  {
    if |ws| == 1 {
      WordsAfterWord(ws[0], []);
      assert ws[0] + [] == ws[0];
    } else if |ws| > 1 {
      var rest := [' '] + Join(ws[1..]);
      assert ws[0] + [' '] + Join(ws[1..]) == ws[0] + rest;
      WordsAfterWord(ws[0], rest);
      assert rest[1..] == Join(ws[1..]);
      WordsOfJoin(ws[1..]);
    }
  }

  /** The word-to-number conversions of `>>` into a `double`, an `int`
      and an `unsigned int`. */
  datatype Reader = Reader(toReal: string -> Option<real>, toInt: string -> Option<int>, toUnsigned: string -> Option<nat>)

  /** The first k words converted in turn; None when a word is missing or
      does not convert, as a chain of extractions fails. */
  function ReadMany<T>(conv: string -> Option<T>, ws: seq<string>, k: nat): (r: Option<seq<T>>)
    ensures r.Some? <==> k <= |ws| && forall i :: 0 <= i < k ==> conv(ws[i]).Some?
    ensures r.Some? ==> |r.value| == k && forall i :: 0 <= i < k ==> r.value[i] == conv(ws[i]).value
    decreases k
  {
    if k == 0 then Some([])
    else if ws == [] || conv(ws[0]).None? then None
    else match ReadMany(conv, ws[1..], k - 1)
      case None => None
      case Some(rest) => Some([conv(ws[0]).value] + rest)
  }

  /** The word at position k, or `prev` when the line has fewer words: a
      failed extraction into a string leaves the string as it was. */
  function WordAt(ws: seq<string>, k: nat, prev: string): (w: string)
    ensures k < |ws| ==> w == ws[k]
    ensures k >= |ws| ==> w == prev
  {
    if k < |ws| then ws[k] else prev
  }

  /** The first word of a line, or the empty string when there is none. */
  function Op(line: string): string {
    WordAt(Words(line), 0, [])
  }

  /** The words after the first. */
  function Args(line: string): seq<string> {
    var ws := Words(line);
    if ws == [] then [] else ws[1..]
  }

  /** The next line `getline` hands over, and what is left; past the end
      of the input it reads an empty line. */
  function NextLine(lines: seq<string>): (r: (string, seq<string>))
    ensures lines != [] ==> r == (lines[0], lines[1..])
    ensures lines == [] ==> r == ([], [])
  {
    if lines == [] then ([], []) else (lines[0], lines[1..])
  }
}

=== FILE: tracer.dfy ===
/** The recursive ray tracer (RayTracer.h, RayTracer.cpp): a ray is traced
    into the scene; at the nearest hit the surface is shaded with an
    ambient term, a diffuse and a specular term for every light the
    shadow ray reaches, and, while recursion depth remains, a mirror
    bounce and a refracted ray. */
module Tracer {

  import opened Wrappers
  import opened Vectors
  import Colors
  import opened Rays
  import opened Boxes
  import Shapes
  import Materials
  import opened Primitives
  import opened Lights

  // ---------------------------------------------------------------------
  // Directions
  // ---------------------------------------------------------------------

  /** The mirror direction of the bounce ray: the incoming direction with
      twice its normal component taken away. */
  function Reflect(d: Vec3, n: Vec3): (r: Vec3)
    ensures Dot(n, n) == 1.0 ==> Dot(r, n) == -Dot(d, n) && Dot(r, r) == Dot(d, d)
  {
    var k := 2.0 * Dot(d, n);
    var r := Sub(d, Scale(k, n));
    DotSubScale(d, k, n, n);
    DotSubScale(d, k, n, r);
    DotSubScale(d, k, n, d);
    r
  }

  /** Taking a multiple of one vector away from another shifts every dot
      product accordingly. */
  lemma DotSubScale(d: Vec3, k: real, n: Vec3, x: Vec3)
    ensures Dot(Sub(d, Scale(k, n)), x) == Dot(d, x) - k * Dot(n, x)
    ensures Dot(x, Sub(d, Scale(k, n))) == Dot(x, d) - k * Dot(x, n)
  {
  }

  /** Scaling either side scales the dot product, which is symmetric. */
  lemma DotScale(k: real, a: Vec3, b: Vec3)
    ensures Dot(Scale(k, a), b) == k * Dot(a, b)
    ensures Dot(b, Scale(k, a)) == k * Dot(a, b)
    ensures Dot(a, b) == Dot(b, a)
  {
  }

  /** Mirroring about a unit normal twice gives the direction back. */
  lemma ReflectTwice(d: Vec3, n: Vec3)
    requires Dot(n, n) == 1.0
    ensures Reflect(Reflect(d, n), n) == d
  {
    var r := Reflect(d, n);
    var k := 2.0 * Dot(d, n);
    assert Reflect(r, n) == Sub(r, Scale(-k, n));
  }

  /** The reflected light vector of `specComp`, written in the source as
      the negated incidence plus twice its normal component: it is the
      mirror image of the incidence, reversed. */
  function SpecularReflect(l: Vec3, n: Vec3): (r: Vec3)
    ensures r == Neg(Reflect(l, n))
  {
    Add(Neg(l), Scale(2.0 * Dot(l, n), n))
  }

  /** `MAX(N . L, 0)`, the diffuse factor. */
  function DiffuseFactor(n: Vec3, l: Vec3): (f: real)
    ensures f >= 0.0
    ensures Dot(n, l) >= 0.0 ==> f == Dot(n, l)
    ensures Dot(n, l) <= 0.0 ==> f == 0.0
  {
    Max(Dot(n, l), 0.0)
  }

  /** The frame `refract` works in: the normalised direction, the normal
      it uses and their dot product. The normal is the surface normal
      normalised, unless the direction leaves along it, when it is the
      negated surface normal as given (the source normalises a copy it then
      overwrites). */
  datatype Frame = Frame(dir: Vec3, normal: Vec3, c: real)

  function RefractFrame(sqrt: real -> real, d: Vec3, surfaceNormal: Vec3): (f: Frame)
    requires IsSqrt(sqrt)
    ensures f.dir == Normalize(sqrt, d) && f.c == Dot(f.dir, f.normal)
    ensures Dot(f.dir, Normalize(sqrt, surfaceNormal)) > 0.0 ==> f.normal == Neg(surfaceNormal)
    ensures Dot(f.dir, Normalize(sqrt, surfaceNormal)) <= 0.0 ==> f.normal == Normalize(sqrt, surfaceNormal)
    ensures f.c <= 0.0
  {
    var dir := Normalize(sqrt, d);
    var unit := Normalize(sqrt, surfaceNormal);
    var cosAngle := Dot(dir, unit);
    var normal := if cosAngle > 0.0 then Neg(surfaceNormal) else unit;
    FlippedNormalOpposes(sqrt, dir, surfaceNormal);
    Frame(dir, normal, Dot(dir, normal))
  }

  /** A direction making an acute angle with the normalised normal makes
      an obtuse one with the negated normal. */
  lemma FlippedNormalOpposes(sqrt: real -> real, dir: Vec3, surfaceNormal: Vec3)
    requires IsSqrt(sqrt)
    ensures Dot(dir, Normalize(sqrt, surfaceNormal)) > 0.0 ==> Dot(dir, Neg(surfaceNormal)) < 0.0
  {
    if surfaceNormal == Zero {
      ZeroNormalIsOrthogonal(sqrt, dir);
    } else {
      NormalizeIsUnit(sqrt, surfaceNormal);
      var k: real :| 0.0 < k && Normalize(sqrt, surfaceNormal) == Scale(k, surfaceNormal);
      PositiveMultipleOpposes(dir, surfaceNormal, k);
    }
  }

  lemma ZeroNormalIsOrthogonal(sqrt: real -> real, dir: Vec3)
    requires IsSqrt(sqrt)
    ensures Dot(dir, Normalize(sqrt, Zero)) == 0.0
  {
    NormalizeZero(sqrt);
    DotZero(dir);
  }

  lemma DotZero(dir: Vec3)
    ensures Dot(dir, Zero) == 0.0
  {
  }

  lemma PositiveMultipleOpposes(dir: Vec3, n: Vec3, k: real)
    requires k > 0.0
    ensures Dot(dir, Scale(k, n)) > 0.0 ==> Dot(dir, Neg(n)) < 0.0
  {
    DotScale(k, n, dir);
    NonPositiveProduct(k, Dot(dir, n));
  }

  lemma NonPositiveProduct(k: real, x: real)
    requires k >= 0.0
    ensures x <= 0.0 ==> k * x <= 0.0
  {
    if x <= 0.0 {
      MulMono(x, 0.0, k);
      MulComm(x, k);
    }
  }

  /** The square of the cosine of the refracted angle, by Snell's law. */
  function CosPhi2(n: real, c: real): real {
    1.0 - (n * n) * (1.0 - c * c)
  }

  /** `refract`: None (total internal reflection) exactly when the squared
      cosine of the refracted angle is negative; otherwise the refracted
      direction `n (d - c N) - cos(phi) N` with `n` the ratio of the old
      index to the new. */
  function Refract(sqrt: real -> real, d: Vec3, surfaceNormal: Vec3, oldIndex: real, newIndex: real): (r: Option<Vec3>)
    requires IsSqrt(sqrt) && newIndex != 0.0
    ensures var f := RefractFrame(sqrt, d, surfaceNormal);
            r.None? <==> CosPhi2(oldIndex / newIndex, f.c) < 0.0
  {
    var n := oldIndex / newIndex;
    var f := RefractFrame(sqrt, d, surfaceNormal);
    var cosPhi2 := CosPhi2(n, f.c);
    if cosPhi2 < 0.0 then None
    else Some(Sub(Scale(n, Sub(f.dir, Scale(f.c, f.normal))), Scale(sqrt(cosPhi2), f.normal)))
  }

  /** With a unit surface normal the frame is made of unit vectors: the
      normal used is the surface normal or its negation. */
  lemma UnitFrame(sqrt: real -> real, d: Vec3, surfaceNormal: Vec3)
    requires IsSqrt(sqrt) && d != Zero && Dot(surfaceNormal, surfaceNormal) == 1.0
    ensures var f := RefractFrame(sqrt, d, surfaceNormal);
            && Dot(f.dir, f.dir) == 1.0 && Dot(f.normal, f.normal) == 1.0
            && -1.0 <= f.c <= 0.0
  {
    NormalizeIsUnit(sqrt, d);
    UnitNormalized(sqrt, surfaceNormal);
    var f := RefractFrame(sqrt, d, surfaceNormal);
    DotNeg(surfaceNormal);
    assert f.normal == surfaceNormal || f.normal == Neg(surfaceNormal);
    DotBound(f.dir, f.normal);
  }

  /** A unit vector normalises to itself. */
  lemma UnitNormalized(sqrt: real -> real, v: Vec3)
    requires IsSqrt(sqrt) && Dot(v, v) == 1.0
    ensures Normalize(sqrt, v) == v
  {
    SqrtOne(sqrt);
    assert Length(sqrt, v) == 1.0;
  }

  lemma DotNeg(v: Vec3)
    ensures Dot(Neg(v), Neg(v)) == Dot(v, v)
  {
  }

  lemma SqrtOne(sqrt: real -> real)
    requires IsSqrt(sqrt)
    ensures sqrt(1.0) == 1.0
  {
    var s := sqrt(1.0);
    assert s * s == 1.0 && s >= 0.0;
    SquareMono(s, 1.0);
    SquareMono(1.0, s);
  }

  /** The zero vector normalises to itself (the square root of 0 is 0). */
  lemma NormalizeZero(sqrt: real -> real)
    requires IsSqrt(sqrt)
    ensures Normalize(sqrt, Zero) == Zero
  {
    var s := sqrt(0.0);
    assert s * s == 0.0;
  }

  /** The dot product of two unit vectors lies in [-1, 1]. */
  lemma DotBound(a: Vec3, b: Vec3)
    requires Dot(a, a) == 1.0 && Dot(b, b) == 1.0
    ensures -1.0 <= Dot(a, b) <= 1.0
  {
    DotSelfNonNegative(Sub(a, b));
    DotSelfNonNegative(Add(a, b));
    DotOfSum(a, b);
  }

  /** For a non-zero direction and a unit surface normal the refracted
      direction is a unit vector on the far side of the normal used: its
      normal component is minus the cosine of the refracted angle. */
  lemma RefractUnit(sqrt: real -> real, d: Vec3, surfaceNormal: Vec3, oldIndex: real, newIndex: real)
    requires IsSqrt(sqrt) && d != Zero && Dot(surfaceNormal, surfaceNormal) == 1.0 && newIndex != 0.0
    requires Refract(sqrt, d, surfaceNormal, oldIndex, newIndex).Some?
    ensures var r := Refract(sqrt, d, surfaceNormal, oldIndex, newIndex).value;
            var f := RefractFrame(sqrt, d, surfaceNormal);
            && Dot(r, r) == 1.0
            && Dot(r, f.normal) == -sqrt(CosPhi2(oldIndex / newIndex, f.c)) <= 0.0
  {
    UnitFrame(sqrt, d, surfaceNormal);
    var f := RefractFrame(sqrt, d, surfaceNormal);
    var n := oldIndex / newIndex;
    var cos2 := CosPhi2(n, f.c);
    assert cos2 >= 0.0;
    var s := sqrt(cos2);
    assert s * s == cos2 && s >= 0.0;
    RefractedLength(f.dir, f.normal, f.c, n, s);
  }

  /** The algebra of the refracted direction, for unit direction and
      normal and `s` a square root of the squared cosine. */
  lemma RefractedLength(dir: Vec3, normal: Vec3, c: real, n: real, s: real)
    requires Dot(dir, dir) == 1.0 && Dot(normal, normal) == 1.0 && c == Dot(dir, normal)
    requires s * s == CosPhi2(n, c)
    ensures var r := Sub(Scale(n, Sub(dir, Scale(c, normal))), Scale(s, normal));
            Dot(r, r) == 1.0 && Dot(r, normal) == -s
  {
    var t := Sub(dir, Scale(c, normal));
    DotSubScale(dir, c, normal, normal);
    assert Dot(t, normal) == 0.0;
    DotSubScale(dir, c, normal, dir);
    DotScale(1.0, normal, dir);
    assert Dot(t, dir) == 1.0 - c * c;
    DotSubScale(dir, c, normal, t);
    DotScale(1.0, t, dir);
    DotScale(1.0, t, normal);
    var tt := Dot(t, t);
    assert tt == 1.0 - c * c;
    var u := Scale(n, t);
    DotScale(n, t, normal);
    assert Dot(u, normal) == 0.0;
    DotScale(n, t, u);
    DotScale(n, t, t);
    assert Dot(u, u) == n * (n * tt);
    var r := Sub(u, Scale(s, normal));
    DotSubScale(u, s, normal, normal);
    assert Dot(r, normal) == -s;
    DotSubScale(u, s, normal, u);
    DotSubScale(u, s, normal, r);
    DotScale(1.0, r, normal);
    DotScale(1.0, r, u);
    assert Dot(u, r) == Dot(u, u);
    assert Dot(r, r) == Dot(u, u) + s * s;
    assert n * (n * tt) == (n * n) * tt;
  }

  /** Passing between equal indices does not bend the ray: the refracted
      direction is the normalised incoming one. */
  lemma RefractSameIndex(sqrt: real -> real, d: Vec3, surfaceNormal: Vec3, index: real)
    requires IsSqrt(sqrt) && d != Zero && Dot(surfaceNormal, surfaceNormal) == 1.0 && index != 0.0
    ensures Refract(sqrt, d, surfaceNormal, index, index) == Some(Normalize(sqrt, d))
  {
    UnitFrame(sqrt, d, surfaceNormal);
    var f := RefractFrame(sqrt, d, surfaceNormal);
    DivSelf(index);
    var c := f.c;
    assert CosPhi2(1.0, c) == c * c;
    SquareNonNegative(c);
    SqrtOfSquare(sqrt, c);
    UnbentDirection(f.dir, f.normal, c);
  }

  lemma DivSelf(x: real)
    requires x != 0.0
    ensures x / x == 1.0
  {
  }

  lemma UnbentDirection(dir: Vec3, normal: Vec3, c: real)
    ensures Sub(Scale(1.0, Sub(dir, Scale(c, normal))), Scale(-c, normal)) == dir
  {
  }

  /** The square root of the square of a non-positive number is its
      negation. */
  lemma SqrtOfSquare(sqrt: real -> real, c: real)
    requires IsSqrt(sqrt) && c <= 0.0
    ensures sqrt(c * c) == -c
  {
    var s := sqrt(c * c);
    var m := -c;
    assert s * s == m * m && s >= 0.0 && m >= 0.0;
    SquareMono(s, m);
    SquareMono(m, s);
  }

  /** Squaring is strictly increasing on the non-negative reals. */
  lemma SquareMono(a: real, b: real)
    requires 0.0 <= a && 0.0 <= b
    ensures a < b ==> a * a < b * b
  {
    if a < b {
      MulMono(a, b, a);
      MulStrict(a, b, b);
      MulComm(a, b);
    }
  }

  /** Entering a medium at least as dense as the one left (ratio at most
      1) never reflects totally. */
  lemma RefractIntoDenser(sqrt: real -> real, d: Vec3, surfaceNormal: Vec3, oldIndex: real, newIndex: real)
    requires IsSqrt(sqrt) && d != Zero && Dot(surfaceNormal, surfaceNormal) == 1.0
    requires 0.0 < oldIndex <= newIndex
    ensures Refract(sqrt, d, surfaceNormal, oldIndex, newIndex).Some?
  {
    UnitFrame(sqrt, d, surfaceNormal);
    var f := RefractFrame(sqrt, d, surfaceNormal);
    DivUnit(oldIndex, newIndex);
    CosPhi2NonNegative(oldIndex / newIndex, f.c);
  }

  /** For a ratio in [0, 1] and a cosine in [-1, 0] the squared cosine of
      the refracted angle is non-negative. */
  lemma CosPhi2NonNegative(n: real, c: real)
    requires 0.0 <= n <= 1.0 && -1.0 <= c <= 0.0
    ensures CosPhi2(n, c) >= 0.0
  {
    MulMono(-c, 1.0, -c);
    assert Mul(-c, -c) == c * c;
    SquareNonNegative(c);
    var w := 1.0 - c * c;
    MulMono(n, 1.0, n);
    SquareNonNegative(n);
    var nn := n * n;
    assert 0.0 <= nn <= 1.0;
    MulMono(nn, 1.0, w);
    assert nn * w <= w;
  }

  // ---------------------------------------------------------------------
  // The scene
  // ---------------------------------------------------------------------

  /** The functions the tracer calls but does not define: `sqrt`, the
      box test of the hierarchy, the trigonometry of sphere texture
      coordinates, and `pow` for the specular exponent. */
  datatype Env = Env(sqrt: real -> real, boxTest: (Box, Ray) -> bool, trig: Shapes.Trig, pow: (real, real) -> real)

  ghost predicate ValidEnv(env: Env) {
    IsSqrt(env.sqrt) && env.trig.pi > 0.0
  }

  /** The scene's hierarchy and lights with the tracer's recursion depth
      and ray bias. */
  datatype Scene = Scene(root: Prim, lights: seq<Light>, depth: nat, bias: real)

  /** The record `trace` starts every search with; its fields are written
      before they are read. */
  const NoHit: Rec := Rec(0.0, Zero, Zero, None)

  /** `o` is one of the objects the hierarchy holds: a plain primitive or a
      mesh, not a node and not a triangle inside a mesh. These are what a
      hit record can name. */
  predicate HasObject(p: Prim, o: Prim) {
    match p
    case Tree(_, _, low, high) =>
      (low.Some? && HasObject(low.value, o)) || (high.Some? && HasObject(high.value, o))
    case _ => o == p
  }

  /** The object a primitive identity denotes: the source follows the
      record's pointer, the model searches the hierarchy for it. */
  function FindObject(p: Prim, id: PrimId): (r: Option<Prim>)
    requires WellShaped(p)
    ensures r.Some? ==> HasObject(p, r.value) && WellShaped(r.value) && !r.value.Tree? && r.value.id == id
    ensures r.None? ==> forall o :: HasObject(p, o) ==> o.Tree? || o.id != id
  {
    match p
    case Tree(_, _, low, high) =>
      var l := if low.Some? then FindObject(low.value, id) else None;
      if l.Some? then l
      else if high.Some? then FindObject(high.value, id) else None
    case _ => if p.id == id then Some(p) else None
  }

  function ObjectAt(sc: Scene, prim: Option<PrimId>): (r: Option<Prim>)
    requires WellShaped(sc.root)
    ensures r.Some? ==> prim.Some? && WellShaped(r.value) && HasObject(sc.root, r.value) && !r.value.Tree? && r.value.id == prim.value
  {
    if prim.None? then None else FindObject(sc.root, prim.value)
  }

  /** The reflectance of the object a record names, as
      `primitive->getReflectance(point)` reads it with the current mesh
      memory. */
  function ReflectanceAt(env: Env, sc: Scene, prim: Option<PrimId>, mem: Memory, point: Vec3): Option<Materials.Reflectance>
    requires ValidEnv(env) && WellShaped(sc.root)
  {
    match ObjectAt(sc, prim)
    case None => None
    case Some(o) => Primitives.GetReflectance(env.trig, o, mem, point)
  }

  // ---------------------------------------------------------------------
  // Shadows and the two lighting terms
  // ---------------------------------------------------------------------

  /** `traceShadowRay`: the ray is blocked when the scene is hit by
      something other than the primitive the ray last passed through. The
      search may change the mesh memory. */
  function ShadowOccluded(env: Env, sc: Scene, shadow: Ray, mem: Memory): (r: (bool, Memory))
    requires WellShaped(sc.root)
    ensures var o := Intersect(env.sqrt, env.boxTest, sc.root, shadow, NoHit, mem);
            r.1 == o.mem && (r.0 <==> o.hit && o.rec.prim != shadow.lastHit)
  {
    var o := Intersect(env.sqrt, env.boxTest, sc.root, shadow, NoHit, mem);
    (o.hit && o.rec.prim != shadow.lastHit, o.mem)
  }

  /** A shadow ray without a last hit is blocked by any hit at all; one
      with a last hit is never blocked by that primitive, and a miss blocks
      nothing. */
  lemma ShadowBlockers(env: Env, sc: Scene, shadow: Ray, mem: Memory)
    requires WellShaped(sc.root)
    ensures var o := Intersect(env.sqrt, env.boxTest, sc.root, shadow, NoHit, mem);
            && (shadow.lastHit.None? ==> (ShadowOccluded(env, sc, shadow, mem).0 <==> o.hit))
            && (ShadowOccluded(env, sc, shadow, mem).0 ==> o.hit && o.rec.prim.Some? && o.rec.prim != shadow.lastHit)
            && (!o.hit ==> ShadowOccluded(env, sc, shadow, mem) == (false, mem))
  {
  }

  /** `diffComp`: the diffuse coefficient times the light colour, scaled
      by the diffuse factor. */
  function Diffuse(kD: Colors.Rgb, color: Colors.Rgb, n: Vec3, l: Vec3): (d: Colors.Rgb)
    ensures (Dot(n, l) <= 0.0 || kD == Colors.Black) ==> d == Colors.Black
    ensures NonNegative(kD) && NonNegative(color) ==> NonNegative(d)
  {
    assert NonNegative(kD) && NonNegative(color) ==> NonNegative(Colors.Scale(Colors.Mul(kD, color), DiffuseFactor(n, l))) by {
      if NonNegative(kD) && NonNegative(color) {
        NonNegativeOps(kD, color, DiffuseFactor(n, l));
        NonNegativeOps(Colors.Mul(kD, color), color, DiffuseFactor(n, l));
      }
    }
    Colors.Scale(Colors.Mul(kD, color), DiffuseFactor(n, l))
  }

  /** The highlight factor of `specComp`: the cosine between the reflected
      light vector and the normalised direction back to the viewer, cut off
      at zero. */
  function SpecularFactor(sqrt: real -> real, n: Vec3, l: Vec3, viewDir: Vec3): (f: real)
    ensures f >= 0.0
  {
    Max(Dot(SpecularReflect(l, n), Normalize(sqrt, Neg(viewDir))), 0.0)
  }

  /** The highlight is strongest, a factor of 1, when the viewer looks
      along the mirror image of a unit incidence about a unit normal. */
  lemma SpecularPeak(sqrt: real -> real, n: Vec3, l: Vec3)
    requires IsSqrt(sqrt) && Dot(n, n) == 1.0 && Dot(l, l) == 1.0
    ensures SpecularFactor(sqrt, n, l, Reflect(l, n)) == 1.0
  {
    var m := Reflect(l, n);
    DotNeg(m);
    UnitNormalized(sqrt, Neg(m));
    assert Dot(Neg(m), Neg(m)) == 1.0;
  }

  /** `specComp`: the specular coefficient times the light colour, scaled
      by the highlight factor raised to the material's exponent. */
  function Specular(env: Env, refl: Materials.Reflectance, color: Colors.Rgb, n: Vec3, l: Vec3, viewDir: Vec3): (s: Colors.Rgb)
    ensures refl.kS == Colors.Black ==> s == Colors.Black
    ensures (NonNegative(refl.kS) && NonNegative(color) && PowNonNegative(env)) ==> NonNegative(s)
  {
    var g := env.pow(SpecularFactor(env.sqrt, n, l, viewDir), refl.pExp);
    assert (NonNegative(refl.kS) && NonNegative(color) && PowNonNegative(env)) ==> g >= 0.0;
    assert (NonNegative(refl.kS) && NonNegative(color) && g >= 0.0) ==> NonNegative(Colors.Scale(Colors.Mul(refl.kS, color), g)) by {
      if NonNegative(refl.kS) && NonNegative(color) && g >= 0.0 {
        NonNegativeOps(refl.kS, color, g);
        NonNegativeOps(Colors.Mul(refl.kS, color), color, g);
      }
    }
    assert refl.kS == Colors.Black ==> Colors.Scale(Colors.Mul(refl.kS, color), g) == Colors.Black by {
      if refl.kS == Colors.Black {
        BlackAbsorbs(color, g);
      }
    }
    Colors.Scale(Colors.Mul(refl.kS, color), g)
  }

  /** Black tinted by any colour and scaled by any factor stays black. */
  lemma BlackAbsorbs(color: Colors.Rgb, k: real)
    ensures Colors.Scale(Colors.Mul(Colors.Black, color), k) == Colors.Black
  {
    assert Colors.Mul(Colors.Black, color) == Colors.Black;
  }

  /** One pass of the lights loop: cast the shadow ray; if it is not
      blocked add the diffuse term when the hit's diffuse coefficient is
      not black and the specular term when its specular coefficient is not
      black. Both terms read the reflectance afresh, with the mesh memory
      the shadow ray left. None where the light has no target for the
      sample or the reflectance is undefined. */
  function LightStep(env: Env, sc: Scene, obj: Prim, refl: Materials.Reflectance, rec: Rec, view: Ray,
                     l: Light, acc: Colors.Rgb, mem: Memory): (r: (Option<Colors.Rgb>, Memory))
    requires ValidEnv(env) && WellShaped(sc.root) && WellShaped(obj)
    ensures ShadowRay(env.sqrt, l, rec.point, sc.bias, view).None? ==> r == (None, mem)
    ensures ShadowRay(env.sqrt, l, rec.point, sc.bias, view).Some? ==>
              var shadow := ShadowRay(env.sqrt, l, rec.point, sc.bias, view).value;
              var (blocked, mem1) := ShadowOccluded(env, sc, shadow, mem);
              && r.1 == mem1
              && (blocked ==> r.0 == Some(acc))
              && (!Colors.Ne(refl.kD, Colors.Black) && !Colors.Ne(refl.kS, Colors.Black) ==> r.0 == Some(acc))
  {
    match ShadowRay(env.sqrt, l, rec.point, sc.bias, view)
    case None => (None, mem)
    case Some(shadow) =>
      var (blocked, mem1) := ShadowOccluded(env, sc, shadow, mem);
      var wantDiffuse := Colors.Ne(refl.kD, Colors.Black);
      var wantSpecular := Colors.Ne(refl.kS, Colors.Black);
      if blocked || (!wantDiffuse && !wantSpecular) then (Some(acc), mem1)
      else
        var incidence := Normalize(env.sqrt, shadow.direction);
        match Primitives.GetReflectance(env.trig, obj, mem1, rec.point)
        case None => (None, mem1)
        case Some(now) =>
          var withDiffuse := if wantDiffuse then Colors.Add(acc, Diffuse(now.kD, l.color, rec.normal, incidence)) else acc;
          var withSpecular := if wantSpecular then Colors.Add(withDiffuse, Specular(env, now, l.color, rec.normal, incidence, view.direction))
                              else withDiffuse;
          (Some(withSpecular), mem1)
  }

  /** The lights loop, threading the colour and the mesh memory. */
  function Lighting(env: Env, sc: Scene, obj: Prim, refl: Materials.Reflectance, rec: Rec, view: Ray,
                    lights: seq<Light>, acc: Colors.Rgb, mem: Memory): (r: (Option<Colors.Rgb>, Memory))
    requires ValidEnv(env) && WellShaped(sc.root) && WellShaped(obj)
    ensures lights == [] ==> r == (Some(acc), mem)
    decreases |lights|
  {
    if lights == [] then (Some(acc), mem)
    else
      var (c, mem1) := LightStep(env, sc, obj, refl, rec, view, lights[0], acc, mem);
      if c.None? then (None, mem1)
      else Lighting(env, sc, obj, refl, rec, view, lights[1..], c.value, mem1)
  }

  // ---------------------------------------------------------------------
  // Secondary rays
  // ---------------------------------------------------------------------

  /** The mirror bounce ray: from the hit point along the reflected
      direction over [bias, DBL_MAX], with the view ray's sample and last
      hit. */
  function BounceRay(sc: Scene, rec: Rec, ray: Ray): (b: Ray)
    ensures b.origin == rec.point && b.direction == Reflect(ray.direction, rec.normal)
    ensures b.tMin == sc.bias && b.tMax == DoubleMax && b.sample == ray.sample && b.lastHit == ray.lastHit
  {
    FromDirection(rec.point, sc.bias, DoubleMax, Reflect(ray.direction, rec.normal), ray.sample, ray.lastHit)
  }

  /** The refracted ray: from the hit point over [bias, DBL_MAX], with the
      view ray's sample, remembering the primitive just entered or left as
      its last hit. */
  function RefractedRay(sc: Scene, rec: Rec, ray: Ray, direction: Vec3): (b: Ray)
    ensures b.origin == rec.point && b.direction == direction
    ensures b.tMin == sc.bias && b.tMax == DoubleMax && b.sample == ray.sample && b.lastHit == rec.prim
  {
    FromDirection(rec.point, sc.bias, DoubleMax, direction, ray.sample, rec.prim)
  }

  /** The refractive indices on the two sides of the surface: from air
      (1) into the hit primitive when the ray has no last hit; from the hit
      primitive out to air when the ray last passed into that very
      primitive; otherwise from the last hit primitive into the hit one.
      None when the last hit's index is needed but undefined. */
  function IndexPair(lastHit: Option<PrimId>, current: PrimId, index: real, lastIndex: Option<real>): (r: Option<(real, real)>)
    ensures lastHit.None? ==> r == Some((1.0, index))
    ensures lastHit == Some(current) ==> r == Some((index, 1.0))
    ensures lastHit.Some? && lastHit != Some(current) ==>
              (r.Some? <==> lastIndex.Some?) && (r.Some? ==> r.value == (lastIndex.value, index))
  {
    match lastHit
    case None => Some((1.0, index))
    case Some(prev) =>
      if prev == current then Some((index, 1.0))
      else if lastIndex.None? then None
      else Some((lastIndex.value, index))
  }

  /** Entering a primitive from air and leaving it again use reciprocal
      ratios of indices, so the two bends undo each other's ratio. */
  lemma IndexPairReciprocal(current: PrimId, index: real, lastIndex: Option<real>)
    requires index != 0.0
    ensures var enter := IndexPair(None, current, index, lastIndex).value;
            var leave := IndexPair(Some(current), current, index, lastIndex).value;
            (enter.0 / enter.1) * (leave.0 / leave.1) == 1.0 && enter == (leave.1, leave.0)
  {
    assert (1.0 / index) * (index / 1.0) == 1.0;
  }

  /** The index pair of a hit, with both reflectances read afresh (the
      source looks them up again after the mirror bounce). */
  function Indices(env: Env, sc: Scene, obj: Prim, rec: Rec, ray: Ray, mem: Memory): (r: Option<(real, real)>)
    requires ValidEnv(env) && WellShaped(sc.root) && WellShaped(obj) && rec.prim.Some?
  {
    match Primitives.GetReflectance(env.trig, obj, mem, rec.point)
    case None => None
    case Some(now) =>
      var lastIndex :=
        if ray.lastHit.None? || ray.lastHit == rec.prim then None
        else match ReflectanceAt(env, sc, ray.lastHit, mem, rec.point)
          case None => None
          case Some(prev) => Some(prev.index);
      IndexPair(ray.lastHit, rec.prim.value, now.index, lastIndex)
  }

  // ---------------------------------------------------------------------
  // trace and shadeIntersection
  // ---------------------------------------------------------------------

  /** `trace`: black on a miss, otherwise the shaded hit. The depth is
      unsigned, so the source's `depth < 0` base case never fires; the
      recursion ends because every bounce passes `depth - 1` and only
      while the depth is positive. */
  function Trace(env: Env, sc: Scene, ray: Ray, depth: nat, mem: Memory): (r: (Option<Colors.Rgb>, Memory))
    requires ValidEnv(env) && WellShaped(sc.root)
    ensures var o := Intersect(env.sqrt, env.boxTest, sc.root, ray, NoHit, mem);
            !o.hit ==> r == (Some(Colors.Black), mem)
    decreases depth, 2
  {
    var o := Intersect(env.sqrt, env.boxTest, sc.root, ray, NoHit, mem);
    if !o.hit then (Some(Colors.Black), o.mem)
    else Shade(env, sc, o.rec, ray, depth, o.mem)
  }

  /** `traceViewingRay`: trace with the full recursion depth. */
  function TraceViewingRay(env: Env, sc: Scene, ray: Ray, mem: Memory): (r: (Option<Colors.Rgb>, Memory))
    requires ValidEnv(env) && WellShaped(sc.root)
  {
    Trace(env, sc, ray, sc.depth, mem)
  }

  /** `shadeIntersection`: start from the ambient coefficient, add the
      lights, then the mirror term and the refracted term. None where a
      reflectance, a light target or a ratio of indices is undefined. */
  function Shade(env: Env, sc: Scene, rec: Rec, ray: Ray, depth: nat, mem: Memory): (r: (Option<Colors.Rgb>, Memory))
    requires ValidEnv(env) && WellShaped(sc.root)
    ensures ObjectAt(sc, rec.prim).None? ==> r == (None, mem)
    ensures (ObjectAt(sc, rec.prim).Some? &&
             Primitives.GetReflectance(env.trig, ObjectAt(sc, rec.prim).value, mem, rec.point).None?) ==> r == (None, mem)
    ensures ObjectAt(sc, rec.prim).Some? &&
            Primitives.GetReflectance(env.trig, ObjectAt(sc, rec.prim).value, mem, rec.point).Some? ==>
              var obj := ObjectAt(sc, rec.prim).value;
              var refl := Primitives.GetReflectance(env.trig, obj, mem, rec.point).value;
              var lit := Lighting(env, sc, obj, refl, rec, ray, sc.lights, refl.kA, mem);
              lit.0.None? ==> r == (None, lit.1)
    decreases depth, 1
  {
    match ObjectAt(sc, rec.prim)
    case None => (None, mem)
    case Some(obj) =>
      match Primitives.GetReflectance(env.trig, obj, mem, rec.point)
      case None => (None, mem)
      case Some(refl) =>
        var (direct, mem1) := Lighting(env, sc, obj, refl, rec, ray, sc.lights, refl.kA, mem);
        if direct.None? then (None, mem1)
        else
          var (mirrored, mem2) := Mirror(env, sc, rec, ray, refl, depth, direct.value, mem1);
          if mirrored.None? then (None, mem2)
          else Transmit(env, sc, obj, rec, ray, refl, depth, mirrored.value, mem2)
  }

  /** The mirror term: while depth remains and the mirror coefficient is
      not black, trace the bounce ray one level down and add its colour
      tinted by the coefficient. */
  function Mirror(env: Env, sc: Scene, rec: Rec, ray: Ray, refl: Materials.Reflectance, depth: nat,
                  acc: Colors.Rgb, mem: Memory): (r: (Option<Colors.Rgb>, Memory))
    requires ValidEnv(env) && WellShaped(sc.root)
    ensures depth == 0 || !Colors.Ne(refl.kR, Colors.Black) ==> r == (Some(acc), mem)
    decreases depth, 0
  {
    if Colors.Ne(refl.kR, Colors.Black) && depth > 0 then
      var (c, m) := Trace(env, sc, BounceRay(sc, rec, ray), depth - 1, mem);
      (if c.None? then None else Some(Colors.Add(acc, Colors.Mul(refl.kR, c.value))), m)
    else (Some(acc), mem)
  }

  /** The refracted term: while depth remains and the transmission
      coefficient is not black, choose the pair of indices, and unless the
      ray is totally reflected trace the refracted ray one level down and
      add its colour tinted by the coefficient. A zero index on the far
      side (a division by zero in the source) is undefined. */
  function Transmit(env: Env, sc: Scene, obj: Prim, rec: Rec, ray: Ray, refl: Materials.Reflectance, depth: nat,
                    acc: Colors.Rgb, mem: Memory): (r: (Option<Colors.Rgb>, Memory))
    requires ValidEnv(env) && WellShaped(sc.root) && WellShaped(obj) && rec.prim.Some?
    ensures depth == 0 || !Colors.Ne(refl.kT, Colors.Black) ==> r == (Some(acc), mem)
    ensures var pair := Indices(env, sc, obj, rec, ray, mem);
            pair.Some? && pair.value.1 != 0.0 && Refract(env.sqrt, ray.direction, rec.normal, pair.value.0, pair.value.1).None? ==>
              r == (Some(acc), mem)
    decreases depth, 0
  {
    if !Colors.Ne(refl.kT, Colors.Black) || depth == 0 then (Some(acc), mem)
    else match Indices(env, sc, obj, rec, ray, mem)
      case None => (None, mem)
      case Some((oldIndex, newIndex)) =>
        if newIndex == 0.0 then (None, mem)
        else match Refract(env.sqrt, ray.direction, rec.normal, oldIndex, newIndex)
          case None => (Some(acc), mem)
          case Some(direction) =>
            var (c, m) := Trace(env, sc, RefractedRay(sc, rec, ray, direction), depth - 1, mem);
            (if c.None? then None else Some(Colors.Add(acc, Colors.Mul(refl.kT, c.value))), m)
  }

  // ---------------------------------------------------------------------
  // What shading promises
  // ---------------------------------------------------------------------

  /** With no depth left no secondary ray is traced: the colour is the
      ambient term plus the lights, whatever the mirror and transmission
      coefficients. */
  lemma ShadeDepthZero(env: Env, sc: Scene, rec: Rec, ray: Ray, mem: Memory)
    requires ValidEnv(env) && WellShaped(sc.root)
    requires ObjectAt(sc, rec.prim).Some?
    requires Primitives.GetReflectance(env.trig, ObjectAt(sc, rec.prim).value, mem, rec.point).Some?
    ensures var obj := ObjectAt(sc, rec.prim).value;
            var refl := Primitives.GetReflectance(env.trig, obj, mem, rec.point).value;
            Shade(env, sc, rec, ray, 0, mem) == Lighting(env, sc, obj, refl, rec, ray, sc.lights, refl.kA, mem)
  {
    var obj := ObjectAt(sc, rec.prim).value;
    var refl := Primitives.GetReflectance(env.trig, obj, mem, rec.point).value;
    var (direct, mem1) := Lighting(env, sc, obj, refl, rec, ray, sc.lights, refl.kA, mem);
    if direct.Some? {
      assert Mirror(env, sc, rec, ray, refl, 0, direct.value, mem1) == (Some(direct.value), mem1);
    }
  }

  /** For a plain primitive (not a mesh) the reflectance the lights loop
      reads afresh is the one read at the start, so an unblocked light adds
      exactly the diffuse term when the diffuse coefficient is not black
      and the specular term when the specular coefficient is not black. */
  lemma LightStepPlain(env: Env, sc: Scene, obj: Prim, refl: Materials.Reflectance, rec: Rec, view: Ray,
                       l: Light, acc: Colors.Rgb, mem: Memory)
    requires ValidEnv(env) && WellShaped(sc.root) && WellShaped(obj) && obj.Geo?
    requires Primitives.GetReflectance(env.trig, obj, mem, rec.point) == Some(refl)
    requires ShadowRay(env.sqrt, l, rec.point, sc.bias, view).Some?
    requires !ShadowOccluded(env, sc, ShadowRay(env.sqrt, l, rec.point, sc.bias, view).value, mem).0
    ensures var shadow := ShadowRay(env.sqrt, l, rec.point, sc.bias, view).value;
            var incidence := Normalize(env.sqrt, shadow.direction);
            var d := if Colors.Ne(refl.kD, Colors.Black) then Diffuse(refl.kD, l.color, rec.normal, incidence) else Colors.Black;
            var s := if Colors.Ne(refl.kS, Colors.Black) then Specular(env, refl, l.color, rec.normal, incidence, view.direction)
                     else Colors.Black;
            LightStep(env, sc, obj, refl, rec, view, l, acc, mem).0 == Some(Colors.Add(Colors.Add(acc, d), s))
  {
  }

  predicate NonNegative(c: Colors.Rgb) {
    c.r >= 0.0 && c.g >= 0.0 && c.b >= 0.0
  }

  predicate NonNegativeReflectance(refl: Materials.Reflectance) {
    NonNegative(refl.kA) && NonNegative(refl.kD) && NonNegative(refl.kS) && NonNegative(refl.kR) && NonNegative(refl.kT)
  }

  /** `pow` of a non-negative base is non-negative. */
  ghost predicate PowNonNegative(env: Env) {
    forall b: real, e: real :: b >= 0.0 ==> env.pow(b, e) >= 0.0
  }

  /** A physically sensible scene: `pow` of a non-negative base is
      non-negative, every light colour is non-negative and every object's
      reflectance, wherever it is defined, has non-negative coefficients. */
  ghost predicate Physical(env: Env, sc: Scene) {
    && env.trig.pi > 0.0
    && PowNonNegative(env)
    && (forall l :: l in sc.lights ==> NonNegative(l.color))
    && (forall o, mem, point ::
          HasObject(sc.root, o) && WellShaped(o) && Primitives.GetReflectance(env.trig, o, mem, point).Some? ==>
            NonNegativeReflectance(Primitives.GetReflectance(env.trig, o, mem, point).value))
  }

  lemma NonNegativeOps(a: Colors.Rgb, b: Colors.Rgb, k: real)
    requires NonNegative(a) && NonNegative(b) && k >= 0.0
    ensures NonNegative(Colors.Mul(a, b)) && NonNegative(Colors.Add(a, b)) && NonNegative(Colors.Scale(a, k))
  {
    MulMono(0.0, a.r, b.r);
    MulMono(0.0, a.g, b.g);
    MulMono(0.0, a.b, b.b);
    MulMono(0.0, k, a.r);
    MulMono(0.0, k, a.g);
    MulMono(0.0, k, a.b);
  }

  /** One light adds a non-negative amount to a non-negative colour. */
  lemma LightStepNonNegative(env: Env, sc: Scene, obj: Prim, refl: Materials.Reflectance, rec: Rec, view: Ray,
                             l: Light, acc: Colors.Rgb, mem: Memory)
    requires ValidEnv(env) && WellShaped(sc.root) && WellShaped(obj) && Physical(env, sc)
    requires HasObject(sc.root, obj) && NonNegative(l.color) && NonNegative(acc)
    ensures var c := LightStep(env, sc, obj, refl, rec, view, l, acc, mem).0;
            c.Some? ==> NonNegative(c.value)
  {
    match ShadowRay(env.sqrt, l, rec.point, sc.bias, view)
    case None =>
    case Some(shadow) =>
      var (blocked, mem1) := ShadowOccluded(env, sc, shadow, mem);
      var incidence := Normalize(env.sqrt, shadow.direction);
      match Primitives.GetReflectance(env.trig, obj, mem1, rec.point)
      case None =>
      case Some(now) =>
        assert NonNegativeReflectance(now);
        var f := DiffuseFactor(rec.normal, incidence);
        NonNegativeOps(now.kD, l.color, f);
        var dc := Colors.Mul(now.kD, l.color);
        NonNegativeOps(dc, l.color, f);
        var dt := Diffuse(now.kD, l.color, rec.normal, incidence);
        NonNegativeOps(acc, dt, 0.0);
        var withDiffuse := if Colors.Ne(refl.kD, Colors.Black) then Colors.Add(acc, dt) else acc;
        var g := env.pow(SpecularFactor(env.sqrt, rec.normal, incidence, view.direction), now.pExp);
        NonNegativeOps(now.kS, l.color, g);
        var sc0 := Colors.Mul(now.kS, l.color);
        NonNegativeOps(sc0, l.color, g);
        var st := Specular(env, now, l.color, rec.normal, incidence, view.direction);
        NonNegativeOps(withDiffuse, st, 0.0);
  }

  /** The lights loop keeps a non-negative colour non-negative. */
  lemma {:induction false} LightingNonNegative(env: Env, sc: Scene, obj: Prim, refl: Materials.Reflectance, rec: Rec, view: Ray,
                                               lights: seq<Light>, acc: Colors.Rgb, mem: Memory)
    requires ValidEnv(env) && WellShaped(sc.root) && WellShaped(obj) && Physical(env, sc)
    requires HasObject(sc.root, obj) && NonNegative(acc)
    requires forall l :: l in lights ==> NonNegative(l.color)
    ensures var c := Lighting(env, sc, obj, refl, rec, view, lights, acc, mem).0;
            c.Some? ==> NonNegative(c.value)
    decreases |lights|
  {
    if lights != [] {
      assert lights[0] in lights;
      LightStepNonNegative(env, sc, obj, refl, rec, view, lights[0], acc, mem);
      var (c, mem1) := LightStep(env, sc, obj, refl, rec, view, lights[0], acc, mem);
      if c.Some? {
        assert forall l :: l in lights[1..] ==> l in lights;
        LightingNonNegative(env, sc, obj, refl, rec, view, lights[1..], c.value, mem1);
      }
    }
  }

  /** In a physically sensible scene every traced colour is
      componentwise non-negative, at every depth. */
  lemma {:induction false} TraceNonNegative(env: Env, sc: Scene, ray: Ray, depth: nat, mem: Memory)
    requires ValidEnv(env) && WellShaped(sc.root) && Physical(env, sc)
    ensures var c := Trace(env, sc, ray, depth, mem).0;
            c.Some? ==> NonNegative(c.value)
    decreases depth, 2
  {
    var o := Intersect(env.sqrt, env.boxTest, sc.root, ray, NoHit, mem);
    if o.hit {
      ShadeNonNegative(env, sc, o.rec, ray, depth, o.mem);
    }
  }

  lemma {:induction false} ShadeNonNegative(env: Env, sc: Scene, rec: Rec, ray: Ray, depth: nat, mem: Memory)
    requires ValidEnv(env) && WellShaped(sc.root) && Physical(env, sc)
    ensures var c := Shade(env, sc, rec, ray, depth, mem).0;
            c.Some? ==> NonNegative(c.value)
    decreases depth, 1
  {
    match ObjectAt(sc, rec.prim)
    case None =>
    case Some(obj) =>
      match Primitives.GetReflectance(env.trig, obj, mem, rec.point)
      case None =>
      case Some(refl) =>
        assert NonNegativeReflectance(refl);
        LightingNonNegative(env, sc, obj, refl, rec, ray, sc.lights, refl.kA, mem);
        var (direct, mem1) := Lighting(env, sc, obj, refl, rec, ray, sc.lights, refl.kA, mem);
        if direct.Some? {
          MirrorNonNegative(env, sc, rec, ray, refl, depth, direct.value, mem1);
          var (mirrored, mem2) := Mirror(env, sc, rec, ray, refl, depth, direct.value, mem1);
          if mirrored.Some? {
            TransmitNonNegative(env, sc, obj, rec, ray, refl, depth, mirrored.value, mem2);
          }
        }
  }

  lemma {:induction false} MirrorNonNegative(env: Env, sc: Scene, rec: Rec, ray: Ray, refl: Materials.Reflectance, depth: nat,
                                             acc: Colors.Rgb, mem: Memory)
    requires ValidEnv(env) && WellShaped(sc.root) && Physical(env, sc)
    requires NonNegativeReflectance(refl) && NonNegative(acc)
    ensures var c := Mirror(env, sc, rec, ray, refl, depth, acc, mem).0;
            c.Some? ==> NonNegative(c.value)
    decreases depth, 0
  {
    if Colors.Ne(refl.kR, Colors.Black) && depth > 0 {
      var bounce := BounceRay(sc, rec, ray);
      TraceNonNegative(env, sc, bounce, depth - 1, mem);
      var (c, m) := Trace(env, sc, bounce, depth - 1, mem);
      if c.Some? {
        NonNegativeOps(refl.kR, c.value, 0.0);
        NonNegativeOps(acc, Colors.Mul(refl.kR, c.value), 0.0);
      }
    }
  }

  lemma {:induction false} TransmitNonNegative(env: Env, sc: Scene, obj: Prim, rec: Rec, ray: Ray, refl: Materials.Reflectance,
                                               depth: nat, acc: Colors.Rgb, mem: Memory)
    requires ValidEnv(env) && WellShaped(sc.root) && WellShaped(obj) && rec.prim.Some? && Physical(env, sc)
    requires NonNegativeReflectance(refl) && NonNegative(acc)
    ensures var c := Transmit(env, sc, obj, rec, ray, refl, depth, acc, mem).0;
            c.Some? ==> NonNegative(c.value)
    decreases depth, 0
  {
    if Colors.Ne(refl.kT, Colors.Black) && depth > 0 {
      match Indices(env, sc, obj, rec, ray, mem)
      case None =>
      case Some((oldIndex, newIndex)) =>
        if newIndex != 0.0 {
          match Refract(env.sqrt, ray.direction, rec.normal, oldIndex, newIndex)
          case None =>
          case Some(direction) =>
            var refracted := RefractedRay(sc, rec, ray, direction);
            TraceNonNegative(env, sc, refracted, depth - 1, mem);
            var (c, m) := Trace(env, sc, refracted, depth - 1, mem);
            if c.Some? {
              NonNegativeOps(refl.kT, c.value, 0.0);
              NonNegativeOps(acc, Colors.Mul(refl.kT, c.value), 0.0);
            }
        }
    }
  }
}

=== FILE: vectors.dfy ===
/** The slice of algebra3.h the ray tracer relies on, over exact reals:
    3-vectors with the dot product (`*` in the source), the cross product
    (`^`), affine 4x4 matrices applied to points and to directions, and the
    square-root based `length`/`normalize`, which stay abstract. */
module Vectors {

  datatype Vec3 = Vec3(x: real, y: real, z: real)

  datatype Vec2 = Vec2(u: real, v: real)

  const Zero: Vec3 := Vec3(0.0, 0.0, 0.0)

  /** `v[axis]` for axis 0, 1 or 2. */
  function Get(v: Vec3, axis: nat): real
    requires axis < 3
  {
    if axis == 0 then v.x else if axis == 1 then v.y else v.z
  }

  function Add(a: Vec3, b: Vec3): Vec3 {
    Vec3(a.x + b.x, a.y + b.y, a.z + b.z)
  }

  function Sub(a: Vec3, b: Vec3): Vec3 {
    Vec3(a.x - b.x, a.y - b.y, a.z - b.z)
  }

  function Neg(a: Vec3): Vec3 {
    Vec3(-a.x, -a.y, -a.z)
  }

  function Scale(k: real, a: Vec3): Vec3 {
    Vec3(k * a.x, k * a.y, k * a.z)
  }

  function Dot(a: Vec3, b: Vec3): real {
    a.x * b.x + a.y * b.y + a.z * b.z
  }

  function Cross(a: Vec3, b: Vec3): Vec3 {
    Vec3(a.y * b.z - a.z * b.y, a.z * b.x - a.x * b.z, a.x * b.y - a.y * b.x)
  }

  function Min(a: real, b: real): real {
    if a < b then a else b
  }

  function Max(a: real, b: real): real {
    if a > b then a else b
  }

  function Min3(a: real, b: real, c: real): real {
    Min(Min(a, b), c)
  }

  function Max3(a: real, b: real, c: real): real {
    Max(Max(a, b), c)
  }

  /** A product kept behind a function, so that facts about squares are
      used by the solver as stated rather than rewritten. */
  function Mul(a: real, b: real): real {
    a * b
  }

  lemma MulPositive(a: real, b: real)
    requires (a > 0.0 && b > 0.0) || (a < 0.0 && b < 0.0)
    ensures Mul(a, b) > 0.0
  {
  }

  lemma MulComm(a: real, b: real)
    ensures Mul(a, b) == Mul(b, a)
  {
  }

  /** Multiplying by a non-negative factor keeps an inequality. */
  lemma MulMono(a: real, b: real, c: real)
    requires a <= b && c >= 0.0
    ensures Mul(a, c) <= Mul(b, c)
  {
    assert (b - a) * c >= 0.0;
  }

  /** Multiplying by a positive factor keeps a strict inequality. */
  lemma MulStrict(a: real, b: real, c: real)
    requires a < b && c > 0.0
    ensures Mul(a, c) < Mul(b, c)
  {
    assert (b - a) * c > 0.0;
  }

  /** A quotient by a positive number of something in [0, m) is in [0, 1),
      and of something in [0, m] is in [0, 1]. */
  lemma DivUnit(x: real, m: real)
    requires m > 0.0 && 0.0 <= x <= m
    ensures 0.0 <= x / m <= 1.0
    ensures x < m ==> x / m < 1.0
  {
    var q := x / m;
    assert Mul(q, m) == x;
    if q >= 1.0 {
      MulMono(1.0, q, m);
      if q > 1.0 {
        MulStrict(1.0, q, m);
      }
    } else if q < 0.0 {
      MulStrict(q, 0.0, m);
    }
  }

  lemma SquarePositive(r: real)
    requires r != 0.0
    ensures Mul(r, r) > 0.0
  {
    MulPositive(r, r);
  }

  lemma SquareNonNegative(r: real)
    ensures Mul(r, r) >= 0.0
  {
    if r != 0.0 {
      SquarePositive(r);
    }
  }

  lemma SquareOfSum(x: real, y: real, k: real)
    requires k == 1.0 || k == -1.0
    ensures (x + k * y) * (x + k * y) == x * x + 2.0 * k * (x * y) + y * y
  {
  }

  /** |a + b|^2 and |a - b|^2 expanded. */
  lemma DotOfSum(a: Vec3, b: Vec3)
    ensures Dot(Add(a, b), Add(a, b)) == Dot(a, a) + 2.0 * Dot(a, b) + Dot(b, b)
    ensures Dot(Sub(a, b), Sub(a, b)) == Dot(a, a) - 2.0 * Dot(a, b) + Dot(b, b)
  {
    SquareOfSum(a.x, b.x, 1.0);
    SquareOfSum(a.y, b.y, 1.0);
    SquareOfSum(a.z, b.z, 1.0);
    SquareOfSum(a.x, b.x, -1.0);
    SquareOfSum(a.y, b.y, -1.0);
    SquareOfSum(a.z, b.z, -1.0);
  }

  /** The dot product of a vector with itself is non-negative, and zero
      exactly for the zero vector. */
  lemma DotSelfNonNegative(a: Vec3)
    ensures Dot(a, a) >= 0.0
    ensures Dot(a, a) == 0.0 <==> a == Zero
  {
    SquareNonNegative(a.x);
    SquareNonNegative(a.y);
    SquareNonNegative(a.z);
    assert Dot(a, a) == Mul(a.x, a.x) + Mul(a.y, a.y) + Mul(a.z, a.z);
    if a.x != 0.0 {
      SquarePositive(a.x);
    } else if a.y != 0.0 {
      SquarePositive(a.y);
    } else if a.z != 0.0 {
      SquarePositive(a.z);
    }
  }

  // ---------------------------------------------------------------------
  // Square root and normalisation (abstract)
  // ---------------------------------------------------------------------

  /** What the model assumes of `sqrt` from <cmath>: the non-negative
      square root of a non-negative argument. */
  ghost predicate IsSqrt(sqrt: real -> real) {
    forall x: real :: 0.0 <= x ==> 0.0 <= sqrt(x) && sqrt(x) * sqrt(x) == x
  }

  /** `vec3::length`: the square root of the dot product with itself. */
  function Length(sqrt: real -> real, v: Vec3): real {
    sqrt(Dot(v, v))
  }

  /** `vec3::normalize`: divides by the length. A zero vector (where the
      source divides by zero) is returned unchanged. */
  function Normalize(sqrt: real -> real, v: Vec3): Vec3 {
    var len := Length(sqrt, v);
    if len == 0.0 then v else Scale(1.0 / len, v)
  }

  /** Normalising a non-zero vector yields a unit vector pointing the
      same way (a positive multiple of the input). */
  lemma NormalizeIsUnit(sqrt: real -> real, v: Vec3)
    requires IsSqrt(sqrt)
    requires v != Zero
    ensures Dot(Normalize(sqrt, v), Normalize(sqrt, v)) == 1.0
    ensures exists k: real :: 0.0 < k && Normalize(sqrt, v) == Scale(k, v)
  {
    DotSelfNonNegative(v);
    var d := Dot(v, v);
    var len := sqrt(d);
    assert len * len == d;
    assert len != 0.0;
    var k := 1.0 / len;
    assert k * len == 1.0;
    var n := Scale(k, v);
    assert Normalize(sqrt, v) == n;
    calc {
      Dot(n, n);
      k * k * d;
      k * k * (len * len);
      (k * len) * (k * len);
      1.0;
    }
    assert len > 0.0;
    assert 0.0 < k;
  }

  /** Normalising keeps a vector perpendicular to whatever it was
      perpendicular to (it only rescales it). */
  lemma NormalizeKeepsPerpendicular(sqrt: real -> real, v: Vec3, x: Vec3)
    requires Dot(v, x) == 0.0
    ensures Dot(Normalize(sqrt, v), x) == 0.0
  {
    var len := Length(sqrt, v);
    if len != 0.0 {
      var k := 1.0 / len;
      assert Dot(Scale(k, v), x) == k * Dot(v, x);
    }
  }

  /** The scalar triple product u . (v x w): the determinant of the 3x3
      matrix with columns (or rows) u, v, w. */
  function Triple(u: Vec3, v: Vec3, w: Vec3): real {
    Dot(u, Cross(v, w))
  }

  /** The scalar identity behind Cramer's rule for the x component, with
      the four triple products passed in by name. */
  lemma CramerScalar(t0: real, t1: real, t2: real, t3: real,
                     a: real, b: real, c: real, d: real, e: real, f: real,
                     g: real, h: real, i: real, p: real, q: real, s: real)
    requires t0 == a * (e * i - f * h) + b * (f * g - d * i) + c * (d * h - e * g)
    requires t1 == p * (e * i - f * h) + q * (f * g - d * i) + s * (d * h - e * g)
    requires t2 == a * (q * i - s * h) + b * (s * g - p * i) + c * (p * h - q * g)
    requires t3 == a * (e * s - f * q) + b * (f * p - d * s) + c * (d * q - e * p)
    ensures t1 * a + t2 * d + t3 * g == t0 * p
  {
    assert t1 * a == p * e * i * a - p * f * h * a + q * f * g * a - q * d * i * a + s * d * h * a - s * e * g * a;
    assert t2 * d == a * q * i * d - a * s * h * d + b * s * g * d - b * p * i * d + c * p * h * d - c * q * g * d;
    assert t3 * g == a * e * s * g - a * f * q * g + b * f * p * g - b * d * s * g + c * d * q * g - c * e * p * g;
    assert t0 * p == a * e * i * p - a * f * h * p + b * f * g * p - b * d * i * p + c * d * h * p - c * e * g * p;
  }

  /** The coordinates of a vector, rotated (x, y, z) -> (y, z, x). */
  function Rotate(a: Vec3): Vec3 {
    Vec3(a.y, a.z, a.x)
  }

  lemma TripleRotate(u: Vec3, v: Vec3, w: Vec3)
    ensures Triple(Rotate(u), Rotate(v), Rotate(w)) == Triple(u, v, w)
  {
  }

  lemma CramerX(u: Vec3, v: Vec3, w: Vec3, r: Vec3)
    ensures Triple(r, v, w) * u.x + Triple(u, r, w) * v.x + Triple(u, v, r) * w.x == Triple(u, v, w) * r.x
  {
    TripleExpand(u, v, w);
    TripleExpand(r, v, w);
    TripleExpand(u, r, w);
    TripleExpand(u, v, r);
    CramerScalar(Triple(u, v, w), Triple(r, v, w), Triple(u, r, w), Triple(u, v, r),
                 u.x, u.y, u.z, v.x, v.y, v.z, w.x, w.y, w.z, r.x, r.y, r.z);
  }

  /** The triple product written out as the cofactor expansion along u. */
  lemma TripleExpand(u: Vec3, v: Vec3, w: Vec3)
    ensures Triple(u, v, w) == u.x * (v.y * w.z - v.z * w.y) + u.y * (v.z * w.x - v.x * w.z) + u.z * (v.x * w.y - v.y * w.x)
  {
  }

  /** `a * u + b * v + c * w`. */
  function Combine3(a: real, u: Vec3, b: real, v: Vec3, c: real, w: Vec3): Vec3 {
    Add(Add(Scale(a, u), Scale(b, v)), Scale(c, w))
  }

  /** If beta (a - b) + gamma (a - c) + t d = a - o, the point o + t d is
      the blend (1 - beta - gamma) a + beta b + gamma c. */
  lemma SystemBlend(a: Vec3, b: Vec3, c: Vec3, o: Vec3, d: Vec3, beta: real, gamma: real, t: real)
    requires Combine3(beta, Sub(a, b), gamma, Sub(a, c), t, d) == Sub(a, o)
    ensures Add(o, Scale(t, d)) == Combine3(1.0 - beta - gamma, a, beta, b, gamma, c)
  {
    Combine3Components(beta, Sub(a, b), gamma, Sub(a, c), t, d);
    BlendOnAxis(a.x, b.x, c.x, Sub(a, b).x, Sub(a, c).x, o.x, d.x, beta, gamma, t);
    BlendOnAxis(a.y, b.y, c.y, Sub(a, b).y, Sub(a, c).y, o.y, d.y, beta, gamma, t);
    BlendOnAxis(a.z, b.z, c.z, Sub(a, b).z, Sub(a, c).z, o.z, d.z, beta, gamma, t);
    Combine3Components(1.0 - beta - gamma, a, beta, b, gamma, c);
    SameComponents(Add(o, Scale(t, d)), Combine3(1.0 - beta - gamma, a, beta, b, gamma, c));
  }

  /** Vectors agreeing on every axis are equal. */
  lemma SameComponents(p: Vec3, q: Vec3)
    requires p.x == q.x && p.y == q.y && p.z == q.z
    ensures p == q
  {
  }

  /** One coordinate of that system, rearranged (ab and ac stand for the
      differences a - b and a - c). */
  lemma BlendOnAxis(a: real, b: real, c: real, ab: real, ac: real, o: real, d: real, beta: real, gamma: real, t: real)
    requires ab == a - b && ac == a - c
    requires beta * ab + gamma * ac + t * d == a - o
    ensures o + t * d == (1.0 - beta - gamma) * a + beta * b + gamma * c
  {
  }

  lemma Combine3Components(a: real, u: Vec3, b: real, v: Vec3, c: real, w: Vec3)
    ensures var p := Combine3(a, u, b, v, c, w);
            && p.x == a * u.x + b * v.x + c * w.x
            && p.y == a * u.y + b * v.y + c * w.y
            && p.z == a * u.z + b * v.z + c * w.z
  {
  }

  lemma CramerY(u: Vec3, v: Vec3, w: Vec3, r: Vec3)
    ensures Triple(r, v, w) * u.y + Triple(u, r, w) * v.y + Triple(u, v, r) * w.y == Triple(u, v, w) * r.y
  {
    CramerX(Rotate(u), Rotate(v), Rotate(w), Rotate(r));
    TripleRotate(u, v, w);
    TripleRotate(r, v, w);
    TripleRotate(u, r, w);
    TripleRotate(u, v, r);
  }

  lemma CramerZ(u: Vec3, v: Vec3, w: Vec3, r: Vec3)
    ensures Triple(r, v, w) * u.z + Triple(u, r, w) * v.z + Triple(u, v, r) * w.z == Triple(u, v, w) * r.z
  {
    CramerY(Rotate(u), Rotate(v), Rotate(w), Rotate(r));
    TripleRotate(u, v, w);
    TripleRotate(r, v, w);
    TripleRotate(u, r, w);
    TripleRotate(u, v, r);
  }

  lemma DivideThrough(t1: real, t2: real, t3: real, dd: real, x: real, y: real, z: real, r: real)
    requires dd != 0.0
    requires t1 * x + t2 * y + t3 * z == dd * r
    ensures (t1 / dd) * x + (t2 / dd) * y + (t3 / dd) * z == r
  {
    assert (t1 / dd) * x + (t2 / dd) * y + (t3 / dd) * z == (t1 * x + t2 * y + t3 * z) / dd;
  }

  /** Cramer's rule: with D = det(u, v, w) non-zero, the coefficients
      det(r, v, w) / D, det(u, r, w) / D and det(u, v, r) / D combine u, v
      and w into r. */
  lemma Cramer(u: Vec3, v: Vec3, w: Vec3, r: Vec3)
    requires Triple(u, v, w) != 0.0
    ensures Combine3(Triple(r, v, w) / Triple(u, v, w), u,
                     Triple(u, r, w) / Triple(u, v, w), v,
                     Triple(u, v, r) / Triple(u, v, w), w) == r
  {
    var dd, t1, t2, t3 := Triple(u, v, w), Triple(r, v, w), Triple(u, r, w), Triple(u, v, r);
    CramerX(u, v, w, r);
    CramerY(u, v, w, r);
    CramerZ(u, v, w, r);
    DivideThrough(t1, t2, t3, dd, u.x, v.x, w.x, r.x);
    DivideThrough(t1, t2, t3, dd, u.y, v.y, w.y, r.y);
    DivideThrough(t1, t2, t3, dd, u.z, v.z, w.z, r.z);
  }

  lemma TripleCyclic(u: Vec3, v: Vec3, w: Vec3)
    ensures Triple(u, v, w) == Triple(v, w, u)
  {
  }

  lemma TripleLinear(a: real, u: Vec3, b: real, v: Vec3, c: real, w: Vec3, x: Vec3, y: Vec3)
    ensures Triple(Combine3(a, u, b, v, c, w), x, y) == a * Triple(u, x, y) + b * Triple(v, x, y) + c * Triple(w, x, y)
  {
  }

  lemma TripleRepeated(v: Vec3, w: Vec3)
    ensures Triple(v, v, w) == 0.0 && Triple(w, v, w) == 0.0
  {
  }

  /** The triple product is linear in each argument and vanishes when two
      arguments coincide, so a combination of u, v, w keeps only its own
      coefficient in each slot: the coefficients of Cramer's rule are the
      only ones. */
  lemma TripleOfCombination(a: real, u: Vec3, b: real, v: Vec3, c: real, w: Vec3)
    ensures Triple(Combine3(a, u, b, v, c, w), v, w) == a * Triple(u, v, w)
    ensures Triple(u, Combine3(a, u, b, v, c, w), w) == b * Triple(u, v, w)
    ensures Triple(u, v, Combine3(a, u, b, v, c, w)) == c * Triple(u, v, w)
  {
    var x := Combine3(a, u, b, v, c, w);
    TripleLinear(a, u, b, v, c, w, v, w);
    TripleRepeated(v, w);
    TripleCyclic(u, x, w);
    TripleLinear(a, u, b, v, c, w, w, u);
    TripleRepeated(w, u);
    TripleCyclic(v, w, u);
    TripleCyclic(u, v, x);
    TripleCyclic(v, x, u);
    TripleLinear(a, u, b, v, c, w, u, v);
    TripleRepeated(u, v);
    TripleCyclic(w, u, v);
  }

  /** `a * p + b * q + c * r` on texture coordinates. */
  function Combine2(a: real, p: Vec2, b: real, q: Vec2, c: real, r: Vec2): Vec2 {
    Vec2(a * p.u + b * q.u + c * r.u, a * p.v + b * q.v + c * r.v)
  }

  /** `fabs`. */
  function Abs(x: real): real {
    if x < 0.0 then -x else x
  }

  /** A 3x3 matrix by rows. */
  datatype Mat3 = Mat3(r0: Vec3, r1: Vec3, r2: Vec3)

  /** `mat3 * vec3`. */
  function MulVec(m: Mat3, v: Vec3): Vec3 {
    Vec3(Dot(m.r0, v), Dot(m.r1, v), Dot(m.r2, v))
  }

  /** A matrix acts linearly on combinations. */
  lemma MulVecCombine3(m: Mat3, a: real, u: Vec3, b: real, v: Vec3, c: real, w: Vec3)
    ensures MulVec(m, Combine3(a, u, b, v, c, w)) == Combine3(a, MulVec(m, u), b, MulVec(m, v), c, MulVec(m, w))
  {
    DotCombine3(m.r0, a, u, b, v, c, w);
    DotCombine3(m.r1, a, u, b, v, c, w);
    DotCombine3(m.r2, a, u, b, v, c, w);
  }

  /** The dot product distributes over a combination. */
  lemma DotCombine3(r: Vec3, a: real, u: Vec3, b: real, v: Vec3, c: real, w: Vec3)
    ensures Dot(r, Combine3(a, u, b, v, c, w)) == a * Dot(r, u) + b * Dot(r, v) + c * Dot(r, w)
  {
    var m := Combine3(a, u, b, v, c, w);
    assert m == Vec3(a * u.x + b * v.x + c * w.x, a * u.y + b * v.y + c * w.y, a * u.z + b * v.z + c * w.z);
    Distribute3(r.x, a, u.x, b, v.x, c, w.x);
    Distribute3(r.y, a, u.y, b, v.y, c, w.y);
    Distribute3(r.z, a, u.z, b, v.z, c, w.z);
  }

  lemma Distribute3(k: real, a: real, x: real, b: real, y: real, c: real, z: real)
    ensures k * (a * x + b * y + c * z) == a * (k * x) + b * (k * y) + c * (k * z)
  {
  }

  // ---------------------------------------------------------------------
  // Affine matrices
  // ---------------------------------------------------------------------

  /** One row (a, b, c, d) of a 4x4 matrix: it maps (x, y, z, w) to
      a*x + b*y + c*z + d*w. */
  datatype Row = Row(a: real, b: real, c: real, d: real)

  /** A 4x4 matrix whose bottom row is (0, 0, 0, 1). Every matrix the
      program builds (products of translation, rotation and scaling) has
      this shape, so the homogeneous division in `vec3(vec4)` is by 1. */
  datatype Affine = Affine(r0: Row, r1: Row, r2: Row)

  const IdentityRow0: Row := Row(1.0, 0.0, 0.0, 0.0)
  const Identity: Affine :=
    Affine(IdentityRow0, Row(0.0, 1.0, 0.0, 0.0), Row(0.0, 0.0, 1.0, 0.0))

  function RowPoint(r: Row, p: Vec3): real {
    r.a * p.x + r.b * p.y + r.c * p.z + r.d
  }

  function RowVector(r: Row, v: Vec3): real {
    r.a * v.x + r.b * v.y + r.c * v.z
  }

  /** `vec3(M * vec4(p, 1.0))`: a point, translated. */
  function ApplyPoint(m: Affine, p: Vec3): Vec3 {
    Vec3(RowPoint(m.r0, p), RowPoint(m.r1, p), RowPoint(m.r2, p))
  }

  /** `vec3(M * vec4(v, 0.0), VW)`: a direction, not translated. */
  function ApplyVector(m: Affine, v: Vec3): Vec3 {
    Vec3(RowVector(m.r0, v), RowVector(m.r1, v), RowVector(m.r2, v))
  }

  /** `vec3(M.transpose() * vec4(n, 0.0), VW)`: only the upper 3x3 block
      takes part, transposed. */
  function ApplyTransposed(m: Affine, n: Vec3): Vec3 {
    Vec3(m.r0.a * n.x + m.r1.a * n.y + m.r2.a * n.z,
         m.r0.b * n.x + m.r1.b * n.y + m.r2.b * n.z,
         m.r0.c * n.x + m.r1.c * n.y + m.r2.c * n.z)
  }

  /** A transform together with its inverse. Matrix inversion is left
      abstract: the inverse is supplied alongside the matrix, and a valid
      transform (`Inverts`) is one whose two matrices multiply to the
      identity in either order. */
  datatype Transform = Transform(forward: Affine, inverse: Affine)

  /** Row r of a product M N: the row of M times the columns of N, the
      bottom row (0, 0, 0, 1) of N contributing the translation. */
  function ComposeRow(r: Row, n: Affine): Row {
    Row(r.a * n.r0.a + r.b * n.r1.a + r.c * n.r2.a,
        r.a * n.r0.b + r.b * n.r1.b + r.c * n.r2.b,
        r.a * n.r0.c + r.b * n.r1.c + r.c * n.r2.c,
        r.a * n.r0.d + r.b * n.r1.d + r.c * n.r2.d + r.d)
  }

  /** The matrix product M N of two affine matrices. */
  function Compose(m: Affine, n: Affine): Affine {
    Affine(ComposeRow(m.r0, n), ComposeRow(m.r1, n), ComposeRow(m.r2, n))
  }

  /** The two matrices of the transform are inverse to each other. */
  predicate Inverts(tr: Transform) {
    Compose(tr.forward, tr.inverse) == Identity && Compose(tr.inverse, tr.forward) == Identity
  }

  /** Applying M N is applying N, then M, to points and to directions. */
  lemma ComposeApplies(m: Affine, n: Affine, p: Vec3, v: Vec3)
    ensures ApplyPoint(Compose(m, n), p) == ApplyPoint(m, ApplyPoint(n, p))
    ensures ApplyVector(Compose(m, n), v) == ApplyVector(m, ApplyVector(n, v))
  {
    ComposeRowApplies(m.r0, n, p, v);
    ComposeRowApplies(m.r1, n, p, v);
    ComposeRowApplies(m.r2, n, p, v);
  }

  lemma ComposeRowApplies(r: Row, n: Affine, p: Vec3, v: Vec3)
    ensures RowPoint(ComposeRow(r, n), p) == RowPoint(r, ApplyPoint(n, p))
    ensures RowVector(ComposeRow(r, n), v) == RowVector(r, ApplyVector(n, v))
  {
    ComposeRowPoint(r, n, p);
    ComposeRowPoint(r, n, v);
  }

  /** The linear part of the row identity; the translation adds r.d on
      both sides. */
  lemma ComposeRowPoint(r: Row, n: Affine, p: Vec3)
    ensures RowVector(ComposeRow(r, n), p) == RowVector(r, ApplyVector(n, p))
    ensures RowPoint(ComposeRow(r, n), p) == RowPoint(r, ApplyPoint(n, p))
  {
    var x, y, z := RowVector(n.r0, p), RowVector(n.r1, p), RowVector(n.r2, p);
    calc {
      RowVector(ComposeRow(r, n), p);
      (r.a * n.r0.a + r.b * n.r1.a + r.c * n.r2.a) * p.x
        + (r.a * n.r0.b + r.b * n.r1.b + r.c * n.r2.b) * p.y
        + (r.a * n.r0.c + r.b * n.r1.c + r.c * n.r2.c) * p.z;
      r.a * x + r.b * y + r.c * z;
    }
  }

  /** Each matrix of a valid transform undoes the other, on points and on
      directions. */
  lemma InvertsUndo(tr: Transform, p: Vec3, v: Vec3)
    requires Inverts(tr)
    ensures ApplyPoint(tr.forward, ApplyPoint(tr.inverse, p)) == p
    ensures ApplyPoint(tr.inverse, ApplyPoint(tr.forward, p)) == p
    ensures ApplyVector(tr.forward, ApplyVector(tr.inverse, v)) == v
    ensures ApplyVector(tr.inverse, ApplyVector(tr.forward, v)) == v
  {
    ComposeApplies(tr.forward, tr.inverse, p, v);
    ComposeApplies(tr.inverse, tr.forward, p, v);
  }

  /** Points on a line map to points on the image line with the same
      parameter: M(o + t d) = M(o) + t M(d). This is why a hit parameter
      found in a shape's local space is valid in world space. */
  lemma ApplyPointOnLine(m: Affine, o: Vec3, d: Vec3, t: real)
    ensures ApplyPoint(m, Add(o, Scale(t, d)))
         == Add(ApplyPoint(m, o), Scale(t, ApplyVector(m, d)))
  {
    ApplyPointAdd(m, o, Scale(t, d));
    ApplyVectorScale(m, t, d);
  }

  /** M(o + e) = M(o) + M(e) for a point o and a direction e. */
  lemma ApplyPointAdd(m: Affine, o: Vec3, e: Vec3)
    ensures ApplyPoint(m, Add(o, e)) == Add(ApplyPoint(m, o), ApplyVector(m, e))
  {
    RowAdd(m.r0, o, e);
    RowAdd(m.r1, o, e);
    RowAdd(m.r2, o, e);
  }

  /** M(t d) = t M(d) for a direction d. */
  lemma ApplyVectorScale(m: Affine, t: real, d: Vec3)
    ensures ApplyVector(m, Scale(t, d)) == Scale(t, ApplyVector(m, d))
  {
    RowScale(m.r0, t, d);
    RowScale(m.r1, t, d);
    RowScale(m.r2, t, d);
  }

  lemma RowAdd(r: Row, o: Vec3, e: Vec3)
    ensures RowPoint(r, Add(o, e)) == RowPoint(r, o) + RowVector(r, e)
  {
  }

  lemma RowScale(r: Row, t: real, d: Vec3)
    ensures RowVector(r, Scale(t, d)) == t * RowVector(r, d)
  {
    Distribute3(t, r.a, d.x, r.b, d.y, r.c, d.z);
  }
}

=== FILE: wrappers.dfy ===
/** Optional values, used where the source uses a NULL pointer or a
    "no result" return. */
module Wrappers {

  datatype Option<+T> = None | Some(value: T) {

    /** The value, or `default` when there is none. */
    function GetOr(default: T): T {
      match this
      case Some(v) => v
      case None => default
    }
  }
}
